=== FILE: README.md ===
# IKAPE coffee-farm analytics — a Dafny model

IKAPE is a farm-management web application for coffee growers. Farmers
register a farm and its clusters (plots at a plant-growth stage), record
stage data (soil, climate, fertilizer and pesticide practice, pruning, shade,
yields and grades) and harvests, and read rule-based agronomic
recommendations. Administrators see aggregated analytics across every farmer.
A separate Python pipeline reads exported tables and prints recommendations.

This project models the pure logic of that application in Dafny:

- `Js` — the JavaScript value semantics the pages lean on: truthiness,
  `parseFloat`/`parseInt`, `|| 0` fallbacks, `Math.round`, `trim`,
  `toLowerCase`. `Wrappers`, `Seqs` and `Order` are shared helpers for
  options, filters, counts, sums, de-duplication and sorting by a key.
- `Classify` — the yield-status and risk classification (`getYieldStatus`,
  `getRiskLevel`, the Python `yield_status` bins).
- `Analytics` — the analytics service: latest stage and harvest per cluster,
  enrichment, farm and portfolio totals, the season-keyed trend and grade
  series.
- `Recommend` and `ClusterRules` — the two rule batteries that turn a
  cluster's latest stage data into prioritised issues.
- `Csv` — `exportToCSV`'s text payload, a decoder for it, and the generic
  `Split`/`Join` on a separator.
- `Pipeline` — the Python pipeline's row splitter and table parser
  (`SplitRow`, `ParseRows`), its encodings, range checks, shade rule and the
  final ordering of recommendations.
- `FarmContext` — the mapping between the database rows and the page's
  cluster objects, and the context's list operations.
- The page modules `AdminDashboard`, `AnalyticsPage`, `Prediction`,
  `RegisteredFarmers`, `Register`, `ClusterDetailModal`, `ClusterDetail`,
  `HarvestRecords`, `Dashboard` and `ClusterFormModal` — each page's derived
  figures, validators, filters and dirty-form state machines.
- `SessionStore` — the two local-storage session records and their lifetimes.
- `Routes` — the route guards and the user object the auth provider builds.

Everything is an immutable datatype and a pure function. The database, the
clock and local storage are parameters: a list of rows, an `int` for "now",
and a `map` for the store. Each operation carries a contract that states
what it means, and a partner lemma ties it to a reference definition, its
inverse or an invariant.

## Model

| member | source | states |
|---|---|---|
| Js.ParseFloatExponent | src/pages/Recommendations/Recommendations.jsx:114 | `parseFloat` reads exponent notation: a printed natural m, then `e` and a printed integer k, reads as m·10^k |
| Js.ParseFloatBareE | src/pages/Recommendations/Recommendations.jsx:114 | an `e` with no digits after it ends the number: m followed by `e` reads as m |
| Js.ParseFloatExponentExample | src/pages/Recommendations/Recommendations.jsx:114 | a rainfall typed as `2e2` reads as 200 |
| Js.ParseFloatNegativeExponentExample | src/pages/Recommendations/Recommendations.jsx:114 | a negative exponent divides: `2e-1` reads as 0.2 |
| Classify.StatusLabelInjective | src/lib/analyticsService.js:32-37 | the five yield-status labels are pairwise distinct, so a label names exactly one status |
| Classify.DeltaBound | src/lib/analyticsService.js:33-36 | for a positive previous yield, "change ≤ t percent" holds exactly when current ≤ (1 + t/100)·previous |
| Classify.DeltaBoundStrict | src/lib/analyticsService.js:43-46 | the strict form of the same equivalence, used by the risk thresholds |
| Classify.YieldStatusOf | src/lib/analyticsService.js:31-38 | N/A exactly when the previous yield is 0; for a positive previous yield, Critical iff current ≤ 0.8·previous, Moderate iff 0.8·p < current ≤ 0.95·p, Stable iff 0.95·p < current ≤ 1.05·p, Improvement iff current > 1.05·p (upper bounds inclusive) |
| Classify.YieldStatusMonotone | src/lib/analyticsService.js:33-37 | for a positive previous yield, a larger current yield never gets a worse status |
| Classify.PipelineYieldStatus | analytics/app.py:256-259 | a missing delta falls in no bin; any present delta falls in one of the four statuses, never N/A |
| Classify.PipelineAgreesWithDashboard | analytics/app.py:256-259 | on the same unrounded percentage change, the pipeline's right-closed bins give the dashboard classifier's status for every non-zero previous yield (the pipeline's own rounded column is `Pipeline.RoundedStatusAgrees`) |
| Classify.RiskOf | src/lib/analyticsService.js:41-48 | previous 0 gives Low/1, and so does any current ≥ a positive previous; Critical iff current < 0.5·p, High iff 0.5·p ≤ current < 0.7·p, Moderate iff 0.7·p ≤ current < 0.85·p, Low iff current ≥ 0.85·p (strict thresholds); the priority is 1..4 |
| Classify.RiskBands | src/lib/analyticsService.js:43-47 | the same four levels stated as strict bounds on the percentage change (−50, −30, −15), with the priority equal to the level's rank |
| Classify.RiskPriorityMatchesLevel | src/lib/analyticsService.js:42-47 | the priority always equals the rank of the level (Low 1 < Moderate 2 < High 3 < Critical 4) |
| Classify.RiskMonotone | src/lib/analyticsService.js:43-47 | for a positive previous yield, a smaller current yield never gets a lower priority |
| Classify.RiskAgreesWithStatus | src/lib/analyticsService.js:31-48 | a Critical risk is always a Critical drop, and a Stable or improving yield is always Low risk |
| Analytics.SeasonKey | src/lib/analyticsService.js:157 | the key is never empty: a present, non-empty season is its own key and a missing or empty one is filed under `Unknown` |
| Analytics.StagesNewestFirst | src/lib/analyticsService.js:86-88 | the stage rows are permuted (same multiset) into non-increasing creation time |
| Analytics.HarvestsNewestFirst | src/lib/analyticsService.js:91-93 | a cluster's harvests are permuted into non-increasing harvest date |
| Analytics.LatestStage | src/lib/analyticsService.js:86-88 | absent exactly when there are no stage rows; otherwise one of the rows, with a creation time no smaller than any other row's |
| Analytics.LatestHarvest | src/lib/analyticsService.js:91-93 | absent exactly when there are no harvests; otherwise one of them, with a harvest date no earlier than any other's |
| Analytics.YieldDecline | src/lib/analyticsService.js:110-112 | 0 unless the latest stage's previous yield is positive; then decline·previous = (previous − latest yield)·100, and a harvest at or above the previous yield gives no positive decline |
| Analytics.Enrich | src/lib/analyticsService.js:243-275 | the record keeps the cluster, all its stage rows and exactly the harvests naming it (as multisets); the latest stage depends only on the stage rows and the latest harvest only on those harvests; risk, status and decline compare the latest harvest's yield with the latest stage's previous yield |
| Analytics.EnrichAll | src/lib/analyticsService.js:84-114 | one enriched record per input cluster, in input order: no cluster is dropped |
| Analytics.NoStageDataIsLowRisk | src/lib/analyticsService.js:95-112 | a cluster without stage rows is Low/1, N/A and has no decline, whatever its harvests |
| Analytics.RecoveredClusterIsLowRisk | src/lib/analyticsService.js:95-112 | a cluster whose latest harvest reached its previous yield is Low/1 with a non-positive decline |
| Analytics.StageColumnTotal | src/lib/analyticsService.js:140-144 | summing a stage column cluster by cluster is summing it over all stage rows |
| Analytics.StageTotalsIgnoreSorting | src/lib/analyticsService.js:140-144 | the in-place newest-first sort does not change the per-cluster stage sums |
| Analytics.ClusterIds | src/lib/analyticsService.js:90 | the id list has one entry per cluster, in order |
| Analytics.ClusterHarvestSum | src/lib/analyticsService.js:131-138 | a cluster's harvest column sum is the group sum of its id over all harvests |
| Analytics.HarvestColumnTotal | src/lib/analyticsService.js:131-138 | with distinct cluster ids and every harvest naming one of them, the per-cluster harvest sums add up to the sum over all harvests: none lost or counted twice |
| Analytics.TotalsOverRows | src/lib/analyticsService.js:285-299 | before rounding, yield and the three grades are sums over every harvest, and predicted and previous are sums over every stage row of every cluster, not only the latest |
| Analytics.Update | src/lib/analyticsService.js:313-323 | creating a missing bucket and updating it changes only that season's bucket and adds the key once |
| Analytics.RefBucketLastHarvest | src/lib/analyticsService.js:314-324 | the reference bucket gains the last harvest's amounts in that harvest's season only |
| Analytics.SeasonsLast | src/lib/analyticsService.js:314-335 | the set of season keys of a list is that of its prefix plus the last element's key |
| Analytics.AddHarvestsLookup | src/lib/analyticsService.js:314-324 | after the harvest pass each season's bucket equals the reference sums over the harvests filed under it |
| Analytics.AddHarvestsKeys | src/lib/analyticsService.js:314-324 | after the harvest pass the keys are exactly the harvests' seasons |
| Analytics.AddStagesLookup | src/lib/analyticsService.js:327-336 | the stage pass adds to each season's predicted amount exactly the predicted yields of the stage rows filed under it, leaving the other columns alone |
| Analytics.AddStagesKeys | src/lib/analyticsService.js:327-336 | the stage pass adds exactly the stage rows' seasons to the keys |
| Analytics.BuildSeasonMap | src/lib/analyticsService.js:313-336 | the built map is well formed: distinct keys, and a bucket for exactly the keys |
| Analytics.SeasonMapMatchesReference | src/lib/analyticsService.js:313-336 | every season's bucket equals the reference sums over exactly the harvests and stage rows filed under it, and the keys are exactly the seasons that occur |
| Analytics.ScaleBounds | src/lib/analyticsService.js:346 | scaling a rounding interval by a positive count keeps its bounds |
| Analytics.TrendOf | src/lib/analyticsService.js:339-347 | the row carries its season; predicted and actual are within half a unit of the bucket's amounts, and so are the fine, premium and commercial grades; the average is 0 for a season without harvests and otherwise within half a unit of actual/count |
| Analytics.Trends | src/lib/analyticsService.js:338-348 | one row per map key, in the order of the sorted keys, each row being the rounded bucket of its season |
| Analytics.TrendSeasons | src/lib/analyticsService.js:338-348 | the trend list's seasons are strictly ascending and are exactly the map's keys |
| Analytics.KeyTotalIs | src/lib/analyticsService.js:338-348 | a key total is the sum of any function that agrees with the column on every key |
| Analytics.TrendColumn | src/lib/analyticsService.js:338-348 | summing a column over the trend list equals summing it over the map's keys: sorting loses and duplicates nothing |
| Analytics.TrendPredictedSum | src/lib/analyticsService.js:326-348 | before rounding, the trend rows' predicted amounts add up to the predicted yield of every stage row |
| Analytics.TrendActualSum | src/lib/analyticsService.js:313-348 | before rounding, the trend rows' actual amounts add up to the yield of every harvest |
| Analytics.DashboardSeasonMap | src/lib/analyticsService.js:313-336 | the map built from all harvests and the processed clusters' stage rows is well formed |
| Analytics.TrendsAgreeWithTotals | src/lib/analyticsService.js:285-348 | the trend list's predicted total equals the stats block's, and its actual total does too when each harvest belongs to exactly one listed cluster |
| Analytics.TreeTotal | src/lib/analyticsService.js:303 | `plant_count || 0` summed: non-negative when every count is |
| Analytics.TreeTotalAppend | src/lib/analyticsService.js:303 | the tree total splits over any division of the cluster list |
| Analytics.FarmerStats | src/lib/analyticsService.js:301-310 | the cluster count is the list length, the tree total is the reduce, and each rounded total (actual, predicted and previous yield, and the fine, premium and commercial grades) is within half a unit of the unrounded total |
| Analytics.TruthySeasons | src/lib/analyticsService.js:353-355 | every listed season is the non-empty season of some stage row |
| Analytics.StageSeasonsAreKeys | src/lib/analyticsService.js:327-336 | every stage row's season key is a key of the season map |
| Analytics.FarmerSeasonsCovered | src/lib/analyticsService.js:351-356 | when every stage row's season is already a key, the farmer's season list is the sorted key list |
| Analytics.FarmerSeasonsAreTrendSeasons | src/lib/analyticsService.js:338-356 | the farmer's season list and the trend list hold the same seasons, each list without repeats; their order agrees only under the code-unit stand-in for `localeCompare` |
| Recommend.RuleAt | src/lib/analyticsService.js:377-524 | the rule at each position of the table has that position as its index |
| Recommend.Rules | src/lib/analyticsService.js:377-524 | the table has exactly nine rules, in declaration order |
| Recommend.RulesInOrder | src/lib/analyticsService.js:377-524 | every rule appears in the table, with strictly increasing indices |
| Recommend.IdealRange | src/lib/analyticsService.js:4-12 | every numeric rule's ideal range is non-empty (min < max) |
| Recommend.NumericCheck | src/lib/analyticsService.js:379-485 | a numeric rule is skipped when the value does not parse; otherwise it gives the below-range finding iff v < min, the above-range finding iff v > max, and nothing iff min ≤ v ≤ max, at the rule's priority |
| Recommend.FertilizerCheck | src/lib/analyticsService.js:486-501 | High "not practised" iff the value is falsy or `'never'`; Medium "too infrequent" iff it is `'rarely'`; nothing otherwise |
| Recommend.PesticideCheck | src/lib/analyticsService.js:502-512 | fires, at Low, exactly for a falsy value or `'never'` |
| Recommend.ShadeCheck | src/lib/analyticsService.js:513-523 | fires, at Medium, exactly for `false`, `'false'` and `'No'` (strict equality) |
| Recommend.Check | src/lib/analyticsService.js:377-524 | a finding always carries its rule's ideal text |
| Recommend.StageOf | src/lib/analyticsService.js:375 | the cluster's stage data if present, else its first stage row, else the empty object |
| Recommend.Spaced | src/lib/analyticsService.js:530 | same length; every underscore becomes a space and every other character is kept |
| Recommend.CapitalizeWords | src/lib/analyticsService.js:530 | same length; a word character that starts a word is upper-cased and every other character is kept |
| Recommend.FactorShape | src/lib/analyticsService.js:530 | the factor label has the field's length, no underscore, and differs from the field only in case and in underscores turned into spaces |
| Recommend.RuleEntry | src/lib/analyticsService.js:526-537 | an entry produced by a rule records that rule |
| Recommend.RunRules | src/lib/analyticsService.js:526-537 | the forEach produces at most one entry per rule, each the one its rule gives, and an entry for every rule that fires |
| Recommend.SnocInRuleOrder | src/lib/analyticsService.js:526-537 | appending an entry of a later rule keeps the entries in rule order |
| Recommend.RunRulesOrdered | src/lib/analyticsService.js:526-537 | rules run in increasing order give entries in increasing rule order |
| Recommend.EntryOf | src/lib/analyticsService.js:526-537 | the entry function of a cluster is the rule entry over its stage data |
| Recommend.Generate | src/lib/analyticsService.js:373-540 | at most nine entries, each the one its rule produces for the cluster's stage data |
| Recommend.GenerateOrderAndCoverage | src/lib/analyticsService.js:526-537 | entries come out in declaration order and every rule that fires has an entry |
| Recommend.GenerateEntries | src/lib/analyticsService.js:526-537 | every entry carries the cluster's id and name, the raw value, the factor label and the rule's finding on that value; a rule has an entry iff its check fires |
| Recommend.EmptyStageRecommendations | src/lib/analyticsService.js:486-512 | an empty stage record yields exactly two entries: fertilizer at High, then pesticide at Low |
| Recommend.UndefinedFires | src/lib/analyticsService.js:377-524 | on a missing field only the fertilizer and pesticide rules fire |
| Recommend.DistinctRulesCount | src/lib/analyticsService.js:526-537 | entries in rule order drawn from the fertilizer and pesticide rules and covering both are exactly those two, in that order |
| Recommend.RankLowerBound | src/lib/analyticsService.js:526-537 | in rule order, the i-th entry drawn from rules with index ≥ 6 has index ≥ 6 + i |
| Recommend.CapitalisedFrequenciesPass | src/lib/analyticsService.js:489-494 | the capitalised `'Never'` and `'Rarely'` the entry form stores raise no fertilizer entry, while `'never'` raises a High one; `'Never'` raises no pesticide entry |
| Recommend.NumericRangeInclusive | src/lib/analyticsService.js:383-483 | a numeric rule never fires inside its ideal range, bounds included |
| Csv.EncodeText | src/lib/analyticsService.js:553-555 | a string cell without a comma or a quote is written as is; one with either is wrapped in quotes with every inner quote doubled |
| Csv.Cell | src/lib/analyticsService.js:551-556 | `null` and `undefined` write an empty cell, strings are encoded as above, any other value prints as itself |
| Csv.Export | src/lib/analyticsService.js:543-559 | there is no output exactly when the record list is empty |
| Csv.FieldRoundTrip | src/lib/analyticsService.js:553-555 | a written string cell reads back, under the usual CSV quoting rules, as the original string, whatever follows it on the line |
| Csv.LineRoundTrip | src/lib/analyticsService.js:550-557 | decoding a comma-joined line of written string cells recovers every cell, in order |
| Csv.CellIsEncodedText | src/lib/analyticsService.js:551-556 | every cell is the encoding of the text a reader should recover from it |
| Csv.RowRoundTrip | src/lib/analyticsService.js:549-558 | decoding a record's line recovers, for every header in order, the text of the record's value under it |
| Csv.ExportLines | src/lib/analyticsService.js:546-559 | with no line breaks inside the data, the text has one line more than there are records: the comma-joined headers, then each record's line in order |
| FarmContext.Fields | src/context/FarmContext.jsx:264-304 | the stage record has 37 fields, none of whose names holds an underscore |
| FarmContext.FromDbValue | src/context/FarmContext.jsx:264-303 | text and date fields turn every falsy column value into `''` (`\|\|`); numeric fields turn only `null` and `undefined` into `''` (`??`), so a stored 0 survives |
| FarmContext.ToDbValue | src/context/FarmContext.jsx:307-310 | numeric fields send `''`, `null` and `undefined` to `null` and parse everything else, giving `NaN` when it does not parse; text and date fields send every falsy value to `null` and keep the rest |
| FarmContext.FromDb | src/context/FarmContext.jsx:264-304 | the form record has exactly the 37 field names, each read from its snake_case column by its kind |
| FarmContext.ToDb | src/context/FarmContext.jsx:306-351 | the row has exactly the 37 snake_case columns |
| FarmContext.CamelSnake | src/context/FarmContext.jsx:264-351 | the column name of every field converts back to the field name |
| FarmContext.SnakeInjective | src/context/FarmContext.jsx:312-350 | distinct fields are written to distinct columns |
| FarmContext.ColumnFields | src/context/FarmContext.jsx:312-350 | every column is the column of a field |
| FarmContext.ToDbAt | src/context/FarmContext.jsx:312-350 | the column of a field holds that field's value, converted by its kind |
| FarmContext.Stored | src/context/FarmContext.jsx:160-165 | the upsert's JSON body writes `NaN` as `null` and every other value as it is |
| FarmContext.StoreRow | src/context/FarmContext.jsx:160-165 | the stored row has the same columns, each value as the JSON body carries it |
| FarmContext.ValueRoundTrip | src/context/FarmContext.jsx:160-351 | saving one value, sending it through the database's JSON and loading it gives its normalised form, in which a numeric text that does not parse becomes `''` |
| FarmContext.UnparsedNumberReloadsEmpty | src/context/FarmContext.jsx:160-351 | a non-blank numeric entry that does not parse is saved as `NaN`, stored as `null` and reloads as `''` |
| FarmContext.StoredSaveLoadSave | src/context/FarmContext.jsx:160-351 | through the database's JSON, saving a loaded value stores the same value again |
| FarmContext.ValueSaveLoadSave | src/context/FarmContext.jsx:264-351 | saving a loaded value stores the same value again |
| FarmContext.FormRoundTrip | src/context/FarmContext.jsx:160-351 | saving a whole form, sending the row through the database's JSON and loading it again gives every field's normalised value |
| FarmContext.FormRoundTripKeeps | src/context/FarmContext.jsx:160-351 | non-empty text and dates, a numeric 0, and numbers in decimal fields come back unchanged from a save, the JSON body and a load |
| FarmContext.NormalisedKeeps | src/context/FarmContext.jsx:264-351 | normalising keeps non-empty text, a numeric 0 and numbers in decimal fields |
| FarmContext.SaveLoadSave | src/context/FarmContext.jsx:264-351 | saving is idempotent on the row the mapping builds (before JSON): a saved row, loaded and saved again, gives the same columns with the same values |
| FarmContext.SaveLoadSaveAt | src/context/FarmContext.jsx:264-351 | the same, one column at a time |
| FarmContext.NewCluster | src/context/FarmContext.jsx:131-140 | a freshly inserted cluster carries the inserted id, no stage data and no harvest records |
| FarmContext.AddCluster | src/context/FarmContext.jsx:112-143 | without a farm or with a failed insert nothing changes and `null` is returned; otherwise the new cluster is appended at the end and returned |
| FarmContext.Patch | src/context/FarmContext.jsx:174-178 | an `undefined` update keeps the prior value; any other value replaces it |
| FarmContext.Apply | src/context/FarmContext.jsx:172-179 | the id, creation time, harvests and farm name are kept; stage data is replaced exactly when the update gives it, `null` included |
| FarmContext.UpdateCluster | src/context/FarmContext.jsx:169-182 | the list keeps its length; clusters with another id are unchanged and those with the id get the update |
| FarmContext.UpdateNothing | src/context/FarmContext.jsx:169-182 | an update that gives no field leaves the list unchanged |
| FarmContext.UpdateIdempotent | src/context/FarmContext.jsx:169-182 | applying the same update twice is applying it once |
| FarmContext.UpdateFields | src/context/FarmContext.jsx:174-177 | the fields an update does not give keep their values; the ones it gives take the new value |
| FarmContext.DeleteCluster | src/context/FarmContext.jsx:186-189 | no cluster with the id remains; every other cluster does, and nothing new appears |
| FarmContext.DeleteCount | src/context/FarmContext.jsx:188 | the list shrinks by exactly the number of clusters with the id |
| FarmContext.DeleteAbsent | src/context/FarmContext.jsx:188 | deleting an id that is not present leaves the list unchanged |
| FarmContext.DeleteIdempotent | src/context/FarmContext.jsx:188 | deleting twice is deleting once |
| FarmContext.AddHarvestRecord | src/context/FarmContext.jsx:192-219 | a failed insert changes nothing; otherwise the inserted row is appended to the harvests of the clusters with the id, and the others are unchanged |
| FarmContext.AddHarvestRecordCount | src/context/FarmContext.jsx:212-218 | a successful insert adds one harvest record per matching cluster, and none elsewhere |
| FarmContext.GetCluster | src/context/FarmContext.jsx:222 | the first cluster in the list with the id, and nothing exactly when no cluster has it |
| FarmContext.GetAfterUpdate | src/context/FarmContext.jsx:169-182 | looking a cluster up after an update gives the updated cluster |
| FarmContext.GetAfterDelete | src/context/FarmContext.jsx:188 | after a deletion the id is not found |
| FarmContext.FarmName | src/context/FarmContext.jsx:225 | the name is always truthy: the farm's own name when it has one, else the placeholder |
| FarmContext.AllClusters | src/context/FarmContext.jsx:224-226 | every cluster, in order, tagged with the farm name |
| FarmContext.HarvestReadyClusters | src/context/FarmContext.jsx:228-232 | exactly the tagged clusters in the ready-to-harvest, flowering or fruit-bearing stage |
| FarmContext.YoungClustersNotReady | src/context/FarmContext.jsx:228-232 | a seed-sapling or tree cluster is never harvest-ready |
| ClusterRules.RuleIndex | src/pages/Recommendations/Recommendations.jsx:18-147 | each issue belongs to one of the eleven checks |
| ClusterRules.Reading | src/pages/Recommendations/Recommendations.jsx:53-54 | a reading takes part exactly when it parses to a non-zero number, and is that number |
| ClusterRules.Missing | src/pages/Recommendations/Recommendations.jsx:23-50 | a required record raises its issue, at its severity, exactly when the field is falsy |
| ClusterRules.PhCheck | src/pages/Recommendations/Recommendations.jsx:52-63 | fires exactly outside [5.5, 6.5]; High exactly beyond [5.0, 7.0], else Medium; the advice is lime exactly when the pH is low |
| ClusterRules.ShadeCheck | src/pages/Recommendations/Recommendations.jsx:65-73 | fires, at Low, exactly for the text `'No'` |
| ClusterRules.TemperatureCheck | src/pages/Recommendations/Recommendations.jsx:75-86 | fires, always at Medium, exactly outside [15, 30]; the shade advice is given exactly above 30 |
| ClusterRules.YieldCheck | src/pages/Recommendations/Recommendations.jsx:88-98 | fires, at High, exactly when both yields are non-zero readings and the current one is below 70% of the previous |
| ClusterRules.HumidityCheck | src/pages/Recommendations/Recommendations.jsx:100-111 | fires exactly outside [60, 70]; High exactly beyond [40, 85], else Low; the mulching advice is given exactly below 60 |
| ClusterRules.RainfallCheck | src/pages/Recommendations/Recommendations.jsx:113-124 | fires exactly outside [100, 250]; High exactly beyond [50, 350], else Medium; the irrigation advice is given exactly below 100 |
| ClusterRules.FrequencyCheck | src/pages/Recommendations/Recommendations.jsx:126-134 | fires exactly for `'Never'` (High) and `'Rarely'` (Medium) |
| ClusterRules.PesticideTypeCheck | src/pages/Recommendations/Recommendations.jsx:136-144 | fires, at Low, exactly when a frequency other than `'Never'` is given with no pesticide type |
| ClusterRules.CheckAt | src/pages/Recommendations/Recommendations.jsx:18-147 | the finding of a check belongs to that check |
| ClusterRules.Collect | src/pages/Recommendations/Recommendations.jsx:18-147 | every collected issue is the finding of its own check, from the given check on |
| ClusterRules.CollectCovers | src/pages/Recommendations/Recommendations.jsx:18-147 | every check that fires has its finding in the list |
| ClusterRules.CollectOrdered | src/pages/Recommendations/Recommendations.jsx:18-147 | at most one issue per check, in check order |
| ClusterRules.AnalyzeOrdered | src/pages/Recommendations/Recommendations.jsx:18-147 | `analyzeCluster` reports at most eleven issues, in the order the checks run |
| ClusterRules.AnalyzeExactly | src/pages/Recommendations/Recommendations.jsx:18-147 | an issue is reported exactly when its own check finds it |
| ClusterRules.MissingRecords | src/pages/Recommendations/Recommendations.jsx:22-50 | the missing-fertilizer (High), missing-pesticide and missing-pruning (Medium) issues appear exactly when their field is falsy |
| ClusterRules.PhIssue | src/pages/Recommendations/Recommendations.jsx:52-63 | a pH issue is reported exactly when the pH check fires, and it is that check's finding |
| ClusterRules.TemperatureIssue | src/pages/Recommendations/Recommendations.jsx:75-86 | the same for temperature |
| ClusterRules.HumidityIssue | src/pages/Recommendations/Recommendations.jsx:100-111 | the same for humidity |
| ClusterRules.RainfallIssue | src/pages/Recommendations/Recommendations.jsx:113-124 | the same for rainfall |
| ClusterRules.YieldIssue | src/pages/Recommendations/Recommendations.jsx:88-98 | the yield-decline issue appears exactly when both yields are readings and the current one is below 70% of the previous |
| ClusterRules.PesticideIssuesExclusive | src/pages/Recommendations/Recommendations.jsx:32-40 | "missing pesticide frequency" and "pesticide type not specified" never appear together |
| ClusterRules.FrequencyIssue | src/pages/Recommendations/Recommendations.jsx:126-134 | only the capitalised `'Never'` and `'Rarely'` raise the frequency issue; the lower-case values raise none |
| ClusterRules.ZeroReadingSkipped | src/pages/Recommendations/Recommendations.jsx:53-54 | a pH or humidity of 0, or one that does not parse, never raises its issue |
| ClusterRules.NoStageData | src/pages/Recommendations/Recommendations.jsx:20 | a cluster without stage data has exactly the three missing-record issues, and so is Moderate |
| ClusterRules.EmptyView | src/pages/Recommendations/Recommendations.jsx:18-147 | an empty record raises exactly the missing fertilizer, pesticide and pruning issues, in that order |
| ClusterRules.PerfRank | src/pages/Recommendations/Recommendations.jsx:176 | the sort order ranks the three levels 0, 1 and 2 |
| ClusterRules.Level | src/pages/Recommendations/Recommendations.jsx:149-157 | Poor exactly with two or more High issues; Moderate exactly with one High or, with no High, two or more Medium; Good otherwise |
| ClusterRules.LevelMonotone | src/pages/Recommendations/Recommendations.jsx:149-157 | more issues never give a better level |
| ClusterRules.TwoHighIsPoor | src/pages/Recommendations/Recommendations.jsx:154 | two distinct High issues make a cluster Poor, whatever else is found |
| ClusterRules.AnalysedOf | src/pages/Recommendations/Recommendations.jsx:166-170 | a card carries the cluster, its issues and the level of those issues |
| ClusterRules.AnalyseAll | src/pages/Recommendations/Recommendations.jsx:166-170 | one card per cluster, in order |
| ClusterRules.ByUrgency | src/pages/Recommendations/Recommendations.jsx:176-179 | the sort is a permutation that puts Poor before Moderate before Good |
| ClusterRules.FilterPerformance | src/pages/Recommendations/Recommendations.jsx:181-183 | the empty choice keeps everything; otherwise exactly the cards with that level |
| ClusterRules.FilterSeason | src/pages/Recommendations/Recommendations.jsx:185-187 | the empty choice keeps everything; otherwise exactly the cards whose season text contains the choice |
| ClusterRules.ShownExactly | src/pages/Recommendations/Recommendations.jsx:165-187 | the page shows exactly the analysed clusters that pass both filters |
| ClusterRules.ShownMember | src/pages/Recommendations/Recommendations.jsx:177-187 | a card survives the sort and both filters exactly when it passes both filters |
| ClusterRules.ShownByUrgency | src/pages/Recommendations/Recommendations.jsx:177-187 | filtering keeps the urgency order: Poor before Moderate before Good |
| ClusterRules.Seasons | src/pages/Recommendations/Recommendations.jsx:173 | the season choices are distinct, and are exactly the truthy seasons some cluster has |
| Pipeline.Strip | analytics/app.py:107 | the result is no longer than the input and neither starts nor ends with a stripped character |
| Pipeline.StripKeeps | analytics/app.py:107 | text that neither starts nor ends with a stripped character is left as is |
| Pipeline.StripIdempotent | analytics/app.py:107 | stripping twice is stripping once |
| Pipeline.StripPadded | analytics/app.py:107 | stripped characters added at both ends make no difference |
| Pipeline.RawFields | analytics/app.py:99-112 | the splitter always yields at least one field |
| Pipeline.Clean | analytics/app.py:107 | a cleaned field neither starts nor ends with a single quote |
| Pipeline.SplitFields | analytics/app.py:99-112 | no field starts or ends with a single quote |
| Pipeline.ScanFacts | analytics/app.py:100-110 | the scan is inside a quoted span exactly when it has seen an odd number of quotes, and it has finished one field per comma outside every span |
| Pipeline.RawFieldsJoin | analytics/app.py:99-112 | joining the unstripped fields with commas gives back the tuple text: the splitter cuts only at separators and loses nothing |
| Pipeline.SplitRow | analytics/app.py:99-112 | the loop yields the cleaned fields, one more than there are commas outside quoted spans |
| Pipeline.NullCell | analytics/app.py:130 | a cell becomes missing exactly when it is `NULL`, `null` or empty |
| Pipeline.ZipKeys | analytics/app.py:128 | a parsed row has exactly the listed columns |
| Pipeline.ZipLastWins | analytics/app.py:128-130 | a column takes the value of its last occurrence, with the null replacement applied |
| Pipeline.Columns | analytics/app.py:122 | one column name per comma-separated piece |
| Pipeline.ParseRows | analytics/app.py:125-128 | no more rows than tuples |
| Pipeline.ParseRowsCount | analytics/app.py:125-128 | a tuple is kept exactly when it has one separator fewer than there are columns |
| Pipeline.ParseRowsValues | analytics/app.py:125-128 | the rows kept are the fitting tuples' fields under the column names, in tuple order |
| Pipeline.Encode | analytics/app.py:242-245 | a level between 0 and 3, and 0 for text whose lower-cased, stripped form is not a key |
| Pipeline.EncodeText | analytics/app.py:242-245 | text whose lower-case form is a key encodes to that key's level, with or without surrounding spaces |
| Pipeline.FreqRoundTrip | analytics/app.py:44-45 | each frequency name encodes to its level, whatever its case and padding |
| Pipeline.TypeRoundTrip | analytics/app.py:46-47 | each type name encodes to its level, whatever its case and padding |
| Pipeline.MissingEncodesZero | analytics/app.py:242-245 | a missing frequency encodes as "never" and a missing type as "none" |
| Pipeline.TableWith | analytics/app.py:65-93 | the table has nine rows |
| Pipeline.TableFactors | analytics/app.py:65-93 | every table row reads its own column, and none reads the shade column |
| Pipeline.Round2 | analytics/app.py:309 | `round(val, 2)`: within 0.005 of the value, a whole number of hundredths, and unchanged when the value already is one |
| Pipeline.Round2HalfEven | analytics/app.py:309 | a tie goes to the even hundredth: 0.125 gives 0.12 and 0.135 gives 0.14 |
| Pipeline.DeltaPctColumn | analytics/app.py:238-239 | `yield_delta_pct` is missing exactly when the previous yield is 0; otherwise it is a whole number of hundredths within `DeltaError(prev)` (half a hundredth of a kilogram as a percentage of the previous yield, plus 0.005) of the exact percentage change |
| Pipeline.RoundedStatusAgrees | analytics/app.py:238-259 | when the exact percentage change is more than `DeltaError(prev)` from each bin edge (−20, −5, 5), the bin of the rounded column is the dashboard classifier's status |
| Pipeline.RoundingSplitsStatus | analytics/app.py:238-259 | inside that band the two can differ: from 100 kg to 80.004 kg the column reads −20.00, a critical drop, while the dashboard reports a moderate one |
| Pipeline.RuleRec | analytics/app.py:306-312 | an entry carries its row's column and priority, and the cell's numeric value rounded to two decimals |
| Pipeline.Entries | analytics/app.py:306-312 | at most one entry per table row |
| Pipeline.RecommendWith | analytics/app.py:304-317 | at most one entry per table row, plus the shade entry |
| Pipeline.EntriesMember | analytics/app.py:306-312 | an entry is in the output exactly when some table row produces it |
| Pipeline.RuleFires | analytics/app.py:307-312 | a row fires exactly on a numeric value strictly below its range with a low message or strictly above it with a high message; the entry carries that side's message; a value inside the range never fires |
| Pipeline.FactorEntry | analytics/app.py:304-317 | for a table with any pruning row (the source's included), an entry for a table column is that column's row entry |
| Pipeline.FiringRowListed | analytics/app.py:304-317 | for a table with any pruning row, every firing row has its entry in the output |
| Pipeline.FrequenciesHaveNoHighMessage | analytics/app.py:84-89 | whatever the pruning row, the frequency rows fire only below their range: fertilizer below 2, pesticide below 1 |
| Pipeline.ShadeLast | analytics/app.py:313-316 | for a table with any pruning row, the shade entry, at Medium, comes last exactly when the shade cell reads as absent |
| Pipeline.BothTablesListAndEndWithShade | analytics/app.py:304-317 | the table as written and the corrected one both list every firing row's entry, hold only those entries for a table column, and end with the shade entry exactly when the shade cell reads as absent |
| Pipeline.ShadeCells | analytics/app.py:313 | `None`, `False` and `'No'` ask for shade trees; `NaN`, `True` and padded text do not |
| Pipeline.PruningMessagesSwapped | analytics/app.py:81-83 | with the table as written, a six-month pruning interval, which is below the range, gets the "overdue (> 18 months)" advice |
| Pipeline.PruningAdviceMatchesSide | analytics/app.py:81-83 | in the corrected table the "overdue" advice is given exactly above 18 months and the "too frequent" advice exactly below 10 |
| Pipeline.PriorityRank | analytics/app.py:922 | High, Medium and Low rank 0, 1 and 2 |
| Pipeline.ByPriority | analytics/app.py:921-925 | the sort is a permutation ordered by priority, then farm name, then cluster name |
| Pipeline.ByPriorityKeepsTies | analytics/app.py:924 | the sort on several columns is stable: recommendations that tie on all three keys keep the order they were generated in |
| Pipeline.KeyOrder | analytics/app.py:924 | the composite sort key orders by priority, then farm name, then cluster name |
| Pipeline.HighFirst | analytics/app.py:922-924 | every High entry is listed before every entry of lower priority |
| AdminDashboard.GradeShare | src/admin/pages/AdminDashboard.jsx:96-106 | three slices in Fine, Premium, Commercial order: each grade's weight and rounded share of the total, or 33/34/33 with no weight when the total is not positive |
| AdminDashboard.GradeShareSums | src/admin/pages/AdminDashboard.jsx:97-101 | with non-negative grades each share is between 0 and 100, and the three rounded shares add up to 100 give or take one |
| AdminDashboard.RowOf | src/admin/pages/AdminDashboard.jsx:116-140 | a row carries the cluster's id, risk level and priority score, and a farm name that is never empty |
| AdminDashboard.CriticalRows | src/admin/pages/AdminDashboard.jsx:114-140 | one row per cluster that is not Low risk, and no row is Low risk |
| AdminDashboard.CriticalExactly | src/admin/pages/AdminDashboard.jsx:114-140 | a row is listed exactly when it is the row of a cluster that is not Low risk |
| AdminDashboard.NoStageDataNotAtRisk | src/admin/pages/AdminDashboard.jsx:114-115 | a cluster without stage data is never listed at risk |
| AdminDashboard.SeasonFiltered | src/admin/pages/AdminDashboard.jsx:170-172 | `all` keeps every row; any other choice keeps exactly the rows of that season |
| AdminDashboard.HandleSort | src/admin/pages/AdminDashboard.jsx:159-167 | clicking the current column flips its direction; clicking another column sorts by it, descending |
| AdminDashboard.SortTwice | src/admin/pages/AdminDashboard.jsx:159-165 | clicking the same column twice restores the sort |
| AdminDashboard.Reverse | src/admin/pages/AdminDashboard.jsx:186 | the reversed list is a permutation, read back to front |
| AdminDashboard.ReverseDescends | src/admin/pages/AdminDashboard.jsx:186 | reading an ascending list backwards gives a descending one |
| AdminDashboard.Sorted | src/admin/pages/AdminDashboard.jsx:174-187 | the table is a permutation of the filtered rows, ascending or descending in the chosen column |
| AdminDashboard.NumKey | src/admin/pages/AdminDashboard.jsx:179-182 | numeric columns compare as numbers |
| AdminDashboard.RiskDescending | src/admin/pages/AdminDashboard.jsx:175-178 | sorted by risk, descending: Critical rows first, then High, then Moderate |
| AdminDashboard.PriorityDescending | src/admin/pages/AdminDashboard.jsx:49-50 | the first view lists the highest priority score first |
| AdminDashboard.Toggle | src/admin/pages/AdminDashboard.jsx:189-193 | a selected id is removed; any other id is added |
| AdminDashboard.ToggleTwice | src/admin/pages/AdminDashboard.jsx:189-193 | toggling twice restores the selected set, and the list itself when the id was not selected |
| AdminDashboard.ToggleDistinct | src/admin/pages/AdminDashboard.jsx:189-193 | toggling never selects an id twice |
| AdminDashboard.SelectAll | src/admin/pages/AdminDashboard.jsx:478-484 | the header checkbox clears a full selection, and otherwise selects every listed row, in order |
| AdminDashboard.AddLog | src/admin/pages/AdminDashboard.jsx:64-69 | the new entry, by Admin, comes first; the earlier entries follow in order; the log is cut to 50 |
| AdminDashboard.Handle | src/admin/pages/AdminDashboard.jsx:159-221 | a bulk action clears the selection; only a sort click changes the sort; choosing a season logs nothing |
| AdminDashboard.LogStaysCapped | src/admin/pages/AdminDashboard.jsx:64-69 | however many actions happen, the audit log never holds more than 50 entries |
| AdminDashboard.BulkClears | src/admin/pages/AdminDashboard.jsx:195-203 | selecting rows and then running a bulk action leaves nothing selected and logs the action first |
| AdminDashboard.PercentChange | src/admin/pages/AdminDashboard.jsx:261-269 | both headline percentages (against the prediction and against the previous yield) are 0 without a positive base |
| AdminDashboard.DiffAgreesWithFlag | src/admin/pages/AdminDashboard.jsx:261-265 | with a positive prediction the percentage is non-negative exactly when the over-production flag is set, and is -100 exactly when nothing was harvested |
| AdminDashboard.YoySign | src/admin/pages/AdminDashboard.jsx:267-269 | with a positive previous yield the change is positive exactly when the yield grew, and 0 exactly when it stayed the same |
| AdminDashboard.SeasonOptions | src/admin/pages/AdminDashboard.jsx:91-93 | the season choices are distinct and sorted |
| AdminDashboard.SeasonOptionsExactly | src/admin/pages/AdminDashboard.jsx:91-93 | a season is offered exactly when some trend row carries it and it is not empty |
| AnalyticsPage.FromService | src/pages/Analytics/Analytics.jsx:82-83 | the cluster records the service builds carry no previous-harvest yield, so the page reads 0 for it, and the latest yield is the latest harvest's |
| AnalyticsPage.TallyCounts | src/pages/Analytics/Analytics.jsx:72-94 | only clusters with a positive previous yield are counted, each in exactly one status bucket; the drops are counted among them and all fall in the Critical or Moderate bucket |
| AnalyticsPage.ServiceBucketsEmpty | src/pages/Analytics/Analytics.jsx:83-93 | with the service's records every bucket stays empty and the drop rate is 0 |
| AnalyticsPage.DropRate | src/pages/Analytics/Analytics.jsx:99 | the rate is 0 when no cluster has a previous yield |
| AnalyticsPage.DropRateBounds | src/pages/Analytics/Analytics.jsx:99 | the drop rate is a percentage |
| AnalyticsPage.PageTotalFlat | src/pages/Analytics/Analytics.jsx:72-79 | summing each cluster's harvests and then the clusters is summing all harvests at once |
| AnalyticsPage.FineShare | src/pages/Analytics/Analytics.jsx:97-98 | the fine share is 0 when no graded weight is recorded |
| AnalyticsPage.FineShareBounds | src/pages/Analytics/Analytics.jsx:97-98 | with non-negative grades the fine share is a percentage, and 100 exactly when only fine beans were graded |
| AnalyticsPage.GradeDistribution | src/pages/Analytics/Analytics.jsx:102-106 | at most three slices, each with a positive value |
| AnalyticsPage.GradeShown | src/pages/Analytics/Analytics.jsx:102-106 | a grade is shown exactly when its weight rounds to a positive number of kilograms |
| AnalyticsPage.Take7 | src/pages/Analytics/Analytics.jsx:120 | the first seven characters, or the whole text when it is shorter |
| AnalyticsPage.HistKey | src/pages/Analytics/Analytics.jsx:120 | the key is never empty, and is the season when the harvest has a non-empty one |
| AnalyticsPage.HistorySeasons | src/pages/Analytics/Analytics.jsx:118-122 | the history seasons are distinct and sorted |
| AnalyticsPage.HistorySeasonsExactly | src/pages/Analytics/Analytics.jsx:118-122 | a season has a history row exactly when some harvest of some cluster has that key |
| AnalyticsPage.CellOf | src/pages/Analytics/Analytics.jsx:127-130 | a cell is present exactly when the cluster has a harvest with the key, and then holds the yield of the first such harvest |
| AnalyticsPage.CellsColumns | src/pages/Analytics/Analytics.jsx:126-131 | every row has exactly one column per cluster label |
| AnalyticsPage.CellsLastWins | src/pages/Analytics/Analytics.jsx:126-131 | a cluster's column holds its own cell unless a later cluster has the same label |
| AnalyticsPage.EntryIsSeasonThenCells | src/pages/Analytics/Analytics.jsx:124-131 | an entry is `{ season }` overlaid with the cluster cells: every label holds its cell, nothing else is present, and the season survives exactly when no cell is written under `season` |
| AnalyticsPage.History | src/pages/Analytics/Analytics.jsx:123-133 | one entry per history season, in order, each with a `season` key that holds the row's season when no cluster is labelled `season` |
| AnalyticsPage.HistoryCell | src/pages/Analytics/Analytics.jsx:124-133 | with distinct labels, each history cell holds that cluster's first yield for the row's season |
| AnalyticsPage.HistorySeasonOverwritten | src/pages/Analytics/Analytics.jsx:124-130 | the last cluster labelled `season` overwrites every entry's season with its own yield cell or `null` |
| AnalyticsPage.Unresolved | src/pages/Analytics/Analytics.jsx:21 | the names an import list cannot bind are exactly the imported names the other module does not export |
| AnalyticsPage.ResolvedWhenExported | src/pages/Analytics/Analytics.jsx:21 | an import list whose names are all exported links |
| AnalyticsPage.PageImportUnresolved | src/pages/Analytics/Analytics.jsx:21 | as written, `arrLastFloat` is the only imported name the service does not export, so the page does not link |
| AnalyticsPage.CorrectedPageLinks | src/pages/Analytics/Analytics.jsx:21 | with `arrLastFloat` exported by the service, every name the page imports resolves |
| AnalyticsPage.ArrLastFloat | src/pages/Analytics/Analytics.jsx:75-82 | the assumed reading of the missing helper: an empty array reads as 0 |
| AnalyticsPage.ArrLastFloatOfLast | src/pages/Analytics/Analytics.jsx:75-82 | under the assumed reading, an array reads as its last element alone, and a one-element array as that element |
| AnalyticsPage.ArrLastFloatScalar | src/pages/Analytics/Analytics.jsx:75-82 | under the assumed reading, a single value reads as `parseFloat` reads it, and as 0 when that gives `NaN` |
| Prediction.Overall | src/admin/pages/Prediction.jsx:35-37 | the trend rows as given, or the single "No Data" row when there are none |
| Prediction.CardOf | src/admin/pages/Prediction.jsx:212-227 | a card keeps its season, and its percentage is 0 without a positive prediction |
| Prediction.CardSign | src/admin/pages/Prediction.jsx:213-227 | with a positive prediction the card says Over exactly when its percentage is not negative |
| Prediction.NoDataCard | src/admin/pages/Prediction.jsx:35-37 | with no trend rows the one card reads "No Data", 0 % and Over |
| Prediction.BuildFarmsKeys | src/admin/pages/Prediction.jsx:40-57 | every farm id is listed once, and the list and the map hold the same farms |
| Prediction.BuildFarmsMember | src/admin/pages/Prediction.jsx:41-46 | a farm is listed exactly when its id is non-empty and some cluster carries it |
| Prediction.BuildFarmsEntry | src/admin/pages/Prediction.jsx:41-87 | each farm's entry is what its own clusters build, in input order |
| Prediction.FarmLines | src/admin/pages/Prediction.jsx:67-75 | a farm's lines are its clusters' lines, one per cluster, in order |
| Prediction.FarmTotals | src/admin/pages/Prediction.jsx:47-78 | before rounding, a farm's totals are the sums of its clusters' figures, and its id and name come from its first cluster |
| Prediction.FarmSeasonKeys | src/admin/pages/Prediction.jsx:81-84 | a farm's seasons are each listed once, and the list and the map agree |
| Prediction.FarmSeasonMember | src/admin/pages/Prediction.jsx:81-84 | a season is in a farm's table exactly when one of its clusters is filed under it |
| Prediction.FarmSeasonSums | src/admin/pages/Prediction.jsx:81-86 | each season's figures are the sums over that season's clusters |
| Prediction.SeasonsAddUp | src/admin/pages/Prediction.jsx:76-86 | added over a farm's seasons, the season figures give the farm's totals again |
| Prediction.ClusterListedOnce | src/admin/pages/Prediction.jsx:41-75 | a cluster of a farm is listed on that farm's card, every line on a card is the line of a cluster of that farm, and a cluster without a farm id has no card |
| RegisteredFarmers.Listed | src/admin/pages/RegisteredFarmers.jsx:55-67 | a listed farmer keeps its row and a non-empty farm name, and is "No Clusters" exactly when its first farm is missing or has no clusters |
| RegisteredFarmers.StatusIgnoresLaterFarms | src/admin/pages/RegisteredFarmers.jsx:56-60 | clusters on a second or later farm never change a farmer's status |
| RegisteredFarmers.Search | src/admin/pages/RegisteredFarmers.jsx:77-87 | an empty query keeps everyone; the search never adds rows |
| RegisteredFarmers.SearchExactly | src/admin/pages/RegisteredFarmers.jsx:79-85 | with a non-empty query a farmer is found exactly when the full name, municipality, province, farm name or username contains the query, ignoring case |
| RegisteredFarmers.SearchIgnoresCase | src/admin/pages/RegisteredFarmers.jsx:79 | the result does not depend on the case of the query |
| RegisteredFarmers.TotalPages | src/admin/pages/RegisteredFarmers.jsx:89 | the pages hold every row and none is empty: the count is the least with count × 10 ≥ rows |
| RegisteredFarmers.Page | src/admin/pages/RegisteredFarmers.jsx:90-93 | at most ten rows, those at positions (p−1)·10 onward, in order; nothing past the last page |
| RegisteredFarmers.FullPages | src/admin/pages/RegisteredFarmers.jsx:89-93 | every page before the last holds ten rows |
| RegisteredFarmers.PagesPrefix | src/admin/pages/RegisteredFarmers.jsx:90-93 | the first k pages, read in order, are the first 10·k rows |
| RegisteredFarmers.PagesPartition | src/admin/pages/RegisteredFarmers.jsx:89-93 | the pages, read in order, give back the filtered list exactly |
| RegisteredFarmers.Step | src/admin/pages/RegisteredFarmers.jsx:277 | typing into the search box goes back to page 1, and the page never drops below 1 |
| RegisteredFarmers.StepStaysInRange | src/admin/pages/RegisteredFarmers.jsx:357-373 | from a page within range, the Previous and Next buttons never leave the range |
| RegisteredFarmers.EmptyFormFull | src/admin/pages/RegisteredFarmers.jsx:95-107 | the add form has every field, each the empty text |
| RegisteredFarmers.Column | src/admin/pages/RegisteredFarmers.jsx:112-120 | a column copied as it is: `null` stays `null`, text stays text |
| RegisteredFarmers.OrEmpty | src/admin/pages/RegisteredFarmers.jsx:116-118 | a column read with `\|\| ''` is always text, the column's own when it has one |
| RegisteredFarmers.EditForm | src/admin/pages/RegisteredFarmers.jsx:109-129 | the edit form has every field: username, email, names, contact number, municipality and province copied as they are (`null` included), the middle initial and the age as text with `''` for a missing value, and an empty password |
| RegisteredFarmers.CheckSave | src/admin/pages/RegisteredFarmers.jsx:141-159 | the required-field message is given exactly when the first name, last name, email or username is empty |
| RegisteredFarmers.ConfirmExactly | src/admin/pages/RegisteredFarmers.jsx:141-159 | the save is confirmed exactly when the four required fields are filled, a password is given for a new farmer, and the age is 18 to 120 |
| RegisteredFarmers.RequiredFirst | src/admin/pages/RegisteredFarmers.jsx:144-147 | a missing name is reported before the password and the age are looked at |
| RegisteredFarmers.AgeBounds | src/admin/pages/RegisteredFarmers.jsx:152-156 | an age typed as plain digits passes exactly when it is 18 to 120, both ends included |
| RegisteredFarmers.OpenAdd | src/admin/pages/RegisteredFarmers.jsx:95-107 | the add modal opens clean, not editing, with the form equal to its snapshot |
| RegisteredFarmers.OpenEdit | src/admin/pages/RegisteredFarmers.jsx:109-129 | the edit modal opens clean, editing, with the form equal to its snapshot |
| RegisteredFarmers.Change | src/admin/pages/RegisteredFarmers.jsx:131-139 | one field takes the typed text, the others keep theirs (`null` included), the error clears and the snapshot stays |
| RegisteredFarmers.DirtyExactly | src/admin/pages/RegisteredFarmers.jsx:136-138 | after any edit the dirty flag says exactly whether the form differs from the snapshot |
| RegisteredFarmers.RevertIsClean | src/admin/pages/RegisteredFarmers.jsx:131-139 | typing a field that opened as text back to that text, on an otherwise unchanged form, clears the flag |
| RegisteredFarmers.NullFieldStaysDirty | src/admin/pages/RegisteredFarmers.jsx:111-138 | a field that opened as `null` cannot be typed back: any edit of it, even to `''`, leaves the form dirty |
| RegisteredFarmers.Save | src/admin/pages/RegisteredFarmers.jsx:141-159 | the confirm dialog opens only when every check passes; otherwise the failing check's message is shown |
| RegisteredFarmers.Close | src/admin/pages/RegisteredFarmers.jsx:218-224 | a dirty form asks before discarding; a clean one closes |
| Register.AnyMissing | src/pages/Register/Register.jsx:34-40 | the loop reports a missing field exactly when some required field is empty |
| Register.Validate | src/pages/Register/Register.jsx:32-53 | the "fill in all required fields" message comes first, exactly when some required field is empty |
| Register.ValidExactly | src/pages/Register/Register.jsx:32-53 | the form passes exactly when every required field is filled, the passwords agree, the password has at least six characters and the age is 18 to 120 |
| Register.MismatchBeforeLength | src/pages/Register/Register.jsx:41-48 | a mismatch is reported even when the password is also too short |
| Register.MiddleInitialIgnored | src/pages/Register/Register.jsx:34 | the middle initial never changes the verdict |
| Register.SuccessAsWritten | src/pages/Register/Register.jsx:57-63 | a bare boolean reply never shows a success message |
| Register.SuccessIntended | src/pages/Register/Register.jsx:57-63 | a success message is shown exactly when `register` reports success, as a boolean or as a result object |
| Register.FailureText | src/context/AuthContext.jsx:62-116 | the sign-up and profile failures show the service's message; the other three show their fixed, non-empty texts |
| Register.ContextRegister | src/context/AuthContext.jsx:53-120 | `register` resolves `true` exactly when no step fails, and then leaves the error clear; a failure resolves `false` and leaves that failure's message |
| Register.SubmitWith | src/pages/Register/Register.jsx:32-67 | an invalid form shows its first problem and calls nothing; a valid one calls `register` once, then shows the context's error as the call left it, shows the reply's message when it has one and otherwise keeps the earlier success text, and stops submitting |
| Register.SubmitShowsContextError | src/pages/Register/Register.jsx:24-107 | after a valid form, a failed sign-up shows its failure's message (an existing email shows "An account with this email already exists."), and a successful one clears any earlier error |
| Register.CallOnlyWhenValid | src/pages/Register/Register.jsx:54-66 | `register` is called only for a valid form, and afterwards the page is not submitting |
| Register.SuccessNeverShown | src/context/AuthContext.jsx:53-120 | as written, a successful registration shows no message of its own, because the context replies with `true`: the page keeps the text it showed before; with the intended test it shows the log-in message |
| ClusterDetailModal.StageFields | src/components/ClusterDetailModal/ClusterDetailModal.jsx:116 | a stage without a field list of its own edits the seed-sapling fields |
| ClusterDetailModal.FruitBearingFallsBack | src/components/ClusterDetailModal/ClusterDetailModal.jsx:116 | the fruit-bearing stage and a missing stage both edit the seed-sapling fields |
| ClusterDetailModal.InitialForm | src/components/ClusterDetailModal/ClusterDetailModal.jsx:117-130 | the form has exactly the stage's fields, each holding the stored value when it is truthy and `''` otherwise |
| ClusterDetailModal.FalsyShowsEmpty | src/components/ClusterDetailModal/ClusterDetailModal.jsx:120 | a stored 0 or `false` shows as an empty input |
| ClusterDetailModal.PreNotPost | src/components/ClusterDetailModal/ClusterDetailModal.jsx:163-166 | no field name is both a pre-harvest and a post-harvest field |
| ClusterDetailModal.Split | src/components/ClusterDetailModal/ClusterDetailModal.jsx:163-166 | every stage but ready-to-harvest shows its fields in one section |
| ClusterDetailModal.SplitSizes | src/components/ClusterDetailModal/ClusterDetailModal.jsx:164-166 | the three harvest sections together hold as many fields as the stage has |
| ClusterDetailModal.SplitPartitions | src/components/ClusterDetailModal/ClusterDetailModal.jsx:163-166 | for the harvest stage the sections are pairwise disjoint and cover every field |
| ClusterDetailModal.YieldFieldsFiledAsPre | src/components/ClusterDetailModal/ClusterDetailModal.jsx:165 | `previousYield` and `predictedYield` begin with `pre`, so they are shown under pre-harvest and not in the main section |
| ClusterDetailModal.Open | src/components/ClusterDetailModal/ClusterDetailModal.jsx:117-131 | the modal opens clean: the form equals its snapshot |
| ClusterDetailModal.Change | src/components/ClusterDetailModal/ClusterDetailModal.jsx:140-142 | the edited field takes the typed value and the snapshot stays |
| ClusterDetailModal.ChangeBack | src/components/ClusterDetailModal/ClusterDetailModal.jsx:135-142 | typing a field back to its opening value on an unchanged form leaves it clean |
| ClusterDetailModal.Close | src/components/ClusterDetailModal/ClusterDetailModal.jsx:154-160 | a dirty form asks before discarding; a clean one closes |
| ClusterDetailModal.Save | src/components/ClusterDetailModal/ClusterDetailModal.jsx:149-152 | the cluster's stage data becomes the form itself, its stage is kept, other clusters are unchanged, and the modal closes |
| ClusterDetailModal.SaveDropsOtherKeys | src/components/ClusterDetailModal/ClusterDetailModal.jsx:150 | a stored key outside the stage's fields is lost by saving from the modal |
| ClusterDetail.Pad2 | src/pages/ClusterDetail/ClusterDetail.jsx:74-75 | the padded number is all digits and at least two characters long |
| ClusterDetail.Pad2Reads | src/pages/ClusterDetail/ClusterDetail.jsx:74-75 | a number below 100 pads to two digits that read back as the number |
| ClusterDetail.FormatDateLocal | src/pages/ClusterDetail/ClusterDetail.jsx:72-77 | the date text is at least seven characters long |
| ClusterDetail.FormatDateReadsBack | src/pages/ClusterDetail/ClusterDetail.jsx:72-77 | for a four-digit year the text is `YYYY-MM-DD`, ten characters, whose fields read back as the year, the 1-based month and the day |
| ClusterDetail.ElevenMonthsOn | src/pages/ClusterDetail/ClusterDetail.jsx:127-128 | the estimate is eleven months later, same day, with the month carried into the year |
| ClusterDetail.SectionFields | src/pages/ClusterDetail/ClusterDetail.jsx:90-96 | a section has a field list exactly when it is overview, harvest, pruning, fertilize or pesticide |
| ClusterDetail.SectionOf | src/pages/ClusterDetail/ClusterDetail.jsx:80 | a URL without a section shows the overview |
| ClusterDetail.FormFor | src/pages/ClusterDetail/ClusterDetail.jsx:97-100 | the form has exactly the section's fields; a stored non-null value is kept as is, and a missing or null one becomes `''` |
| ClusterDetail.ZeroKeptHereNotInModal | src/pages/ClusterDetail/ClusterDetail.jsx:99 | a stored 0 stays 0 on this page, while the modal shows it as an empty input |
| ClusterDetail.ViewOf | src/pages/ClusterDetail/ClusterDetail.jsx:86-102 | an unknown section redirects to the cluster's overview; otherwise the form has the section's fields, is locked exactly for the locked harvest section, and can be saved exactly when it is neither saving nor locked |
| ClusterDetail.LockExactly | src/pages/ClusterDetail/ClusterDetail.jsx:86-88 | only the harvest section is ever locked, at every stage but ready-to-harvest, and a locked form cannot be saved |
| ClusterDetail.Merge | src/pages/ClusterDetail/ClusterDetail.jsx:142-145 | the keys are those of both objects; the form's values win and the other stored values are kept |
| ClusterDetail.Save | src/pages/ClusterDetail/ClusterDetail.jsx:138-148 | only the saved cluster changes, and its stage stays |
| ClusterDetail.SaveKeepsOtherKeys | src/pages/ClusterDetail/ClusterDetail.jsx:141-146 | every edited key takes the form's value, and every stored key the section does not edit is kept |
| ClusterDetail.StageUpdates | src/pages/ClusterDetail/ClusterDetail.jsx:121-135 | the update always sets the stage and nothing else, plus stage data exactly when entering flowering |
| ClusterDetail.StageChangeEffect | src/pages/ClusterDetail/ClusterDetail.jsx:121-135 | after a stage change the cluster has the new stage; only flowering touches the stage data, setting the estimated harvest date and keeping every other stored key |
| HarvestRecords.HarvestList | src/pages/HarvestRecords/HarvestRecords.jsx:40-42 | exactly the clusters in the ready-to-harvest, flowering or fruit-bearing stage |
| HarvestRecords.SeasonFiltered | src/pages/HarvestRecords/HarvestRecords.jsx:44-46 | the empty choice keeps every harvest cluster; otherwise exactly those whose season text contains the choice |
| HarvestRecords.ListedExactly | src/pages/HarvestRecords/HarvestRecords.jsx:40-46 | a cluster is listed exactly when it is in a harvest stage and, once a season is chosen, its season text contains the choice |
| HarvestRecords.OwnSeasonKeepsCluster | src/pages/HarvestRecords/HarvestRecords.jsx:44-46 | choosing a listed cluster's own season keeps it listed |
| HarvestRecords.Seasons | src/pages/HarvestRecords/HarvestRecords.jsx:49 | the season choices are distinct and all truthy |
| HarvestRecords.SeasonsExactly | src/pages/HarvestRecords/HarvestRecords.jsx:49 | a value is offered exactly when it is truthy and some cluster has it as its season |
| HarvestRecords.YieldChart | src/pages/HarvestRecords/HarvestRecords.jsx:52-59 | no bars without stage data; otherwise Previous, Predicted and Actual, each the parsed number of its field, or 0 when the field does not parse |
| HarvestRecords.GradeData | src/pages/HarvestRecords/HarvestRecords.jsx:61-68 | at most three grades, each strictly positive; none without stage data |
| HarvestRecords.GradeShownExactly | src/pages/HarvestRecords/HarvestRecords.jsx:61-68 | a grade is charted exactly when its parsed value is positive |
| HarvestRecords.YieldTrend | src/pages/HarvestRecords/HarvestRecords.jsx:87-96 | one row per listed cluster with a truthy current or previous yield, in order |
| HarvestRecords.TrendSkipsEmpty | src/pages/HarvestRecords/HarvestRecords.jsx:88-89 | every trend row comes from a listed cluster that has a yield |
| HarvestRecords.TrendCoversYields | src/pages/HarvestRecords/HarvestRecords.jsx:88-95 | every listed cluster with a yield is charted |
| Dashboard.FarmDetailsExactly | src/pages/Dashboard/Dashboard.jsx:39 | a farm whose name is text has details exactly when the name is neither empty nor the placeholder and the area is truthy; the placeholder farm never does |
| Dashboard.Trees | src/pages/Dashboard/Dashboard.jsx:41 | a cluster's trees are its parsed plant count, or 0 when that does not parse |
| Dashboard.TotalTreesAppend | src/pages/Dashboard/Dashboard.jsx:41 | the total over a joined list is the sum of the two totals |
| Dashboard.TotalTreesBounds | src/pages/Dashboard/Dashboard.jsx:41 | with non-negative counts the total is non-negative and at least every single count |
| Dashboard.NonNumericAddsNothing | src/pages/Dashboard/Dashboard.jsx:41 | a cluster whose count does not parse leaves the total unchanged |
| Dashboard.StageCount | src/pages/Dashboard/Dashboard.jsx:244 | a stage count never exceeds the number of clusters |
| Dashboard.HarvestReady | src/pages/Dashboard/Dashboard.jsx:42 | the harvest-ready count never exceeds the number of clusters |
| Dashboard.StageCardsSum | src/pages/Dashboard/Dashboard.jsx:243-244 | the four stage cards count each cluster at most once: their sum is the number of clusters in one of the four stages |
| Dashboard.StageCardsComplete | src/pages/Dashboard/Dashboard.jsx:243-244 | the cards add up to the number of clusters exactly when every cluster is in one of the four stages |
| Dashboard.ConfigStage | src/pages/Dashboard/Dashboard.jsx:173 | a card stage keeps its own style; any other stage is styled as seed-sapling |
| Dashboard.FruitBearingUnlisted | src/pages/Dashboard/Dashboard.jsx:173-244 | a fruit-bearing cluster is styled as a seedling and is counted on no stage card |
| SessionStore.SaveSession | src/lib/sessionStorage.js:10-27 | writes exactly when the session has a truthy token and user, stamping the time, and touches no other key |
| SessionStore.ClearSession | src/lib/sessionStorage.js:48-54 | removes the backup key and no other |
| SessionStore.LoadSession | src/lib/sessionStorage.js:29-46 | gives the stored record only while it is younger than seven days and then leaves the store alone; an expired record is removed; text that does not parse gives nothing |
| SessionStore.BackupLifetime | src/lib/sessionStorage.js:10-46 | a saved backup reads back unchanged, with its token and user, for just under seven days, and at seven days it is gone |
| SessionStore.SaveUserSession | src/lib/sessionStorage.js:58-73 | writes the user, profile and time exactly when both the user and the profile are truthy |
| SessionStore.ClearUserSession | src/lib/sessionStorage.js:96-103 | removes the user key and no other |
| SessionStore.LoadUserSession | src/lib/sessionStorage.js:75-94 | gives the user and profile unless the record is more than a day old, in which case it is removed |
| SessionStore.UserSessionLifetime | src/lib/sessionStorage.js:58-94 | a saved user record reads back for a full day, the boundary included, and is removed once older |
| SessionStore.BoundariesDiffer | src/lib/sessionStorage.js:36-83 | a backup exactly seven days old is gone while a user record exactly one day old is kept |
| SessionStore.ClearsAreIndependent | src/lib/sessionStorage.js:48-115 | clearing either record leaves the other one, and the presence check, alone |
| SessionStore.FailedSaveKeepsRecord | src/lib/sessionStorage.js:58-73 | a rejected save writes nothing, so a stored record survives it |
| ClusterFormModal.Initial | src/components/ClusterFormModal/ClusterFormModal.jsx:9-16 | a new cluster starts from the empty defaults with stage seed-sapling; an edit starts from the edited cluster's values |
| ClusterFormModal.Open | src/components/ClusterFormModal/ClusterFormModal.jsx:9-19 | the form opens at its starting values with no dialog shown |
| ClusterFormModal.Change | src/components/ClusterFormModal/ClusterFormModal.jsx:28-30 | the edited input takes the typed value; the others keep theirs |
| ClusterFormModal.DirtyTracksEdits | src/components/ClusterFormModal/ClusterFormModal.jsx:21-30 | a fresh form is clean; typing a different value makes it dirty, and typing the original value back makes it clean again |
| ClusterFormModal.Submit | src/components/ClusterFormModal/ClusterFormModal.jsx:32-36 | a form with a truthy name, area and plant count asks to confirm; any other form does nothing |
| ClusterFormModal.ZeroAreaBlocksEdit | src/components/ClusterFormModal/ClusterFormModal.jsx:34 | an edited cluster stored with area 0 cannot be resubmitted until the area is retyped |
| ClusterFormModal.DefaultNeedsInput | src/components/ClusterFormModal/ClusterFormModal.jsx:9-16 | the new-cluster form always needs its name, area and plant count typed in |
| ClusterFormModal.DoSave | src/components/ClusterFormModal/ClusterFormModal.jsx:38-45 | an edit updates the edited cluster's id, a new form adds a cluster, both with the form's values; the modal then closes |
| ClusterFormModal.EditSaveEffect | src/components/ClusterFormModal/ClusterFormModal.jsx:38-40 | saving an edit changes the edited cluster's four inputs and nothing else in the list; its id, stage data and harvests stay |
| ClusterFormModal.Close | src/components/ClusterFormModal/ClusterFormModal.jsx:47-53 | a dirty form asks before discarding; a clean one closes |
| ClusterFormModal.CloseUntouched | src/components/ClusterFormModal/ClusterFormModal.jsx:47-53 | closing an untouched form never asks |
| Routes.RoleRoute | src/App.jsx:24-39 | renders exactly for a loaded user with the area's role; waits while loading; otherwise goes to the login page |
| Routes.NoStatePassesBoth | src/App.jsx:24-39 | no auth state opens both the farmer area and the admin area |
| Routes.HomeOf | src/App.jsx:47 | an admin belongs on the admin dashboard, everyone else on the farmer dashboard |
| Routes.GuestRoute | src/App.jsx:42-50 | renders exactly when loaded with no user; a logged-in user is sent to their dashboard |
| Routes.HomeRedirect | src/App.jsx:53-58 | the root never renders: no user goes to the login page, a user to their dashboard |
| Routes.HomeRendersExactly | src/App.jsx:24-58 | the page a loaded user is sent home to renders exactly when their role is farmer or admin |
| Routes.CombinedUserAsWritten | src/context/AuthContext.jsx:207-220 | the user object exists exactly when a profile does, and has no role |
| Routes.EveryUserBounced | src/context/AuthContext.jsx:207-220 | as written, both role guards send every logged-in user to the login page, and the login page and the root send them on to `/dashboard` |
| Routes.CombinedUser | src/context/AuthContext.jsx:207-220 | with the role carried over, the user's role is the profile's |
| Routes.RolesReachTheirArea | src/App.jsx:24-58 | with the role carried over, a farmer's or an admin's profile reaches its own area and not the other, and their home page renders |

## Left out

- Supabase I/O: fetches, inserts, upserts, deletes and authentication calls. The model takes their results as lists of rows, or as a `Reply`, and states what the page does with them.
- The trained yield models and the Streamlit user interface of the Python pipeline. Only its table parsing, encodings, range rules, shade rule and ordering are modelled.
- Chart rendering, styling, toasts and the `STAGE_OPTIONS` menus. Where a page picks a style for a stage, the choice is modelled (`Dashboard.ConfigStage`).
- The Blob and download part of `exportToCSV`. The payload text is modelled. How JavaScript prints a number is a parameter (`Display`), because number-to-text conversion is not modelled.
- `toFixed` and `toLocaleString`. Contracts speak of values before they are formatted for display. `Math.round` is modelled as `floor(x + 0.5)`.
- `getPlantAge` and other date arithmetic. In `new Date(y, m + 11, d)`, only the month carry into the year is modelled, not day overflow (a 31st that becomes the 1st of the next month).
- Trimming removes ASCII whitespace only, and lower-casing folds ASCII letters only. `localeCompare` is approximated by code-unit order.
- Js.ParseFloat: the `Infinity` literal (with or without a sign) reads as `NaN` here, so `parseFloat(x) || 0` gives 0 where JavaScript gives Infinity. Numbers are exact reals, so an exponent too large for a double does not overflow to Infinity and digits beyond double precision are kept.
- Js.ParseInt: a `0x` or `0X` prefix is not read as hexadecimal (`parseInt("0x1A")` is 26 in JavaScript, `NaN` here), and a number is truncated directly rather than first printed as text (`parseInt(1e21)` is 1 in JavaScript). Number printing is not modelled.
- Pipeline.Round2: Python rounds the binary double, so a decimal tie such as 2.675 may round down. The model rounds the exact decimal value, ties to even.
- Analytics.FarmerSeasonsAreTrendSeasons: the two lists hold the same seasons, but their order agrees only under the code-unit stand-in. The season list uses the default `.sort()` (code-unit order) and the trend list `localeCompare`, so with `Wet 2024` and `dry 2023` the real orders differ.
- Recommend.Advice: the advice texts of the recommendation rules are replaced by four constructors (below range, above range, not practised, too infrequent). The texts print the measured number, and number printing is not modelled.
- `Object.values` key order is not modelled. Sums over a season map are stated over its key set.
- Python's `pd.to_numeric` on arbitrary text is not modelled. Cells are either numbers or text. The `str()` of a float shade cell is not modelled either.
- `AdminDashboard.Sorted`: the order of equal keys is left open. The source's comparator never reports a tie, so its tie order depends on the engine's sort.
- `AdminDashboard.GradeShare`: the three rounded shares are bounded (each 0..100, sum 99..101) rather than computed to the digit, because rounding is not inverted.
- `Analytics.LatestStage` and `Analytics.LatestHarvest`: when several rows share the newest timestamp, the contract says only that one of them is chosen, not which one.
- `arrLastFloat`: the analytics page imports it from the analytics service, which never exports it, so the page fails to link (see Findings). How the page's numbers are read (`AnalyticsPage.ArrLastFloat`: the last element of an array, or the value itself, as `parseFloat(x) || 0`) is a guess at the intent from the helper's name and its uses, not something the source states.
- Placeholder `'No Data'` rows in the prediction page read as 0 wherever they are summed.
- `SessionStore`: JSON serialisation is not modelled. A stored record stands in for its JSON text, and text that no helper wrote (`Foreign`) is treated as text `JSON.parse` rejects.
- `HarvestRecords.SeasonFiltered`: calling `.includes` on a season that is not text throws in the source. The model treats such a cluster as not kept.
- `addCluster`'s database insert is not modelled. `ClusterFormModal.DoSave` models the `Add` action, and `FarmContext` models the local append.
- `ClusterFormModal.DirtyTracksEdits`: the source compares the whole `editData` object as JSON. The model compares the four inputs, which are the only values the form changes.
- `Register`: exceptions thrown by `register` are not modelled. Password length is counted in characters, where the source counts UTF-16 code units.
- The login and settings pages, and the auth provider beyond the user object it builds (`Routes.CombinedUser`), are not part of this model.
- Where the recorded design and the code disagree, the code is followed. For example, `getYieldStatus` gives N/A only for a falsy previous yield, so a negative previous yield still computes a change.

## Findings

| source | as written | input that shows it | evidently intended | confidence | as-written member | corrected member |
|---|---|---|---|---|---|---|
| analytics/app.py:81-83 | the pruning-interval row gives its "overdue" advice below the range and its "too frequent" advice above it | `pruning_interval_months = 6.0` gets "Pruning overdue (> 18 months)" | "too frequent" below 10 months, "overdue" above 18 | high, not executed | Pipeline.PruningMessagesSwapped | Pipeline.PruningAdviceMatchesSide |
| src/pages/Register/Register.jsx:57 | the page shows its success text only when `result && result.success`, but `register` (src/context/AuthContext.jsx:120) resolves with `true` | any valid form whose registration succeeds: `register` returns `true`, which has no `success` property | show the success text whenever registration succeeds | high, not executed | Register.SuccessNeverShown | Register.SuccessIntended |
| src/context/AuthContext.jsx:207-220 | the user object built from the profile has no `role` field, while the route guards in src/App.jsx:24-58 test `user.role` | a profile with `role = 'farmer'`: FarmerRoute and AdminRoute redirect to /login, and GuestRoute redirects to /dashboard | the user object carries the profile's role | high, not executed | Routes.EveryUserBounced | Routes.RolesReachTheirArea |
| src/pages/Analytics/Analytics.jsx:21 | the page imports `arrLastFloat` from src/lib/analyticsService.js, which exports no such name; src/App.jsx:10 imports the page statically | loading the application: the ES module graph fails to link on the missing export, so no page renders | the service exports an `arrLastFloat` helper that reads a column's last value as a number | high, not executed | AnalyticsPage.PageImportUnresolved | AnalyticsPage.CorrectedPageLinks |

=== FILE: admin_dashboard.dfy ===
/** The administrator dashboard's derivations: the grade donut with its even
    fallback, the list of clusters at risk with its season filter and
    sortable columns, row selection, the capped audit log and the two
    headline percentages. */
module AdminDashboard {
  import opened Wrappers
  import opened Js
  import opened Seqs
  import opened Order
  import opened Classify
  import opened Analytics

  // ---------------------------------------------------------------------
  // Grade distribution

  datatype Slice = Slice(name: string, value: int, kg: int)

  /** The donut: each grade's rounded percentage of the three grade totals,
      or 33/34/33 with no weight when the total is not positive. */
  function GradeShare(fine: int, premium: int, commercial: int): (r: seq<Slice>)
    ensures |r| == 3 && r[0].name == "Fine" && r[1].name == "Premium" && r[2].name == "Commercial"
    ensures fine + premium + commercial <= 0 ==>
      r[0].value == 33 && r[1].value == 34 && r[2].value == 33 && r[0].kg == r[1].kg == r[2].kg == 0
    ensures fine + premium + commercial > 0 ==> r[0].kg == fine && r[1].kg == premium && r[2].kg == commercial
  {
    var total := fine + premium + commercial;
    if total > 0 then
      [Slice("Fine", Round(fine as real / total as real * 100.0), fine),
       Slice("Premium", Round(premium as real / total as real * 100.0), premium),
       Slice("Commercial", Round(commercial as real / total as real * 100.0), commercial)]
    else
      [Slice("Fine", 33, 0), Slice("Premium", 34, 0), Slice("Commercial", 33, 0)]
  }

  lemma ShareBounds(x: real, total: real)
    requires 0.0 <= x <= total && total > 0.0
    ensures 0 <= Round(x / total * 100.0) <= 100
  {
    assert x / total <= 1.0;
    var a := x / total * 100.0;
    RoundMono(0.0, a); RoundMono(a, 100.0); RoundInt(0); RoundInt(100);
  }

  lemma SharesSum(x: real, y: real, z: real, t: real)
    requires t > 0.0 && x + y + z == t
    ensures x / t * 100.0 + y / t * 100.0 + z / t * 100.0 == 100.0
  {
    assert x / t + y / t + z / t == (x + y + z) / t;
  }

  /** Three rounded terms of a total of 100 add up to 100 give or take one. */
  lemma RoundedThirds(a: real, b: real, c: real)
    requires a + b + c == 100.0
    ensures 99 <= Round(a) + Round(b) + Round(c) <= 101
  {
  }

  /** With non-negative grades each share is a percentage, and the three
      rounded shares add up to 100 give or take one. */
  lemma GradeShareSums(fine: int, premium: int, commercial: int)
    requires fine >= 0 && premium >= 0 && commercial >= 0
    ensures var r := GradeShare(fine, premium, commercial);
      (forall i :: 0 <= i < 3 ==> 0 <= r[i].value <= 100) && 99 <= r[0].value + r[1].value + r[2].value <= 101
  {
    var total := fine + premium + commercial;
    if total > 0 {
      var t := total as real;
      var a, b, c := fine as real / t * 100.0, premium as real / t * 100.0, commercial as real / t * 100.0;
      ShareBounds(fine as real, t);
      ShareBounds(premium as real, t);
      ShareBounds(commercial as real, t);
      SharesSum(fine as real, premium as real, commercial as real, t);
      RoundedThirds(a, b, c);
      var r := GradeShare(fine, premium, commercial);
      assert r[0].value == Round(a) && r[1].value == Round(b) && r[2].value == Round(c);
    }
  }

  // ---------------------------------------------------------------------
  // Clusters at risk

  /** A processed cluster with the farm and farmer the admin query joins to it. */
  datatype AdminCluster = AdminCluster(
    e: Enriched,
    farmName: Option<string>,
    farmer: Option<(string, string)>,
    clusterName: string)

  /** One row of the table of clusters at risk. */
  datatype CriticalRow = CriticalRow(
    id: string,
    farmName: string,
    farmerName: string,
    clusterName: string,
    riskLevel: RiskLevel,
    yieldDecline: real,
    priorityScore: int,
    season: string)

  function StageSeason(s: Option<StageRow>): string {
    if s.Some? && s.value.season.Some? && s.value.season.value != "" then s.value.season.value else "N/A"
  }

  function RowOf(c: AdminCluster): (r: CriticalRow)
    ensures r.id == c.e.cluster.id && r.riskLevel == c.e.risk.level && r.priorityScore == c.e.risk.priority
    ensures r.farmName != ""
  {
    CriticalRow(
      c.e.cluster.id,
      if c.farmName.Some? && c.farmName.value != "" then c.farmName.value else "Unknown Farm",
      if c.farmer.Some? then c.farmer.value.0 + " " + c.farmer.value.1 else "N/A",
      c.clusterName,
      c.e.risk.level,
      c.e.yieldDecline,
      c.e.risk.priority,
      StageSeason(c.e.latestStage))
  }

  predicate AtRisk(c: AdminCluster) {
    c.e.risk.level != Low
  }

  /** The clusters whose risk level is not Low, as table rows, in input order. */
  function CriticalRows(cs: seq<AdminCluster>): (rows: seq<CriticalRow>)
    ensures |rows| == Count(cs, AtRisk)
    ensures forall i :: 0 <= i < |rows| ==> rows[i].riskLevel != Low
  {
    var kept := Filter(cs, AtRisk);
    seq(|kept|, i requires 0 <= i < |kept| => RowOf(kept[i]))
  }

  /** A row is listed exactly when it is the row of an input cluster that is not Low risk. */
  lemma CriticalExactly(cs: seq<AdminCluster>, r: CriticalRow)
    ensures r in CriticalRows(cs) <==> exists c :: c in cs && c.e.risk.level != Low && RowOf(c) == r
  {
    var kept := Filter(cs, AtRisk);
    if r in CriticalRows(cs) {
      var i :| 0 <= i < |kept| && CriticalRows(cs)[i] == r;
      assert kept[i] in cs && AtRisk(kept[i]);
    }
    if exists c :: c in cs && c.e.risk.level != Low && RowOf(c) == r {
      var c :| c in cs && c.e.risk.level != Low && RowOf(c) == r;
      var j :| 0 <= j < |cs| && cs[j] == c;
      assert c in kept;
      var i :| 0 <= i < |kept| && kept[i] == c;
      assert CriticalRows(cs)[i] == r;
    }
  }

  /** A cluster without stage data never appears among the clusters at risk. */
  lemma NoStageDataNotAtRisk(c: ClusterRow, hs: seq<HarvestRow>, farm: Option<string>, farmer: Option<(string, string)>, name: string)
    requires |c.stages| == 0
    ensures CriticalRows([AdminCluster(Enrich(c, hs), farm, farmer, name)]) == []
  {
    NoStageDataIsLowRisk(c, hs);
    assert Filter([AdminCluster(Enrich(c, hs), farm, farmer, name)], AtRisk) == [];
  }

  /** The season filter: `all` keeps every row, anything else exactly the rows of that season. */
  function SeasonFiltered(rows: seq<CriticalRow>, season: string): (r: seq<CriticalRow>)
    ensures season == "all" ==> r == rows
    ensures season != "all" ==> forall x :: x in r <==> x in rows && x.season == season
  {
    if season == "all" then rows else Filter(rows, (x: CriticalRow) => x.season == season)
  }

  // ---------------------------------------------------------------------
  // Sorting

  datatype SortField = FarmNameCol | FarmerNameCol | ClusterNameCol | RiskCol | DeclineCol | PriorityCol
  datatype Direction = Asc | Desc
  datatype SortState = SortState(field: SortField, dir: Direction)

  /** The sort the page starts with. */
  function InitialSort(): SortState {
    SortState(PriorityCol, Desc)
  }

  /** `handleSort`: the current column flips direction, a new column starts descending. */
  function HandleSort(st: SortState, f: SortField): (r: SortState)
    ensures r.field == f
    ensures f != st.field ==> r.dir == Desc
    ensures f == st.field ==> r.dir != st.dir
  {
    if st.field == f then SortState(f, if st.dir == Asc then Desc else Asc)
    else SortState(f, Desc)
  }

  /** Clicking the same column twice restores the sort. */
  lemma SortTwice(st: SortState)
    ensures HandleSort(HandleSort(st, st.field), st.field) == st
  {
  }

  /** The compared value of a column: text in code-unit order, the risk level by rank (Critical 4 … Low 1), numbers as they are. */
  function ColumnKey(f: SortField): CriticalRow -> seq<Atom> {
    (r: CriticalRow) =>
      match f
      case FarmNameCol => [AStr(r.farmName)]
      case FarmerNameCol => [AStr(r.farmerName)]
      case ClusterNameCol => [AStr(r.clusterName)]
      case RiskCol => [ANum(LevelRank(r.riskLevel) as real)]
      case DeclineCol => [ANum(r.yieldDecline)]
      case PriorityCol => [ANum(r.priorityScore as real)]
  }

  function Reverse<T>(s: seq<T>): (r: seq<T>)
    ensures |r| == |s|
    ensures forall i :: 0 <= i < |s| ==> r[i] == s[|s| - 1 - i]
    ensures multiset(r) == multiset(s)
    decreases |s|
  {
    if |s| == 0 then []
    else
      assert s == [s[0]] + s[1..];
      Reverse(s[1..]) + [s[0]]
  }

  /** Reading an ascending list backwards gives a descending one. */
  lemma ReverseDescends<T>(up: seq<T>, key: T -> seq<Atom>)
    requires forall i, j :: 0 <= i < j < |up| ==> KeyLe(key(up[i]), key(up[j]))
    ensures forall i, j :: 0 <= i < j < |Reverse(up)| ==> KeyLe(key(Reverse(up)[j]), key(Reverse(up)[i]))
  {
    var down := Reverse(up);
    forall i, j | 0 <= i < j < |down| ensures KeyLe(key(down[j]), key(down[i])) {
      assert down[i] == up[|up| - 1 - i] && down[j] == up[|up| - 1 - j];
    }
  }

  /** The table order: ascending or descending in the chosen column; the
      source's comparator never reports a tie, so the order of equal keys is
      left open. */
  function Sorted(rows: seq<CriticalRow>, st: SortState): (r: seq<CriticalRow>)
    ensures multiset(r) == multiset(rows)
    ensures st.dir == Asc ==> forall i, j :: 0 <= i < j < |r| ==> KeyLe(ColumnKey(st.field)(r[i]), ColumnKey(st.field)(r[j]))
    ensures st.dir == Desc ==> forall i, j :: 0 <= i < j < |r| ==> KeyLe(ColumnKey(st.field)(r[j]), ColumnKey(st.field)(r[i]))
  {
    var key := ColumnKey(st.field);
    var up := SortBy(rows, key);
    if st.dir == Asc then up
    else
      ReverseDescends(up, key);
      Reverse(up)
  }

  lemma NumKey(a: real, b: real)
    ensures KeyLe([ANum(a)], [ANum(b)]) <==> a <= b
  {
  }

  /** By risk, descending: Critical rows first, then High, then Moderate. */
  lemma RiskDescending(rows: seq<CriticalRow>, i: nat, j: nat)
    requires i < j < |Sorted(rows, SortState(RiskCol, Desc))|
    ensures LevelRank(Sorted(rows, SortState(RiskCol, Desc))[i].riskLevel) >= LevelRank(Sorted(rows, SortState(RiskCol, Desc))[j].riskLevel)
  {
    var r := Sorted(rows, SortState(RiskCol, Desc));
    NumKey(LevelRank(r[j].riskLevel) as real, LevelRank(r[i].riskLevel) as real);
  }

  /** The page's first view: by priority, highest first. */
  lemma PriorityDescending(rows: seq<CriticalRow>, i: nat, j: nat)
    requires i < j < |Sorted(rows, InitialSort())|
    ensures Sorted(rows, InitialSort())[i].priorityScore >= Sorted(rows, InitialSort())[j].priorityScore
  {
    var r := Sorted(rows, InitialSort());
    NumKey(r[j].priorityScore as real, r[i].priorityScore as real);
  }

  // ---------------------------------------------------------------------
  // Selection

  /** `toggleRowSelect`: a selected id is removed, any other id is appended. */
  function Toggle(sel: seq<string>, id: string): (r: seq<string>)
    ensures forall x :: x in r <==> (x in sel && x != id) || (x == id && id !in sel)
  {
    if id in sel then Filter(sel, (x: string) => x != id) else sel + [id]
  }

  /** Toggling twice restores membership, and restores the list itself when the id was not selected. */
  lemma ToggleTwice(sel: seq<string>, id: string)
    ensures forall x :: x in Toggle(Toggle(sel, id), id) <==> x in sel
    ensures id !in sel ==> Toggle(Toggle(sel, id), id) == sel
  {
    if id !in sel {
      var p := (x: string) => x != id;
      FilterAppend(sel, [id], p);
      FilterAll(sel, p);
      assert Filter([id], p) == [] by {
        assert [id][..0] == [];
      }
      assert sel + [id] + [] == sel + [id];
    }
  }

  /** Toggling never introduces a duplicate. */
  lemma ToggleDistinct(sel: seq<string>, id: string)
    requires Distinct(sel)
    ensures Distinct(Toggle(sel, id))
  {
    if id in sel {
      FilterDistinct(sel, (x: string) => x != id);
    }
  }

  lemma {:induction false} FilterDistinct<T>(xs: seq<T>, p: T -> bool)
    requires Distinct(xs)
    ensures Distinct(Filter(xs, p))
    decreases |xs|
  {
    if |xs| > 0 {
      var init := xs[..|xs| - 1];
      FilterDistinct(init, p);
      var last := xs[|xs| - 1];
      if p(last) {
        forall i | 0 <= i < |Filter(init, p)| ensures Filter(init, p)[i] != last {
          var k :| 0 <= k < |init| && init[k] == Filter(init, p)[i];
          assert xs[k] == init[k];
        }
      }
    }
  }

  /** The header checkbox: clears a full selection, otherwise selects every listed row. */
  function SelectAll(sel: seq<string>, rows: seq<CriticalRow>): (r: seq<string>)
    ensures |sel| == |rows| ==> r == []
    ensures |sel| != |rows| ==> |r| == |rows| && forall i :: 0 <= i < |rows| ==> r[i] == rows[i].id
  {
    if |sel| == |rows| then [] else seq(|rows|, i requires 0 <= i < |rows| => rows[i].id)
  }

  // ---------------------------------------------------------------------
  // Audit log

  datatype AuditEntry = AuditEntry(time: string, action: string, user: string)

  const AuditCap := 50

  /** `addAuditLog`: the new entry goes first and the list is cut to 50 entries. */
  function AddLog(logs: seq<AuditEntry>, time: string, action: string): (r: seq<AuditEntry>)
    ensures 1 <= |r| <= AuditCap
    ensures r[0] == AuditEntry(time, action, "Admin")
    ensures |r| == if |logs| < AuditCap then |logs| + 1 else AuditCap
    ensures forall i :: 1 <= i < |r| ==> r[i] == logs[i - 1]
  {
    var all := [AuditEntry(time, action, "Admin")] + logs;
    all[..if |all| < AuditCap then |all| else AuditCap]
  }

  /** The dashboard's state that user actions change. */
  datatype Panel = Panel(sort: SortState, selected: seq<string>, logs: seq<AuditEntry>, season: string)

  function FieldLabel(f: SortField): string {
    match f
    case FarmNameCol => "farmName"
    case FarmerNameCol => "farmerName"
    case ClusterNameCol => "clusterName"
    case RiskCol => "riskLevel"
    case DeclineCol => "yieldDecline"
    case PriorityCol => "priorityScore"
  }

  datatype Event = Sort(f: SortField) | ToggleRow(id: string) | Bulk(action: string) | ChooseSeason(s: string)

  /** One user action, stamped with the clock reading `time`. */
  function Handle(p: Panel, ev: Event, time: string): (q: Panel)
    ensures ev.Bulk? ==> q.selected == []
    ensures !ev.Sort? ==> q.sort == p.sort
    ensures ev.ChooseSeason? ==> q.logs == p.logs
  {
    match ev
    case Sort(f) => p.(sort := HandleSort(p.sort, f), logs := AddLog(p.logs, time, "Sorted critical farms by " + FieldLabel(f)))
    case ToggleRow(id) => p.(selected := Toggle(p.selected, id))
    case Bulk(action) =>
      p.(selected := [], logs := AddLog(p.logs, time, "Bulk action: " + action + " on " + NatToString(|p.selected|) + " cluster(s)"))
    case ChooseSeason(s) => p.(season := s)
  }

  function Run(p: Panel, evs: seq<(Event, string)>): Panel
    decreases |evs|
  {
    if |evs| == 0 then p else Run(Handle(p, evs[0].0, evs[0].1), evs[1..])
  }

  /** However many actions happen, the audit log never holds more than 50 entries. */
  lemma {:induction false} LogStaysCapped(p: Panel, evs: seq<(Event, string)>)
    requires |p.logs| <= AuditCap
    ensures |Run(p, evs).logs| <= AuditCap
    decreases |evs|
  {
    if |evs| > 0 {
      LogStaysCapped(Handle(p, evs[0].0, evs[0].1), evs[1..]);
    }
  }

  /** Selecting rows and then running a bulk action leaves nothing selected and logs the action first. */
  lemma BulkClears(p: Panel, ids: seq<string>, action: string, t: string)
    ensures var q := Run(p, seq(|ids|, i requires 0 <= i < |ids| => (ToggleRow(ids[i]), t)) + [(Bulk(action), t)]);
      q.selected == [] && |q.logs| > 0 && StartsWith(q.logs[0].action, "Bulk action: ")
  {
    var evs := seq(|ids|, i requires 0 <= i < |ids| => (ToggleRow(ids[i]), t)) + [(Bulk(action), t)];
    RunToggles(p, ids, action, t);
  }

  lemma {:induction false} RunToggles(p: Panel, ids: seq<string>, action: string, t: string)
    ensures var q := Run(p, seq(|ids|, i requires 0 <= i < |ids| => (ToggleRow(ids[i]), t)) + [(Bulk(action), t)]);
      q.selected == [] && |q.logs| > 0 && StartsWith(q.logs[0].action, "Bulk action: ")
    decreases |ids|
  {
    var evs := seq(|ids|, i requires 0 <= i < |ids| => (ToggleRow(ids[i]), t)) + [(Bulk(action), t)];
    if |ids| == 0 {
      assert evs == [(Bulk(action), t)];
      var q := Handle(p, Bulk(action), t);
      assert Run(p, evs) == Run(q, []);
      var text := "Bulk action: " + action + " on " + NatToString(|p.selected|) + " cluster(s)";
      assert text[..13] == "Bulk action: ";
      assert q.logs[0].action == text;
    } else {
      var p1 := Handle(p, ToggleRow(ids[0]), t);
      var rest := seq(|ids[1..]|, i requires 0 <= i < |ids[1..]| => (ToggleRow(ids[1..][i]), t)) + [(Bulk(action), t)];
      assert evs[1..] == rest;
      RunToggles(p1, ids[1..], action, t);
    }
  }

  // ---------------------------------------------------------------------
  // Headline percentages (before `toFixed(1)`)

  /** The change from `base` to `value` in percent, 0 without a positive base:
      `yieldDiffPct` (actual against predicted) and `yoyChange` (actual against previous). */
  function PercentChange(value: real, base: real): (r: real)
    ensures base <= 0.0 ==> r == 0.0
  {
    if base > 0.0 then (value - base) / base * 100.0 else 0.0
  }

  predicate OverProduction(actual: real, predicted: real) {
    actual - predicted >= 0.0
  }

  /** With a positive prediction the percentage's sign is the over/under flag,
      and it is -100 exactly when nothing was harvested. */
  lemma DiffAgreesWithFlag(actual: real, predicted: real)
    requires predicted > 0.0
    ensures PercentChange(actual, predicted) >= 0.0 <==> OverProduction(actual, predicted)
    ensures PercentChange(actual, predicted) == -100.0 <==> actual == 0.0
  {
    var d := PercentChange(actual, predicted);
    assert d * predicted == (actual - predicted) * 100.0;
    if d == -100.0 {
      assert -100.0 * predicted == actual * 100.0 - predicted * 100.0;
    }
  }

  /** With a positive previous yield the change is positive exactly when the yield grew. */
  lemma YoySign(actual: real, previous: real)
    requires previous > 0.0
    ensures PercentChange(actual, previous) > 0.0 <==> actual > previous
    ensures PercentChange(actual, previous) == 0.0 <==> actual == previous
  {
    var d := PercentChange(actual, previous);
    assert d * previous == (actual - previous) * 100.0;
  }

  // ---------------------------------------------------------------------
  // Season list

  function Seasons(ts: seq<Trend>): seq<string> {
    seq(|ts|, i requires 0 <= i < |ts| => ts[i].season)
  }

  /** The season dropdown: the non-empty trend seasons, de-duplicated and sorted. */
  function SeasonOptions(ts: seq<Trend>): (r: seq<string>)
    ensures Distinct(r)
    ensures forall i, j :: 0 <= i < j < |r| ==> StrLe(r[i], r[j])
  {
    SortStrings(Dedup(Filter(Seasons(ts), (s: string) => s != "")))
  }

  /** A season is offered exactly when some trend row carries it and it is not empty. */
  lemma SeasonOptionsExactly(ts: seq<Trend>, s: string)
    ensures s in SeasonOptions(ts) <==> s != "" && exists t :: t in ts && t.season == s
  {
    var named := Filter(Seasons(ts), (x: string) => x != "");
    var d := Dedup(named);
    var r := SortStrings(d);
    assert s in r <==> s in multiset(d);
    if s in d {
      var k :| 0 <= k < |d| && d[k] == s;
      assert s in named;
      var m :| 0 <= m < |named| && named[m] == s;
      assert s in Seasons(ts) && s != "";
      var i :| 0 <= i < |ts| && Seasons(ts)[i] == s;
      assert ts[i] in ts && ts[i].season == s;
    }
    if s != "" && exists t :: t in ts && t.season == s {
      var t :| t in ts && t.season == s;
      var i :| 0 <= i < |ts| && ts[i] == t;
      assert Seasons(ts)[i] == s;
      assert s in named;
      var m :| 0 <= m < |named| && named[m] == s;
      assert s in d;
    }
  }
}

=== FILE: analytics.dfy ===
/** The analytics engine behind the admin and farmer dashboards: per-cluster
    enrichment (latest stage row, latest harvest, risk, yield status, yield
    decline), portfolio totals, the season-keyed trend map and the trend
    list, and the farmer's season list. The rows are what the database
    queries return; the queries themselves are not modelled. */
module Analytics {
  import opened Wrappers
  import opened Seqs
  import opened Order
  import opened Js
  import opened Classify

  /** A `cluster_stage_data` row: creation time (milliseconds), season, and the
      two numeric columns the analytics read. Numeric columns are nullable. */
  datatype StageRow = StageRow(
    createdAt: int,
    season: Option<string>,
    preYieldKg: Option<real>,
    predictedYield: Option<real>)

  /** A `harvest_records` row. A null harvest date is the epoch for `new Date(null)`. */
  datatype HarvestRow = HarvestRow(
    clusterId: string,
    season: Option<string>,
    harvestDate: Option<int>,
    yieldKg: Option<real>,
    gradeFine: Option<real>,
    gradePremium: Option<real>,
    gradeCommercial: Option<real>)

  /** A `clusters` row with its embedded stage rows. */
  datatype ClusterRow = ClusterRow(id: string, plantCount: Option<int>, stages: seq<StageRow>)

  /** `parseFloat(x) || 0` on a nullable numeric column. */
  function Num0(x: Option<real>): real {
    x.GetOr(0.0)
  }

  /** `season || 'Unknown'`: a missing or empty season is filed under `Unknown`. */
  function SeasonKey(s: Option<string>): (k: string)
    ensures k != ""
    ensures s.Some? && s.value != "" ==> k == s.value
    ensures s.None? || s.value == "" ==> k == "Unknown"
  {
    if s.Some? && s.value != "" then s.value else "Unknown"
  }

  function HYield(h: HarvestRow): real { Num0(h.yieldKg) }
  function HFine(h: HarvestRow): real { Num0(h.gradeFine) }
  function HPremium(h: HarvestRow): real { Num0(h.gradePremium) }
  function HCommercial(h: HarvestRow): real { Num0(h.gradeCommercial) }
  function SPredicted(r: StageRow): real { Num0(r.predictedYield) }
  function SPrevious(r: StageRow): real { Num0(r.preYieldKg) }
  function HKey(h: HarvestRow): string { SeasonKey(h.season) }
  function SKey(r: StageRow): string { SeasonKey(r.season) }

  /** `new Date(h.actual_harvest_date)` as a number. */
  function HarvestTime(h: HarvestRow): int {
    h.harvestDate.GetOr(0)
  }

  lemma NumKeyLe(a: real, b: real)
    ensures KeyLe([ANum(a)], [ANum(b)]) <==> a <= b
  {
    assert [ANum(a)][1..] == [];
  }

  function StageNewestKey(r: StageRow): seq<Atom> {
    [ANum(-(r.createdAt as real))]
  }

  function HarvestNewestKey(h: HarvestRow): seq<Atom> {
    [ANum(-(HarvestTime(h) as real))]
  }

  /** The stage rows sorted newest first (the in-place sort the engine applies). */
  function StagesNewestFirst(rows: seq<StageRow>): (r: seq<StageRow>)
    ensures multiset(r) == multiset(rows)
    ensures forall i, j :: 0 <= i < j < |r| ==> r[i].createdAt >= r[j].createdAt
  {
    var r := SortBy(rows, StageNewestKey);
    assert forall i, j :: 0 <= i < j < |r| ==> r[i].createdAt >= r[j].createdAt by {
      forall i, j | 0 <= i < j < |r| ensures r[i].createdAt >= r[j].createdAt {
        NumKeyLe(-(r[i].createdAt as real), -(r[j].createdAt as real));
      }
    }
    r
  }

  /** The harvests sorted newest first by harvest date. */
  function HarvestsNewestFirst(hs: seq<HarvestRow>): (r: seq<HarvestRow>)
    ensures multiset(r) == multiset(hs)
    ensures forall i, j :: 0 <= i < j < |r| ==> HarvestTime(r[i]) >= HarvestTime(r[j])
  {
    var r := SortBy(hs, HarvestNewestKey);
    assert forall i, j :: 0 <= i < j < |r| ==> HarvestTime(r[i]) >= HarvestTime(r[j]) by {
      forall i, j | 0 <= i < j < |r| ensures HarvestTime(r[i]) >= HarvestTime(r[j]) {
        NumKeyLe(-(HarvestTime(r[i]) as real), -(HarvestTime(r[j]) as real));
      }
    }
    r
  }

  /** `sorted[0] || {}`: the first element, or nothing for an empty list. */
  function Head<T>(s: seq<T>): Option<T> {
    if |s| == 0 then None else Some(s[0])
  }

  /** The latest stage row: absent for no rows, otherwise a row with the greatest creation time. */
  function LatestStage(rows: seq<StageRow>): (r: Option<StageRow>)
    ensures r.None? <==> |rows| == 0
    ensures r.Some? ==> r.value in rows
    ensures r.Some? ==> forall x :: x in rows ==> x.createdAt <= r.value.createdAt
  {
    var sorted := StagesNewestFirst(rows);
    if |sorted| == 0 then
      assert |rows| == |multiset(rows)| == 0;
      None
    else
      assert sorted[0] in multiset(rows);
      assert forall x :: x in rows ==> x.createdAt <= sorted[0].createdAt by {
        forall x | x in rows ensures x.createdAt <= sorted[0].createdAt {
          assert x in multiset(sorted);
        }
      }
      Head(sorted)
  }

  /** The latest harvest: absent for no harvests, otherwise one with the greatest harvest date. */
  function LatestHarvest(hs: seq<HarvestRow>): (r: Option<HarvestRow>)
    ensures r.None? <==> |hs| == 0
    ensures r.Some? ==> r.value in hs
    ensures r.Some? ==> forall x :: x in hs ==> HarvestTime(x) <= HarvestTime(r.value)
  {
    var sorted := HarvestsNewestFirst(hs);
    if |sorted| == 0 then
      assert |hs| == |multiset(hs)| == 0;
      None
    else
      assert sorted[0] in multiset(hs);
      assert forall x :: x in hs ==> HarvestTime(x) <= HarvestTime(sorted[0]) by {
        forall x | x in hs ensures HarvestTime(x) <= HarvestTime(sorted[0]) {
          assert x in multiset(sorted);
        }
      }
      Head(sorted)
  }

  /** `parseFloat(latestStage.pre_yield_kg) || 0`, with `{}` for no stage read as 0. */
  function PreYield(s: Option<StageRow>): real {
    match s
    case None => 0.0
    case Some(r) => SPrevious(r)
  }

  /** `parseFloat(latestHarvest.yield_kg) || 0`, with `{}` for no harvest read as 0. */
  function LatestYield(h: Option<HarvestRow>): real {
    match h
    case None => 0.0
    case Some(x) => HYield(x)
  }

  /** The yield decline in percent (before `toFixed(1)`): 0 unless the previous
      yield is positive, otherwise the shortfall of the latest harvest against it. */
  function YieldDecline(stage: Option<StageRow>, harvest: Option<HarvestRow>): (d: real)
    ensures PreYield(stage) <= 0.0 ==> d == 0.0
    ensures PreYield(stage) > 0.0 ==> d * PreYield(stage) == (PreYield(stage) - LatestYield(harvest)) * 100.0
    ensures PreYield(stage) > 0.0 && LatestYield(harvest) >= PreYield(stage) ==> d <= 0.0
  {
    var pre := PreYield(stage);
    if pre > 0.0 then
      var d := (pre - LatestYield(harvest)) / pre * 100.0;
      assert d * pre == (pre - LatestYield(harvest)) * 100.0;
      d
    else 0.0
  }

  /** A processed cluster as both dashboards build it (the admin variant has no
      `yieldStatus`; the farm and farmer pass-through fields are not modelled). */
  datatype Enriched = Enriched(
    cluster: ClusterRow,
    latestStage: Option<StageRow>,
    latestHarvest: Option<HarvestRow>,
    allHarvests: seq<HarvestRow>,
    allStageData: seq<StageRow>,
    risk: Risk,
    yieldStatus: YieldStatus,
    yieldDecline: real)

  /** The harvests recorded for cluster `id`, in input order. */
  function ClusterHarvests(hs: seq<HarvestRow>, id: string): seq<HarvestRow> {
    Filter(hs, (h: HarvestRow) => h.clusterId == id)
  }

  /** Enrichment of one cluster. The latest stage depends only on the stage
      rows and the latest harvest only on the cluster's harvests; risk, status
      and decline compare the latest harvest's yield with the latest stage's
      previous yield. */
  function Enrich(c: ClusterRow, hs: seq<HarvestRow>): (e: Enriched)
    ensures e.cluster == c
    ensures multiset(e.allStageData) == multiset(c.stages)
    ensures multiset(e.allHarvests) == multiset(ClusterHarvests(hs, c.id))
    ensures forall h :: h in e.allHarvests ==> h.clusterId == c.id
    ensures e.latestStage == LatestStage(c.stages)
    ensures e.latestHarvest == LatestHarvest(ClusterHarvests(hs, c.id))
    ensures e.risk == RiskOf(LatestYield(e.latestHarvest), PreYield(e.latestStage))
    ensures e.yieldStatus == YieldStatusOf(LatestYield(e.latestHarvest), PreYield(e.latestStage))
    ensures e.yieldDecline == YieldDecline(e.latestStage, e.latestHarvest)
  {
    var stages := StagesNewestFirst(c.stages);
    var own := HarvestsNewestFirst(ClusterHarvests(hs, c.id));
    assert forall h :: h in own ==> h.clusterId == c.id by {
      forall h | h in own ensures h.clusterId == c.id {
        assert h in multiset(ClusterHarvests(hs, c.id));
        var i :| 0 <= i < |ClusterHarvests(hs, c.id)| && ClusterHarvests(hs, c.id)[i] == h;
      }
    }
    var stage := LatestStage(c.stages);
    var harvest := LatestHarvest(ClusterHarvests(hs, c.id));
    Enriched(c, stage, harvest, own, stages,
      RiskOf(LatestYield(harvest), PreYield(stage)),
      YieldStatusOf(LatestYield(harvest), PreYield(stage)),
      YieldDecline(stage, harvest))
  }

  /** Every cluster is kept: one enriched record per input cluster, in order. */
  function EnrichAll(cs: seq<ClusterRow>, hs: seq<HarvestRow>): (es: seq<Enriched>)
    ensures |es| == |cs|
    ensures forall i :: 0 <= i < |cs| ==> es[i] == Enrich(cs[i], hs)
  {
    seq(|cs|, i requires 0 <= i < |cs| => Enrich(cs[i], hs))
  }

  /** A cluster without stage rows is Low risk with priority 1, status N/A and
      no decline, whatever its harvests. */
  lemma NoStageDataIsLowRisk(c: ClusterRow, hs: seq<HarvestRow>)
    requires |c.stages| == 0
    ensures Enrich(c, hs).risk == Risk(Low, 1)
    ensures Enrich(c, hs).yieldStatus == NotAvailable
    ensures Enrich(c, hs).yieldDecline == 0.0
  {
  }

  /** A cluster whose harvest matched or exceeded its previous yield is Low risk. */
  lemma RecoveredClusterIsLowRisk(c: ClusterRow, hs: seq<HarvestRow>)
    requires PreYield(LatestStage(c.stages)) > 0.0
    requires LatestYield(LatestHarvest(ClusterHarvests(hs, c.id))) >= PreYield(LatestStage(c.stages))
    ensures Enrich(c, hs).risk == Risk(Low, 1)
    ensures Enrich(c, hs).yieldDecline <= 0.0
  {
  }

  /** The six running totals of the stats block, before rounding. */
  datatype Totals = Totals(
    yieldKg: real,
    predicted: real,
    previous: real,
    fine: real,
    premium: real,
    commercial: real)

  /** Yield and grades summed over every harvest of every processed cluster;
      predicted and previous yield over every stage row, not only the latest. */
  function TotalsOf(es: seq<Enriched>): Totals {
    Totals(
      Sum(es, (e: Enriched) => Sum(e.allHarvests, HYield)),
      Sum(es, (e: Enriched) => Sum(e.allStageData, SPredicted)),
      Sum(es, (e: Enriched) => Sum(e.allStageData, SPrevious)),
      Sum(es, (e: Enriched) => Sum(e.allHarvests, HFine)),
      Sum(es, (e: Enriched) => Sum(e.allHarvests, HPremium)),
      Sum(es, (e: Enriched) => Sum(e.allHarvests, HCommercial)))
  }

  /** The stage rows of all processed clusters, cluster by cluster. */
  function AllStageRows(es: seq<Enriched>): seq<StageRow> {
    Concat(seq(|es|, i requires 0 <= i < |es| => es[i].allStageData))
  }

  /** Summing a stage column over each cluster's sorted rows is summing it over all stage rows. */
  lemma StageColumnTotal(es: seq<Enriched>, f: StageRow -> real)
    ensures Sum(es, (e: Enriched) => Sum(e.allStageData, f)) == Sum(AllStageRows(es), f)
  {
    var xss := seq(|es|, i requires 0 <= i < |es| => es[i].allStageData);
    var g := (xs: seq<StageRow>) => Sum(xs, f);
    SumConcat(xss, f, g);
    SumMapped(es, xss, (e: Enriched) => e.allStageData, g, (e: Enriched) => Sum(e.allStageData, f));
  }

  /** The per-cluster stage sums of the totals equal the sums over each cluster's own stage rows. */
  lemma StageTotalsIgnoreSorting(cs: seq<ClusterRow>, hs: seq<HarvestRow>, f: StageRow -> real)
    ensures Sum(EnrichAll(cs, hs), (e: Enriched) => Sum(e.allStageData, f))
         == Sum(cs, (c: ClusterRow) => Sum(c.stages, f))
  {
    var es := EnrichAll(cs, hs);
    forall c | c in cs ensures Sum(Enrich(c, hs).allStageData, f) == Sum(c.stages, f) {
      SumPerm(Enrich(c, hs).allStageData, c.stages, f);
    }
    SumMapped(cs, es, (c: ClusterRow) => Enrich(c, hs), (e: Enriched) => Sum(e.allStageData, f),
      (c: ClusterRow) => Sum(Enrich(c, hs).allStageData, f));
    SumExt(cs, (c: ClusterRow) => Sum(Enrich(c, hs).allStageData, f), (c: ClusterRow) => Sum(c.stages, f));
  }

  function ClusterIds(cs: seq<ClusterRow>): (ids: seq<string>)
    ensures |ids| == |cs|
    ensures forall i :: 0 <= i < |cs| ==> ids[i] == cs[i].id
  {
    seq(|cs|, i requires 0 <= i < |cs| => cs[i].id)
  }

  function Cid(h: HarvestRow): string {
    h.clusterId
  }

  /** A cluster's harvest sum is the group sum of its id over all harvests. */
  lemma ClusterHarvestSum(c: ClusterRow, hs: seq<HarvestRow>, f: HarvestRow -> real)
    ensures Sum(Enrich(c, hs).allHarvests, f) == GroupSum(hs, Cid, f, c.id)
  {
    var own := Enrich(c, hs).allHarvests;
    var mine := ClusterHarvests(hs, c.id);
    assert multiset(own) == multiset(mine);
    SumPerm(own, mine, f);
    GroupSumByFilter(hs, Cid, f, c.id, (h: HarvestRow) => h.clusterId == c.id);
  }

  /** When cluster ids are distinct and every harvest names one of them, the
      per-cluster harvest sums of the totals add up to the sum over all harvests:
      no harvest is lost or counted twice. */
  lemma HarvestColumnTotal(cs: seq<ClusterRow>, hs: seq<HarvestRow>, f: HarvestRow -> real)
    requires Distinct(ClusterIds(cs))
    requires forall h :: h in hs ==> h.clusterId in ClusterIds(cs)
    ensures Sum(EnrichAll(cs, hs), (e: Enriched) => Sum(e.allHarvests, f)) == Sum(hs, f)
  {
    var es := EnrichAll(cs, hs);
    var ids := ClusterIds(cs);
    var g := (k: string) => GroupSum(hs, Cid, f, k);
    SumPartition(hs, Cid, f, ids);
    var perCluster := (c: ClusterRow) => Sum(Enrich(c, hs).allHarvests, f);
    SumMapped(cs, es, (c: ClusterRow) => Enrich(c, hs), (e: Enriched) => Sum(e.allHarvests, f), perCluster);
    forall c | c in cs ensures perCluster(c) == g(c.id) {
      ClusterHarvestSum(c, hs, f);
    }
    SumExt(cs, perCluster, (c: ClusterRow) => g(c.id));
    SumMapped(cs, ids, (c: ClusterRow) => c.id, g, (c: ClusterRow) => g(c.id));
  }

  /** The totals, restated over the raw rows. */
  lemma TotalsOverRows(cs: seq<ClusterRow>, hs: seq<HarvestRow>)
    requires Distinct(ClusterIds(cs))
    requires forall h :: h in hs ==> h.clusterId in ClusterIds(cs)
    ensures TotalsOf(EnrichAll(cs, hs)).yieldKg == Sum(hs, HYield)
    ensures TotalsOf(EnrichAll(cs, hs)).fine == Sum(hs, HFine)
    ensures TotalsOf(EnrichAll(cs, hs)).premium == Sum(hs, HPremium)
    ensures TotalsOf(EnrichAll(cs, hs)).commercial == Sum(hs, HCommercial)
    ensures TotalsOf(EnrichAll(cs, hs)).predicted == Sum(cs, (c: ClusterRow) => Sum(c.stages, SPredicted))
    ensures TotalsOf(EnrichAll(cs, hs)).previous == Sum(cs, (c: ClusterRow) => Sum(c.stages, SPrevious))
  {
    HarvestColumnTotal(cs, hs, HYield);
    HarvestColumnTotal(cs, hs, HFine);
    HarvestColumnTotal(cs, hs, HPremium);
    HarvestColumnTotal(cs, hs, HCommercial);
    StageTotalsIgnoreSorting(cs, hs, SPredicted);
    StageTotalsIgnoreSorting(cs, hs, SPrevious);
  }

  /** One season's running values. A bucket first created for a stage row has
      `predicted: 0` and one created for a harvest has none, which `|| 0` reads
      as 0; both are modelled as 0. */
  datatype Bucket = Bucket(
    actual: real,
    fine: real,
    premium: real,
    commercial: real,
    count: nat,
    predicted: real)

  const EmptyBucket := Bucket(0.0, 0.0, 0.0, 0.0, 0, 0.0)

  /** A harvest's amounts added to a bucket, and one more harvest counted. */
  function WithHarvest(b: Bucket, h: HarvestRow): Bucket {
    Bucket(b.actual + HYield(h), b.fine + HFine(h), b.premium + HPremium(h),
      b.commercial + HCommercial(h), b.count + 1, b.predicted)
  }

  /** A stage row's predicted yield added to a bucket. */
  function WithStage(b: Bucket, r: StageRow): Bucket {
    b.(predicted := b.predicted + SPredicted(r))
  }

  /** The season map: its keys in insertion order and the bucket of each key. */
  datatype SeasonMap = SeasonMap(keys: seq<string>, buckets: map<string, Bucket>)

  predicate Valid(sm: SeasonMap) {
    Distinct(sm.keys)
    && (forall k :: k in sm.buckets ==> k in sm.keys)
    && (forall k :: k in sm.keys ==> k in sm.buckets)
  }

  function Lookup(sm: SeasonMap, k: string): Bucket {
    if k in sm.buckets then sm.buckets[k] else EmptyBucket
  }

  /** `if (!seasonMap[season]) seasonMap[season] = {...zeros}`, then `update` applied to that season's bucket. */
  function Update(sm: SeasonMap, k: string, update: Bucket -> Bucket): (r: SeasonMap)
    requires Valid(sm)
    ensures Valid(r)
    ensures forall j :: Lookup(r, j) == if j == k then update(Lookup(sm, k)) else Lookup(sm, j)
    ensures Elems(r.keys) == Elems(sm.keys) + {k}
  {
    var keys := if k in sm.buckets then sm.keys else sm.keys + [k];
    assert Distinct(keys);
    SeasonMap(keys, sm.buckets[k := update(Lookup(sm, k))])
  }

  function Elems<T>(s: seq<T>): set<T> {
    set x | x in s
  }

  function AddHarvests(sm: SeasonMap, hs: seq<HarvestRow>): (r: SeasonMap)
    requires Valid(sm)
    ensures Valid(r)
    decreases |hs|
  {
    if |hs| == 0 then sm
    else
      var h := hs[|hs| - 1];
      Update(AddHarvests(sm, hs[..|hs| - 1]), HKey(h), (b: Bucket) => WithHarvest(b, h))
  }

  function AddStages(sm: SeasonMap, rows: seq<StageRow>): (r: SeasonMap)
    requires Valid(sm)
    ensures Valid(r)
    decreases |rows|
  {
    if |rows| == 0 then sm
    else
      var row := rows[|rows| - 1];
      Update(AddStages(sm, rows[..|rows| - 1]), SKey(row), (b: Bucket) => WithStage(b, row))
  }

  /** The season map: every harvest first, then every stage row. */
  function BuildSeasonMap(hs: seq<HarvestRow>, rows: seq<StageRow>): (sm: SeasonMap)
    ensures Valid(sm)
  {
    AddStages(AddHarvests(SeasonMap([], map[]), hs), rows)
  }

  /** The seasons the harvests are filed under. */
  function HarvestSeasons(hs: seq<HarvestRow>): set<string> {
    set h | h in hs :: HKey(h)
  }

  /** The seasons the stage rows are filed under. */
  function StageSeasons(rows: seq<StageRow>): set<string> {
    set r | r in rows :: SKey(r)
  }

  /** Reference definition of a season's bucket: each column is the sum over
      the harvests (or stage rows) filed under that season. */
  function RefBucket(hs: seq<HarvestRow>, rows: seq<StageRow>, k: string): Bucket {
    Bucket(
      GroupSum(hs, HKey, HYield, k),
      GroupSum(hs, HKey, HFine, k),
      GroupSum(hs, HKey, HPremium, k),
      GroupSum(hs, HKey, HCommercial, k),
      GroupCount(hs, HKey, k),
      GroupSum(rows, SKey, SPredicted, k))
  }

  /** The reference bucket gains the last harvest's amounts in its own season only. */
  lemma RefBucketLastHarvest(hs: seq<HarvestRow>, k: string)
    requires |hs| > 0
    ensures RefBucket(hs, [], k)
         == if HKey(hs[|hs| - 1]) == k then WithHarvest(RefBucket(hs[..|hs| - 1], [], k), hs[|hs| - 1])
            else RefBucket(hs[..|hs| - 1], [], k)
  {
    GroupSumLast(hs, HKey, HYield, k);
    GroupSumLast(hs, HKey, HFine, k);
    GroupSumLast(hs, HKey, HPremium, k);
    GroupSumLast(hs, HKey, HCommercial, k);
    GroupCountLast(hs, HKey, k);
  }

  lemma SeasonsLast<T>(xs: seq<T>, key: T -> string)
    requires |xs| > 0
    ensures (set x | x in xs :: key(x)) == (set x | x in xs[..|xs| - 1] :: key(x)) + {key(xs[|xs| - 1])}
  {
    assert xs == xs[..|xs| - 1] + [xs[|xs| - 1]];
  }

  lemma {:induction false} AddHarvestsLookup(hs: seq<HarvestRow>)
    ensures forall k :: Lookup(AddHarvests(SeasonMap([], map[]), hs), k) == RefBucket(hs, [], k)
    decreases |hs|
  {
    if |hs| == 0 {
      forall k ensures EmptyBucket == RefBucket(hs, [], k) {
        assert Filter(hs, (x: HarvestRow) => HKey(x) == k) == [];
      }
    } else {
      AddHarvestsLookup(hs[..|hs| - 1]);
      forall k ensures Lookup(AddHarvests(SeasonMap([], map[]), hs), k) == RefBucket(hs, [], k) {
        RefBucketLastHarvest(hs, k);
      }
    }
  }

  lemma {:induction false} AddHarvestsKeys(hs: seq<HarvestRow>)
    ensures Elems(AddHarvests(SeasonMap([], map[]), hs).keys) == HarvestSeasons(hs)
    decreases |hs|
  {
    var e := SeasonMap([], map[]);
    if |hs| == 0 {
      assert Elems(e.keys) == {};
    } else {
      var h := hs[|hs| - 1];
      var prev := AddHarvests(e, hs[..|hs| - 1]);
      AddHarvestsKeys(hs[..|hs| - 1]);
      assert AddHarvests(e, hs) == Update(prev, HKey(h), (b: Bucket) => WithHarvest(b, h));
      SeasonsLast(hs, HKey);
    }
  }

  lemma {:induction false} AddStagesLookup(sm: SeasonMap, rows: seq<StageRow>)
    requires Valid(sm)
    ensures forall k :: Lookup(AddStages(sm, rows), k)
                     == Lookup(sm, k).(predicted := Lookup(sm, k).predicted + GroupSum(rows, SKey, SPredicted, k))
    decreases |rows|
  {
    if |rows| == 0 {
      forall k ensures GroupSum(rows, SKey, SPredicted, k) == 0.0 {
        assert Filter(rows, (x: StageRow) => SKey(x) == k) == [];
      }
    } else {
      AddStagesLookup(sm, rows[..|rows| - 1]);
      forall k ensures Lookup(AddStages(sm, rows), k)
                     == Lookup(sm, k).(predicted := Lookup(sm, k).predicted + GroupSum(rows, SKey, SPredicted, k))
      {
        GroupSumLast(rows, SKey, SPredicted, k);
      }
    }
  }

  lemma {:induction false} AddStagesKeys(sm: SeasonMap, rows: seq<StageRow>)
    requires Valid(sm)
    ensures Elems(AddStages(sm, rows).keys) == Elems(sm.keys) + StageSeasons(rows)
    decreases |rows|
  {
    if |rows| == 0 {
      assert StageSeasons(rows) == {};
    } else {
      var init := rows[..|rows| - 1];
      AddStagesKeys(sm, init);
      AddStagesStep(sm, rows);
      SeasonsLast(rows, SKey);
      SetStep(Elems(AddStages(sm, rows).keys), Elems(AddStages(sm, init).keys), Elems(sm.keys),
        StageSeasons(rows), StageSeasons(init), SKey(rows[|rows| - 1]));
    }
  }

  lemma AddStagesStep(sm: SeasonMap, rows: seq<StageRow>)
    requires Valid(sm) && |rows| > 0
    ensures Elems(AddStages(sm, rows).keys) == Elems(AddStages(sm, rows[..|rows| - 1]).keys) + {SKey(rows[|rows| - 1])}
  {
  }

  lemma SetStep<T>(a: set<T>, p: set<T>, e: set<T>, s: set<T>, s': set<T>, k: T)
    requires a == p + {k} && p == e + s' && s == s' + {k}
    ensures a == e + s
  {
  }

  /** The season map agrees with the reference: each season's bucket holds the
      sums over exactly the harvests and stage rows filed under it, and the
      keys are exactly the seasons that occur. */
  lemma SeasonMapMatchesReference(hs: seq<HarvestRow>, rows: seq<StageRow>)
    ensures forall k :: Lookup(BuildSeasonMap(hs, rows), k) == RefBucket(hs, rows, k)
    ensures Elems(BuildSeasonMap(hs, rows).keys) == HarvestSeasons(hs) + StageSeasons(rows)
  {
    var sm := AddHarvests(SeasonMap([], map[]), hs);
    AddHarvestsLookup(hs);
    AddHarvestsKeys(hs);
    AddStagesLookup(sm, rows);
    AddStagesKeys(sm, rows);
    forall k ensures GroupSum([], SKey, SPredicted, k) == 0.0 {
      assert Filter([], (x: StageRow) => SKey(x) == k) == [];
    }
  }

  /** One row of the trend list. Amounts are rounded with `Math.round`. */
  datatype Trend = Trend(
    season: string,
    actual: int,
    predicted: int,
    fine: int,
    premium: int,
    commercial: int,
    avgYield: int)

  lemma ScaleBounds(lo: real, q: real, hi: real, n: real)
    requires n > 0.0 && lo <= q < hi
    ensures lo * n <= q * n < hi * n
  {
  }

  /** The trend row of one season: each amount rounded, and the average yield
      per harvest, or 0 for a season with no harvest. */
  function TrendOf(k: string, b: Bucket): (t: Trend)
    ensures t.season == k
    ensures b.count == 0 ==> t.avgYield == 0
    ensures b.count > 0 ==>
      (t.avgYield as real - 0.5) * (b.count as real) <= b.actual
      && b.actual < (t.avgYield as real + 0.5) * (b.count as real)
    ensures b.predicted - 0.5 < t.predicted as real <= b.predicted + 0.5
    ensures b.actual - 0.5 < t.actual as real <= b.actual + 0.5
    ensures b.fine - 0.5 < t.fine as real <= b.fine + 0.5
    ensures b.premium - 0.5 < t.premium as real <= b.premium + 0.5
    ensures b.commercial - 0.5 < t.commercial as real <= b.commercial + 0.5
  {
    if b.count > 0 then
      var n := b.count as real;
      var q := b.actual / n;
      var avg := Round(q);
      ScaleBounds(avg as real - 0.5, q, avg as real + 0.5, n);
      assert q * n == b.actual;
      Trend(k, Round(b.actual), Round(b.predicted), Round(b.fine), Round(b.premium), Round(b.commercial), avg)
    else
      Trend(k, Round(b.actual), Round(b.predicted), Round(b.fine), Round(b.premium), Round(b.commercial), 0)
  }

  /** The trend list: the map's seasons in ascending order, each with its trend row. */
  function Trends(sm: SeasonMap): (ts: seq<Trend>)
    requires Valid(sm)
    ensures |ts| == |sm.keys|
    ensures forall i :: 0 <= i < |ts| ==> ts[i].season == SortStrings(sm.keys)[i]
    ensures forall i :: 0 <= i < |ts| ==> ts[i] == TrendOf(ts[i].season, Lookup(sm, ts[i].season))
  {
    var ks := SortStrings(sm.keys);
    assert |ks| == |multiset(ks)| == |multiset(sm.keys)| == |sm.keys|;
    seq(|ks|, i requires 0 <= i < |ks| => TrendOf(ks[i], Lookup(sm, ks[i])))
  }

  /** The trend list has one row per season of the map, in strictly ascending season order. */
  lemma TrendSeasons(sm: SeasonMap)
    requires Valid(sm)
    ensures forall i, j :: 0 <= i < j < |Trends(sm)| ==>
      StrLe(Trends(sm)[i].season, Trends(sm)[j].season) && Trends(sm)[i].season != Trends(sm)[j].season
    ensures forall i :: 0 <= i < |Trends(sm)| ==> Trends(sm)[i].season in sm.keys
    ensures forall k :: k in sm.keys ==> exists i :: 0 <= i < |Trends(sm)| && Trends(sm)[i].season == k
  {
    var ts := Trends(sm);
    var ks := SortStrings(sm.keys);
    forall i | 0 <= i < |ts| ensures ts[i].season in sm.keys {
      assert ks[i] in multiset(sm.keys);
    }
    forall k | k in sm.keys ensures exists i :: 0 <= i < |ts| && ts[i].season == k {
      assert k in multiset(ks);
      var i :| 0 <= i < |ks| && ks[i] == k;
      assert ts[i].season == k;
    }
  }

  function BPredicted(b: Bucket): real { b.predicted }
  function BActual(b: Bucket): real { b.actual }

  /** One bucket column summed over the trend list, before rounding. */
  function TrendTotal(sm: SeasonMap, col: Bucket -> real): real
    requires Valid(sm)
  {
    Sum(Trends(sm), (t: Trend) => col(Lookup(sm, t.season)))
  }

  /** One bucket column summed over the map's keys. */
  function KeyTotal(sm: SeasonMap, col: Bucket -> real): real {
    Sum(sm.keys, (k: string) => col(Lookup(sm, k)))
  }

  /** A key total is the sum of any function that agrees with the column on every key. */
  lemma KeyTotalIs(sm: SeasonMap, col: Bucket -> real, ref: string -> real)
    requires forall k :: k in sm.keys ==> col(Lookup(sm, k)) == ref(k)
    ensures KeyTotal(sm, col) == Sum(sm.keys, ref)
  {
    SumExt(sm.keys, (k: string) => col(Lookup(sm, k)), ref);
  }

  /** Summing a bucket column over the trend list is summing it over the map's keys. */
  lemma TrendColumn(sm: SeasonMap, col: Bucket -> real)
    requires Valid(sm)
    ensures TrendTotal(sm, col) == KeyTotal(sm, col)
  {
    var ks := SortStrings(sm.keys);
    var g := (k: string) => col(Lookup(sm, k));
    SumMapped(ks, Trends(sm), (k: string) => TrendOf(k, Lookup(sm, k)), (t: Trend) => col(Lookup(sm, t.season)), g);
    SumPerm(ks, sm.keys, g);
  }

  /** Before rounding, the trend list's predicted amounts add up to the
      predicted yield of every stage row. */
  lemma TrendPredictedSum(hs: seq<HarvestRow>, rows: seq<StageRow>)
    ensures TrendTotal(BuildSeasonMap(hs, rows), BPredicted) == Sum(rows, SPredicted)
  {
    var sm := BuildSeasonMap(hs, rows);
    SeasonMapMatchesReference(hs, rows);
    forall r | r in rows ensures SKey(r) in sm.keys {
      assert SKey(r) in StageSeasons(rows);
      assert SKey(r) in Elems(sm.keys);
    }
    var ref := (k: string) => GroupSum(rows, SKey, SPredicted, k);
    TrendColumn(sm, BPredicted);
    forall k | k in sm.keys ensures BPredicted(Lookup(sm, k)) == ref(k) {
      assert Lookup(sm, k) == RefBucket(hs, rows, k);
    }
    KeyTotalIs(sm, BPredicted, ref);
    SumPartition(rows, SKey, SPredicted, sm.keys);
    assert Sum(sm.keys, ref) == Sum(rows, SPredicted);
  }

  /** Before rounding, the trend list's actual amounts add up to the yield of every harvest. */
  lemma TrendActualSum(hs: seq<HarvestRow>, rows: seq<StageRow>)
    ensures TrendTotal(BuildSeasonMap(hs, rows), BActual) == Sum(hs, HYield)
  {
    var sm := BuildSeasonMap(hs, rows);
    SeasonMapMatchesReference(hs, rows);
    forall h | h in hs ensures HKey(h) in sm.keys {
      assert HKey(h) in HarvestSeasons(hs);
      assert HKey(h) in Elems(sm.keys);
    }
    var ref := (k: string) => GroupSum(hs, HKey, HYield, k);
    TrendColumn(sm, BActual);
    forall k | k in sm.keys ensures BActual(Lookup(sm, k)) == ref(k) {
      assert Lookup(sm, k) == RefBucket(hs, rows, k);
    }
    KeyTotalIs(sm, BActual, ref);
    SumPartition(hs, HKey, HYield, sm.keys);
    assert Sum(sm.keys, ref) == Sum(hs, HYield);
  }

  /** The dashboard's season map is built from all harvests and the stage rows of the processed clusters. */
  function DashboardSeasonMap(cs: seq<ClusterRow>, hs: seq<HarvestRow>): (sm: SeasonMap)
    ensures Valid(sm)
  {
    BuildSeasonMap(hs, AllStageRows(EnrichAll(cs, hs)))
  }

  /** Before rounding, the trend list's predicted total equals the stats
      block's predicted total; its actual total equals the stats block's when
      every harvest belongs to exactly one listed cluster. */
  lemma TrendsAgreeWithTotals(cs: seq<ClusterRow>, hs: seq<HarvestRow>)
    ensures TrendTotal(DashboardSeasonMap(cs, hs), BPredicted) == TotalsOf(EnrichAll(cs, hs)).predicted
    ensures Distinct(ClusterIds(cs)) && (forall h :: h in hs ==> h.clusterId in ClusterIds(cs)) ==>
      TrendTotal(DashboardSeasonMap(cs, hs), BActual) == TotalsOf(EnrichAll(cs, hs)).yieldKg
  {
    var es := EnrichAll(cs, hs);
    TrendPredictedSum(hs, AllStageRows(es));
    TrendActualSum(hs, AllStageRows(es));
    StageColumnTotal(es, SPredicted);
    if Distinct(ClusterIds(cs)) && (forall h :: h in hs ==> h.clusterId in ClusterIds(cs)) {
      HarvestColumnTotal(cs, hs, HYield);
    }
  }

  /** The stats block: cluster count, tree count and the rounded totals. */
  datatype Stats = Stats(
    totalClusters: nat,
    totalTrees: int,
    actualYield: int,
    predictedYield: int,
    previousYield: int,
    gradeFine: int,
    gradePremium: int,
    gradeCommercial: int)

  /** `c.plant_count || 0` summed over the clusters. */
  function TreeTotal(cs: seq<ClusterRow>): (n: int)
    ensures (forall c :: c in cs ==> c.plantCount.GetOr(0) >= 0) ==> n >= 0
    decreases |cs|
  {
    if |cs| == 0 then 0 else TreeTotal(cs[..|cs| - 1]) + cs[|cs| - 1].plantCount.GetOr(0)
  }

  lemma {:induction false} TreeTotalAppend(a: seq<ClusterRow>, b: seq<ClusterRow>)
    ensures TreeTotal(a + b) == TreeTotal(a) + TreeTotal(b)
    decreases |b|
  {
    if |b| == 0 {
      assert a + b == a;
    } else {
      assert (a + b)[..|a + b| - 1] == a + b[..|b| - 1];
      TreeTotalAppend(a, b[..|b| - 1]);
    }
  }

  /** The farmer's stats block. */
  function FarmerStats(cs: seq<ClusterRow>, hs: seq<HarvestRow>): (s: Stats)
    ensures s.totalClusters == |cs|
    ensures s.totalTrees == TreeTotal(cs)
    ensures var t := TotalsOf(EnrichAll(cs, hs));
      t.yieldKg - 0.5 < s.actualYield as real <= t.yieldKg + 0.5
      && t.predicted - 0.5 < s.predictedYield as real <= t.predicted + 0.5
      && t.previous - 0.5 < s.previousYield as real <= t.previous + 0.5
    ensures var t := TotalsOf(EnrichAll(cs, hs));
      t.fine - 0.5 < s.gradeFine as real <= t.fine + 0.5
      && t.premium - 0.5 < s.gradePremium as real <= t.premium + 0.5
      && t.commercial - 0.5 < s.gradeCommercial as real <= t.commercial + 0.5
  {
    var t := TotalsOf(EnrichAll(cs, hs));
    Stats(|cs|, TreeTotal(cs), Round(t.yieldKg), Round(t.predicted), Round(t.previous),
      Round(t.fine), Round(t.premium), Round(t.commercial))
  }

  /** The truthy `season` values of the given stage rows, in order. */
  function TruthySeasons(rows: seq<StageRow>): (ss: seq<string>)
    ensures forall i :: 0 <= i < |ss| ==> exists j :: 0 <= j < |rows| && rows[j].season == Some(ss[i]) && ss[i] != ""
    decreases |rows|
  {
    if |rows| == 0 then []
    else
      var pre := TruthySeasons(rows[..|rows| - 1]);
      var r := rows[|rows| - 1];
      assert forall i :: 0 <= i < |pre| ==> exists j :: 0 <= j < |rows| && rows[j].season == Some(pre[i]) && pre[i] != "" by {
        forall i | 0 <= i < |pre| ensures exists j :: 0 <= j < |rows| && rows[j].season == Some(pre[i]) && pre[i] != "" {
          var j :| 0 <= j < |rows| - 1 && rows[..|rows| - 1][j].season == Some(pre[i]) && pre[i] != "";
          assert rows[j].season == Some(pre[i]);
        }
      }
      if r.season.Some? && r.season.value != "" then pre + [r.season.value] else pre
  }

  /** The farmer's season list: the map's keys together with every truthy stage
      season, de-duplicated and sorted. */
  function FarmerSeasons(sm: SeasonMap, es: seq<Enriched>): seq<string> {
    SortStrings(Dedup(sm.keys + TruthySeasons(AllStageRows(es))))
  }

  /** Every stage row's season is a key of the season map. */
  lemma StageSeasonsAreKeys(hs: seq<HarvestRow>, rows: seq<StageRow>)
    ensures forall r :: r in rows ==> SKey(r) in BuildSeasonMap(hs, rows).keys
  {
    SeasonMapMatchesReference(hs, rows);
    var sm := BuildSeasonMap(hs, rows);
    forall r | r in rows ensures SKey(r) in sm.keys {
      assert SKey(r) in StageSeasons(rows);
      assert SKey(r) in Elems(sm.keys);
    }
  }

  /** When every stage row's season is a key, the farmer's season list is the sorted key list. */
  lemma FarmerSeasonsCovered(sm: SeasonMap, es: seq<Enriched>)
    requires Valid(sm)
    requires forall r :: r in AllStageRows(es) ==> SKey(r) in sm.keys
    ensures FarmerSeasons(sm, es) == SortStrings(sm.keys)
  {
    var rows := AllStageRows(es);
    var extra := TruthySeasons(rows);
    forall i | 0 <= i < |extra| ensures extra[i] in sm.keys {
      var j :| 0 <= j < |rows| && rows[j].season == Some(extra[i]) && extra[i] != "";
      assert SKey(rows[j]) == extra[i];
    }
    DedupAppendCovered(sm.keys, extra);
  }

  /** The farmer's season list holds exactly the trend list's seasons, each
      once. The order agrees only because `localeCompare` is modelled by
      code-unit order, which is what the list's plain `.sort()` uses. */
  lemma FarmerSeasonsAreTrendSeasons(cs: seq<ClusterRow>, hs: seq<HarvestRow>)
    ensures var sm := DashboardSeasonMap(cs, hs);
      var ss := FarmerSeasons(sm, EnrichAll(cs, hs));
      (forall x :: x in ss <==> exists i :: 0 <= i < |Trends(sm)| && Trends(sm)[i].season == x)
      && (forall i, j :: 0 <= i < j < |ss| ==> ss[i] != ss[j])
      && (forall i, j :: 0 <= i < j < |Trends(sm)| ==> Trends(sm)[i].season != Trends(sm)[j].season)
    ensures var sm := DashboardSeasonMap(cs, hs);
      var ss := FarmerSeasons(sm, EnrichAll(cs, hs));
      |ss| == |Trends(sm)| && forall i :: 0 <= i < |ss| ==> ss[i] == Trends(sm)[i].season
  {
    var es := EnrichAll(cs, hs);
    var rows := AllStageRows(es);
    var sm := DashboardSeasonMap(cs, hs);
    assert sm == BuildSeasonMap(hs, rows);
    StageSeasonsAreKeys(hs, rows);
    FarmerSeasonsCovered(sm, es);
    TrendSeasons(sm);
    SameSeasons(FarmerSeasons(sm, es), Trends(sm));
  }

  /** A season list that matches a trend list position by position, when the
      trend seasons are distinct, holds the same seasons without repeats. */
  lemma SameSeasons(ss: seq<string>, ts: seq<Trend>)
    requires |ss| == |ts| && forall i :: 0 <= i < |ss| ==> ss[i] == ts[i].season
    requires forall i, j :: 0 <= i < j < |ts| ==> ts[i].season != ts[j].season
    ensures forall x :: x in ss <==> exists i :: 0 <= i < |ts| && ts[i].season == x
    ensures forall i, j :: 0 <= i < j < |ss| ==> ss[i] != ss[j]
  {
    forall x ensures x in ss <==> exists i :: 0 <= i < |ts| && ts[i].season == x {
      if x in ss {
        var i :| 0 <= i < |ss| && ss[i] == x;
        assert ts[i].season == x;
      }
    }
  }
}

=== FILE: analytics_page.dfy ===
/** The farmer analytics page's derivations from the service's processed
    clusters: the yield-status buckets and drop rate, the fine-grade share,
    the grade donut and the per-cluster yield history table. */
module AnalyticsPage {
  import opened Wrappers
  import opened Js
  import opened Seqs
  import opened Order
  import opened Classify
  import opened Analytics

  /** A harvest as the page reads it: season, harvest-date text and the
      numeric columns (already `parseFloat(x) || 0`-ready). */
  datatype PageHarvest = PageHarvest(
    season: Option<string>,
    date: Option<string>,
    yieldKg: Option<real>,
    gradeFine: Option<real>,
    gradePremium: Option<real>,
    gradeCommercial: Option<real>)

  /** A processed cluster as the page reads it. `previous` is
      `previousHarvestYield || 0`. */
  datatype PageCluster = PageCluster(
    id: string,
    name: string,
    harvests: seq<PageHarvest>,
    latestYield: real,
    previous: real)

  /** The service's cluster record carries no `previousHarvestYield`, so the page reads 0. */
  function FromService(e: Enriched, name: string, harvests: seq<PageHarvest>): (c: PageCluster)
    ensures c.previous == 0.0 && c.latestYield == LatestYield(e.latestHarvest)
  {
    PageCluster(e.cluster.id, name, harvests, LatestYield(e.latestHarvest), 0.0)
  }

  // ---------------------------------------------------------------------
  // Yield-status buckets

  datatype Buckets = Buckets(critical: nat, moderate: nat, stable: nat, improvement: nat)

  datatype Tally = Tally(buckets: Buckets, withPrevious: nat, drops: nat)

  function BucketTotal(b: Buckets): nat {
    b.critical + b.moderate + b.stable + b.improvement
  }

  function Bump(b: Buckets, s: YieldStatus): Buckets {
    match s
    case CriticalDrop => b.(critical := b.critical + 1)
    case ModerateDrop => b.(moderate := b.moderate + 1)
    case Stable => b.(stable := b.stable + 1)
    case Improvement => b.(improvement := b.improvement + 1)
    case NotAvailable => b
  }

  predicate HasPrevious(c: PageCluster) {
    c.previous > 0.0
  }

  /** The drop test: more than five percent below the previous yield. */
  predicate IsDrop(c: PageCluster) {
    c.previous > 0.0 && c.latestYield < c.previous * 0.95
  }

  function TallyStep(t: Tally, c: PageCluster): Tally {
    if c.previous > 0.0 then
      Tally(Bump(t.buckets, YieldStatusOf(c.latestYield, c.previous)),
            t.withPrevious + 1,
            if c.latestYield < c.previous * 0.95 then t.drops + 1 else t.drops)
    else t
  }

  /** The page's `forEach` over the clusters. */
  function TallyAll(cs: seq<PageCluster>): Tally
    decreases |cs|
  {
    if |cs| == 0 then Tally(Buckets(0, 0, 0, 0), 0, 0)
    else TallyStep(TallyAll(cs[..|cs| - 1]), cs[|cs| - 1])
  }

  /** Only clusters with a positive previous yield are counted, each in exactly
      one bucket; the drops are counted among them and are all Critical or
      Moderate. */
  lemma {:induction false} TallyCounts(cs: seq<PageCluster>)
    ensures var t := TallyAll(cs);
      BucketTotal(t.buckets) == t.withPrevious == Count(cs, HasPrevious)
      && t.drops == Count(cs, IsDrop)
      && t.drops <= t.buckets.critical + t.buckets.moderate
    decreases |cs|
  {
    if |cs| > 0 {
      var init := cs[..|cs| - 1];
      var c := cs[|cs| - 1];
      TallyCounts(init);
      if c.previous > 0.0 {
        var s := YieldStatusOf(c.latestYield, c.previous);
        assert s != NotAvailable;
        if c.latestYield < c.previous * 0.95 {
          assert s == CriticalDrop || s == ModerateDrop;
        }
      }
    }
  }

  /** With the service's records every bucket stays empty and the drop rate is 0. */
  lemma {:induction false} ServiceBucketsEmpty(cs: seq<PageCluster>)
    requires forall i :: 0 <= i < |cs| ==> cs[i].previous == 0.0
    ensures TallyAll(cs) == Tally(Buckets(0, 0, 0, 0), 0, 0)
    ensures DropRate(TallyAll(cs)) == 0.0
    decreases |cs|
  {
    if |cs| > 0 {
      ServiceBucketsEmpty(cs[..|cs| - 1]);
    }
  }

  /** `yieldDropRate` before `toFixed(1)`: the drop share of the counted clusters, in percent. */
  function DropRate(t: Tally): (r: real)
    ensures t.withPrevious == 0 ==> r == 0.0
  {
    if t.withPrevious > 0 then t.drops as real / t.withPrevious as real * 100.0 else 0.0
  }

  /** The drop rate of the page's tally is a percentage. */
  lemma DropRateBounds(cs: seq<PageCluster>)
    ensures 0.0 <= DropRate(TallyAll(cs)) <= 100.0
  {
    var t := TallyAll(cs);
    TallyCounts(cs);
    if t.withPrevious > 0 {
      PercentBounds(t.drops as real, t.withPrevious as real);
    }
  }

  lemma PercentBounds(a: real, b: real)
    requires 0.0 <= a <= b && b > 0.0
    ensures 0.0 <= a / b * 100.0 <= 100.0
  {
    assert a / b <= 1.0;
  }

  // ---------------------------------------------------------------------
  // Grade totals

  function PYield(h: PageHarvest): real { Num0(h.yieldKg) }
  function PFine(h: PageHarvest): real { Num0(h.gradeFine) }
  function PPremium(h: PageHarvest): real { Num0(h.gradePremium) }
  function PCommercial(h: PageHarvest): real { Num0(h.gradeCommercial) }

  /** A column summed over every harvest of every cluster. */
  function PageTotal(cs: seq<PageCluster>, f: PageHarvest -> real): real {
    Sum(cs, (c: PageCluster) => Sum(c.harvests, f))
  }

  /** Summing cluster by cluster is summing over all harvests at once. */
  lemma PageTotalFlat(cs: seq<PageCluster>, f: PageHarvest -> real)
    ensures PageTotal(cs, f) == Sum(Concat(seq(|cs|, i requires 0 <= i < |cs| => cs[i].harvests)), f)
  {
    var xss := seq(|cs|, i requires 0 <= i < |cs| => cs[i].harvests);
    var g := (hs: seq<PageHarvest>) => Sum(hs, f);
    SumConcat(xss, f, g);
    SumMapped(cs, xss, (c: PageCluster) => c.harvests, g, (c: PageCluster) => Sum(c.harvests, f));
  }

  /** `avgFinePct` before `toFixed(1)`: fine as a share of all graded weight. */
  function FineShare(fine: real, premium: real, commercial: real): (r: real)
    ensures fine + premium + commercial <= 0.0 ==> r == 0.0
  {
    var total := fine + premium + commercial;
    if total > 0.0 then fine / total * 100.0 else 0.0
  }

  /** With non-negative grades the fine share is a percentage, and 100 exactly when only fine beans were graded. */
  lemma FineShareBounds(fine: real, premium: real, commercial: real)
    requires fine >= 0.0 && premium >= 0.0 && commercial >= 0.0 && fine + premium + commercial > 0.0
    ensures 0.0 <= FineShare(fine, premium, commercial) <= 100.0
    ensures FineShare(fine, premium, commercial) == 100.0 <==> premium + commercial == 0.0
  {
    var total := fine + premium + commercial;
    var r := FineShare(fine, premium, commercial);
    assert fine / total <= 1.0;
    assert r * total == fine * 100.0;
  }

  datatype GradeSlice = GradeSlice(name: string, value: int)

  /** The donut: the rounded grade totals, keeping only the positive ones, in Fine, Premium, Commercial order. */
  function GradeDistribution(fine: real, premium: real, commercial: real): (r: seq<GradeSlice>)
    ensures |r| <= 3
    ensures forall i :: 0 <= i < |r| ==> r[i].value > 0
  {
    Filter([GradeSlice("Fine", Round(fine)), GradeSlice("Premium", Round(premium)), GradeSlice("Commercial", Round(commercial))],
      (g: GradeSlice) => g.value > 0)
  }

  /** A grade is shown exactly when its weight rounds to a positive number of kilograms. */
  lemma GradeShown(fine: real, premium: real, commercial: real)
    ensures GradeSlice("Fine", Round(fine)) in GradeDistribution(fine, premium, commercial) <==> Round(fine) > 0
    ensures GradeSlice("Premium", Round(premium)) in GradeDistribution(fine, premium, commercial) <==> Round(premium) > 0
    ensures GradeSlice("Commercial", Round(commercial)) in GradeDistribution(fine, premium, commercial) <==> Round(commercial) > 0
  {
    var all := [GradeSlice("Fine", Round(fine)), GradeSlice("Premium", Round(premium)), GradeSlice("Commercial", Round(commercial))];
    assert all[0].name == "Fine" && all[1].name == "Premium" && all[2].name == "Commercial";
    assert "Fine" != "Premium" && "Fine" != "Commercial" && "Premium" != "Commercial";
  }

  // ---------------------------------------------------------------------
  // Yield history

  /** `slice(0, 7)`: the first seven characters, or the whole text when shorter. */
  function Take7(s: string): (r: string)
    ensures |r| == if |s| < 7 then |s| else 7
    ensures r == s[..|r|]
  {
    if |s| < 7 then s else s[..7]
  }

  /** A harvest's history key: its season, else the year-month of its date, else `Unknown`. */
  function HistKey(h: PageHarvest): (k: string)
    ensures k != ""
    ensures h.season.Some? && h.season.value != "" ==> k == h.season.value
  {
    if h.season.Some? && h.season.value != "" then h.season.value
    else if h.date.Some? && Take7(h.date.value) != "" then Take7(h.date.value)
    else "Unknown"
  }

  function Keys(hs: seq<PageHarvest>): seq<string> {
    seq(|hs|, i requires 0 <= i < |hs| => HistKey(hs[i]))
  }

  function AllKeys(cs: seq<PageCluster>): seq<string> {
    Concat(seq(|cs|, i requires 0 <= i < |cs| => Keys(cs[i].harvests)))
  }

  /** The history rows' seasons: every key once, in ascending order. */
  function HistorySeasons(cs: seq<PageCluster>): (r: seq<string>)
    ensures Distinct(r)
    ensures forall i, j :: 0 <= i < j < |r| ==> StrLe(r[i], r[j])
  {
    SortStrings(Dedup(AllKeys(cs)))
  }

  /** A season has a history row exactly when some harvest of some cluster carries that key. */
  lemma HistorySeasonsExactly(cs: seq<PageCluster>, k: string)
    ensures k in HistorySeasons(cs) <==> exists c, h :: c in cs && h in c.harvests && HistKey(h) == k
  {
    var all := AllKeys(cs);
    var xss := seq(|cs|, i requires 0 <= i < |cs| => Keys(cs[i].harvests));
    var d := Dedup(all);
    assert k in HistorySeasons(cs) <==> k in multiset(d);
    if k in d {
      var m :| 0 <= m < |d| && d[m] == k;
      assert k in all;
      ConcatMember(xss, k);
      var i :| 0 <= i < |xss| && k in xss[i];
      var j :| 0 <= j < |xss[i]| && xss[i][j] == k;
      assert cs[i] in cs && cs[i].harvests[j] in cs[i].harvests;
    }
    if exists c, h :: c in cs && h in c.harvests && HistKey(h) == k {
      var c, h :| c in cs && h in c.harvests && HistKey(h) == k;
      var i :| 0 <= i < |cs| && cs[i] == c;
      var j :| 0 <= j < |c.harvests| && c.harvests[j] == h;
      assert xss[i][j] == k;
      assert k in all;
      var m :| 0 <= m < |all| && all[m] == k;
      assert k in d;
    }
  }

  /** The column label: the cluster name, or its id when the name is empty. */
  function Label(c: PageCluster): string {
    if c.name != "" then c.name else c.id
  }

  /** One cell: the yield of the cluster's first harvest with key `k`, or null. */
  function CellOf(c: PageCluster, k: string): (r: Option<real>)
    ensures r.Some? <==> exists h :: h in c.harvests && HistKey(h) == k
    ensures r.Some? ==> exists j :: (0 <= j < |c.harvests| && HistKey(c.harvests[j]) == k && r.value == PYield(c.harvests[j])
      && forall i :: 0 <= i < j ==> HistKey(c.harvests[i]) != k)
  {
    var j := Find(c.harvests, (h: PageHarvest) => HistKey(h) == k);
    if j < |c.harvests| then Some(PYield(c.harvests[j])) else None
  }

  /** One history row's cells, written cluster by cluster; a later cluster with the same label overwrites an earlier one. */
  function Cells(cs: seq<PageCluster>, k: string): map<string, Option<real>>
    decreases |cs|
  {
    if |cs| == 0 then map[]
    else Cells(cs[..|cs| - 1], k)[Label(cs[|cs| - 1]) := CellOf(cs[|cs| - 1], k)]
  }

  /** Every row has exactly one column per cluster label. */
  lemma {:induction false} CellsColumns(cs: seq<PageCluster>, k: string, l: string)
    ensures l in Cells(cs, k) <==> exists c :: c in cs && Label(c) == l
    decreases |cs|
  {
    if |cs| > 0 {
      var init := cs[..|cs| - 1];
      CellsColumns(init, k, l);
      if exists c :: c in init && Label(c) == l {
        var c :| c in init && Label(c) == l;
        assert c in cs;
      }
      if exists c :: c in cs && Label(c) == l {
        var c :| c in cs && Label(c) == l;
        if c != cs[|cs| - 1] {
          var i :| 0 <= i < |cs| && cs[i] == c;
          assert init[i] == c;
        }
      }
    }
  }

  /** A cluster's column holds its own cell unless a later cluster shares its label. */
  lemma {:induction false} CellsLastWins(cs: seq<PageCluster>, k: string, i: nat)
    requires i < |cs|
    requires forall j :: i < j < |cs| ==> Label(cs[j]) != Label(cs[i])
    ensures Label(cs[i]) in Cells(cs, k) && Cells(cs, k)[Label(cs[i])] == CellOf(cs[i], k)
    decreases |cs|
  {
    var n := |cs| - 1;
    if i < n {
      var init := cs[..n];
      assert init[i] == cs[i];
      CellsLastWins(init, k, i);
    }
  }

  /** A value in a history entry: the row's season text, or a cluster's yield cell. */
  datatype EntryValue = SeasonText(s: string) | YieldCell(v: Option<real>)

  /** `entry`: the object `{ season }`, then one write per cluster, in order, under
      the cluster's label. A cluster labelled `season` writes over the season. */
  function Entry(cs: seq<PageCluster>, k: string): map<string, EntryValue>
    decreases |cs|
  {
    if |cs| == 0 then map["season" := SeasonText(k)]
    else Entry(cs[..|cs| - 1], k)[Label(cs[|cs| - 1]) := YieldCell(CellOf(cs[|cs| - 1], k))]
  }

  /** The entry is `{ season }` overlaid with the cells: every label holds its cell,
      nothing else is present, and the season survives exactly when no cell is
      written under `season`. */
  lemma {:induction false} EntryIsSeasonThenCells(cs: seq<PageCluster>, k: string)
    ensures "season" in Entry(cs, k)
    ensures forall l :: l in Cells(cs, k) ==> l in Entry(cs, k) && Entry(cs, k)[l] == YieldCell(Cells(cs, k)[l])
    ensures forall l :: l in Entry(cs, k) ==> l == "season" || l in Cells(cs, k)
    ensures "season" !in Cells(cs, k) ==> Entry(cs, k)["season"] == SeasonText(k)
    decreases |cs|
  {
    if |cs| > 0 {
      EntryIsSeasonThenCells(cs[..|cs| - 1], k);
    }
  }

  /** `clusterYieldHistory`: one entry per history season, in order. Each has a
      `season` key, which holds the row's season unless a cluster is labelled
      `season`. */
  function History(cs: seq<PageCluster>): (rows: seq<map<string, EntryValue>>)
    ensures |rows| == |HistorySeasons(cs)|
    ensures forall i :: 0 <= i < |rows| ==> "season" in rows[i]
    ensures (forall c :: c in cs ==> Label(c) != "season") ==>
              (forall i :: 0 <= i < |rows| ==> rows[i]["season"] == SeasonText(HistorySeasons(cs)[i]))
  {
    var ks := HistorySeasons(cs);
    var rows := seq(|ks|, i requires 0 <= i < |ks| => Entry(cs, ks[i]));
    assert forall i :: 0 <= i < |rows| ==>
                         ("season" in rows[i] &&
                          ((forall c :: c in cs ==> Label(c) != "season") ==> rows[i]["season"] == SeasonText(ks[i]))) by {
      forall i | 0 <= i < |rows|
        ensures "season" in rows[i]
        ensures (forall c :: c in cs ==> Label(c) != "season") ==> rows[i]["season"] == SeasonText(ks[i])
      {
        EntryIsSeasonThenCells(cs, ks[i]);
        CellsColumns(cs, ks[i], "season");
      }
    }
    rows
  }

  /** With distinct labels, each history cell is that cluster's first yield for the row's season. */
  lemma HistoryCell(cs: seq<PageCluster>, r: nat, i: nat)
    requires r < |History(cs)| && i < |cs|
    requires forall a, b :: 0 <= a < b < |cs| ==> Label(cs[a]) != Label(cs[b])
    ensures Label(cs[i]) in History(cs)[r]
    ensures History(cs)[r][Label(cs[i])] == YieldCell(CellOf(cs[i], HistorySeasons(cs)[r]))
  {
    var ks := HistorySeasons(cs);
    assert History(cs)[r] == Entry(cs, ks[r]);
    CellsLastWins(cs, ks[r], i);
    EntryIsSeasonThenCells(cs, ks[r]);
  }

  /** The last cluster labelled `season` overwrites the row's season with its own
      yield cell, or `null`, in every history entry. */
  lemma HistorySeasonOverwritten(cs: seq<PageCluster>, r: nat, i: nat)
    requires r < |History(cs)| && i < |cs|
    requires Label(cs[i]) == "season"
    requires forall j :: i < j < |cs| ==> Label(cs[j]) != "season"
    ensures History(cs)[r]["season"] == YieldCell(CellOf(cs[i], HistorySeasons(cs)[r]))
  {
    var ks := HistorySeasons(cs);
    assert History(cs)[r] == Entry(cs, ks[r]);
    CellsLastWins(cs, ks[r], i);
    EntryIsSeasonThenCells(cs, ks[r]);
  }

  // ---------------------------------------------------------------------
  // Linking the page's imports from the analytics service

  /** The names the page and the service use, spelled as in the source. */
  datatype Name =
    | ROBUSTA_IDEALS | STATUS_COLORS | RISK_COLORS | GRADE_COLORS | getYieldStatus
    | getRiskLevel | fetchAdminAnalytics | fetchFarmerAnalytics | generateRecommendations
    | exportToCSV | arrLastFloat

  /** Every name the analytics service module exports. */
  function ServiceExports(): set<Name> {
    {ROBUSTA_IDEALS, STATUS_COLORS, RISK_COLORS, GRADE_COLORS, getYieldStatus,
     getRiskLevel, fetchAdminAnalytics, fetchFarmerAnalytics, generateRecommendations,
     exportToCSV}
  }

  /** The names the page imports from the service. */
  function PageImports(): seq<Name> {
    [fetchFarmerAnalytics, exportToCSV, GRADE_COLORS, STATUS_COLORS, getYieldStatus, arrLastFloat]
  }

  /** The imported names an ES module cannot bind, in import order. A module links exactly
      when this is empty; otherwise loading it, and every module importing it, fails. */
  function Unresolved(imports: seq<Name>, exports: set<Name>): (r: seq<Name>)
    ensures forall x :: x in r <==> x in imports && x !in exports
    decreases |imports|
  {
    if |imports| == 0 then []
    else (if imports[0] in exports then [] else [imports[0]]) + Unresolved(imports[1..], exports)
  }

  /** An import list whose names are all exported links. */
  lemma {:induction false} ResolvedWhenExported(imports: seq<Name>, exports: set<Name>)
    requires forall i :: 0 <= i < |imports| ==> imports[i] in exports
    ensures Unresolved(imports, exports) == []
    decreases |imports|
  {
    if |imports| > 0 {
      ResolvedWhenExported(imports[1..], exports);
    }
  }

  /** As written, `arrLastFloat` is the one name the page imports that the service does not
      export, so the page does not link. */
  lemma PageImportUnresolved()
    ensures Unresolved(PageImports(), ServiceExports()) == [arrLastFloat]
  {
    var ok := [fetchFarmerAnalytics, exportToCSV, GRADE_COLORS, STATUS_COLORS, getYieldStatus];
    assert PageImports() == ok + [arrLastFloat];
    ResolvedWhenExported(ok, ServiceExports());
    UnresolvedAppend(ok, [arrLastFloat], ServiceExports());
    UnresolvedSingle(arrLastFloat, ServiceExports());
  }

  lemma UnresolvedSingle(x: Name, exports: set<Name>)
    requires x !in exports
    ensures Unresolved([x], exports) == [x]
  {
    assert [x][1..] == [];
  }

  lemma {:induction false} UnresolvedAppend(a: seq<Name>, b: seq<Name>, exports: set<Name>)
    ensures Unresolved(a + b, exports) == Unresolved(a, exports) + Unresolved(b, exports)
    decreases |a|
  {
    if |a| == 0 {
      assert a + b == b;
    } else {
      assert (a + b)[0] == a[0];
      assert (a + b)[1..] == a[1..] + b;
      UnresolvedAppend(a[1..], b, exports);
    }
  }

  /** A column value as the helper would receive it: a single value, or an array of them. */
  datatype Column = Scalar(v: Raw) | Array(items: seq<Raw>)

  /** The helper the page expects, as its name and uses suggest: the last element of an
      array column (or the value itself), read as `parseFloat(x) || 0`. The service never
      defines it, so this reading is a guess. The page's numeric harvest fields are this
      reading's results. */
  function ArrLastFloat(c: Column): (r: real)
    ensures c.Array? && |c.items| == 0 ==> r == 0.0
  {
    match c
    case Scalar(v) => FloatOr0(v)
    case Array(items) => if |items| == 0 then 0.0 else FloatOr0(items[|items| - 1])
  }

  /** An array reads as its last element alone: earlier elements never matter, and a
      one-element array reads as its element. */
  lemma ArrLastFloatOfLast(items: seq<Raw>, x: Raw)
    ensures ArrLastFloat(Array(items + [x])) == ArrLastFloat(Scalar(x))
    ensures ArrLastFloat(Array([x])) == ArrLastFloat(Scalar(x))
  {
  }

  /** Text and numbers read as `parseFloat` reads them; anything else reads as 0. */
  lemma ArrLastFloatScalar(v: Raw)
    ensures ParseFloat(v).Some? ==> ArrLastFloat(Scalar(v)) == ParseFloat(v).value
    ensures ParseFloat(v).None? ==> ArrLastFloat(Scalar(v)) == 0.0
    ensures v.Num? ==> ArrLastFloat(Scalar(v)) == v.n
  {
  }

  /** With the helper exported by the service, every name the page imports resolves. */
  lemma CorrectedPageLinks()
    ensures Unresolved(PageImports(), ServiceExports() + {arrLastFloat}) == []
  {
    ResolvedWhenExported(PageImports(), ServiceExports() + {arrLastFloat});
  }
}

=== FILE: classify.dfy ===
/** The two yield classifiers shared by the dashboards: the yield status
    (change of the current yield against the previous one, in four bands)
    and the risk level (decline against the previous yield, in four bands
    with a numeric priority), plus the pipeline's binning of the same
    status. */
module Classify {
  import opened Wrappers

  datatype YieldStatus = NotAvailable | CriticalDrop | ModerateDrop | Stable | Improvement

  /** The label the dashboards show for each status. */
  function StatusLabel(s: YieldStatus): string {
    match s
    case NotAvailable => "N/A"
    case CriticalDrop => "Critical Drop (>20%)"
    case ModerateDrop => "Moderate Drop (5-20%)"
    case Stable => "Stable (\U{00B1}5%)"
    case Improvement => "Improvement (>5%)"
  }

  lemma StatusLabelInjective(a: YieldStatus, b: YieldStatus)
    ensures StatusLabel(a) == StatusLabel(b) ==> a == b
  {
    if a != b {
      assert StatusLabel(a)[0..2] != StatusLabel(b)[0..2] || |StatusLabel(a)| != |StatusLabel(b)|;
    }
  }

  /** Percentage change from `prev` to `cur`. */
  function DeltaPct(cur: real, prev: real): real
    requires prev != 0.0
  {
    (cur - prev) / prev * 100.0
  }

  /** For a positive previous yield, a bound on the percentage change is a bound on the ratio. */
  lemma DeltaBound(cur: real, prev: real, t: real)
    requires prev > 0.0
    ensures DeltaPct(cur, prev) <= t <==> cur <= (1.0 + t / 100.0) * prev
  {
    var q := (cur - prev) / prev;
    assert q * prev == cur - prev;
    assert q * 100.0 <= t <==> q <= t / 100.0;
    if q <= t / 100.0 {
      assert q * prev <= t / 100.0 * prev;
    } else {
      assert q * prev > t / 100.0 * prev;
    }
  }

  lemma DeltaBoundStrict(cur: real, prev: real, t: real)
    requires prev > 0.0
    ensures DeltaPct(cur, prev) < t <==> cur < (1.0 + t / 100.0) * prev
  {
    var q := (cur - prev) / prev;
    assert q * prev == cur - prev;
    assert q * 100.0 < t <==> q < t / 100.0;
    if q < t / 100.0 {
      assert q * prev < t / 100.0 * prev;
    } else {
      assert q * prev >= t / 100.0 * prev;
    }
  }

  /** `getYieldStatus`: no previous yield gives N/A; otherwise the change is
      binned with inclusive upper bounds at -20, -5 and 5 percent. */
  function YieldStatusOf(cur: real, prev: real): (r: YieldStatus)
    ensures r == NotAvailable <==> prev == 0.0
    ensures prev > 0.0 ==> (r == CriticalDrop <==> cur <= 0.8 * prev)
    ensures prev > 0.0 ==> (r == ModerateDrop <==> 0.8 * prev < cur <= 0.95 * prev)
    ensures prev > 0.0 ==> (r == Stable <==> 0.95 * prev < cur <= 1.05 * prev)
    ensures prev > 0.0 ==> (r == Improvement <==> 1.05 * prev < cur)
  {
    if prev == 0.0 then NotAvailable
    else
      if prev > 0.0 then
        DeltaBound(cur, prev, -20.0);
        DeltaBound(cur, prev, -5.0);
        DeltaBound(cur, prev, 5.0);
        Bands(cur, prev)
      else Bands(cur, prev)
  }

  function Bands(cur: real, prev: real): YieldStatus
    requires prev != 0.0
  {
      var d := DeltaPct(cur, prev);
      if d <= -20.0 then CriticalDrop
      else if d <= -5.0 then ModerateDrop
      else if d <= 5.0 then Stable
      else Improvement
  }

  /** A larger current yield never gives a worse status when the previous yield is positive. */
  lemma YieldStatusMonotone(c1: real, c2: real, prev: real)
    requires prev > 0.0 && c1 <= c2
    ensures StatusRank(YieldStatusOf(c1, prev)) <= StatusRank(YieldStatusOf(c2, prev))
  {
  }

  function StatusRank(s: YieldStatus): int {
    match s
    case NotAvailable => 0
    case CriticalDrop => 1
    case ModerateDrop => 2
    case Stable => 3
    case Improvement => 4
  }

  /** `pd.cut` of the pipeline's delta percentage into the right-closed bins
      (-inf,-20], (-20,-5], (-5,5], (5,inf); a missing delta (zero or absent
      previous yield) falls in no bin. */
  function PipelineYieldStatus(deltaPct: Option<real>): (r: Option<YieldStatus>)
    ensures r.None? <==> deltaPct.None?
    ensures r.Some? ==> r.value != NotAvailable
  {
    match deltaPct
    case None => None
    case Some(d) =>
      if d <= -20.0 then Some(CriticalDrop)
      else if d <= -5.0 then Some(ModerateDrop)
      else if d <= 5.0 then Some(Stable)
      else Some(Improvement)
  }

  /** The pipeline's bins and the dashboard's thresholds are the same partition. */
  lemma PipelineAgreesWithDashboard(cur: real, prev: real)
    requires prev != 0.0
    ensures PipelineYieldStatus(Some(DeltaPct(cur, prev))) == Some(YieldStatusOf(cur, prev))
  {
  }

  datatype RiskLevel = Low | Moderate | High | Critical

  /** `{ level, priority }` as returned by `getRiskLevel`. */
  datatype Risk = Risk(level: RiskLevel, priority: int)

  function RiskLabel(l: RiskLevel): string {
    match l
    case Low => "Low"
    case Moderate => "Moderate"
    case High => "High"
    case Critical => "Critical"
  }

  /** `getRiskLevel`: no previous yield is Low/1; otherwise the percentage
      decline is compared strictly against 50, 30 and 15. */
  function RiskOf(cur: real, prev: real): (r: Risk)
    ensures prev == 0.0 ==> r == Risk(Low, 1)
    ensures prev > 0.0 && cur >= prev ==> r == Risk(Low, 1)
    ensures prev > 0.0 ==> (r.level == Critical <==> cur < 0.5 * prev)
    ensures prev > 0.0 ==> (r.level == High <==> 0.5 * prev <= cur < 0.7 * prev)
    ensures prev > 0.0 ==> (r.level == Moderate <==> 0.7 * prev <= cur < 0.85 * prev)
    ensures prev > 0.0 ==> (r.level == Low <==> 0.85 * prev <= cur)
    ensures 1 <= r.priority <= 4
  {
    if prev == 0.0 then Risk(Low, 1)
    else if prev > 0.0 then
      DeltaBoundStrict(cur, prev, -50.0);
      DeltaBoundStrict(cur, prev, -30.0);
      DeltaBoundStrict(cur, prev, -15.0);
      RiskBands(cur, prev)
    else RiskBands(cur, prev)
  }

  /** The decline is the negated change, so `decline > t` is `DeltaPct < -t`. */
  function RiskBands(cur: real, prev: real): (r: Risk)
    requires prev != 0.0
    ensures r.level == Critical <==> DeltaPct(cur, prev) < -50.0
    ensures r.level == High <==> -50.0 <= DeltaPct(cur, prev) < -30.0
    ensures r.level == Moderate <==> -30.0 <= DeltaPct(cur, prev) < -15.0
    ensures r.level == Low <==> -15.0 <= DeltaPct(cur, prev)
    ensures r.priority == LevelRank(r.level)
  {
      var decline := (prev - cur) / prev * 100.0;
      assert decline == -DeltaPct(cur, prev);
      if decline > 50.0 then Risk(Critical, 4)
      else if decline > 30.0 then Risk(High, 3)
      else if decline > 15.0 then Risk(Moderate, 2)
      else Risk(Low, 1)
  }

  function LevelRank(l: RiskLevel): int {
    match l
    case Low => 1
    case Moderate => 2
    case High => 3
    case Critical => 4
  }

  /** The priority always agrees with the level, so it strictly increases with severity. */
  lemma RiskPriorityMatchesLevel(cur: real, prev: real)
    ensures RiskOf(cur, prev).priority == LevelRank(RiskOf(cur, prev).level)
  {
  }

  /** A smaller current yield never gives a lower priority. */
  lemma RiskMonotone(c1: real, c2: real, prev: real)
    requires prev > 0.0 && c1 <= c2
    ensures RiskOf(c1, prev).priority >= RiskOf(c2, prev).priority
  {
  }

  /** The two classifiers agree at the extremes: a Critical risk is a Critical
      drop, and a Stable or improving yield is Low risk. */
  lemma RiskAgreesWithStatus(cur: real, prev: real)
    requires prev > 0.0
    ensures RiskOf(cur, prev).level == Critical ==> YieldStatusOf(cur, prev) == CriticalDrop
    ensures YieldStatusOf(cur, prev) in {Stable, Improvement} ==> RiskOf(cur, prev).level == Low
  {
  }
}

=== FILE: cluster_detail.dfy ===
/** The cluster detail page: its sections and their fields, the harvest
    lock, the form it fills from the stage data, the merge on save, and the
    stage change that stamps an estimated harvest date. */
module ClusterDetail {
  import opened Wrappers
  import opened Js
  import FarmContext
  import ClusterDetailModal

  // ---------------------------------------------------------------------
  // Local dates

  /** A calendar date as `Date` reports it: the month counts from 0. */
  datatype Date = Date(year: int, month0: int, day: int)

  /** `String(n).padStart(2, '0')`. */
  function Pad2(n: nat): (s: string)
    ensures |s| >= 2 && AllDigits(s)
  {
    var t := NatToString(n);
    if |t| >= 2 then t else assert IsDigit('0'); "0" + t
  }

  lemma {:induction false} Pad2Reads(n: nat)
    requires n < 100
    ensures |Pad2(n)| == 2 && DigitsValue(Pad2(n)) == n
  {
    var s := Pad2(n);
    if n < 10 {
      assert NatToString(n) == [DigitChar(n)];
      assert s == ['0', DigitChar(n)];
      assert s[..1] == ['0'] && s[..1][..0] == [];
      assert DigitsValue(s[..1]) == 0;
      assert DigitsValue(s) == DigitsValue(s[..1]) * 10 + DigitVal(s[1]);
    } else {
      assert NatToString(n) == NatToString(n / 10) + [DigitChar(n % 10)];
      assert NatToString(n / 10) == [DigitChar(n / 10)];
      DigitsValueOfNatToString(n);
    }
  }

  /** A number from 1000 to 9999 prints with four digits. */
  lemma FourDigits(y: nat)
    requires 1000 <= y <= 9999
    ensures |NatToString(y)| == 4
  {
    assert NatToString(y) == NatToString(y / 10) + [DigitChar(y % 10)];
    assert NatToString(y / 10) == NatToString(y / 100) + [DigitChar(y / 10 % 10)];
    assert NatToString(y / 100) == NatToString(y / 1000) + [DigitChar(y / 100 % 10)];
    assert NatToString(y / 1000) == [DigitChar(y / 1000)];
  }

  /** `formatDateLocal`: `year-MM-DD`. */
  function FormatDateLocal(d: Date): (s: string)
    requires 0 <= d.month0 && 0 <= d.day
    ensures |s| >= 7
  {
    IntToString(d.year) + "-" + Pad2(d.month0 + 1) + "-" + Pad2(d.day)
  }

  /** For a four-digit year the text is ten characters, and its three fields read
      back as the year, the 1-based month and the day. */
  lemma FormatDateReadsBack(d: Date)
    requires 1000 <= d.year <= 9999 && 0 <= d.month0 <= 11 && 1 <= d.day <= 31
    ensures var s := FormatDateLocal(d);
      |s| == 10 && s[4] == '-' && s[7] == '-'
      && AllDigits(s[..4]) && AllDigits(s[5..7]) && AllDigits(s[8..])
      && DigitsValue(s[..4]) == d.year && DigitsValue(s[5..7]) == d.month0 + 1 && DigitsValue(s[8..]) == d.day
  {
    var y := NatToString(d.year);
    var m := Pad2(d.month0 + 1);
    var dd := Pad2(d.day);
    FourDigits(d.year);
    Pad2Reads(d.month0 + 1);
    Pad2Reads(d.day);
    DigitsValueOfNatToString(d.year);
    var s := FormatDateLocal(d);
    assert s == y + "-" + m + "-" + dd;
    assert s[..4] == y;
    assert s[5..7] == m;
    assert s[8..] == dd;
  }

  /** `new Date(year, month + 11, day)`, with the month carried into the year. */
  function ElevenMonthsOn(now: Date): (r: Date)
    requires 0 <= now.month0 <= 11
    ensures 0 <= r.month0 <= 11 && r.day == now.day
    ensures r.year * 12 + r.month0 == now.year * 12 + now.month0 + 11
  {
    Date(now.year + (now.month0 + 11) / 12, (now.month0 + 11) % 12, now.day)
  }

  // ---------------------------------------------------------------------
  // Sections

  function OverviewFields(): seq<string> {
    ["datePlanted", "numberOfPlants", "variety", "monthlyTemperature", "rainfall", "humidity", "soilPh"]
  }

  function HarvestFields(): seq<string> {
    ["lastHarvestedDate", "harvestDate", "estimatedHarvestDate", "harvestSeason", "previousYield",
     "predictedYield", "currentYield", "gradeFine", "gradePremium", "gradeCommercial",
     "preLastHarvestDate", "preTotalTrees", "preYieldKg", "preGradeFine", "preGradePremium",
     "preGradeCommercial", "postCurrentYield", "postGradeFine", "postGradePremium",
     "postGradeCommercial", "defectCount", "beanMoisture", "beanScreenSize"]
  }

  /** `SECTION_FIELDS[section]`, absent for a section the page does not know. */
  function SectionFields(section: string): (r: Option<seq<string>>)
    ensures r.Some? <==> section in {"overview", "harvest", "pruning", "fertilize", "pesticide"}
  {
    if section == "overview" then Some(OverviewFields())
    else if section == "harvest" then Some(HarvestFields())
    else if section == "pruning" then Some(["lastPrunedDate", "shadeTrees"])
    else if section == "fertilize" then Some(["fertilizerFrequency", "fertilizerType", "soilPh"])
    else if section == "pesticide" then Some(["pesticideType", "pesticideFrequency"])
    else None
  }

  /** The route's section, `overview` when the URL has none. */
  function SectionOf(param: Option<string>): (s: string)
    ensures param.None? ==> s == "overview"
  {
    param.GetOr("overview")
  }

  /** `isHarvestLocked`: the harvest section of a cluster that is not ready to harvest. */
  predicate HarvestLocked(section: string, stage: Raw) {
    section == "harvest" && stage != Str("ready-to-harvest")
  }

  /** `cluster?.stageData?.[name] ?? ''`: only a missing or null value becomes empty. */
  function FormFor(fields: seq<string>, sd: Option<Obj>): (form: Obj)
    ensures forall n :: n in form <==> n in fields
    ensures forall n :: n in form && sd.Some? && n in sd.value && !IsNullish(sd.value[n]) ==> form[n] == sd.value[n]
    ensures forall n :: n in form && (sd.None? || n !in sd.value || IsNullish(sd.value[n])) ==> form[n] == Str("")
  {
    map n | n in fields :: var v := ClusterDetailModal.StageValue(sd, n); if IsNullish(v) then Str("") else v
  }

  /** The page keeps a stored 0, while the modal's `||` turns the same value into an empty input. */
  lemma ZeroKeptHereNotInModal(fields: seq<string>, sd: Obj, n: string)
    requires n in fields && n in sd && sd[n] == Num(0.0)
    ensures FormFor(fields, Some(sd))[n] == Num(0.0)
    ensures ClusterDetailModal.InitialForm(fields, Some(sd))[n] == Str("")
  {
  }

  /** What the page shows for a section: a redirect to the overview, or the form. */
  datatype View = Redirect(path: string) | Show(fields: seq<string>, form: Obj, locked: bool, canSave: bool)

  function ViewOf(c: FarmContext.Cluster, section: string, saving: bool): (v: View)
    ensures v.Redirect? <==> SectionFields(section).None?
    ensures v.Redirect? ==> v.path == "/clusters/" + c.id + "/overview"
    ensures v.Show? ==> (forall n :: n in v.form <==> n in v.fields)
    ensures v.Show? ==> (v.locked <==> HarvestLocked(section, c.plantStage))
    ensures v.Show? ==> (v.canSave <==> !saving && !v.locked)
  {
    match SectionFields(section)
    case None => Redirect("/clusters/" + c.id + "/overview")
    case Some(fs) =>
      var locked := HarvestLocked(section, c.plantStage);
      Show(fs, FormFor(fs, c.stageData), locked, !saving && !locked)
  }

  /** Only the harvest section is ever locked, and it is locked at every stage
      but ready-to-harvest. */
  lemma LockExactly(c: FarmContext.Cluster, section: string, saving: bool)
    requires ViewOf(c, section, saving).Show?
    ensures ViewOf(c, section, saving).locked <==> section == "harvest" && c.plantStage != Str("ready-to-harvest")
    ensures ViewOf(c, section, saving).locked ==> !ViewOf(c, section, saving).canSave
  {
  }

  // ---------------------------------------------------------------------
  // Saving and stage changes

  /** `{...(stageData || {}), ...extra}`. */
  function Merge(sd: Option<Obj>, extra: Obj): (r: Obj)
    ensures forall k :: k in r <==> k in extra || (sd.Some? && k in sd.value)
    ensures forall k :: k in extra ==> r[k] == extra[k]
    ensures forall k :: k !in extra && sd.Some? && k in sd.value ==> r[k] == sd.value[k]
  {
    var base := sd.GetOr(map[]);
    map k | k in base.Keys + extra.Keys :: if k in extra then extra[k] else base[k]
  }

  /** `handleSave`: the form is laid over the stored stage data. */
  function Save(cs: seq<FarmContext.Cluster>, c: FarmContext.Cluster, form: Obj): (r: seq<FarmContext.Cluster>)
    ensures |r| == |cs|
    ensures forall i :: 0 <= i < |cs| && cs[i].id != c.id ==> r[i] == cs[i]
    ensures forall i :: 0 <= i < |cs| && cs[i].id == c.id ==> r[i].plantStage == cs[i].plantStage
  {
    FarmContext.UpdateCluster(cs, c.id, FarmContext.Updates(Undefined, Undefined, Undefined, Undefined,
      Some(Some(Merge(c.stageData, form)))))
  }

  /** Unlike the modal, saving a section keeps every stored key the section does
      not edit, and every edited key takes the form's value. */
  lemma SaveKeepsOtherKeys(cs: seq<FarmContext.Cluster>, i: nat, form: Obj, k: string)
    requires i < |cs|
    ensures var r := Save(cs, cs[i], form)[i];
      r.stageData.Some?
      && (k in form ==> k in r.stageData.value && r.stageData.value[k] == form[k])
      && (k !in form && cs[i].stageData.Some? && k in cs[i].stageData.value ==>
            k in r.stageData.value && r.stageData.value[k] == cs[i].stageData.value[k])
  {
  }

  /** `handleStageChange`: the stage always changes; entering flowering also
      stamps the estimated harvest date eleven months ahead. */
  function StageUpdates(c: FarmContext.Cluster, next: string, now: Date): (u: FarmContext.Updates)
    requires 0 <= now.month0 <= 11 && 0 <= now.day
    ensures u.plantStage == Str(next)
    ensures u.clusterName == Undefined && u.areaSize == Undefined && u.plantCount == Undefined
    ensures u.stageData.Some? <==> next == "flowering"
  {
    if next == "flowering" then
      var estimate := FormatDateLocal(ElevenMonthsOn(now));
      FarmContext.Updates(Undefined, Undefined, Undefined, Str(next),
        Some(Some(Merge(c.stageData, map["estimatedHarvestDate" := Str(estimate)]))))
    else FarmContext.Updates(Undefined, Undefined, Undefined, Str(next), None)
  }

  /** After a stage change the cluster has the new stage; only flowering touches
      the stage data, and then only the estimated harvest date. */
  lemma StageChangeEffect(c: FarmContext.Cluster, next: string, now: Date, k: string)
    requires 0 <= now.month0 <= 11 && 0 <= now.day
    ensures var r := FarmContext.Apply(c, StageUpdates(c, next, now));
      r.plantStage == Str(next)
      && r.clusterName == c.clusterName && r.areaSize == c.areaSize && r.plantCount == c.plantCount
      && (next != "flowering" ==> r.stageData == c.stageData)
      && (next == "flowering" ==>
            (r.stageData.Some? && "estimatedHarvestDate" in r.stageData.value
             && r.stageData.value["estimatedHarvestDate"] == Str(FormatDateLocal(ElevenMonthsOn(now)))))
      && (next == "flowering" && k != "estimatedHarvestDate" && c.stageData.Some? && k in c.stageData.value ==>
            r.stageData.Some? && k in r.stageData.value && r.stageData.value[k] == c.stageData.value[k])
  {
  }
}

=== FILE: cluster_detail_modal.dfy ===
/** The cluster detail modal: which stage fields it shows, the form it
    starts from, the grouping of the harvest stage's fields into main,
    pre-harvest and post-harvest sections, and the dirty/close/save flow. */
module ClusterDetailModal {
  import opened Wrappers
  import opened Js
  import opened Seqs
  import FarmContext

  // ---------------------------------------------------------------------
  // Field lists per stage

  function SeedFields(): seq<string> {
    ["datePlanted", "numberOfPlants", "variety", "fertilizerType", "fertilizerFrequency",
     "pesticideType", "pesticideFrequency", "monthlyTemperature", "rainfall", "humidity", "soilPh"]
  }

  function TreeFields(): seq<string> {
    ["datePlanted", "numberOfPlants", "variety", "fertilizerType", "fertilizerFrequency",
     "pesticideType", "pesticideFrequency", "lastHarvestedDate", "previousYield", "lastPrunedDate",
     "shadeTrees", "monthlyTemperature", "rainfall", "humidity", "soilPh"]
  }

  function FloweringFields(): seq<string> {
    TreeFields() + ["estimatedFloweringDate"]
  }

  function ReadyFields(): seq<string> {
    ["datePlanted", "numberOfPlants", "variety", "fertilizerType", "fertilizerFrequency",
     "pesticideType", "pesticideFrequency", "harvestDate", "previousYield", "predictedYield",
     "harvestSeason", "currentYield", "gradeFine", "gradePremium", "gradeCommercial",
     "lastPrunedDate", "monthlyTemperature", "rainfall", "humidity", "soilPh", "shadeTrees",
     "estimatedHarvestDate",
     "preLastHarvestDate", "preTotalTrees", "preYieldKg", "preGradeFine", "preGradePremium", "preGradeCommercial",
     "postCurrentYield", "postGradeFine", "postGradePremium", "postGradeCommercial",
     "defectCount", "beanMoisture", "beanScreenSize"]
  }

  /** `STAGE_FIELDS[plantStage] || STAGE_FIELDS['seed-sapling']`. */
  function StageFields(stage: Raw): (fs: seq<string>)
    ensures stage != Str("tree") && stage != Str("flowering") && stage != Str("ready-to-harvest") ==> fs == SeedFields()
  {
    if stage == Str("tree") then TreeFields()
    else if stage == Str("flowering") then FloweringFields()
    else if stage == Str("ready-to-harvest") then ReadyFields()
    else SeedFields()
  }

  /** The fruit-bearing stage has no list of its own, so it edits the seed-sapling fields. */
  lemma FruitBearingFallsBack()
    ensures StageFields(Str("fruit-bearing")) == SeedFields()
    ensures StageFields(Undefined) == SeedFields()
  {
  }

  // ---------------------------------------------------------------------
  // Initial form

  function StageValue(sd: Option<Obj>, name: string): Raw {
    if sd.Some? then Get(sd.value, name) else Undefined
  }

  /** `stageData?.[name] || ''` for every field of the stage. */
  function InitialForm(fields: seq<string>, sd: Option<Obj>): (form: Obj)
    ensures forall n :: n in form <==> n in fields
    ensures forall n :: n in form ==> form[n] == if Truthy(StageValue(sd, n)) then StageValue(sd, n) else Str("")
  {
    map n | n in fields :: if Truthy(StageValue(sd, n)) then StageValue(sd, n) else Str("")
  }

  /** A stored 0 or `false` shows as an empty input, because `||` drops falsy values. */
  lemma FalsyShowsEmpty(fields: seq<string>, sd: Obj, n: string)
    requires n in fields && n in sd && (sd[n] == Num(0.0) || sd[n] == Bool(false))
    ensures InitialForm(fields, Some(sd))[n] == Str("")
  {
  }

  // ---------------------------------------------------------------------
  // Sections of the ready-to-harvest form

  predicate IsPre(n: string) {
    StartsWith(n, "pre")
  }

  predicate IsPostExtra(n: string) {
    n == "defectCount" || n == "beanMoisture" || n == "beanScreenSize"
  }

  predicate IsPost(n: string) {
    StartsWith(n, "post") || IsPostExtra(n)
  }

  predicate IsMain(n: string) {
    !IsPre(n) && !IsPost(n)
  }

  /** No name is both a pre-harvest and a post-harvest field. */
  lemma PreNotPost(n: string)
    ensures !(IsPre(n) && IsPost(n))
  {
    if IsPre(n) {
      assert n[..3] == "pre";
      assert n[1] == 'r';
      assert |n| >= 4 ==> n[..4][1] == 'r' != "post"[1];
      assert "defectCount"[0] == 'd' && "beanMoisture"[0] == 'b' && "beanScreenSize"[0] == 'b';
    }
  }

  datatype Sections = Sections(main: seq<string>, pre: seq<string>, post: seq<string>)

  /** The ready-to-harvest form is split three ways; every other stage shows one section. */
  function Split(stage: Raw, fields: seq<string>): (s: Sections)
    ensures stage != Str("ready-to-harvest") ==> s == Sections(fields, [], [])
  {
    if stage == Str("ready-to-harvest") then
      Sections(Filter(fields, IsMain), Filter(fields, IsPre), Filter(fields, IsPost))
    else Sections(fields, [], [])
  }

  /** The three filters together keep every field exactly once. */
  lemma {:induction false} SplitSizes(fields: seq<string>)
    ensures |Filter(fields, IsMain)| + |Filter(fields, IsPre)| + |Filter(fields, IsPost)| == |fields|
    decreases |fields|
  {
    if |fields| > 0 {
      SplitSizes(fields[..|fields| - 1]);
      PreNotPost(fields[|fields| - 1]);
    }
  }

  /** For the harvest stage the sections are pairwise disjoint and cover the fields. */
  lemma SplitPartitions(fields: seq<string>, n: string)
    ensures var s := Split(Str("ready-to-harvest"), fields);
      |s.main| + |s.pre| + |s.post| == |fields|
      && (n in fields <==> n in s.main || n in s.pre || n in s.post)
      && !(n in s.main && n in s.pre) && !(n in s.main && n in s.post) && !(n in s.pre && n in s.post)
  {
    SplitSizes(fields);
    PreNotPost(n);
    var s := Split(Str("ready-to-harvest"), fields);
    if n in s.main { var i :| 0 <= i < |s.main| && s.main[i] == n; }
    if n in s.pre { var i :| 0 <= i < |s.pre| && s.pre[i] == n; }
    if n in s.post { var i :| 0 <= i < |s.post| && s.post[i] == n; }
    if n in fields { var i :| 0 <= i < |fields| && fields[i] == n; }
  }

  /** `previousYield` and `predictedYield` start with `pre`, so they are filed
      under pre-harvest rather than the main section. */
  lemma YieldFieldsFiledAsPre()
    ensures "previousYield" in Split(Str("ready-to-harvest"), ReadyFields()).pre
    ensures "predictedYield" in Split(Str("ready-to-harvest"), ReadyFields()).pre
    ensures "previousYield" !in Split(Str("ready-to-harvest"), ReadyFields()).main
  {
    var fs := ReadyFields();
    assert fs[8] == "previousYield" && fs[9] == "predictedYield";
    assert "previousYield"[..3] == "pre";
    assert "predictedYield"[..3] == "pre";
    assert IsPre("previousYield") && IsPre("predictedYield");
    SplitPartitions(fs, "previousYield");
  }

  // ---------------------------------------------------------------------
  // Dirty, close and save

  datatype ModalState = ModalState(form: Obj, initial: Obj, discardConfirm: bool, saveConfirm: bool, closed: bool)

  function Open(c: FarmContext.Cluster): (m: ModalState)
    ensures m.form == m.initial && !m.closed
  {
    var form := InitialForm(StageFields(c.plantStage), c.stageData);
    ModalState(form, form, false, false, false)
  }

  /** `isDirty`: the form differs from the one the modal opened with. */
  predicate Dirty(m: ModalState) {
    m.form != m.initial
  }

  function Change(m: ModalState, name: string, v: Raw): (r: ModalState)
    ensures r.initial == m.initial && name in r.form && r.form[name] == v
  {
    m.(form := m.form[name := v])
  }

  /** Typing a field back to its opening value on an unchanged form leaves it clean. */
  lemma ChangeBack(m: ModalState, name: string, v: Raw)
    requires !Dirty(m) && name in m.form
    ensures !Dirty(Change(Change(m, name, v), name, m.form[name]))
  {
    assert m.form[name := v][name := m.form[name]] == m.form;
  }

  /** `handleClose`: a dirty form asks before discarding; a clean one closes. */
  function Close(m: ModalState): (r: ModalState)
    ensures Dirty(m) ==> r.discardConfirm && !r.closed == !m.closed
    ensures !Dirty(m) ==> r.closed
  {
    if Dirty(m) then m.(discardConfirm := true) else m.(closed := true)
  }

  /** `doSave`: the cluster's stage data becomes the form itself, and the modal closes. */
  function Save(cs: seq<FarmContext.Cluster>, id: string, m: ModalState): (r: (seq<FarmContext.Cluster>, ModalState))
    ensures r.1.closed
    ensures |r.0| == |cs|
    ensures forall i :: 0 <= i < |cs| && cs[i].id == id ==> r.0[i].stageData == Some(m.form) && r.0[i].plantStage == cs[i].plantStage
    ensures forall i :: 0 <= i < |cs| && cs[i].id != id ==> r.0[i] == cs[i]
  {
    (FarmContext.UpdateCluster(cs, id, FarmContext.Updates(Undefined, Undefined, Undefined, Undefined, Some(Some(m.form)))),
     m.(closed := true))
  }

  /** Saving from the modal replaces the stage data: a stored key outside the stage's fields is lost. */
  lemma SaveDropsOtherKeys(cs: seq<FarmContext.Cluster>, i: nat, k: string)
    requires i < |cs| && cs[i].stageData.Some? && k in cs[i].stageData.value && k !in StageFields(cs[i].plantStage)
    ensures k !in Save(cs, cs[i].id, Open(cs[i])).0[i].stageData.value
  {
  }
}

=== FILE: cluster_form_modal.dfy ===
/** The add/edit cluster form: its starting values, the dirty flag, the
    required-field gate before the save confirmation, and whether saving adds
    a cluster or updates the edited one. */
module ClusterFormModal {
  import opened Wrappers
  import opened Js
  import FarmContext

  type Cluster = FarmContext.Cluster

  /** The four inputs of the form. */
  datatype Form = Form(clusterName: Raw, areaSize: Raw, plantCount: Raw, plantStage: Raw)

  datatype Input = NameInput | AreaInput | CountInput | StageInput

  const DefaultForm := Form(Str(""), Str(""), Str(""), Str("seed-sapling"))

  /** The form's values for the cluster being edited. */
  function FormOf(c: Cluster): Form {
    Form(c.clusterName, c.areaSize, c.plantCount, c.plantStage)
  }

  /** `editData || {…defaults}`: the snapshot the form starts from and is compared with. */
  function Initial(editData: Option<Cluster>): (f: Form)
    ensures editData.None? ==> f == DefaultForm && f.plantStage == Str("seed-sapling")
    ensures editData.Some? ==> f == FormOf(editData.value)
  {
    if editData.Some? then FormOf(editData.value) else DefaultForm
  }

  datatype Modal = Modal(editData: Option<Cluster>, form: Form, saveConfirm: bool, discardConfirm: bool, closed: bool)

  function Open(editData: Option<Cluster>): (m: Modal)
    ensures m.form == Initial(editData) && !m.saveConfirm && !m.discardConfirm && !m.closed
  {
    Modal(editData, Initial(editData), false, false, false)
  }

  /** `isDirty`: the form differs from the snapshot it started from. */
  predicate Dirty(m: Modal) {
    m.form != Initial(m.editData)
  }

  /** `handleChange` for one input. */
  function Change(m: Modal, input: Input, v: Raw): (r: Modal)
    ensures r.editData == m.editData && r.closed == m.closed
    ensures input == NameInput ==> r.form == m.form.(clusterName := v)
    ensures input == AreaInput ==> r.form == m.form.(areaSize := v)
    ensures input == CountInput ==> r.form == m.form.(plantCount := v)
    ensures input == StageInput ==> r.form == m.form.(plantStage := v)
  {
    var f := m.form;
    m.(form := match input
      case NameInput => f.(clusterName := v)
      case AreaInput => f.(areaSize := v)
      case CountInput => f.(plantCount := v)
      case StageInput => f.(plantStage := v))
  }

  /** The value an input currently shows. */
  function Shown(f: Form, input: Input): Raw {
    match input
    case NameInput => f.clusterName
    case AreaInput => f.areaSize
    case CountInput => f.plantCount
    case StageInput => f.plantStage
  }

  /** A freshly opened form is clean; typing a different value makes it dirty,
      and typing the original value back makes it clean again. */
  lemma DirtyTracksEdits(editData: Option<Cluster>, input: Input, v: Raw)
    ensures !Dirty(Open(editData))
    ensures Dirty(Change(Open(editData), input, v)) <==> v != Shown(Initial(editData), input)
    ensures !Dirty(Change(Change(Open(editData), input, v), input, Shown(Initial(editData), input)))
  {
  }

  /** `!form.clusterName || !form.areaSize || !form.plantCount`. */
  predicate Complete(f: Form) {
    Truthy(f.clusterName) && Truthy(f.areaSize) && Truthy(f.plantCount)
  }

  /** `handleSubmit`: an incomplete form does nothing; a complete one asks to confirm. */
  function Submit(m: Modal): (r: Modal)
    ensures Complete(m.form) ==> r == m.(saveConfirm := true)
    ensures !Complete(m.form) ==> r == m
  {
    if Complete(m.form) then m.(saveConfirm := true) else m
  }

  /** An edited cluster stored with area 0 cannot be resubmitted until the area is retyped. */
  lemma ZeroAreaBlocksEdit(c: Cluster)
    requires c.areaSize == Num(0.0)
    ensures Submit(Open(Some(c))) == Open(Some(c))
  {
  }

  /** The new form always needs its name, area and plant count typed in. */
  lemma DefaultNeedsInput()
    ensures !Complete(DefaultForm)
    ensures Submit(Open(None)) == Open(None)
  {
  }

  /** What `doSave` asks the farm context to do. */
  datatype Action = Add(form: Form) | Update(id: string, form: Form)

  /** `doSave`: update the edited cluster, otherwise add one; the modal then closes. */
  function DoSave(m: Modal): (r: (Action, Modal))
    ensures r.1.closed
    ensures m.editData.Some? <==> r.0.Update?
    ensures r.0.Update? ==> r.0.id == m.editData.value.id
    ensures r.0.form == m.form
  {
    var action := if m.editData.Some? then Update(m.editData.value.id, m.form) else Add(m.form);
    (action, m.(closed := true))
  }

  /** The update the edit form sends: the edited object with the four inputs applied. */
  function UpdatesOf(c: Cluster, f: Form): FarmContext.Updates {
    FarmContext.Updates(f.clusterName, f.areaSize, f.plantCount, f.plantStage, Some(c.stageData))
  }

  /** Saving an edit changes the edited cluster's four inputs and nothing else
      in the list; its stage data and harvests stay. Values left `undefined` keep the
      stored value. */
  lemma EditSaveEffect(cs: seq<Cluster>, m: Modal, i: nat)
    requires m.editData.Some? && i < |cs| && cs[i] == m.editData.value
    requires m.form.clusterName != Undefined && m.form.areaSize != Undefined
    requires m.form.plantCount != Undefined && m.form.plantStage != Undefined
    ensures var r := FarmContext.UpdateCluster(cs, DoSave(m).0.id, UpdatesOf(m.editData.value, m.form));
      |r| == |cs| && FormOf(r[i]) == m.form && r[i].stageData == cs[i].stageData
      && r[i].harvestRecords == cs[i].harvestRecords && r[i].id == cs[i].id
      && (forall j :: 0 <= j < |cs| && cs[j].id != cs[i].id ==> r[j] == cs[j])
  {
  }

  /** `handleClose`: a dirty form asks before discarding; a clean one closes at once. */
  function Close(m: Modal): (r: Modal)
    ensures Dirty(m) ==> r == m.(discardConfirm := true)
    ensures !Dirty(m) ==> r == m.(closed := true)
  {
    if Dirty(m) then m.(discardConfirm := true) else m.(closed := true)
  }

  /** Closing an untouched form never asks. */
  lemma CloseUntouched(editData: Option<Cluster>)
    ensures Close(Open(editData)).closed && !Close(Open(editData)).discardConfirm
  {
  }
}

=== FILE: cluster_rules.dfy ===
/** The farmer-side recommendation page: eleven ordered checks over a
    cluster's stage data, the performance level derived from the issues'
    severities, and the page's urgency sort and its two filters. */
module ClusterRules {
  import opened Wrappers
  import opened Js
  import opened Seqs
  import opened Order
  import opened FarmContext

  datatype Severity = High | Medium | Low

  /** What a check found. The flag on a range issue records which advice is
      given: `raise` (lime) for a low pH, `hot` (more shade) for a high
      temperature, `dry` (mulch, irrigation) for low humidity or rainfall. */
  datatype Issue =
    | MissingFertilizer
    | MissingPesticide
    | MissingPruning
    | SoilPh(raise: bool)
    | NoShade
    | Temperature(hot: bool)
    | YieldDecline
    | Humidity(dry: bool)
    | Rainfall(dry: bool)
    | InfrequentFertilizer
    | PesticideTypeMissing

  datatype Found = Found(issue: Issue, severity: Severity)

  /** The position of an issue's check in the sequence of checks. */
  function RuleIndex(i: Issue): (n: nat)
    ensures n < 11
  {
    match i
    case MissingFertilizer => 0
    case MissingPesticide => 1
    case MissingPruning => 2
    case SoilPh(_) => 3
    case NoShade => 4
    case Temperature(_) => 5
    case YieldDecline => 6
    case Humidity(_) => 7
    case Rainfall(_) => 8
    case InfrequentFertilizer => 9
    case PesticideTypeMissing => 10
  }

  /** `const x = parseFloat(v); if (x && …)`: a reading takes part only when
      it parses to a non-zero number; `NaN` and 0 skip the check. */
  function Reading(v: Raw): (r: Option<real>)
    ensures r.Some? <==> ParseFloat(v).Some? && ParseFloat(v).value != 0.0
    ensures r.Some? ==> r.value == ParseFloat(v).value
  {
    match ParseFloat(v)
    case Some(x) => if x != 0.0 then Some(x) else None
    case None => None
  }

  /** The stage-data fields the checks read, with the numeric ones already
      passed through `Reading`. */
  datatype View = View(
    fertilizerType: Raw,
    pesticideFrequency: Raw,
    lastPrunedDate: Raw,
    ph: Option<real>,
    shadeTrees: Raw,
    temperature: Option<real>,
    previousYield: Option<real>,
    currentYield: Option<real>,
    humidity: Option<real>,
    rainfall: Option<real>,
    fertilizerFrequency: Raw,
    pesticideType: Raw)

  function ViewOf(sd: Obj): View {
    View(Get(sd, "fertilizerType"), Get(sd, "pesticideFrequency"), Get(sd, "lastPrunedDate"),
         Reading(Get(sd, "soilPh")), Get(sd, "shadeTrees"), Reading(Get(sd, "monthlyTemperature")),
         Reading(Get(sd, "previousYield")), Reading(Get(sd, "currentYield")),
         Reading(Get(sd, "humidity")), Reading(Get(sd, "rainfall")),
         Get(sd, "fertilizerFrequency"), Get(sd, "pesticideType"))
  }

  /** A required text field that is falsy (`!x || x === ''`) raises an issue. */
  function Missing(v: Raw, issue: Issue, sev: Severity): (r: Option<Found>)
    ensures r.Some? <==> !Truthy(v)
    ensures r.Some? ==> r.value == Found(issue, sev)
  {
    if !Truthy(v) || v == Str("") then Some(Found(issue, sev)) else None
  }

  /** Soil pH outside [5.5, 6.5]; high beyond [5.0, 7.0]; lime when below. */
  function PhCheck(ph: Option<real>): (r: Option<Found>)
    ensures r.Some? <==> ph.Some? && (ph.value < 5.5 || ph.value > 6.5)
    ensures r.Some? ==> r.value.issue == SoilPh(ph.value < 5.5)
    ensures r.Some? ==> (r.value.severity == High <==> ph.value < 5.0 || ph.value > 7.0)
    ensures r.Some? ==> r.value.severity in {High, Medium}
  {
    match ph
    case Some(p) =>
      if p < 5.5 || p > 6.5 then Some(Found(SoilPh(p < 5.5), if p < 5.0 || p > 7.0 then High else Medium))
      else None
    case None => None
  }

  /** Only the exact text `'No'` counts as having no shade trees. */
  function ShadeCheck(shade: Raw): (r: Option<Found>)
    ensures r.Some? <==> shade == Str("No")
    ensures r.Some? ==> r.value == Found(NoShade, Low)
  {
    if shade == Str("No") then Some(Found(NoShade, Low)) else None
  }

  /** Temperature outside [15, 30] is always medium; the advice depends on the side. */
  function TemperatureCheck(temp: Option<real>): (r: Option<Found>)
    ensures r.Some? <==> temp.Some? && (temp.value < 15.0 || temp.value > 30.0)
    ensures r.Some? ==> r.value == Found(Temperature(temp.value > 30.0), Medium)
  {
    match temp
    case Some(t) => if t < 15.0 || t > 30.0 then Some(Found(Temperature(t > 30.0), Medium)) else None
    case None => None
  }

  /** A current yield below 70% of a previous yield, both non-zero readings, is high. */
  function YieldCheck(prev: Option<real>, cur: Option<real>): (r: Option<Found>)
    ensures r.Some? <==> prev.Some? && cur.Some? && cur.value < prev.value * 0.7
    ensures r.Some? ==> r.value == Found(YieldDecline, High)
  {
    if prev.Some? && cur.Some? && cur.value < prev.value * 0.7 then Some(Found(YieldDecline, High)) else None
  }

  /** Humidity outside [60, 70]; high beyond [40, 85], otherwise low. */
  function HumidityCheck(hum: Option<real>): (r: Option<Found>)
    ensures r.Some? <==> hum.Some? && (hum.value < 60.0 || hum.value > 70.0)
    ensures r.Some? ==> r.value.issue == Humidity(hum.value < 60.0)
    ensures r.Some? ==> (r.value.severity == High <==> hum.value < 40.0 || hum.value > 85.0)
    ensures r.Some? ==> r.value.severity in {High, Low}
  {
    match hum
    case Some(h) =>
      if h < 60.0 || h > 70.0 then Some(Found(Humidity(h < 60.0), if h < 40.0 || h > 85.0 then High else Low))
      else None
    case None => None
  }

  /** Rainfall outside [100, 250]; high beyond [50, 350], otherwise medium. */
  function RainfallCheck(rain: Option<real>): (r: Option<Found>)
    ensures r.Some? <==> rain.Some? && (rain.value < 100.0 || rain.value > 250.0)
    ensures r.Some? ==> r.value.issue == Rainfall(rain.value < 100.0)
    ensures r.Some? ==> (r.value.severity == High <==> rain.value < 50.0 || rain.value > 350.0)
    ensures r.Some? ==> r.value.severity in {High, Medium}
  {
    match rain
    case Some(x) =>
      if x < 100.0 || x > 250.0 then Some(Found(Rainfall(x < 100.0), if x < 50.0 || x > 350.0 then High else Medium))
      else None
    case None => None
  }

  /** The capitalised form values `'Never'` (high) and `'Rarely'` (medium). */
  function FrequencyCheck(freq: Raw): (r: Option<Found>)
    ensures r.Some? <==> freq == Str("Never") || freq == Str("Rarely")
    ensures r.Some? ==> r.value.issue == InfrequentFertilizer
    ensures r.Some? ==> (r.value.severity == High <==> freq == Str("Never"))
    ensures r.Some? ==> r.value.severity in {High, Medium}
  {
    if freq == Str("Never") || freq == Str("Rarely") then
      Some(Found(InfrequentFertilizer, if freq == Str("Never") then High else Medium))
    else None
  }

  /** A pesticide frequency other than `'Never'` with no pesticide type is low. */
  function PesticideTypeCheck(freq: Raw, kind: Raw): (r: Option<Found>)
    ensures r.Some? <==> Truthy(freq) && freq != Str("Never") && !Truthy(kind)
    ensures r.Some? ==> r.value == Found(PesticideTypeMissing, Low)
  {
    if Truthy(freq) && freq != Str("Never") && !Truthy(kind) then Some(Found(PesticideTypeMissing, Low)) else None
  }

  /** The `i`-th check, in the order `analyzeCluster` runs them. */
  function CheckAt(i: nat, v: View): (r: Option<Found>)
    requires i < 11
    ensures r.Some? ==> RuleIndex(r.value.issue) == i
  {
    if i == 0 then Missing(v.fertilizerType, MissingFertilizer, High)
    else if i == 1 then Missing(v.pesticideFrequency, MissingPesticide, Medium)
    else if i == 2 then Missing(v.lastPrunedDate, MissingPruning, Medium)
    else if i == 3 then PhCheck(v.ph)
    else if i == 4 then ShadeCheck(v.shadeTrees)
    else if i == 5 then TemperatureCheck(v.temperature)
    else if i == 6 then YieldCheck(v.previousYield, v.currentYield)
    else if i == 7 then HumidityCheck(v.humidity)
    else if i == 8 then RainfallCheck(v.rainfall)
    else if i == 9 then FrequencyCheck(v.fertilizerFrequency)
    else PesticideTypeCheck(v.pesticideFrequency, v.pesticideType)
  }

  /** The issues of checks `i` to 10, in check order. */
  function Collect(v: View, i: nat): (r: seq<Found>)
    requires i <= 11
    ensures forall a :: 0 <= a < |r| ==> i <= RuleIndex(r[a].issue) && CheckAt(RuleIndex(r[a].issue), v) == Some(r[a])
    decreases 11 - i
  {
    if i == 11 then []
    else
      match CheckAt(i, v)
      case None => Collect(v, i + 1)
      case Some(f) => [f] + Collect(v, i + 1)
  }

  /** Every check from `i` on that fires has its issue in the list. */
  lemma {:induction false} CollectCovers(v: View, i: nat, j: nat)
    requires i <= j < 11 && CheckAt(j, v).Some?
    ensures CheckAt(j, v).value in Collect(v, i)
    decreases 11 - i
  {
    if i < j {
      CollectCovers(v, i + 1, j);
    }
  }

  /** One issue per check at most, in check order. */
  lemma {:induction false} CollectOrdered(v: View, i: nat)
    requires i <= 11
    ensures |Collect(v, i)| <= 11 - i
    ensures forall a, b :: 0 <= a < b < |Collect(v, i)| ==>
      RuleIndex(Collect(v, i)[a].issue) < RuleIndex(Collect(v, i)[b].issue)
    decreases 11 - i
  {
    if i < 11 {
      CollectOrdered(v, i + 1);
    }
  }

  /** `analyzeCluster` on the fields it reads. */
  function Analyze(v: View): seq<Found> {
    Collect(v, 0)
  }

  /** `cluster.stageData || {}`. */
  function StageOf(c: Cluster): Obj {
    c.stageData.GetOr(map[])
  }

  /** `analyzeCluster(cluster)`. */
  function AnalyzeCluster(c: Cluster): seq<Found> {
    Analyze(ViewOf(StageOf(c)))
  }

  /** At most one issue per check, in the order the checks run. */
  lemma AnalyzeOrdered(v: View)
    ensures |Analyze(v)| <= 11
    ensures forall a, b :: 0 <= a < b < |Analyze(v)| ==> RuleIndex(Analyze(v)[a].issue) < RuleIndex(Analyze(v)[b].issue)
  {
    CollectOrdered(v, 0);
  }

  /** An issue is reported exactly when its own check finds it. */
  lemma AnalyzeExactly(v: View, f: Found)
    ensures f in Analyze(v) <==> CheckAt(RuleIndex(f.issue), v) == Some(f)
  {
    if CheckAt(RuleIndex(f.issue), v) == Some(f) {
      CollectCovers(v, 0, RuleIndex(f.issue));
    }
  }

  /** The three "missing record" issues fire exactly when their field is falsy. */
  lemma MissingRecords(v: View)
    ensures Found(MissingFertilizer, High) in Analyze(v) <==> !Truthy(v.fertilizerType)
    ensures Found(MissingPesticide, Medium) in Analyze(v) <==> !Truthy(v.pesticideFrequency)
    ensures Found(MissingPruning, Medium) in Analyze(v) <==> !Truthy(v.lastPrunedDate)
  {
    AnalyzeExactly(v, Found(MissingFertilizer, High));
    AnalyzeExactly(v, Found(MissingPesticide, Medium));
    AnalyzeExactly(v, Found(MissingPruning, Medium));
  }

  /** The pH issue is reported exactly when the pH check fires, and is that check's finding. */
  lemma PhIssue(v: View)
    ensures (exists f :: f in Analyze(v) && f.issue.SoilPh?) <==> PhCheck(v.ph).Some?
    ensures forall f :: f in Analyze(v) && f.issue.SoilPh? ==> PhCheck(v.ph) == Some(f)
  {
    assert CheckAt(3, v) == PhCheck(v.ph);
    forall f | f in Analyze(v) && f.issue.SoilPh? ensures PhCheck(v.ph) == Some(f) {
      AnalyzeExactly(v, f);
      assert RuleIndex(f.issue) == 3;
    }
    if PhCheck(v.ph).Some? {
      var f := PhCheck(v.ph).value;
      assert RuleIndex(f.issue) == 3;
      AnalyzeExactly(v, f);
      assert f in Analyze(v) && f.issue.SoilPh?;
    }
  }

  /** The temperature issue is reported exactly when its check fires, and is that check's finding. */
  lemma TemperatureIssue(v: View)
    ensures (exists f :: f in Analyze(v) && f.issue.Temperature?) <==> TemperatureCheck(v.temperature).Some?
    ensures forall f :: f in Analyze(v) && f.issue.Temperature? ==> TemperatureCheck(v.temperature) == Some(f)
  {
    assert CheckAt(5, v) == TemperatureCheck(v.temperature);
    forall f | f in Analyze(v) && f.issue.Temperature? ensures TemperatureCheck(v.temperature) == Some(f) {
      AnalyzeExactly(v, f);
      assert RuleIndex(f.issue) == 5;
    }
    if TemperatureCheck(v.temperature).Some? {
      var f := TemperatureCheck(v.temperature).value;
      assert RuleIndex(f.issue) == 5;
      AnalyzeExactly(v, f);
      assert f in Analyze(v) && f.issue.Temperature?;
    }
  }

  /** The humidity issue is reported exactly when its check fires, and is that check's finding. */
  lemma HumidityIssue(v: View)
    ensures (exists f :: f in Analyze(v) && f.issue.Humidity?) <==> HumidityCheck(v.humidity).Some?
    ensures forall f :: f in Analyze(v) && f.issue.Humidity? ==> HumidityCheck(v.humidity) == Some(f)
  {
    assert CheckAt(7, v) == HumidityCheck(v.humidity);
    forall f | f in Analyze(v) && f.issue.Humidity? ensures HumidityCheck(v.humidity) == Some(f) {
      AnalyzeExactly(v, f);
      assert RuleIndex(f.issue) == 7;
    }
    if HumidityCheck(v.humidity).Some? {
      var f := HumidityCheck(v.humidity).value;
      assert RuleIndex(f.issue) == 7;
      AnalyzeExactly(v, f);
      assert f in Analyze(v) && f.issue.Humidity?;
    }
  }

  /** The rainfall issue is reported exactly when its check fires, and is that check's finding. */
  lemma RainfallIssue(v: View)
    ensures (exists f :: f in Analyze(v) && f.issue.Rainfall?) <==> RainfallCheck(v.rainfall).Some?
    ensures forall f :: f in Analyze(v) && f.issue.Rainfall? ==> RainfallCheck(v.rainfall) == Some(f)
  {
    assert CheckAt(8, v) == RainfallCheck(v.rainfall);
    forall f | f in Analyze(v) && f.issue.Rainfall? ensures RainfallCheck(v.rainfall) == Some(f) {
      AnalyzeExactly(v, f);
      assert RuleIndex(f.issue) == 8;
    }
    if RainfallCheck(v.rainfall).Some? {
      var f := RainfallCheck(v.rainfall).value;
      assert RuleIndex(f.issue) == 8;
      AnalyzeExactly(v, f);
      assert f in Analyze(v) && f.issue.Rainfall?;
    }
  }

  /** The yield-decline issue needs both yields as non-zero readings and a drop below 70%. */
  lemma YieldIssue(v: View)
    ensures Found(YieldDecline, High) in Analyze(v) <==>
      v.previousYield.Some? && v.currentYield.Some? && v.currentYield.value < v.previousYield.value * 0.7
  {
    AnalyzeExactly(v, Found(YieldDecline, High));
  }

  /** "Missing pesticide frequency" and "pesticide type not specified" never both appear. */
  lemma PesticideIssuesExclusive(v: View)
    ensures Found(MissingPesticide, Medium) in Analyze(v) ==> Found(PesticideTypeMissing, Low) !in Analyze(v)
  {
    var missing := Found(MissingPesticide, Medium);
    var untyped := Found(PesticideTypeMissing, Low);
    AnalyzeExactly(v, missing);
    AnalyzeExactly(v, untyped);
    assert RuleIndex(missing.issue) == 1 && RuleIndex(untyped.issue) == 10;
    assert CheckAt(1, v).Some? ==> !Truthy(v.pesticideFrequency);
    assert !Truthy(v.pesticideFrequency) ==> CheckAt(10, v).None?;
  }

  /** Only the capitalised `'Never'` and `'Rarely'` raise the frequency issue. */
  lemma FrequencyIssue(v: View)
    ensures Found(InfrequentFertilizer, High) in Analyze(v) <==> v.fertilizerFrequency == Str("Never")
    ensures Found(InfrequentFertilizer, Medium) in Analyze(v) <==> v.fertilizerFrequency == Str("Rarely")
    ensures v.fertilizerFrequency in {Str("never"), Str("rarely")} ==>
      forall f :: f in Analyze(v) ==> f.issue != InfrequentFertilizer
  {
    AnalyzeExactly(v, Found(InfrequentFertilizer, High));
    AnalyzeExactly(v, Found(InfrequentFertilizer, Medium));
    forall f | f in Analyze(v) ensures CheckAt(RuleIndex(f.issue), v) == Some(f) {
      AnalyzeExactly(v, f);
    }
    assert Str("never") != Str("Never") by { assert "never"[0] != "Never"[0]; }
    assert Str("rarely") != Str("Rarely") by { assert "rarely"[0] != "Rarely"[0]; }
  }

  /** A reading of 0, or one that does not parse, never raises its issue. */
  lemma ZeroReadingSkipped(sd: Obj)
    ensures ParseFloat(Get(sd, "soilPh")) in {None, Some(0.0)} ==> PhCheck(ViewOf(sd).ph).None?
    ensures ParseFloat(Get(sd, "humidity")) in {None, Some(0.0)} ==> HumidityCheck(ViewOf(sd).humidity).None?
  {
  }

  /** A cluster with no stage data is missing fertilizer, pesticide and pruning records, and nothing else. */
  lemma NoStageData(c: Cluster)
    requires c.stageData.None?
    ensures AnalyzeCluster(c) == [Found(MissingFertilizer, High), Found(MissingPesticide, Medium), Found(MissingPruning, Medium)]
    ensures Performance(c) == Moderate
  {
    var v := ViewOf(StageOf(c));
    assert StageOf(c) == map[];
    assert v == View(Undefined, Undefined, Undefined, None, Undefined, None, None, None, None, None, Undefined, Undefined);
    EmptyView();
    var r := AnalyzeCluster(c);
    assert Filter(r[..1], IsHigh) == [r[0]];
    assert r[..2][..1] == r[..1] && r[..3][..2] == r[..2] && r[..3] == r;
    assert Filter(r[..2], IsHigh) == [r[0]];
    assert Filter(r, IsHigh) == [r[0]];
  }

  lemma EmptyView()
    ensures Analyze(View(Undefined, Undefined, Undefined, None, Undefined, None, None, None, None, None, Undefined, Undefined))
      == [Found(MissingFertilizer, High), Found(MissingPesticide, Medium), Found(MissingPruning, Medium)]
  {
    var v := View(Undefined, Undefined, Undefined, None, Undefined, None, None, None, None, None, Undefined, Undefined);
    assert Collect(v, 10) == [];
    assert Collect(v, 9) == [];
    assert Collect(v, 8) == [];
    assert Collect(v, 7) == [];
    assert Collect(v, 6) == [];
    assert Collect(v, 5) == [];
    assert Collect(v, 4) == [];
    assert Collect(v, 3) == [];
  }

  // ---------------------------------------------------------------------
  // Performance level

  datatype Perf = Poor | Moderate | Good

  function PerfLabel(p: Perf): string {
    match p
    case Poor => "poor"
    case Moderate => "moderate"
    case Good => "good"
  }

  /** `sortOrder`: poor 0, moderate 1, good 2. */
  function PerfRank(p: Perf): (n: nat)
    ensures n <= 2
  {
    match p
    case Poor => 0
    case Moderate => 1
    case Good => 2
  }

  function IsHigh(f: Found): bool {
    f.severity == High
  }

  function IsMedium(f: Found): bool {
    f.severity == Medium
  }

  /** `getPerformanceLevel` on a list of issues. */
  function Level(issues: seq<Found>): (p: Perf)
    ensures p == Poor <==> Count(issues, IsHigh) >= 2
    ensures p == Moderate <==> Count(issues, IsHigh) < 2 && (Count(issues, IsHigh) >= 1 || Count(issues, IsMedium) >= 2)
    ensures p == Good <==> Count(issues, IsHigh) == 0 && Count(issues, IsMedium) < 2
  {
    var high := Count(issues, IsHigh);
    var medium := Count(issues, IsMedium);
    if high >= 2 then Poor
    else if high >= 1 || medium >= 2 then Moderate
    else Good
  }

  function Performance(c: Cluster): Perf {
    Level(AnalyzeCluster(c))
  }

  /** More issues never give a better level. */
  lemma LevelMonotone(a: seq<Found>, b: seq<Found>)
    ensures PerfRank(Level(a + b)) <= PerfRank(Level(a))
  {
    FilterAppend(a, b, IsHigh);
    FilterAppend(a, b, IsMedium);
  }

  /** Two high issues make a cluster poor whatever else is found. */
  lemma TwoHighIsPoor(issues: seq<Found>, f: Found, g: Found)
    requires f in issues && g in issues && f != g && f.severity == High && g.severity == High
    ensures Level(issues) == Poor
  {
    var h := Filter(issues, IsHigh);
    assert f in h && g in h;
    var i :| 0 <= i < |h| && h[i] == f;
    var j :| 0 <= j < |h| && h[j] == g;
    assert i != j;
  }

  // ---------------------------------------------------------------------
  // The page

  datatype Analysed = Analysed(cluster: Cluster, issues: seq<Found>, performance: Perf)

  function AnalysedOf(c: Cluster): (a: Analysed)
    ensures a.cluster == c && a.issues == AnalyzeCluster(c) && a.performance == Level(a.issues)
  {
    Analysed(c, AnalyzeCluster(c), Performance(c))
  }

  function AnalyseAll(cs: seq<Cluster>): (r: seq<Analysed>)
    ensures |r| == |cs| && forall i :: 0 <= i < |cs| ==> r[i] == AnalysedOf(cs[i])
  {
    seq(|cs|, i requires 0 <= i < |cs| => AnalysedOf(cs[i]))
  }

  function Urgency(a: Analysed): int {
    PerfRank(a.performance)
  }

  function UrgencyKey(a: Analysed): seq<Atom> {
    [ANum(Urgency(a) as real)]
  }

  /** The stable sort by `sortOrder`: poor first, then moderate, then good. */
  function ByUrgency(xs: seq<Analysed>): (r: seq<Analysed>)
    ensures multiset(r) == multiset(xs)
    ensures forall i, j :: 0 <= i < j < |r| ==> Urgency(r[i]) <= Urgency(r[j])
  {
    var r := SortBy(xs, UrgencyKey);
    assert forall i, j :: 0 <= i < j < |r| ==> KeyLe(UrgencyKey(r[i]), UrgencyKey(r[j]));
    r
  }

  function HasPerformance(want: string): Analysed -> bool {
    (a: Analysed) => PerfLabel(a.performance) == want
  }

  /** The performance filter: `''` keeps everything, otherwise the label must match. */
  function FilterPerformance(xs: seq<Analysed>, want: string): (r: seq<Analysed>)
    ensures want == "" ==> r == xs
    ensures want != "" ==> r == Filter(xs, HasPerformance(want))
  {
    if want == "" then xs else Filter(xs, HasPerformance(want))
  }

  /** `c.stageData?.harvestSeason`. */
  function SeasonOf(c: Cluster): Raw {
    match c.stageData
    case None => Undefined
    case Some(sd) => Get(sd, "harvestSeason")
  }

  /** `c.stageData?.harvestSeason?.includes(f)`: only a text season can match. */
  predicate SeasonIncludes(c: Cluster, f: string) {
    SeasonOf(c).Str? && Contains(SeasonOf(c).s, f)
  }

  function InSeason(f: string): Analysed -> bool {
    (a: Analysed) => SeasonIncludes(a.cluster, f)
  }

  /** The season filter: `''` keeps everything, otherwise the season must contain the text. */
  function FilterSeason(xs: seq<Analysed>, f: string): (r: seq<Analysed>)
    ensures f == "" ==> r == xs
    ensures f != "" ==> r == Filter(xs, InSeason(f))
  {
    if f == "" then xs else Filter(xs, InSeason(f))
  }

  /** The cards on the page, most urgent first. */
  function Shown(cs: seq<Cluster>, farm: Option<Obj>, perf: string, season: string): seq<Analysed> {
    FilterSeason(FilterPerformance(ByUrgency(AnalyseAll(AllClusters(cs, farm))), perf), season)
  }

  /** The page shows exactly the analysed clusters that pass both filters. */
  lemma ShownExactly(cs: seq<Cluster>, farm: Option<Obj>, perf: string, season: string)
    ensures forall a :: a in Shown(cs, farm, perf, season) <==>
      a in AnalyseAll(AllClusters(cs, farm)) &&
      (perf == "" || PerfLabel(a.performance) == perf) &&
      (season == "" || SeasonIncludes(a.cluster, season))
  {
    forall a ensures a in Shown(cs, farm, perf, season) <==>
      a in AnalyseAll(AllClusters(cs, farm)) &&
      (perf == "" || PerfLabel(a.performance) == perf) &&
      (season == "" || SeasonIncludes(a.cluster, season))
    {
      ShownMember(AnalyseAll(AllClusters(cs, farm)), perf, season, a);
    }
  }

  lemma ShownMember(all: seq<Analysed>, perf: string, season: string, a: Analysed)
    ensures a in FilterSeason(FilterPerformance(ByUrgency(all), perf), season) <==>
      a in all && (perf == "" || PerfLabel(a.performance) == perf) && (season == "" || SeasonIncludes(a.cluster, season))
  {
    var sorted := ByUrgency(all);
    assert a in sorted <==> a in all by {
      assert a in sorted <==> a in multiset(sorted);
      assert a in all <==> a in multiset(all);
    }
    var byPerf := FilterPerformance(sorted, perf);
    if perf != "" {
      FilterIn(sorted, HasPerformance(perf), a);
    }
    if season != "" {
      FilterIn(byPerf, InSeason(season), a);
    }
  }

  /** Filtering keeps the relative order, so the page lists poor before moderate before good. */
  lemma ShownByUrgency(cs: seq<Cluster>, farm: Option<Obj>, perf: string, season: string)
    ensures var r := Shown(cs, farm, perf, season);
      forall i, j :: 0 <= i < j < |r| ==> Urgency(r[i]) <= Urgency(r[j])
  {
    var sorted := ByUrgency(AnalyseAll(AllClusters(cs, farm)));
    var byPerf := FilterPerformance(sorted, perf);
    if perf != "" {
      FilterKeepsOrder(sorted, HasPerformance(perf), Urgency);
    }
    if season != "" {
      FilterKeepsOrder(byPerf, InSeason(season), Urgency);
    }
  }

  /** The season choices: the distinct truthy seasons of the clusters. */
  function Seasons(cs: seq<Cluster>): (r: seq<Raw>)
    ensures Distinct(r)
    ensures forall x :: x in r <==> Truthy(x) && exists c :: c in cs && SeasonOf(c) == x
  {
    var all := seq(|cs|, i requires 0 <= i < |cs| => SeasonOf(cs[i]));
    var r := Dedup(Filter(all, Truthy));
    assert forall x :: x in r <==> Truthy(x) && x in all;
    assert forall x :: x in all <==> exists c :: c in cs && SeasonOf(c) == x by {
      forall x | x in all ensures exists c :: c in cs && SeasonOf(c) == x {
        var i :| 0 <= i < |all| && all[i] == x;
        assert cs[i] in cs;
      }
      forall x | exists c :: c in cs && SeasonOf(c) == x ensures x in all {
        var c :| c in cs && SeasonOf(c) == x;
        var i :| 0 <= i < |cs| && cs[i] == c;
        assert all[i] == x;
      }
    }
    r
  }
}

=== FILE: csv.dfy ===
/** The text half of `exportToCSV`: a header line of the first row's keys,
    then one line per row, cells joined by commas, and a cell that holds a
    comma or a double quote wrapped in quotes with inner quotes doubled. A
    reader for that format is defined alongside, and the lemmas show that it
    recovers every cell's text. */
module Csv {
  import opened Wrappers
  import opened Js
  import opened Seqs

  /** `parts.join(sep)`. */
  function Join(parts: seq<string>, sep: char): (s: string)
    ensures |parts| == 1 ==> s == parts[0]
    decreases |parts|
  {
    if |parts| == 0 then ""
    else if |parts| == 1 then parts[0]
    else parts[0] + [sep] + Join(parts[1..], sep)
  }

  /** Index of the first `c` in `s`, or `|s|`. */
  function IndexOf(s: string, c: char): (i: nat)
    ensures i <= |s|
    ensures i < |s| ==> s[i] == c
    ensures forall j :: 0 <= j < i ==> s[j] != c
    decreases |s|
  {
    if |s| == 0 then 0 else if s[0] == c then 0 else 1 + IndexOf(s[1..], c)
  }

  /** `s.split(sep)`. */
  function Split(s: string, sep: char): (parts: seq<string>)
    ensures |parts| >= 1
    decreases |s|
  {
    var i := IndexOf(s, sep);
    if i == |s| then [s] else [s[..i]] + Split(s[i + 1..], sep)
  }

  /** Splitting a joined list gives the list back when no part holds the separator. */
  lemma {:induction false} SplitJoin(parts: seq<string>, sep: char)
    requires |parts| >= 1
    requires forall k :: 0 <= k < |parts| ==> sep !in parts[k]
    ensures Split(Join(parts, sep), sep) == parts
    decreases |parts|
  {
    var p := parts[0];
    assert sep !in p by {
      assert parts[0] == p;
    }
    if |parts| == 1 {
      IndexOfAbsent(p, sep);
    } else {
      var s := Join(parts, sep);
      var rest := Join(parts[1..], sep);
      assert s == p + [sep] + rest;
      IndexOfPrefix(p, sep, rest);
      assert s[..|p|] == p;
      assert s[|p| + 1..] == rest;
      SplitJoin(parts[1..], sep);
      assert parts == [p] + parts[1..];
    }
  }

  lemma {:induction false} IndexOfAbsent(p: string, sep: char)
    requires sep !in p
    ensures IndexOf(p, sep) == |p|
    decreases |p|
  {
    if |p| > 0 {
      assert p[0] in p;
      assert forall c :: c in p[1..] ==> c in p;
      IndexOfAbsent(p[1..], sep);
    }
  }

  lemma {:induction false} IndexOfPrefix(p: string, sep: char, rest: string)
    requires sep !in p
    ensures IndexOf(p + [sep] + rest, sep) == |p|
    decreases |p|
  {
    var s := p + [sep] + rest;
    if |p| > 0 {
      assert p[0] in p;
      assert forall c :: c in p[1..] ==> c in p;
      assert s[1..] == p[1..] + [sep] + rest;
      IndexOfPrefix(p[1..], sep, rest);
    }
  }

  /** `s.replace(/"/g, '""')`. */
  function DoubleQuotes(s: string): (r: string)
    decreases |s|
  {
    if |s| == 0 then ""
    else if s[0] == '"' then "\"\"" + DoubleQuotes(s[1..])
    else [s[0]] + DoubleQuotes(s[1..])
  }

  /** Whether a string cell must be quoted. */
  predicate NeedsQuotes(s: string) {
    ',' in s || '"' in s
  }

  /** A string cell as written: quoted with inner quotes doubled when it holds a comma or a quote. */
  function EncodeText(s: string): (r: string)
    ensures !NeedsQuotes(s) ==> r == s
    ensures NeedsQuotes(s) ==> r == "\"" + DoubleQuotes(s) + "\""
  {
    if NeedsQuotes(s) then "\"" + DoubleQuotes(s) + "\"" else s
  }

  /** The text a non-null value prints as when `join` converts it; numbers go
      through the supplied formatter (JavaScript's number printing is not
      modelled). */
  function Display(v: Raw, fmt: real -> string): string {
    match v
    case Str(s) => s
    case Num(n) => fmt(n)
    case NaN => "NaN"
    case Bool(b) => if b then "true" else "false"
    case _ => ""
  }

  /** One cell of a data line: `null` and `undefined` are empty, strings with
      a comma or quote are quoted, anything else is printed as is. */
  function Cell(v: Raw, fmt: real -> string): (c: string)
    ensures IsNullish(v) ==> c == ""
    ensures v.Str? ==> c == EncodeText(v.s)
    ensures !IsNullish(v) && !v.Str? ==> c == Display(v, fmt)
  {
    if v.Null? || v.Undefined? then ""
    else if v.Str? && NeedsQuotes(v.s) then "\"" + DoubleQuotes(v.s) + "\""
    else Display(v, fmt)
  }

  /** The text a reader should recover from a cell. */
  function CellText(v: Raw, fmt: real -> string): string {
    if IsNullish(v) then "" else Display(v, fmt)
  }

  /** A record's data line under the header list. */
  function RowLine(headers: seq<string>, row: Obj, fmt: real -> string): string {
    Join(seq(|headers|, i requires 0 <= i < |headers| => Cell(Get(row, headers[i]), fmt)), ',')
  }

  /** `exportToCSV`'s text: nothing for an empty list, otherwise the header
      line followed by one line per record, joined by newlines. `headers` is
      `Object.keys(data[0])`: the first record's keys, each once, in insertion
      order. */
  function Export(headers: seq<string>, data: seq<Obj>, fmt: real -> string): (out: Option<string>)
    requires |data| > 0 ==> Distinct(headers) && forall h :: h in headers <==> h in data[0]
    ensures out.None? <==> |data| == 0
  {
    if |data| == 0 then None
    else Some(Join([Join(headers, ',')] + seq(|data|, i requires 0 <= i < |data| => RowLine(headers, data[i], fmt)), '\n'))
  }

  /** Reads an unquoted field: everything up to the next comma. */
  function ReadUnquoted(s: string): (res: (string, string))
    ensures |res.1| <= |s|
    decreases |s|
  {
    if |s| == 0 || s[0] == ',' then ("", s)
    else
      var (v, rest) := ReadUnquoted(s[1..]);
      ([s[0]] + v, rest)
  }

  /** Reads the inside of a quoted field, after its opening quote: `""` is
      one quote, a lone `"` closes the field. */
  function ReadQuoted(s: string): (res: (string, string))
    ensures |res.1| <= |s|
    decreases |s|
  {
    if |s| == 0 then ("", "")
    else if s[0] == '"' then
      if |s| > 1 && s[1] == '"' then
        var (v, rest) := ReadQuoted(s[2..]);
        ("\"" + v, rest)
      else ("", s[1..])
    else
      var (v, rest) := ReadQuoted(s[1..]);
      ([s[0]] + v, rest)
  }

  /** Reads one field and returns it with the unread remainder. */
  function ReadField(s: string): (res: (string, string))
    ensures |res.1| <= |s|
  {
    if |s| > 0 && s[0] == '"' then ReadQuoted(s[1..]) else ReadUnquoted(s)
  }

  /** Splits one line into field texts. */
  function DecodeLine(s: string): (fields: seq<string>)
    ensures |fields| >= 1
    decreases |s|
  {
    var (v, rest) := ReadField(s);
    if |rest| > 0 && rest[0] == ',' then [v] + DecodeLine(rest[1..]) else [v]
  }

  /** Where a field may end: at the end of the line or at a comma. */
  predicate FieldBoundary(rest: string) {
    |rest| == 0 || rest[0] == ','
  }

  lemma {:induction false} ReadUnquotedPlain(t: string, rest: string)
    requires ',' !in t
    requires FieldBoundary(rest)
    ensures ReadUnquoted(t + rest) == (t, rest)
    decreases |t|
  {
    if |t| == 0 {
      assert t + rest == rest;
    } else {
      assert (t + rest)[1..] == t[1..] + rest;
      assert t[0] in t;
      ReadUnquotedPlain(t[1..], rest);
      assert [t[0]] + t[1..] == t;
    }
  }

  lemma {:induction false} ReadQuotedDoubled(t: string, rest: string)
    requires FieldBoundary(rest)
    ensures ReadQuoted(DoubleQuotes(t) + "\"" + rest) == (t, rest)
    decreases |t|
  {
    var s := DoubleQuotes(t) + "\"" + rest;
    if |t| == 0 {
      assert s == "\"" + rest;
      assert s[1..] == rest;
    } else if t[0] == '"' {
      assert s == "\"\"" + (DoubleQuotes(t[1..]) + "\"" + rest);
      assert s[2..] == DoubleQuotes(t[1..]) + "\"" + rest;
      ReadQuotedDoubled(t[1..], rest);
      assert "\"" + t[1..] == t;
    } else {
      assert s == [t[0]] + (DoubleQuotes(t[1..]) + "\"" + rest);
      assert s[1..] == DoubleQuotes(t[1..]) + "\"" + rest;
      ReadQuotedDoubled(t[1..], rest);
      assert [t[0]] + t[1..] == t;
    }
  }

  /** A written string cell reads back as the string, whatever follows it on the line. */
  lemma FieldRoundTrip(t: string, rest: string)
    requires FieldBoundary(rest)
    ensures ReadField(EncodeText(t) + rest) == (t, rest)
  {
    if NeedsQuotes(t) {
      var s := EncodeText(t) + rest;
      assert s == "\"" + (DoubleQuotes(t) + "\"" + rest);
      assert s[1..] == DoubleQuotes(t) + "\"" + rest;
      ReadQuotedDoubled(t, rest);
    } else {
      ReadUnquotedPlain(t, rest);
      if |t| > 0 {
        assert t[0] in t;
      }
    }
  }

  /** Decoding a line of written cells gives back every cell's text. */
  lemma {:induction false} LineRoundTrip(ts: seq<string>)
    requires |ts| >= 1
    ensures DecodeLine(Join(seq(|ts|, i requires 0 <= i < |ts| => EncodeText(ts[i])), ',')) == ts
    decreases |ts|
  {
    var cells := seq(|ts|, i requires 0 <= i < |ts| => EncodeText(ts[i]));
    var line := Join(cells, ',');
    if |ts| == 1 {
      FieldRoundTrip(ts[0], "");
      assert line == EncodeText(ts[0]) + "";
    } else {
      var tail := seq(|ts| - 1, i requires 0 <= i < |ts| - 1 => EncodeText(ts[1..][i]));
      assert cells[1..] == tail;
      var rest := "," + Join(tail, ',');
      assert line == EncodeText(ts[0]) + rest;
      FieldRoundTrip(ts[0], rest);
      assert rest[1..] == Join(tail, ',');
      LineRoundTrip(ts[1..]);
      assert ts == [ts[0]] + ts[1..];
    }
  }

  /** With a formatter whose output never needs quoting, every cell is its text, written as a string cell would be. */
  lemma CellIsEncodedText(v: Raw, fmt: real -> string)
    requires v.Num? ==> !NeedsQuotes(fmt(v.n))
    ensures Cell(v, fmt) == EncodeText(CellText(v, fmt))
  {
    if !IsNullish(v) && !v.Str? {
      assert !NeedsQuotes(Display(v, fmt)) by {
        if v.NaN? {
          assert ',' !in "NaN" && '"' !in "NaN";
        } else if v.Bool? {
          assert ',' !in "true" && '"' !in "true";
          assert ',' !in "false" && '"' !in "false";
        }
      }
    }
  }

  /** Decoding a record's line recovers, for every header, the text of the record's value under it. */
  lemma RowRoundTrip(headers: seq<string>, row: Obj, fmt: real -> string)
    requires |headers| >= 1
    requires forall n: real :: !NeedsQuotes(fmt(n))
    ensures DecodeLine(RowLine(headers, row, fmt))
      == seq(|headers|, i requires 0 <= i < |headers| => CellText(Get(row, headers[i]), fmt))
  {
    var ts := seq(|headers|, i requires 0 <= i < |headers| => CellText(Get(row, headers[i]), fmt));
    var cells := seq(|headers|, i requires 0 <= i < |headers| => Cell(Get(row, headers[i]), fmt));
    forall i | 0 <= i < |headers| ensures cells[i] == EncodeText(ts[i]) {
      CellIsEncodedText(Get(row, headers[i]), fmt);
    }
    assert cells == seq(|ts|, i requires 0 <= i < |ts| => EncodeText(ts[i]));
    LineRoundTrip(ts);
  }

  /** When no header or cell holds a line break, the exported text splits
      into the header line and one line per record, in order. */
  lemma ExportLines(headers: seq<string>, data: seq<Obj>, fmt: real -> string)
    requires |data| > 0
    requires Distinct(headers) && forall h :: h in headers <==> h in data[0]
    requires forall k :: 0 <= k < |headers| ==> '\n' !in headers[k]
    requires forall i :: 0 <= i < |data| ==> '\n' !in RowLine(headers, data[i], fmt)
    ensures var lines := Split(Export(headers, data, fmt).value, '\n');
      |lines| == |data| + 1
      && lines[0] == Join(headers, ',')
      && forall i :: 0 <= i < |data| ==> lines[i + 1] == RowLine(headers, data[i], fmt)
  {
    var rows := seq(|data|, i requires 0 <= i < |data| => RowLine(headers, data[i], fmt));
    var parts := [Join(headers, ',')] + rows;
    JoinAvoids(headers, ',', '\n');
    SplitJoin(parts, '\n');
  }

  /** Joining never introduces a character other than the separator. */
  lemma {:induction false} JoinAvoids(parts: seq<string>, sep: char, c: char)
    requires c != sep
    requires forall k :: 0 <= k < |parts| ==> c !in parts[k]
    ensures c !in Join(parts, sep)
    decreases |parts|
  {
    if |parts| > 1 {
      JoinAvoids(parts[1..], sep, c);
      assert Join(parts, sep) == parts[0] + [sep] + Join(parts[1..], sep);
    }
  }
}

=== FILE: dashboard.dfy ===
/** The farmer dashboard's derived figures: whether the farm has been filled
    in, the tree total, the harvest-ready count, the per-stage cards and the
    stage style each cluster card takes. */
module Dashboard {
  import opened Wrappers
  import opened Js
  import opened Seqs
  import FarmContext

  type Cluster = FarmContext.Cluster

  /** `farm && farm.farm_name && farm.farm_name !== 'My Farm' && farm.farm_area`. */
  predicate FarmHasDetails(farm: Option<Obj>) {
    farm.Some? && Truthy(Get(farm.value, "farm_name")) && Get(farm.value, "farm_name") != Str("My Farm")
    && Truthy(Get(farm.value, "farm_area"))
  }

  /** For a farm whose name is text: it has details exactly when the name is
      neither empty nor the placeholder and the area is truthy. The placeholder
      farm created at sign-up never counts. */
  lemma FarmDetailsExactly(f: Obj, name: string)
    requires Get(f, "farm_name") == Str(name)
    ensures FarmHasDetails(Some(f)) <==> name != "" && name != "My Farm" && Truthy(Get(f, "farm_area"))
    ensures !FarmHasDetails(Some(f[("farm_name") := Str("My Farm")]))
    ensures !FarmHasDetails(None)
  {
    assert Get(f[("farm_name") := Str("My Farm")], "farm_name") == Str("My Farm");
  }

  /** `parseInt(c.plantCount) || 0`. */
  function Trees(c: Cluster): (n: int)
    ensures ParseInt(c.plantCount).None? ==> n == 0
    ensures ParseInt(c.plantCount).Some? ==> n == ParseInt(c.plantCount).value
  {
    IntOr0(c.plantCount)
  }

  /** `totalTrees`: the reduce over the clusters. */
  function TotalTrees(cs: seq<Cluster>): int
    decreases |cs|
  {
    if |cs| == 0 then 0 else TotalTrees(cs[..|cs| - 1]) + Trees(cs[|cs| - 1])
  }

  /** The total splits over any division of the list. */
  lemma {:induction false} TotalTreesAppend(a: seq<Cluster>, b: seq<Cluster>)
    ensures TotalTrees(a + b) == TotalTrees(a) + TotalTrees(b)
    decreases |b|
  {
    if |b| == 0 {
      assert a + b == a;
    } else {
      TotalTreesAppend(a, b[..|b| - 1]);
      assert (a + b)[..|a + b| - 1] == a + b[..|b| - 1];
    }
  }

  /** A cluster whose count does not parse adds nothing; with every count a
      non-negative number the total is non-negative and at least each count. */
  lemma {:induction false} TotalTreesBounds(cs: seq<Cluster>)
    requires forall i :: 0 <= i < |cs| ==> Trees(cs[i]) >= 0
    ensures TotalTrees(cs) >= 0
    ensures forall i :: 0 <= i < |cs| ==> Trees(cs[i]) <= TotalTrees(cs)
    decreases |cs|
  {
    if |cs| > 0 {
      TotalTreesBounds(cs[..|cs| - 1]);
      forall i | 0 <= i < |cs| - 1
        ensures Trees(cs[i]) <= TotalTrees(cs)
      {
        assert cs[..|cs| - 1][i] == cs[i];
      }
    }
  }

  /** Adding a cluster whose plant count is not a number leaves the total unchanged. */
  lemma NonNumericAddsNothing(cs: seq<Cluster>, c: Cluster)
    requires ParseInt(c.plantCount).None?
    ensures TotalTrees(cs + [c]) == TotalTrees(cs)
  {
    assert (cs + [c])[..|cs|] == cs;
  }

  // ---------------------------------------------------------------------
  // Stage counts

  /** `clusters.filter(c => c.plantStage === stage).length`. */
  function StageCount(cs: seq<Cluster>, stage: string): (n: nat)
    ensures n <= |cs|
  {
    Count(cs, (c: Cluster) => c.plantStage == Str(stage))
  }

  /** `harvestReady`. */
  function HarvestReady(cs: seq<Cluster>): (n: nat)
    ensures n <= |cs|
  {
    StageCount(cs, "ready-to-harvest")
  }

  /** The stages with a card of their own. */
  predicate CardStage(stage: Raw) {
    stage in {Str("seed-sapling"), Str("tree"), Str("flowering"), Str("ready-to-harvest")}
  }

  function CardSum(cs: seq<Cluster>): nat {
    StageCount(cs, "seed-sapling") + StageCount(cs, "tree") + StageCount(cs, "flowering") + StageCount(cs, "ready-to-harvest")
  }

  /** The four stage cards count each cluster at most once: their sum is the
      number of clusters in one of the four stages, so at most the list length. */
  lemma {:induction false} StageCardsSum(cs: seq<Cluster>)
    ensures CardSum(cs) == Count(cs, (c: Cluster) => CardStage(c.plantStage))
    ensures CardSum(cs) <= |cs|
    decreases |cs|
  {
    if |cs| > 0 {
      StageCardsSum(cs[..|cs| - 1]);
    }
  }

  /** The cards add up to the list length exactly when every cluster is in one of the four stages;
      a fruit-bearing cluster therefore makes the cards fall short. */
  lemma {:induction false} StageCardsComplete(cs: seq<Cluster>)
    ensures CardSum(cs) == |cs| <==> forall i :: 0 <= i < |cs| ==> CardStage(cs[i].plantStage)
    decreases |cs|
  {
    StageCardsSum(cs);
    if |cs| > 0 {
      StageCardsComplete(cs[..|cs| - 1]);
      StageCardsSum(cs[..|cs| - 1]);
      var init := cs[..|cs| - 1];
      assert forall i :: 0 <= i < |init| ==> init[i] == cs[i];
      if !CardStage(cs[|cs| - 1].plantStage) {
        assert CardSum(cs) == CardSum(init);
      }
    }
  }

  /** `STAGE_CONFIG[plantStage] || STAGE_CONFIG['seed-sapling']`: the stage whose style a card uses. */
  function ConfigStage(stage: Raw): (s: string)
    ensures CardStage(stage) ==> Str(s) == stage
    ensures !CardStage(stage) ==> s == "seed-sapling"
  {
    if stage == Str("tree") then "tree"
    else if stage == Str("flowering") then "flowering"
    else if stage == Str("ready-to-harvest") then "ready-to-harvest"
    else "seed-sapling"
  }

  /** A fruit-bearing cluster is styled as a seedling and counted on no stage card. */
  lemma FruitBearingUnlisted(cs: seq<Cluster>, c: Cluster)
    requires c.plantStage == Str("fruit-bearing")
    ensures ConfigStage(c.plantStage) == "seed-sapling"
    ensures CardSum(cs + [c]) == CardSum(cs)
  {
    assert (cs + [c])[..|cs|] == cs;
  }
}

=== FILE: farm_context.dfy ===
/** The farm context: the in-memory cluster list the pages read, the local
    effects of adding, updating and deleting clusters and harvest records,
    and the translation of a cluster's stage data between the database's
    snake_case columns and the forms' camelCase fields. */
module FarmContext {
  import opened Wrappers
  import opened Js
  import opened Seqs

  /** A cluster as the context keeps it. `stageData` is `None` while the
      cluster has no stage record (`null`); `farmName` is only filled in by
      `AllClusters` and is `undefined` in the stored list. */
  datatype Cluster = Cluster(
    id: string,
    clusterName: Raw,
    areaSize: Raw,
    plantCount: Raw,
    plantStage: Raw,
    createdAt: Raw,
    stageData: Option<Obj>,
    harvestRecords: seq<Obj>,
    farmName: Raw)

  // ---------------------------------------------------------------------
  // Stage data: database row <-> form object

  /** How a stage field is stored: dates and free text are strings; decimals
      go through `parseFloat`, whole numbers through `parseInt`. */
  datatype Kind = Date | Text | Decimal | Whole

  /** A field of the stage record: its camelCase name and how it is stored. */
  datatype Field = Field(name: string, kind: Kind)

  predicate Plain(fs: seq<Field>) {
    forall i :: 0 <= i < |fs| ==> '_' !in fs[i].name
  }

  /** A field whose name has no underscore, as every camelCase name here. */
  function PlainField(name: string, kind: Kind): (f: Field)
    requires '_' !in name
    ensures f.name == name && f.kind == kind && '_' !in f.name
  {
    Field(name, kind)
  }

  /** The 37 stage-data fields in the order the mapping lists them, in six groups. */
  function Fields(): (fs: seq<Field>)
    ensures Plain(fs) && |fs| == 37
  {
    SiteFields() + ClimateFields() + CareFields() + HarvestFields() + PreHarvestFields() + PostHarvestFields()
  }

  function SiteFields(): (fs: seq<Field>)
    ensures Plain(fs) && |fs| == 6
  {
    [PlainField("datePlanted", Date),
     PlainField("numberOfPlants", Whole),
     PlainField("variety", Text),
     PlainField("fertilizerFrequency", Text),
     PlainField("fertilizerType", Text),
     PlainField("pesticideType", Text)]
  }

  function ClimateFields(): (fs: seq<Field>)
    ensures Plain(fs) && |fs| == 6
  {
    [PlainField("pesticideFrequency", Text),
     PlainField("monthlyTemperature", Decimal),
     PlainField("rainfall", Decimal),
     PlainField("humidity", Decimal),
     PlainField("soilPh", Decimal),
     PlainField("lastHarvestedDate", Date)]
  }

  function CareFields(): (fs: seq<Field>)
    ensures Plain(fs) && |fs| == 6
  {
    [PlainField("previousYield", Decimal),
     PlainField("lastPrunedDate", Date),
     PlainField("shadeTrees", Text),
     PlainField("estimatedFloweringDate", Date),
     PlainField("harvestDate", Date),
     PlainField("predictedYield", Decimal)]
  }

  function HarvestFields(): (fs: seq<Field>)
    ensures Plain(fs) && |fs| == 6
  {
    [PlainField("harvestSeason", Text),
     PlainField("currentYield", Decimal),
     PlainField("gradeFine", Decimal),
     PlainField("gradePremium", Decimal),
     PlainField("gradeCommercial", Decimal),
     PlainField("estimatedHarvestDate", Date)]
  }

  function PreHarvestFields(): (fs: seq<Field>)
    ensures Plain(fs) && |fs| == 6
  {
    [PlainField("preLastHarvestDate", Date),
     PlainField("preTotalTrees", Whole),
     PlainField("preYieldKg", Decimal),
     PlainField("preGradeFine", Decimal),
     PlainField("preGradePremium", Decimal),
     PlainField("preGradeCommercial", Decimal)]
  }

  function PostHarvestFields(): (fs: seq<Field>)
    ensures Plain(fs) && |fs| == 7
  {
    [PlainField("postCurrentYield", Decimal),
     PlainField("postGradeFine", Decimal),
     PlainField("postGradePremium", Decimal),
     PlainField("postGradeCommercial", Decimal),
     PlainField("defectCount", Whole),
     PlainField("beanMoisture", Decimal),
     PlainField("beanScreenSize", Text)]
  }

  function FieldNames(): set<string> {
    set i | 0 <= i < |Fields()| :: Fields()[i].name
  }

  function Named(k: string): Field -> bool {
    (f: Field) => f.name == k
  }

  /** The storage kind of a field. */
  function KindOf(k: string): Kind
    requires k in FieldNames()
  {
    var i := Find(Fields(), Named(k));
    Fields()[i].kind
  }

  predicate IsUpper(c: char) {
    'A' <= c <= 'Z'
  }

  /** The column name of a field: every capital becomes `_` and its lower-case letter. */
  function Snake(s: string): (r: string)
    ensures |r| >= |s|
  {
    if |s| == 0 then []
    else (if IsUpper(s[0]) then ['_', LowerChar(s[0])] else [s[0]]) + Snake(s[1..])
  }

  /** The field name of a column: `_x` becomes `X`. */
  function Camel(s: string): (r: string) {
    if |s| == 0 then []
    else if s[0] == '_' && |s| >= 2 then [UpperChar(s[1])] + Camel(s[2..])
    else [s[0]] + Camel(s[1..])
  }

  /** Reading a column name back gives the field name, for names without `_`. */
  lemma {:induction false} CamelSnake(s: string)
    requires '_' !in s
    ensures Camel(Snake(s)) == s
  {
    if |s| > 0 {
      assert '_' !in s[1..] by {
        forall i | 0 <= i < |s[1..]| ensures s[1..][i] != '_' {
          assert s[1..][i] == s[i + 1];
        }
      }
      CamelSnake(s[1..]);
      if IsUpper(s[0]) {
        var c := LowerChar(s[0]);
        assert Snake(s) == ['_', c] + Snake(s[1..]);
        assert Snake(s)[2..] == Snake(s[1..]);
        assert UpperChar(c) == s[0];
      } else {
        assert Snake(s) == [s[0]] + Snake(s[1..]);
        assert Snake(s)[1..] == Snake(s[1..]);
      }
    }
  }

  lemma FieldNamesPlain()
    ensures forall k :: k in FieldNames() ==> '_' !in k
  {
  }

  /** Distinct fields have distinct columns. */
  lemma SnakeInjective(a: string, b: string)
    requires a in FieldNames() && b in FieldNames()
    ensures Snake(a) == Snake(b) ==> a == b
  {
    FieldNamesPlain();
    CamelSnake(a);
    CamelSnake(b);
  }

  function DbColumns(): set<string> {
    set k | k in FieldNames() :: Snake(k)
  }

  lemma ColumnFields()
    ensures forall d :: d in DbColumns() ==> Camel(d) in FieldNames() && Snake(Camel(d)) == d
  {
    FieldNamesPlain();
    forall k | k in FieldNames() ensures Camel(Snake(k)) == k {
      CamelSnake(k);
    }
  }

  /** `mapStageDataFromDb` for one field: text and dates use `|| ''`, so every
      falsy value becomes `''`; numbers use `?? ''`, so only `null` and
      `undefined` do and a stored 0 survives. */
  function FromDbValue(kind: Kind, v: Raw): (r: Raw)
    ensures (kind.Date? || kind.Text?) ==> (Truthy(v) ==> r == v) && (!Truthy(v) ==> r == Str(""))
    ensures (kind.Decimal? || kind.Whole?) ==> (IsNullish(v) ==> r == Str("")) && (!IsNullish(v) ==> r == v)
  {
    match kind
    case Date => Or(v, Str(""))
    case Text => Or(v, Str(""))
    case Decimal => if IsNullish(v) then Str("") else v
    case Whole => if IsNullish(v) then Str("") else v
  }

  /** `mapStageDataToDb` for one field: `num`/`int` send `''`, `null` and
      `undefined` to `null` and parse everything else (an unparseable value
      gives `NaN`); `str`/`dt` send `''` and every other falsy value to `null`. */
  function ToDbValue(kind: Kind, v: Raw): (r: Raw)
    ensures (kind.Date? || kind.Text?) ==> (Truthy(v) ==> r == v) && (!Truthy(v) ==> r == Null)
    ensures kind.Decimal? && !Blank(v) ==> r == (if ParseFloat(v).Some? then Num(ParseFloat(v).value) else NaN)
    ensures kind.Whole? && !Blank(v) ==> r == (if ParseInt(v).Some? then Num(ParseInt(v).value as real) else NaN)
    ensures (kind.Decimal? || kind.Whole?) && Blank(v) ==> r == Null
  {
    match kind
    case Date => if v == Str("") then Null else Or(v, Null)
    case Text => if v == Str("") then Null else Or(v, Null)
    case Decimal =>
      if Blank(v) then Null
      else (match ParseFloat(v) case Some(x) => Num(x) case None => NaN)
    case Whole =>
      if Blank(v) then Null
      else (match ParseInt(v) case Some(n) => Num(n as real) case None => NaN)
  }

  predicate Blank(v: Raw) {
    v == Str("") || v == Null || v == Undefined
  }

  /** `mapStageDataFromDb`: one form field per stage field, read from its column. */
  function FromDb(row: Obj): (sd: Obj)
    ensures sd.Keys == FieldNames()
    ensures forall k :: k in sd ==> sd[k] == FromDbValue(KindOf(k), Get(row, Snake(k)))
  {
    map k | k in FieldNames() :: FromDbValue(KindOf(k), Get(row, Snake(k)))
  }

  /** `mapStageDataToDb`: one column per stage field, converted from the form field of that name. */
  function ToDb(sd: Obj): (row: Obj)
    ensures row.Keys == DbColumns()
  {
    ColumnFields();
    map d | d in DbColumns() :: ToDbValue(KindOf(Camel(d)), Get(sd, Camel(d)))
  }

  /** The column of field `k` holds that field converted by its kind. */
  lemma ToDbAt(sd: Obj, k: string)
    requires k in FieldNames()
    ensures Snake(k) in ToDb(sd)
    ensures ToDb(sd)[Snake(k)] == ToDbValue(KindOf(k), Get(sd, k))
  {
    FieldNamesPlain();
    CamelSnake(k);
    assert Snake(k) in DbColumns();
  }

  /** What the database holds for a value sent in the upsert: the request body
      is JSON, and `JSON.stringify` writes `NaN` as `null`. */
  function Stored(v: Raw): (r: Raw)
    ensures v.NaN? ==> r == Null
    ensures !v.NaN? ==> r == v
  {
    if v.NaN? then Null else v
  }

  /** The row the database holds after an upsert of `row`. */
  function StoreRow(row: Obj): (r: Obj)
    ensures r.Keys == row.Keys
    ensures forall d :: d in row ==> r[d] == Stored(row[d])
  {
    map d | d in row :: Stored(row[d])
  }

  /** What a form value looks like after being saved and loaded again: a
      numeric text that does not parse was sent as `NaN`, stored as `null`
      and comes back as `''`. */
  function Normalised(kind: Kind, v: Raw): Raw {
    if kind.Date? || kind.Text? then (if Truthy(v) then v else Str(""))
    else if Blank(v) then Str("")
    else if kind.Decimal? then (if ParseFloat(v).Some? then Num(ParseFloat(v).value) else Str(""))
    else (if ParseInt(v).Some? then Num(ParseInt(v).value as real) else Str(""))
  }

  /** Saving then loading one value, through the database's JSON, gives its normalised form. */
  lemma ValueRoundTrip(kind: Kind, v: Raw)
    ensures FromDbValue(kind, Stored(ToDbValue(kind, v))) == Normalised(kind, v)
  {
  }

  /** A numeric field whose text does not parse is sent as `NaN` but reloads as `''`. */
  lemma UnparsedNumberReloadsEmpty(kind: Kind, v: Raw)
    requires (kind.Decimal? || kind.Whole?) && !Blank(v)
    requires kind.Decimal? ==> ParseFloat(v).None?
    requires kind.Whole? ==> ParseInt(v).None?
    ensures ToDbValue(kind, v) == NaN
    ensures FromDbValue(kind, Stored(ToDbValue(kind, v))) == Str("")
  {
  }

  /** Saving a loaded value gives the saved value again. */
  lemma ValueSaveLoadSave(kind: Kind, v: Raw)
    ensures ToDbValue(kind, FromDbValue(kind, ToDbValue(kind, v))) == ToDbValue(kind, v)
  {
    var saved := ToDbValue(kind, v);
    if kind.Whole? && saved.Num? {
      assert Trunc(saved.n) == ParseInt(v).value;
    }
  }

  /** The same through the database: storing, loading and saving again stores the same value. */
  lemma StoredSaveLoadSave(kind: Kind, v: Raw)
    ensures Stored(ToDbValue(kind, FromDbValue(kind, Stored(ToDbValue(kind, v))))) == Stored(ToDbValue(kind, v))
  {
    var saved := ToDbValue(kind, v);
    if kind.Whole? && saved.Num? {
      assert Trunc(saved.n) == ParseInt(v).value;
    }
  }

  /** Saving then loading: non-empty text and dates, numbers, and a numeric 0
      come back unchanged; blanks and unparseable numbers come back as `''`;
      numeric text comes back as its parsed number. */
  lemma FormRoundTrip(sd: Obj, k: string)
    requires k in FieldNames()
    ensures FromDb(StoreRow(ToDb(sd)))[k] == Normalised(KindOf(k), Get(sd, k))
  {
    var kind := KindOf(k);
    ToDbAt(sd, k);
    ValueRoundTrip(kind, Get(sd, k));
  }

  /** The promised special cases of the round trip. */
  lemma FormRoundTripKeeps(sd: Obj, k: string)
    requires k in FieldNames()
    ensures var kind := KindOf(k);
      (kind.Date? || kind.Text?) && Get(sd, k).Str? && Get(sd, k) != Str("") ==> FromDb(StoreRow(ToDb(sd)))[k] == Get(sd, k)
    ensures var kind := KindOf(k);
      (kind.Decimal? || kind.Whole?) && Get(sd, k) == Num(0.0) ==> FromDb(StoreRow(ToDb(sd)))[k] == Num(0.0)
    ensures KindOf(k).Decimal? && Get(sd, k).Num? ==> FromDb(StoreRow(ToDb(sd)))[k] == Get(sd, k)
  {
    var kind := KindOf(k);
    FormRoundTrip(sd, k);
    NormalisedKeeps(kind, Get(sd, k));
  }

  lemma NormalisedKeeps(kind: Kind, v: Raw)
    ensures (kind.Date? || kind.Text?) && v.Str? && v != Str("") ==> Normalised(kind, v) == v
    ensures (kind.Decimal? || kind.Whole?) && v == Num(0.0) ==> Normalised(kind, v) == Num(0.0)
    ensures kind.Decimal? && v.Num? ==> Normalised(kind, v) == v
  {
  }

  /** Converting a saved row to a form and back to a row changes nothing:
      saving is idempotent. */
  lemma SaveLoadSave(sd: Obj)
    ensures ToDb(FromDb(ToDb(sd))).Keys == ToDb(sd).Keys
    ensures forall d :: d in ToDb(sd) ==> ToDb(FromDb(ToDb(sd)))[d] == ToDb(sd)[d]
  {
    forall d | d in ToDb(sd) ensures ToDb(FromDb(ToDb(sd)))[d] == ToDb(sd)[d] {
      SaveLoadSaveAt(sd, d);
    }
  }

  lemma SaveLoadSaveAt(sd: Obj, d: string)
    requires d in DbColumns()
    ensures ToDb(FromDb(ToDb(sd)))[d] == ToDb(sd)[d]
  {
    ColumnFields();
    var once := ToDb(sd);
    var k := Camel(d);
    var kind := KindOf(k);
    ToDbAt(sd, k);
    ToDbAt(FromDb(once), k);
    assert Get(FromDb(once), k) == FromDbValue(kind, once[d]);
    ValueSaveLoadSave(kind, Get(sd, k));
  }

  // ---------------------------------------------------------------------
  // The cluster list

  /** The cluster built from a freshly inserted row: no stage data, no harvests. */
  function NewCluster(id: string, row: Obj): (c: Cluster)
    ensures c.id == id && c.stageData.None? && c.harvestRecords == []
  {
    Cluster(id, Get(row, "cluster_name"), Get(row, "area_size"), Get(row, "plant_count"),
            Get(row, "plant_stage"), Get(row, "created_at"), None, [], Undefined)
  }

  /** `addCluster`: without a farm, or when the insert fails (`inserted` is
      `None`), nothing changes and `null` is returned; otherwise the new
      cluster is appended and returned. */
  function AddCluster(cs: seq<Cluster>, farm: Option<Obj>, inserted: Option<(string, Obj)>): (r: (seq<Cluster>, Option<Cluster>))
    ensures farm.None? || inserted.None? ==> r == (cs, None)
    ensures farm.Some? && inserted.Some? ==>
      r.1.Some? && r.0 == cs + [r.1.value] && r.1.value.id == inserted.value.0 && r.1.value.stageData.None?
  {
    if farm.None? then (cs, None)
    else match inserted
      case None => (cs, None)
      case Some((id, row)) => var c := NewCluster(id, row); (cs + [c], Some(c))
  }

  /** The fields of `updateCluster`'s argument; `undefined` means "not given".
      `stageData` is `None` when not given and `Some(None)` when given as `null`. */
  datatype Updates = Updates(clusterName: Raw, areaSize: Raw, plantCount: Raw, plantStage: Raw, stageData: Option<Option<Obj>>)

  function Patch(prior: Raw, given: Raw): (r: Raw)
    ensures given == Undefined ==> r == prior
    ensures given != Undefined ==> r == given
  {
    if given != Undefined then given else prior
  }

  /** The object spread applied to the matching cluster. */
  function Apply(c: Cluster, u: Updates): (r: Cluster)
    ensures r.id == c.id && r.createdAt == c.createdAt && r.harvestRecords == c.harvestRecords && r.farmName == c.farmName
    ensures u.stageData.None? ==> r.stageData == c.stageData
    ensures u.stageData.Some? ==> r.stageData == u.stageData.value
  {
    c.(clusterName := Patch(c.clusterName, u.clusterName),
       areaSize := Patch(c.areaSize, u.areaSize),
       plantCount := Patch(c.plantCount, u.plantCount),
       plantStage := Patch(c.plantStage, u.plantStage),
       stageData := if u.stageData.Some? then u.stageData.value else c.stageData)
  }

  /** `updateCluster`'s local effect: only clusters with the given id change. */
  function UpdateCluster(cs: seq<Cluster>, id: string, u: Updates): (r: seq<Cluster>)
    ensures |r| == |cs|
    ensures forall i :: 0 <= i < |cs| && cs[i].id != id ==> r[i] == cs[i]
    ensures forall i :: 0 <= i < |cs| && cs[i].id == id ==> r[i] == Apply(cs[i], u)
  {
    seq(|cs|, i requires 0 <= i < |cs| => if cs[i].id == id then Apply(cs[i], u) else cs[i])
  }

  /** An update that gives no field changes nothing. */
  lemma UpdateNothing(cs: seq<Cluster>, id: string)
    ensures UpdateCluster(cs, id, Updates(Undefined, Undefined, Undefined, Undefined, None)) == cs
  {
  }

  /** Applying the same update twice is the same as applying it once. */
  lemma UpdateIdempotent(cs: seq<Cluster>, id: string, u: Updates)
    ensures UpdateCluster(UpdateCluster(cs, id, u), id, u) == UpdateCluster(cs, id, u)
  {
  }

  /** The fields not given keep their values; the ones given take the new value. */
  lemma UpdateFields(cs: seq<Cluster>, id: string, u: Updates, i: int)
    requires 0 <= i < |cs| && cs[i].id == id
    ensures var c := UpdateCluster(cs, id, u)[i];
      (u.clusterName == Undefined ==> c.clusterName == cs[i].clusterName) &&
      (u.clusterName != Undefined ==> c.clusterName == u.clusterName) &&
      (u.plantStage == Undefined ==> c.plantStage == cs[i].plantStage) &&
      (u.plantStage != Undefined ==> c.plantStage == u.plantStage) &&
      (u.areaSize == Undefined ==> c.areaSize == cs[i].areaSize) &&
      (u.plantCount == Undefined ==> c.plantCount == cs[i].plantCount)
  {
  }

  function HasId(id: string): Cluster -> bool {
    (c: Cluster) => c.id == id
  }

  function Keep(id: string): Cluster -> bool {
    (c: Cluster) => c.id != id
  }

  /** `deleteCluster`'s local effect. */
  function DeleteCluster(cs: seq<Cluster>, id: string): (r: seq<Cluster>)
    ensures forall i :: 0 <= i < |r| ==> r[i].id != id
    ensures forall c :: c in cs && c.id != id ==> c in r
    ensures forall c :: c in r ==> c in cs
  {
    Filter(cs, Keep(id))
  }

  /** Deletion removes exactly the matching clusters: the length drops by their number. */
  lemma {:induction false} DeleteCount(cs: seq<Cluster>, id: string)
    ensures |DeleteCluster(cs, id)| + Count(cs, HasId(id)) == |cs|
    decreases |cs|
  {
    if |cs| > 0 {
      var init := cs[..|cs| - 1];
      DeleteCount(init, id);
    }
  }

  /** Deleting an id that is not present keeps the list as it was. */
  lemma DeleteAbsent(cs: seq<Cluster>, id: string)
    requires forall c :: c in cs ==> c.id != id
    ensures DeleteCluster(cs, id) == cs
  {
    FilterAll(cs, Keep(id));
  }

  /** Deleting twice is deleting once. */
  lemma DeleteIdempotent(cs: seq<Cluster>, id: string)
    ensures DeleteCluster(DeleteCluster(cs, id), id) == DeleteCluster(cs, id)
  {
    DeleteAbsent(DeleteCluster(cs, id), id);
  }

  /** `addHarvestRecord`'s local effect: the inserted row is appended to the
      matching clusters' harvest lists; a failed insert changes nothing. */
  function AddHarvestRecord(cs: seq<Cluster>, id: string, inserted: Option<Obj>): (r: seq<Cluster>)
    ensures |r| == |cs|
    ensures inserted.None? ==> r == cs
    ensures forall i :: 0 <= i < |cs| && cs[i].id != id ==> r[i] == cs[i]
    ensures inserted.Some? ==> forall i :: 0 <= i < |cs| && cs[i].id == id ==>
      r[i] == cs[i].(harvestRecords := cs[i].harvestRecords + [inserted.value])
  {
    match inserted
    case None => cs
    case Some(row) =>
      seq(|cs|, i requires 0 <= i < |cs| =>
        if cs[i].id == id then cs[i].(harvestRecords := cs[i].harvestRecords + [row]) else cs[i])
  }

  function RecordCount(c: Cluster): real {
    |c.harvestRecords| as real
  }

  /** A successful insert adds one record per matching cluster and no other. */
  lemma AddHarvestRecordCount(cs: seq<Cluster>, id: string, row: Obj)
    ensures Sum(AddHarvestRecord(cs, id, Some(row)), RecordCount) == Sum(cs, RecordCount) + Count(cs, HasId(id)) as real
  {
    var r := AddHarvestRecord(cs, id, Some(row));
    AddHarvestRecordCountRec(cs, r, id, row);
  }

  lemma {:induction false} AddHarvestRecordCountRec(cs: seq<Cluster>, r: seq<Cluster>, id: string, row: Obj)
    requires |r| == |cs|
    requires forall i :: 0 <= i < |cs| ==>
      r[i] == (if cs[i].id == id then cs[i].(harvestRecords := cs[i].harvestRecords + [row]) else cs[i])
    ensures Sum(r, RecordCount) == Sum(cs, RecordCount) + Count(cs, HasId(id)) as real
    decreases |cs|
  {
    if |cs| > 0 {
      var n := |cs| - 1;
      AddHarvestRecordCountRec(cs[..n], r[..n], id, row);
    }
  }

  /** `getCluster`: the first cluster with the id, if any. */
  function GetCluster(cs: seq<Cluster>, id: string): (r: Option<Cluster>)
    ensures r.Some? ==> r.value in cs && r.value.id == id
    ensures r.Some? ==> exists i :: 0 <= i < |cs| && cs[i] == r.value && forall j :: 0 <= j < i ==> cs[j].id != id
    ensures r.None? <==> forall c :: c in cs ==> c.id != id
  {
    var i := Find(cs, HasId(id));
    if i < |cs| then Some(cs[i]) else None
  }

  /** After an update, looking the cluster up gives the updated cluster. */
  lemma GetAfterUpdate(cs: seq<Cluster>, id: string, u: Updates)
    ensures GetCluster(UpdateCluster(cs, id, u), id) ==
      (match GetCluster(cs, id) case None => None case Some(c) => Some(Apply(c, u)))
  {
    var r := UpdateCluster(cs, id, u);
    var i := Find(cs, HasId(id));
    var j := Find(r, HasId(id));
    assert forall k :: 0 <= k < |cs| ==> (r[k].id == id <==> cs[k].id == id);
  }

  /** After a deletion, the id is not found. */
  lemma GetAfterDelete(cs: seq<Cluster>, id: string)
    ensures GetCluster(DeleteCluster(cs, id), id).None?
  {
  }

  /** `farm?.farm_name || 'My Farm'`. */
  function FarmName(farm: Option<Obj>): (r: Raw)
    ensures Truthy(r)
    ensures farm.Some? && Truthy(Get(farm.value, "farm_name")) ==> r == Get(farm.value, "farm_name")
  {
    match farm
    case None => Str("My Farm")
    case Some(f) => Or(Get(f, "farm_name"), Str("My Farm"))
  }

  /** `getAllClusters`: every cluster, in order, tagged with the farm name. */
  function AllClusters(cs: seq<Cluster>, farm: Option<Obj>): (r: seq<Cluster>)
    ensures |r| == |cs|
    ensures forall i :: 0 <= i < |cs| ==> r[i] == cs[i].(farmName := FarmName(farm))
  {
    seq(|cs|, i requires 0 <= i < |cs| => cs[i].(farmName := FarmName(farm)))
  }

  /** The stages whose clusters count as harvest-ready. */
  predicate HarvestStage(stage: Raw) {
    stage in {Str("ready-to-harvest"), Str("flowering"), Str("fruit-bearing")}
  }

  function IsHarvestReady(c: Cluster): bool {
    HarvestStage(c.plantStage)
  }

  /** `getHarvestReadyClusters`: exactly the tagged clusters in a harvest stage, in order. */
  function HarvestReadyClusters(cs: seq<Cluster>, farm: Option<Obj>): (r: seq<Cluster>)
    ensures forall c :: c in r <==> c in AllClusters(cs, farm) && HarvestStage(c.plantStage)
  {
    Filter(AllClusters(cs, farm), IsHarvestReady)
  }

  /** A seed-sapling or tree cluster is never harvest-ready. */
  lemma YoungClustersNotReady(cs: seq<Cluster>, farm: Option<Obj>)
    ensures forall c :: c in HarvestReadyClusters(cs, farm) ==>
      c.plantStage != Str("seed-sapling") && c.plantStage != Str("tree")
  {
  }
}

=== FILE: harvest_records.dfy ===
/** The harvest records page: which clusters it lists, the season filter and
    season choices, and the three chart series it derives from stage data. */
module HarvestRecords {
  import opened Wrappers
  import opened Js
  import opened Seqs
  import FarmContext

  type Cluster = FarmContext.Cluster

  /** `allClusters.filter(c => [ready, flowering, fruit-bearing].includes(c.plantStage))`. */
  function HarvestList(cs: seq<Cluster>): (r: seq<Cluster>)
    ensures forall c :: c in r <==> c in cs && FarmContext.HarvestStage(c.plantStage)
  {
    Filter(cs, FarmContext.IsHarvestReady)
  }

  /** `c.stageData?.harvestSeason`. */
  function Season(c: Cluster): Raw {
    if c.stageData.Some? then Get(c.stageData.value, "harvestSeason") else Undefined
  }

  /** Whether `c.stageData?.harvestSeason?.includes(filter)` is truthy. */
  predicate SeasonHas(c: Cluster, filter: string) {
    Season(c).Str? && Contains(Season(c).s, filter)
  }

  /** The list shown under the season dropdown: all harvest clusters for the
      empty choice, otherwise those whose season text contains it. */
  function SeasonFiltered(cs: seq<Cluster>, filter: string): (r: seq<Cluster>)
    ensures filter == "" ==> r == cs
    ensures filter != "" ==> forall c :: c in r <==> c in cs && SeasonHas(c, filter)
  {
    if filter == "" then cs else Filter(cs, c => SeasonHas(c, filter))
  }

  /** The list the page shows for a season choice. */
  function Listed(all: seq<Cluster>, filter: string): seq<Cluster> {
    SeasonFiltered(HarvestList(all), filter)
  }

  /** A listed cluster is always in a harvest stage and, once a season is
      chosen, its season text contains the choice; every such cluster is listed. */
  lemma ListedExactly(all: seq<Cluster>, filter: string, c: Cluster)
    ensures c in Listed(all, filter) <==>
      c in all && FarmContext.HarvestStage(c.plantStage) && (filter == "" || SeasonHas(c, filter))
  {
  }

  /** A season always contains itself, so choosing a cluster's own season keeps it listed. */
  lemma OwnSeasonKeepsCluster(all: seq<Cluster>, c: Cluster)
    requires c in HarvestList(all) && Season(c).Str? && Season(c).s != ""
    ensures c in Listed(all, Season(c).s)
  {
    var s := Season(c).s;
    assert s[0..|s|] == s;
    assert Contains(s, s) by { ContainsFacts(s, s); }
  }

  /** `[...new Set(allClusters.map(season).filter(Boolean))]`, taken over every cluster. */
  function Seasons(all: seq<Cluster>): (r: seq<Raw>)
    ensures Distinct(r)
    ensures forall i :: 0 <= i < |r| ==> Truthy(r[i])
  {
    Dedup(Filter(seq(|all|, i requires 0 <= i < |all| => Season(all[i])), Truthy))
  }

  /** A value is a season choice exactly when some cluster has it as a truthy season. */
  lemma SeasonsExactly(all: seq<Cluster>, v: Raw)
    ensures v in Seasons(all) <==> Truthy(v) && exists i :: 0 <= i < |all| && Season(all[i]) == v
  {
    var vs := seq(|all|, i requires 0 <= i < |all| => Season(all[i]));
    var t := Filter(vs, Truthy);
    if v in Seasons(all) {
      var k :| 0 <= k < |Seasons(all)| && Seasons(all)[k] == v;
      assert v in t;
      var j :| 0 <= j < |t| && t[j] == v;
      assert t[j] in vs;
      var i :| 0 <= i < |vs| && vs[i] == v;
      assert Season(all[i]) == v;
    }
    if Truthy(v) && exists i :: 0 <= i < |all| && Season(all[i]) == v {
      var i :| 0 <= i < |all| && Season(all[i]) == v;
      assert vs[i] == v;
      assert v in t;
      var j :| 0 <= j < |t| && t[j] == v;
    }
  }

  // ---------------------------------------------------------------------
  // Chart series for the selected cluster

  datatype Point = Point(name: string, value: real)

  /** `parseFloat(stageData[key]) || 0`. */
  function Field(sd: Obj, key: string): real {
    FloatOr0(Get(sd, key))
  }

  /** `getYieldChartData`: previous, predicted and actual yield, or nothing without stage data. */
  function YieldChart(c: Cluster): (r: seq<Point>)
    ensures c.stageData.None? <==> r == []
    ensures c.stageData.Some? ==> |r| == 3 && r[0].name == "Previous" && r[1].name == "Predicted" && r[2].name == "Actual"
    ensures c.stageData.Some? ==> forall i :: 0 <= i < 3 ==> ParseFloat(Get(c.stageData.value, ["previousYield", "predictedYield", "currentYield"][i])).None? ==> r[i].value == 0.0
    ensures c.stageData.Some? ==> forall i :: 0 <= i < 3 ==>
      var v := ParseFloat(Get(c.stageData.value, ["previousYield", "predictedYield", "currentYield"][i]));
      v.Some? ==> r[i].value == v.value
  {
    match c.stageData
    case None => []
    case Some(sd) =>
      [Point("Previous", Field(sd, "previousYield")),
       Point("Predicted", Field(sd, "predictedYield")),
       Point("Actual", Field(sd, "currentYield"))]
  }

  /** The three grade points before the positivity filter. */
  function AllGrades(sd: Obj): seq<Point> {
    [Point("Fine", Field(sd, "gradeFine")), Point("Premium", Field(sd, "gradePremium")), Point("Commercial", Field(sd, "gradeCommercial"))]
  }

  function IsPositive(p: Point): bool {
    p.value > 0.0
  }

  /** `getGradeData`: the grades with a strictly positive value, in fixed order. */
  function GradeData(c: Cluster): (r: seq<Point>)
    ensures |r| <= 3
    ensures forall i :: 0 <= i < |r| ==> r[i].value > 0.0
    ensures c.stageData.None? ==> r == []
  {
    match c.stageData
    case None => []
    case Some(sd) => Filter(AllGrades(sd), IsPositive)
  }

  /** A grade is charted exactly when its parsed value is positive. */
  lemma GradeShownExactly(c: Cluster, name: string, key: string)
    requires c.stageData.Some?
    requires (name, key) in {("Fine", "gradeFine"), ("Premium", "gradePremium"), ("Commercial", "gradeCommercial")}
    ensures Point(name, Field(c.stageData.value, key)) in GradeData(c) <==> Field(c.stageData.value, key) > 0.0
  {
    var all := AllGrades(c.stageData.value);
    var r := GradeData(c);
    var p := Point(name, Field(c.stageData.value, key));
    assert p in all;
    if p in r {
      var i :| 0 <= i < |r| && r[i] == p;
    }
    if p.value > 0.0 {
      var i :| 0 <= i < |all| && all[i] == p;
    }
  }

  datatype TrendRow = TrendRow(name: Raw, previous: real, predicted: real, actual: real)

  /** The stage-data value of a listed cluster, `undefined` without stage data. */
  function StageGet(c: Cluster, key: string): Raw {
    if c.stageData.Some? then Get(c.stageData.value, key) else Undefined
  }

  function HasYield(c: Cluster): bool {
    Truthy(StageGet(c, "currentYield")) || Truthy(StageGet(c, "previousYield"))
  }

  function RowOf(c: Cluster): TrendRow {
    TrendRow(c.clusterName, FloatOr0(StageGet(c, "previousYield")), FloatOr0(StageGet(c, "predictedYield")), FloatOr0(StageGet(c, "currentYield")))
  }

  /** `getYieldTrendData`: one row per listed cluster with a truthy current or previous yield. */
  function YieldTrend(listed: seq<Cluster>): (r: seq<TrendRow>)
    ensures |r| == Count(listed, HasYield)
    ensures forall i :: 0 <= i < |r| ==> r[i] == RowOf(Filter(listed, HasYield)[i])
  {
    var kept := Filter(listed, HasYield);
    seq(|kept|, i requires 0 <= i < |kept| => RowOf(kept[i]))
  }

  /** A cluster with neither yield set never gets a trend row, and each row
      comes from a cluster that has one. */
  lemma TrendSkipsEmpty(listed: seq<Cluster>, i: nat)
    requires i < |YieldTrend(listed)|
    ensures exists c :: c in listed && HasYield(c) && YieldTrend(listed)[i] == RowOf(c)
  {
    var kept := Filter(listed, HasYield);
    assert kept[i] in listed && HasYield(kept[i]);
  }

  /** Every cluster with a yield is charted. */
  lemma TrendCoversYields(listed: seq<Cluster>, c: Cluster)
    requires c in listed && HasYield(c)
    ensures RowOf(c) in YieldTrend(listed)
  {
    var kept := Filter(listed, HasYield);
    var j :| 0 <= j < |listed| && listed[j] == c;
    assert c in kept;
    var k :| 0 <= k < |kept| && kept[k] == c;
    assert YieldTrend(listed)[k] == RowOf(c);
  }
}

=== FILE: js.dfy ===
/** The slice of JavaScript value semantics the application's logic relies on:
    dynamically typed values, truthiness, `parseFloat`/`parseInt` on decimal
    text, ASCII case folding, substring tests, integer printing and
    `Math.round`. */
module Js {
  import opened Wrappers

  /** A JavaScript value as it appears in a record field. `NaN` is kept apart
      from `Num` so that `Num` always holds a finite number. */
  datatype Raw = Undefined | Null | NaN | Num(n: real) | Str(s: string) | Bool(b: bool)

  /** JavaScript truthiness: `undefined`, `null`, `NaN`, `0`, `''` and `false` are falsy. */
  predicate Truthy(v: Raw) {
    match v
    case Undefined => false
    case Null => false
    case NaN => false
    case Num(n) => n != 0.0
    case Str(s) => s != ""
    case Bool(b) => b
  }

  /** `a || b` on values. */
  function Or(a: Raw, b: Raw): (r: Raw)
    ensures Truthy(a) ==> r == a
    ensures !Truthy(a) ==> r == b
  {
    if Truthy(a) then a else b
  }

  /** A plain JavaScript object, read through `Get`: a missing key reads as `undefined`. */
  type Obj = map<string, Raw>

  function Get(o: Obj, k: string): (v: Raw)
    ensures k !in o ==> v == Undefined
  {
    if k in o then o[k] else Undefined
  }

  /** `v == null` (loose equality): true for `null` and `undefined` only. */
  predicate IsNullish(v: Raw) {
    v.Undefined? || v.Null?
  }

  predicate IsDigit(c: char) {
    '0' <= c <= '9'
  }

  function DigitVal(c: char): (d: nat)
    requires IsDigit(c)
    ensures d < 10
  {
    (c as int - '0' as int) as nat
  }

  function DigitChar(d: nat): (c: char)
    requires d < 10
    ensures IsDigit(c) && DigitVal(c) == d
  {
    ('0' as int + d) as char
  }

  /** ASCII whitespace skipped by `parseFloat`/`parseInt`. */
  predicate IsSpace(c: char) {
    c == ' ' || c == '\t' || c == '\n' || c == '\r' || c == '\U{000B}' || c == '\U{000C}'
  }

  function TrimStart(s: string): (r: string)
    ensures |r| <= |s| && r == s[|s| - |r|..]
    ensures |r| > 0 ==> !IsSpace(r[0])
    decreases |s|
  {
    if |s| > 0 && IsSpace(s[0]) then TrimStart(s[1..]) else s
  }

  function TrimEnd(s: string): (r: string)
    ensures |r| <= |s| && r == s[..|r|]
    ensures |r| > 0 ==> !IsSpace(r[|r| - 1])
    decreases |s|
  {
    if |s| > 0 && IsSpace(s[|s| - 1]) then TrimEnd(s[..|s| - 1]) else s
  }

  /** `String.prototype.trim` over the ASCII whitespace above. */
  function Trim(s: string): (r: string)
    ensures |r| > 0 ==> !IsSpace(r[0]) && !IsSpace(r[|r| - 1])
  {
    TrimEnd(TrimStart(s))
  }

  /** Length of the longest all-digit prefix of `s`. */
  function DigitRun(s: string): (n: nat)
    ensures n <= |s|
    ensures forall i :: 0 <= i < n ==> IsDigit(s[i])
    ensures n < |s| ==> !IsDigit(s[n])
    decreases |s|
  {
    if |s| > 0 && IsDigit(s[0]) then 1 + DigitRun(s[1..]) else 0
  }

  predicate AllDigits(s: string) {
    forall i :: 0 <= i < |s| ==> IsDigit(s[i])
  }

  /** The number a string of decimal digits denotes. */
  function DigitsValue(s: string): nat
    requires AllDigits(s)
    decreases |s|
  {
    if |s| == 0 then 0 else DigitsValue(s[..|s| - 1]) * 10 + DigitVal(s[|s| - 1])
  }

  function Pow10(k: nat): (p: nat)
    ensures p >= 1
  {
    if k == 0 then 1 else 10 * Pow10(k - 1)
  }

  /** The optional sign at the head of `t`: whether it is negative, and where the digits start. */
  function SignPrefix(t: string): (bool, nat) {
    if |t| > 0 && t[0] == '-' then (true, 1)
    else if |t| > 0 && t[0] == '+' then (false, 1)
    else (false, 0)
  }

  /** The exponent of an `[eE][+-]digits` part at the head of `s`, if there is
      one with at least one digit; `parseFloat` ignores an `e` without digits. */
  function ExponentPart(s: string): (r: Option<int>)
    ensures r.Some? ==> |s| > 1 && (s[0] == 'e' || s[0] == 'E')
  {
    if |s| > 0 && (s[0] == 'e' || s[0] == 'E') then
      var (neg, k) := SignPrefix(s[1..]);
      var body := s[1..][k..];
      var i := DigitRun(body);
      if i == 0 then None
      else
        var mag: int := DigitsValue(body[..i]);
        Some(if neg then -mag else mag)
    else None
  }

  /** `m` times ten to the power `e`. */
  function Scale10(m: real, e: int): real
    decreases if e >= 0 then e else -e
  {
    if e == 0 then m else if e > 0 then 10.0 * Scale10(m, e - 1) else Scale10(m, e + 1) / 10.0
  }

  /** The value of the fraction digits `f` after a decimal point: `0.f`. */
  function FracValue(f: string): (r: real)
    requires AllDigits(f)
    decreases |f|
  {
    if |f| == 0 then 0.0 else (DigitVal(f[0]) as real + FracValue(f[1..])) / 10.0
  }

  /** The fraction digits after a leading `.` of `rest`, if it has one. */
  function FracDigits(rest: string): (f: string)
    ensures AllDigits(f)
  {
    if |rest| > 0 && rest[0] == '.' then rest[1..][..DigitRun(rest[1..])] else ""
  }

  /** What follows the `.` and its fraction digits, or `rest` itself without a `.`. */
  function AfterFraction(rest: string): string {
    if |rest| > 0 && rest[0] == '.' then rest[1 + DigitRun(rest[1..])..] else rest
  }

  /** The unsigned number at the head of `body`: `digits[.digits][(e|E)[+-]digits]`
      with at least one mantissa digit. */
  function UnsignedPrefix(body: string): Option<real> {
    var i := DigitRun(body);
    var frac := FracDigits(body[i..]);
    if i == 0 && |frac| == 0 then None
    else
      var mant := DigitsValue(body[..i]) as real + FracValue(frac);
      Some(WithExponent(mant, ExponentPart(AfterFraction(body[i..]))))
  }

  /** The mantissa scaled by the exponent, when there is one. */
  function WithExponent(m: real, e: Option<int>): real {
    match e
    case Some(x) => Scale10(m, x)
    case None => m
  }

  /** `parseFloat` on text: the longest decimal prefix after leading whitespace
      (`[+-]digits[.digits][(e|E)[+-]digits]`, at least one mantissa digit),
      or `None` for `NaN`. */
  function ParseFloatStr(s: string): Option<real> {
    var t := TrimStart(s);
    var (neg, k) := SignPrefix(t);
    match UnsignedPrefix(t[k..])
    case None => None
    case Some(m) => Some(if neg then -m else m)
  }

  /** `e` followed by a printed integer is read as that exponent. */
  lemma ExponentPartOf(e: int)
    ensures ExponentPart("e" + IntToString(e)) == Some(e)
  {
    var t := IntToString(e);
    assert ("e" + t)[1..] == t;
    if e >= 0 {
      assert SignPrefix(t) == (false, 0);
      assert t[0..] == t;
      DigitRunAll(t);
      assert t[..|t|] == t;
      DigitsValueOfNatToString(e);
    } else {
      var d := NatToString(-e);
      assert SignPrefix(t) == (true, 1);
      assert t[1..] == d;
      DigitRunAll(d);
      assert d[..|d|] == d;
      DigitsValueOfNatToString(-e);
    }
  }

  /** Digits followed by text that cannot continue the mantissa: the digits'
      value, scaled by the exponent the text starts with, if any. */
  lemma ParseFloatDigitsThen(d: string, rest: string)
    requires |d| > 0 && AllDigits(d)
    requires |rest| > 0 ==> !IsDigit(rest[0]) && rest[0] != '.'
    ensures ParseFloatStr(d + rest) == Some(WithExponent(DigitsValue(d) as real, ExponentPart(rest)))
  {
    var s := d + rest;
    assert TrimStart(s) == s && SignPrefix(s) == (false, 0) && s[0..] == s by {
      assert !IsSpace(s[0]) && IsDigit(s[0]);
    }
    assert DigitRun(s) == |d| by {
      DigitRunConcat(d, rest);
    }
    assert s[..|d|] == d && s[|d|..] == rest;
    assert FracDigits(rest) == "" && AfterFraction(rest) == rest;
  }

  lemma {:induction false} DigitRunConcat(d: string, rest: string)
    requires AllDigits(d)
    requires |rest| > 0 ==> !IsDigit(rest[0])
    ensures DigitRun(d + rest) == |d|
    decreases |d|
  {
    if |d| > 0 {
      assert (d + rest)[1..] == d[1..] + rest;
      DigitRunConcat(d[1..], rest);
    }
  }

  /** Exponent notation is read: `parseFloat(String(m) + "e" + String(e))` is m·10^e. */
  lemma ParseFloatExponent(m: nat, e: int)
    ensures ParseFloatStr(NatToString(m) + ("e" + IntToString(e))) == Some(Scale10(m as real, e))
  {
    ExponentPartOf(e);
    DigitsValueOfNatToString(m);
    ParseFloatDigitsThen(NatToString(m), "e" + IntToString(e));
  }

  /** An `e` without digits ends the number: `parseFloat(String(m) + "e")` is m. */
  lemma ParseFloatBareE(m: nat)
    ensures ParseFloatStr(NatToString(m) + "e") == Some(m as real)
  {
    assert "e"[1..] == "";
    assert ExponentPart("e") == None;
    DigitsValueOfNatToString(m);
    ParseFloatDigitsThen(NatToString(m), "e");
  }

  /** For instance, a number typed as `2e2` reads as 200. */
  lemma ParseFloatExponentExample()
    ensures ParseFloatStr("2e2") == Some(200.0)
  {
    ExampleTexts();
    ParseFloatExponent(2, 2);
    assert Scale10(2.0, 2) == 200.0 by {
      assert Scale10(2.0, 1) == 20.0;
    }
  }

  /** And `2e-1` reads as 0.2. */
  lemma ParseFloatNegativeExponentExample()
    ensures ParseFloatStr("2e-1") == Some(0.2)
  {
    ExampleTexts();
    ParseFloatExponent(2, -1);
    assert Scale10(2.0, -1) == 0.2 by {
      assert Scale10(2.0, 0) == 2.0;
    }
  }

  /** The texts of the two examples, built from printed numbers. */
  lemma ExampleTexts()
    ensures NatToString(2) + ("e" + IntToString(2)) == "2e2"
    ensures NatToString(2) + ("e" + IntToString(-1)) == "2e-1"
  {
    assert DigitChar(2) == '2' && DigitChar(1) == '1';
    assert NatToString(2) == "2" && NatToString(1) == "1";
  }

  /** `parseInt(s)` with radix 10: the longest `[+-]digits` prefix after leading whitespace. */
  function ParseIntStr(s: string): Option<int> {
    var t := TrimStart(s);
    var (neg, k) := SignPrefix(t);
    var body := t[k..];
    var i := DigitRun(body);
    if i == 0 then None
    else
      var mag: int := DigitsValue(body[..i]);
      Some(if neg then -mag else mag)
  }

  /** `parseInt(s)` is a number (not `NaN`) within `lo..hi`, both ends included. */
  predicate IntTextWithin(s: string, lo: int, hi: int) {
    var n := ParseIntStr(s);
    n.Some? && lo <= n.value <= hi
  }

  /** Truncation toward zero, as `parseInt` applies it to a number. */
  function Trunc(x: real): (r: int)
    ensures x >= 0.0 ==> r as real <= x < r as real + 1.0
    ensures x < 0.0 ==> r as real - 1.0 < x <= r as real
  {
    if x >= 0.0 then x.Floor else -((-x).Floor)
  }

  /** `parseFloat(v)`: a number is itself; text is parsed; anything else is `NaN` (`None`). */
  function ParseFloat(v: Raw): (r: Option<real>)
    ensures v.Num? ==> r == Some(v.n)
    ensures !v.Num? && !v.Str? ==> r == None
  {
    match v
    case Num(n) => Some(n)
    case Str(s) => ParseFloatStr(s)
    case _ => None
  }

  /** `parseInt(v)`: a number is truncated toward zero; text is parsed; anything else is `NaN`. */
  function ParseInt(v: Raw): (r: Option<int>)
    ensures v.Num? ==> r == Some(Trunc(v.n))
    ensures !v.Num? && !v.Str? ==> r == None
  {
    match v
    case Num(n) => Some(Trunc(n))
    case Str(s) => ParseIntStr(s)
    case _ => None
  }

  /** `parseFloat(v) || 0`: the parsed number, with `NaN` read as 0. */
  function FloatOr0(v: Raw): (r: real)
    ensures ParseFloat(v).Some? ==> r == ParseFloat(v).value
    ensures ParseFloat(v).None? ==> r == 0.0
  {
    ParseFloat(v).GetOr(0.0)
  }

  /** `parseInt(v) || 0`. */
  function IntOr0(v: Raw): (r: int)
    ensures ParseInt(v).Some? ==> r == ParseInt(v).value
    ensures ParseInt(v).None? ==> r == 0
  {
    ParseInt(v).GetOr(0)
  }

  /** Decimal digits of a natural number, most significant first (`String(n)`). */
  function NatToString(n: nat): (s: string)
    ensures |s| > 0 && AllDigits(s)
    decreases n
  {
    if n < 10 then [DigitChar(n)] else NatToString(n / 10) + [DigitChar(n % 10)]
  }

  /** Printing a natural number and reading the digits back gives the number. */
  lemma {:induction false} DigitsValueOfNatToString(n: nat)
    ensures DigitsValue(NatToString(n)) == n
    decreases n
  {
    var s := NatToString(n);
    if n >= 10 {
      DigitsValueOfNatToString(n / 10);
      assert s[..|s| - 1] == NatToString(n / 10);
    }
  }

  lemma DigitRunAll(s: string)
    requires AllDigits(s)
    ensures DigitRun(s) == |s|
  {
  }

  /** `parseInt(String(n)) == n` for every natural number. */
  lemma ParseIntOfNatToString(n: nat)
    ensures ParseIntStr(NatToString(n)) == Some(n)
  {
    var s := NatToString(n);
    assert !IsSpace(s[0]);
    assert TrimStart(s) == s;
    assert SignPrefix(s) == (false, 0);
    assert s[0..] == s;
    DigitRunAll(s);
    assert s[..|s|] == s;
    DigitsValueOfNatToString(n);
  }

  /** `parseFloat(String(n)) == n` for every natural number. */
  lemma ParseFloatOfNatToString(n: nat)
    ensures ParseFloatStr(NatToString(n)) == Some(n as real)
  {
    var s := NatToString(n);
    assert !IsSpace(s[0]);
    assert TrimStart(s) == s;
    assert SignPrefix(s) == (false, 0);
    assert s[0..] == s;
    DigitRunAll(s);
    assert s[..|s|] == s;
    assert s[|s|..] == "";
    DigitsValueOfNatToString(n);
  }

  /** `String(n)` for an integer. */
  function IntToString(n: int): (s: string)
    ensures n >= 0 ==> s == NatToString(n)
    ensures n < 0 ==> s == "-" + NatToString(-n)
  {
    if n >= 0 then NatToString(n) else "-" + NatToString(-n)
  }

  lemma ParseIntOfIntToString(n: int)
    ensures ParseIntStr(IntToString(n)) == Some(n)
  {
    if n >= 0 {
      ParseIntOfNatToString(n);
    } else {
      var s := IntToString(n);
      var d := NatToString(-n);
      assert TrimStart(s) == s;
      assert SignPrefix(s) == (true, 1);
      assert s[1..] == d;
      DigitRunAll(d);
      assert d[..|d|] == d;
      DigitsValueOfNatToString(-n);
    }
  }

  /** ASCII `toLowerCase` of one character. */
  function LowerChar(c: char): (r: char)
    ensures 'A' <= c <= 'Z' ==> r as int == c as int + 32
    ensures !('A' <= c <= 'Z') ==> r == c
  {
    if 'A' <= c <= 'Z' then (c as int + 32) as char else c
  }

  /** ASCII `toUpperCase` of one character. */
  function UpperChar(c: char): (r: char)
    ensures LowerChar(r) == LowerChar(c)
    ensures 'a' <= c <= 'z' ==> 'A' <= r <= 'Z' && r as int + 32 == c as int
  {
    if 'a' <= c <= 'z' then (c as int - 32) as char else c
  }

  /** `s.toLowerCase()` on ASCII letters; other characters are unchanged. */
  function Lower(s: string): (r: string)
    ensures |r| == |s|
    ensures forall i :: 0 <= i < |s| ==> r[i] == LowerChar(s[i])
  {
    seq(|s|, i requires 0 <= i < |s| => LowerChar(s[i]))
  }

  /** Lower-casing twice is lower-casing once. */
  lemma LowerIdempotent(s: string)
    ensures Lower(Lower(s)) == Lower(s)
  {
  }

  /** `s.includes(t)`. */
  predicate Contains(s: string, t: string) {
    exists i :: 0 <= i <= |s| && StartsWith(s[i..], t)
  }

  /** Every string contains the empty string and itself, and only strings no longer than it. */
  lemma ContainsFacts(s: string, t: string)
    ensures Contains(s, "")
    ensures Contains(s, s)
    ensures Contains(s, t) ==> |t| <= |s|
  {
    assert StartsWith(s[0..], "");
    assert StartsWith(s[0..], s);
  }

  /** `s.startsWith(p)`. */
  predicate StartsWith(s: string, p: string) {
    |p| <= |s| && s[..|p|] == p
  }

  /** `Math.round`: the nearest integer, halves rounded up. */
  function Round(x: real): (r: int)
    ensures x - 0.5 < r as real <= x + 0.5
  {
    (x + 0.5).Floor
  }

  /** Rounding is monotone. */
  lemma RoundMono(x: real, y: real)
    requires x <= y
    ensures Round(x) <= Round(y)
  {
  }

  /** Rounding leaves integers unchanged. */
  lemma RoundInt(n: int)
    ensures Round(n as real) == n
  {
  }
}

=== FILE: order.dfy ===
/** Orderings used by the sorts in the source: code-unit order on strings
    (JS `<` on strings, default `Array.prototype.sort`, Python `str` order),
    sort keys made of numbers and strings compared lexicographically
    (pandas `sort_values` on several columns), and a stable insertion sort. */
module Order {
  import opened Seqs

  /** Code-unit lexicographic order on strings. */
  predicate StrLe(a: string, b: string)
    decreases |a|
  {
    if |a| == 0 then true
    else if |b| == 0 then false
    else if a[0] != b[0] then a[0] < b[0]
    else StrLe(a[1..], b[1..])
  }

  lemma {:induction false} StrLeTotal(a: string, b: string)
    ensures StrLe(a, b) || StrLe(b, a)
    decreases |a|
  {
    if |a| > 0 && |b| > 0 && a[0] == b[0] {
      StrLeTotal(a[1..], b[1..]);
    }
  }

  lemma {:induction false} StrLeTrans(a: string, b: string, c: string)
    requires StrLe(a, b) && StrLe(b, c)
    ensures StrLe(a, c)
    decreases |a|
  {
    if |a| > 0 && |b| > 0 && |c| > 0 && a[0] == b[0] && b[0] == c[0] {
      StrLeTrans(a[1..], b[1..], c[1..]);
    }
  }

  lemma {:induction false} StrLeAntisym(a: string, b: string)
    requires StrLe(a, b) && StrLe(b, a)
    ensures a == b
    decreases |a|
  {
    if |a| > 0 {
      StrLeAntisym(a[1..], b[1..]);
      assert a == [a[0]] + a[1..];
      assert b == [b[0]] + b[1..];
    }
  }

  /** One component of a sort key. Numbers sort before strings. */
  datatype Atom = ANum(n: real) | AStr(s: string)

  predicate AtomLe(x: Atom, y: Atom) {
    match (x, y)
    case (ANum(a), ANum(b)) => a <= b
    case (AStr(a), AStr(b)) => StrLe(a, b)
    case (ANum(_), AStr(_)) => true
    case (AStr(_), ANum(_)) => false
  }

  lemma AtomLeProps()
    ensures forall x, y :: AtomLe(x, y) || AtomLe(y, x)
    ensures forall x, y :: AtomLe(x, y) && AtomLe(y, x) ==> x == y
    ensures forall x, y, z :: AtomLe(x, y) && AtomLe(y, z) ==> AtomLe(x, z)
  {
    forall x, y ensures AtomLe(x, y) || AtomLe(y, x) {
      if x.AStr? && y.AStr? { StrLeTotal(x.s, y.s); }
    }
    forall x, y | AtomLe(x, y) && AtomLe(y, x) ensures x == y {
      if x.AStr? && y.AStr? { StrLeAntisym(x.s, y.s); }
    }
    forall x, y, z | AtomLe(x, y) && AtomLe(y, z) ensures AtomLe(x, z) {
      if x.AStr? && y.AStr? && z.AStr? { StrLeTrans(x.s, y.s, z.s); }
    }
  }

  /** Lexicographic order on sort keys. */
  predicate KeyLe(a: seq<Atom>, b: seq<Atom>)
    decreases |a|
  {
    if |a| == 0 then true
    else if |b| == 0 then false
    else if a[0] != b[0] then AtomLe(a[0], b[0])
    else KeyLe(a[1..], b[1..])
  }

  lemma {:induction false} KeyLeTotal(a: seq<Atom>, b: seq<Atom>)
    ensures KeyLe(a, b) || KeyLe(b, a)
    decreases |a|
  {
    AtomLeProps();
    if |a| > 0 && |b| > 0 && a[0] == b[0] {
      KeyLeTotal(a[1..], b[1..]);
    }
  }

  lemma {:induction false} KeyLeTrans(a: seq<Atom>, b: seq<Atom>, c: seq<Atom>)
    requires KeyLe(a, b) && KeyLe(b, c)
    ensures KeyLe(a, c)
    decreases |a|
  {
    AtomLeProps();
    if |a| > 0 && |b| > 0 && |c| > 0 && a[0] == b[0] && b[0] == c[0] {
      KeyLeTrans(a[1..], b[1..], c[1..]);
    }
  }

  lemma {:induction false} KeyLeAntisym(a: seq<Atom>, b: seq<Atom>)
    requires KeyLe(a, b) && KeyLe(b, a)
    ensures a == b
    decreases |a|
  {
    AtomLeProps();
    if |a| > 0 {
      KeyLeAntisym(a[1..], b[1..]);
      assert a == [a[0]] + a[1..];
      assert b == [b[0]] + b[1..];
    }
  }

  /** `s` is non-decreasing under `key`. */
  predicate SortedBy<T>(s: seq<T>, key: T -> seq<Atom>) {
    forall i, j :: 0 <= i < j < |s| ==> KeyLe(key(s[i]), key(s[j]))
  }

  /** Inserts `x` after every element whose key is at most its own. */
  function Insert<T>(x: T, s: seq<T>, key: T -> seq<Atom>): (r: seq<T>)
    ensures multiset(r) == multiset(s) + multiset{x}
    decreases |s|
  {
    if |s| == 0 then [x]
    else if KeyLe(key(s[0]), key(x)) then
      assert s == [s[0]] + s[1..];
      [s[0]] + Insert(x, s[1..], key)
    else [x] + s
  }

  lemma {:induction false} InsertSorted<T>(x: T, s: seq<T>, key: T -> seq<Atom>)
    requires SortedBy(s, key)
    ensures SortedBy(Insert(x, s, key), key)
    decreases |s|
  {
    if |s| > 0 {
      if KeyLe(key(s[0]), key(x)) {
        var rest := Insert(x, s[1..], key);
        InsertSorted(x, s[1..], key);
        InsertAbove(x, s, key);
        assert Insert(x, s, key) == [s[0]] + rest;
      } else {
        KeyLeTotal(key(s[0]), key(x));
        forall j | 0 < j < |s| ensures KeyLe(key(x), key(s[j])) {
          KeyLeTrans(key(x), key(s[0]), key(s[j]));
        }
        assert Insert(x, s, key) == [x] + s;
      }
    }
  }

  /** Inserting into the tail an element no smaller than the head keeps everything above the head. */
  lemma InsertAbove<T>(x: T, s: seq<T>, key: T -> seq<Atom>)
    requires |s| > 0 && SortedBy(s, key) && KeyLe(key(s[0]), key(x))
    ensures forall i :: 0 <= i < |Insert(x, s[1..], key)| ==> KeyLe(key(s[0]), key(Insert(x, s[1..], key)[i]))
  {
    var rest := Insert(x, s[1..], key);
    forall i | 0 <= i < |rest|
      ensures KeyLe(key(s[0]), key(rest[i]))
    {
      assert rest[i] in multiset(rest);
      if rest[i] != x {
        assert rest[i] in multiset(s[1..]);
        var k :| 0 <= k < |s[1..]| && s[1..][k] == rest[i];
        assert s[k + 1] == rest[i];
      }
    }
  }

  /** Stable insertion sort by `key`: the result is a permutation of the input in non-decreasing key order. */
  function SortBy<T>(xs: seq<T>, key: T -> seq<Atom>): (r: seq<T>)
    ensures multiset(r) == multiset(xs)
    ensures SortedBy(r, key)
    decreases |xs|
  {
    if |xs| == 0 then []
    else
      assert xs == xs[..|xs| - 1] + [xs[|xs| - 1]];
      var sorted := SortBy(xs[..|xs| - 1], key);
      InsertSorted(xs[|xs| - 1], sorted, key);
      Insert(xs[|xs| - 1], sorted, key)
  }

  /** The elements of `s` whose key is exactly `k`, in order: the run of ties for that key. */
  function Ties<T>(s: seq<T>, key: T -> seq<Atom>, k: seq<Atom>): seq<T>
    decreases |s|
  {
    if |s| == 0 then [] else TiesOf(s[0], key, k) + Ties(s[1..], key, k)
  }

  /** `x` alone when its key is `k`, nothing otherwise. */
  function TiesOf<T>(x: T, key: T -> seq<Atom>, k: seq<Atom>): seq<T> {
    if key(x) == k then [x] else []
  }

  lemma {:induction false} TiesAppend<T>(a: seq<T>, b: seq<T>, key: T -> seq<Atom>, k: seq<Atom>)
    ensures Ties(a + b, key, k) == Ties(a, key, k) + Ties(b, key, k)
    decreases |a|
  {
    if |a| == 0 {
      assert a + b == b;
    } else {
      assert (a + b)[0] == a[0];
      assert (a + b)[1..] == a[1..] + b;
      TiesAppend(a[1..], b, key, k);
      calc {
        Ties(a + b, key, k);
        TiesOf(a[0], key, k) + Ties(a[1..] + b, key, k);
        TiesOf(a[0], key, k) + (Ties(a[1..], key, k) + Ties(b, key, k));
        (TiesOf(a[0], key, k) + Ties(a[1..], key, k)) + Ties(b, key, k);
      }
    }
  }

  lemma {:induction false} TiesNone<T>(s: seq<T>, key: T -> seq<Atom>, k: seq<Atom>)
    requires forall i :: 0 <= i < |s| ==> key(s[i]) != k
    ensures Ties(s, key, k) == []
    decreases |s|
  {
    if |s| > 0 {
      TiesNone(s[1..], key, k);
    }
  }

  /** Inserting `x` into a sorted list puts it after every element that ties with it. */
  lemma {:induction false} InsertTies<T>(x: T, s: seq<T>, key: T -> seq<Atom>, k: seq<Atom>)
    requires SortedBy(s, key)
    ensures Ties(Insert(x, s, key), key, k) == Ties(s, key, k) + TiesOf(x, key, k)
    decreases |s|
  {
    if |s| == 0 {
      assert Insert(x, s, key) == [x];
      TiesSingle(x, key, k);
    } else if KeyLe(key(s[0]), key(x)) {
      SortedTail(s, key);
      InsertTies(x, s[1..], key, k);
      InsertTiesPast(x, s, key, k);
    } else {
      InsertTiesBefore(x, s, key, k);
    }
  }

  lemma TiesSingle<T>(x: T, key: T -> seq<Atom>, k: seq<Atom>)
    ensures Ties([x], key, k) == TiesOf(x, key, k)
  {
    assert [x][1..] == [];
  }

  lemma InsertTiesPast<T>(x: T, s: seq<T>, key: T -> seq<Atom>, k: seq<Atom>)
    requires |s| > 0 && KeyLe(key(s[0]), key(x))
    requires Ties(Insert(x, s[1..], key), key, k) == Ties(s[1..], key, k) + TiesOf(x, key, k)
    ensures Ties(Insert(x, s, key), key, k) == Ties(s, key, k) + TiesOf(x, key, k)
  {
    var head := TiesOf(s[0], key, k);
    var rest := Insert(x, s[1..], key);
    assert Insert(x, s, key) == [s[0]] + rest;
    assert ([s[0]] + rest)[1..] == rest;
    calc {
      Ties(Insert(x, s, key), key, k);
      head + Ties(rest, key, k);
      head + (Ties(s[1..], key, k) + TiesOf(x, key, k));
      (head + Ties(s[1..], key, k)) + TiesOf(x, key, k);
    }
  }

  lemma InsertTiesBefore<T>(x: T, s: seq<T>, key: T -> seq<Atom>, k: seq<Atom>)
    requires |s| > 0 && SortedBy(s, key) && !KeyLe(key(s[0]), key(x))
    ensures Ties(Insert(x, s, key), key, k) == Ties(s, key, k) + TiesOf(x, key, k)
  {
    assert Insert(x, s, key) == [x] + s;
    assert ([x] + s)[1..] == s;
    if key(x) == k {
      KeyLeTotal(key(s[0]), key(s[0]));
      forall i | 0 <= i < |s| ensures key(s[i]) != k {
        if i > 0 {
          assert KeyLe(key(s[0]), key(s[i]));
        }
      }
      TiesNone(s, key, k);
    }
  }

  lemma SortedTail<T>(s: seq<T>, key: T -> seq<Atom>)
    requires |s| > 0 && SortedBy(s, key)
    ensures SortedBy(s[1..], key)
  {
    forall i, j | 0 <= i < j < |s[1..]| ensures KeyLe(key(s[1..][i]), key(s[1..][j])) {
      assert s[1..][i] == s[i + 1] && s[1..][j] == s[j + 1];
    }
  }

  lemma SortByLast<T>(xs: seq<T>, key: T -> seq<Atom>)
    requires |xs| > 0
    ensures SortBy(xs, key) == Insert(xs[|xs| - 1], SortBy(xs[..|xs| - 1], key), key)
  {
  }

  /** `SortBy` is stable: the elements sharing any one key come out in the order they went in. */
  lemma {:induction false} SortByStable<T>(xs: seq<T>, key: T -> seq<Atom>, k: seq<Atom>)
    ensures Ties(SortBy(xs, key), key, k) == Ties(xs, key, k)
    decreases |xs|
  {
    if |xs| > 0 {
      var init, last := xs[..|xs| - 1], xs[|xs| - 1];
      calc {
        Ties(SortBy(xs, key), key, k);
        { SortByLast(xs, key); }
        Ties(Insert(last, SortBy(init, key), key), key, k);
        { InsertTies(last, SortBy(init, key), key, k); }
        Ties(SortBy(init, key), key, k) + TiesOf(last, key, k);
        { SortByStable(init, key, k); }
        Ties(init, key, k) + TiesOf(last, key, k);
        { TiesSingle(last, key, k); TiesAppend(init, [last], key, k); }
        Ties(init + [last], key, k);
        { assert xs == init + [last]; }
        Ties(xs, key, k);
      }
    }
  }

  function StrKey(s: string): seq<Atom> {
    [AStr(s)]
  }

  /** Sorts strings in code-unit order; distinct inputs come out strictly increasing. */
  function SortStrings(xs: seq<string>): (r: seq<string>)
    ensures multiset(r) == multiset(xs)
    ensures forall i, j :: 0 <= i < j < |r| ==> StrLe(r[i], r[j])
    ensures Distinct(xs) ==> Distinct(r)
  {
    var r := SortBy(xs, StrKey);
    assert forall i, j :: 0 <= i < j < |r| ==> StrLe(r[i], r[j]) by {
      forall i, j | 0 <= i < j < |r| ensures StrLe(r[i], r[j]) {
        assert KeyLe(StrKey(r[i]), StrKey(r[j]));
        if r[i] == r[j] { StrLeTotal(r[i], r[j]); }
      }
    }
    if Distinct(xs) then
      DistinctByMultiset(xs, r);
      r
    else r
  }

  lemma DistinctByMultiset<T>(xs: seq<T>, r: seq<T>)
    requires Distinct(xs)
    requires multiset(r) == multiset(xs)
    ensures Distinct(r)
  {
    DistinctCounts(xs);
    forall i, j | 0 <= i < j < |r| ensures r[i] != r[j] {
      var x := r[i];
      assert r == r[..i] + [x] + r[i + 1..j] + [r[j]] + r[j + 1..];
      assert multiset(r)[x] == multiset(r[..i])[x] + 1 + multiset(r[i + 1..j])[x]
        + multiset([r[j]])[x] + multiset(r[j + 1..])[x];
      assert multiset(r)[x] <= 1;
    }
  }

  lemma {:induction false} DistinctCounts<T>(xs: seq<T>)
    requires Distinct(xs)
    ensures forall x :: multiset(xs)[x] <= 1
    decreases |xs|
  {
    if |xs| > 0 {
      var xs' := xs[..|xs| - 1];
      assert Distinct(xs');
      DistinctCounts(xs');
      assert xs == xs' + [xs[|xs| - 1]];
      assert xs[|xs| - 1] !in xs';
    }
  }
}

=== FILE: pipeline.dfy ===
/** The Python batch pipeline's pure parts: splitting the value tuples of
    SQL `INSERT` statements, keeping the rows whose width matches the column
    list, the categorical encodings, the ideal-range recommendation engine
    and the priority sort of its output. */
module Pipeline {
  import opened Wrappers
  import opened Js
  import opened Seqs
  import opened Order
  import Csv
  import Classify

  // ---------------------------------------------------------------------
  // Python `str.strip`

  /** Characters `str.isspace` accepts, which `str.strip()` removes. */
  predicate PySpace(c: char) {
    c == ' ' || '\t' <= c <= '\r' || '\U{1C}' <= c <= '\U{1F}' || c == '\U{85}' || c == '\U{A0}'
    || c == '\U{1680}' || '\U{2000}' <= c <= '\U{200A}' || c == '\U{2028}' || c == '\U{2029}'
    || c == '\U{202F}' || c == '\U{205F}' || c == '\U{3000}'
  }

  predicate IsQuote(c: char) {
    c == '\''
  }

  function StripLeft(s: string, drop: char -> bool): (r: string)
    ensures |r| <= |s| && r == s[|s| - |r|..]
    ensures |r| > 0 ==> !drop(r[0])
    ensures forall i :: 0 <= i < |s| - |r| ==> drop(s[i])
    decreases |s|
  {
    if |s| > 0 && drop(s[0]) then StripLeft(s[1..], drop) else s
  }

  function StripRight(s: string, drop: char -> bool): (r: string)
    ensures |r| <= |s| && r == s[..|r|]
    ensures |r| > 0 ==> !drop(r[|r| - 1])
    ensures forall i :: |r| <= i < |s| ==> drop(s[i])
    decreases |s|
  {
    if |s| > 0 && drop(s[|s| - 1]) then StripRight(s[..|s| - 1], drop) else s
  }

  /** `s.strip(chars)`: drops every leading and trailing character in the set. */
  function Strip(s: string, drop: char -> bool): (r: string)
    ensures |r| <= |s|
    ensures |r| > 0 ==> !drop(r[0]) && !drop(r[|r| - 1])
  {
    StripRight(StripLeft(s, drop), drop)
  }

  lemma StripKeeps(s: string, drop: char -> bool)
    requires |s| > 0 ==> !drop(s[0]) && !drop(s[|s| - 1])
    ensures Strip(s, drop) == s
  {
  }

  /** Stripping twice is stripping once. */
  lemma StripIdempotent(s: string, drop: char -> bool)
    ensures Strip(Strip(s, drop), drop) == Strip(s, drop)
  {
    StripKeeps(Strip(s, drop), drop);
  }

  /** Stripping ignores dropped characters added at either end. */
  lemma {:induction false} StripPadded(s: string, drop: char -> bool, c: char)
    requires drop(c)
    ensures Strip([c] + s + [c], drop) == Strip(s, drop)
  {
    var t := [c] + s + [c];
    assert t[1..] == s + [c];
    assert StripLeft(t, drop) == StripLeft(s + [c], drop);
    StripLeftSnoc(s, drop, c);
    var l := StripLeft(s, drop);
    if |l| == 0 {
      assert StripLeft(s + [c], drop) == [c] || StripLeft(s + [c], drop) == [];
    } else {
      assert StripLeft(s + [c], drop) == l + [c];
      assert (l + [c])[..|l|] == l;
    }
  }

  lemma {:induction false} StripLeftSnoc(s: string, drop: char -> bool, c: char)
    ensures |StripLeft(s, drop)| > 0 ==> StripLeft(s + [c], drop) == StripLeft(s, drop) + [c]
    ensures |StripLeft(s, drop)| == 0 && drop(c) ==> StripLeft(s + [c], drop) == []
    decreases |s|
  {
    if |s| > 0 {
      assert (s + [c])[1..] == s[1..] + [c];
      if drop(s[0]) {
        StripLeftSnoc(s[1..], drop, c);
      }
    } else {
      assert s + [c] == [c];
      assert StripLeft([c][1..], drop) == [];
    }
  }

  // ---------------------------------------------------------------------
  // split_csv_row

  /** What the splitter has seen so far: the finished fields, the field being
      read and whether the scan is inside a single-quoted span. */
  datatype Scan = Scan(done: seq<string>, current: string, inQuote: bool)

  /** One character of the scan: a quote toggles the span and is kept, a comma
      outside a span ends the field, anything else is kept. */
  function Step(st: Scan, c: char): Scan {
    if c == '\'' then Scan(st.done, st.current + [c], !st.inQuote)
    else if c == ',' && !st.inQuote then Scan(st.done + [st.current], "", st.inQuote)
    else Scan(st.done, st.current + [c], st.inQuote)
  }

  function ScanOf(s: string): Scan
    decreases |s|
  {
    if |s| == 0 then Scan([], "", false) else Step(ScanOf(s[..|s| - 1]), s[|s| - 1])
  }

  /** The fields before stripping. */
  function RawFields(s: string): (fs: seq<string>)
    ensures |fs| >= 1
  {
    ScanOf(s).done + [ScanOf(s).current]
  }

  /** A field as the row keeps it: whitespace stripped, then surrounding quotes. */
  function Clean(f: string): (r: string)
    ensures |r| > 0 ==> r[0] != '\'' && r[|r| - 1] != '\''
  {
    Strip(Strip(f, PySpace), IsQuote)
  }

  function CleanAll(fs: seq<string>): (r: seq<string>)
    ensures |r| == |fs|
  {
    seq(|fs|, i requires 0 <= i < |fs| => Clean(fs[i]))
  }

  lemma CleanAllUnquoted(fs: seq<string>)
    ensures forall k :: 0 <= k < |fs| && |CleanAll(fs)[k]| > 0 ==>
      CleanAll(fs)[k][0] != '\'' && CleanAll(fs)[k][|CleanAll(fs)[k]| - 1] != '\''
  {
    forall k | 0 <= k < |fs| && |CleanAll(fs)[k]| > 0
      ensures CleanAll(fs)[k][0] != '\'' && CleanAll(fs)[k][|CleanAll(fs)[k]| - 1] != '\''
    {
      assert CleanAll(fs)[k] == Clean(fs[k]);
    }
  }

  lemma CleanAllSnoc(fs: seq<string>, f: string)
    ensures CleanAll(fs + [f]) == CleanAll(fs) + [Clean(f)]
  {
  }

  /** The fields of a tuple; none begins or ends with a single quote. */
  function SplitFields(s: string): (fs: seq<string>)
    ensures forall k :: 0 <= k < |fs| && |fs[k]| > 0 ==> fs[k][0] != '\'' && fs[k][|fs[k]| - 1] != '\''
  {
    var raw := RawFields(s);
    CleanAllUnquoted(raw);
    CleanAll(raw)
  }

  /** Number of single quotes in `s`. */
  function Quotes(s: string): nat
    decreases |s|
  {
    if |s| == 0 then 0 else Quotes(s[..|s| - 1]) + (if s[|s| - 1] == '\'' then 1 else 0)
  }

  /** The comma at `i` lies outside every single-quoted span: an even number of quotes precede it. */
  predicate SeparatorAt(s: string, i: nat)
    requires i < |s|
  {
    s[i] == ',' && Quotes(s[..i]) % 2 == 0
  }

  /** Number of positions `i` with `SeparatorAt(s, i)`. */
  function SeparatorCount(s: string): nat
    decreases |s|
  {
    if |s| == 0 then 0
    else SeparatorCount(s[..|s| - 1]) + (if SeparatorAt(s, |s| - 1) then 1 else 0)
  }

  /** The scan is inside a span exactly when it has seen an odd number of quotes,
      and it has finished one field per separator. */
  lemma {:induction false} ScanFacts(s: string)
    ensures ScanOf(s).inQuote <==> Quotes(s) % 2 == 1
    ensures |ScanOf(s).done| == SeparatorCount(s)
    decreases |s|
  {
    if |s| > 0 {
      ScanFacts(s[..|s| - 1]);
    }
  }

  lemma {:induction false} JoinSnoc(xs: seq<string>, b: string, sep: char)
    requires |xs| > 0
    ensures Csv.Join(xs + [b], sep) == Csv.Join(xs, sep) + [sep] + b
    decreases |xs|
  {
    if |xs| == 1 {
      assert xs + [b] == [xs[0], b];
      assert Csv.Join([xs[0], b], sep) == xs[0] + [sep] + Csv.Join([b], sep);
    } else {
      assert (xs + [b])[1..] == xs[1..] + [b];
      JoinSnoc(xs[1..], b, sep);
    }
  }

  /** Joining the raw fields with commas gives the tuple text back: the
      splitter cuts at the separators and loses nothing. */
  lemma {:induction false} RawFieldsJoin(s: string)
    ensures Csv.Join(RawFields(s), ',') == s
    decreases |s|
  {
    if |s| > 0 {
      var p := s[..|s| - 1];
      var c := s[|s| - 1];
      RawFieldsJoin(p);
      var st := ScanOf(p);
      assert s == p + [c];
      if c != '\'' && c == ',' && !st.inQuote {
        assert RawFields(s) == RawFields(p) + [""];
        JoinSnoc(RawFields(p), "", ',');
      } else {
        assert RawFields(s) == st.done + [st.current + [c]];
        if |st.done| == 0 {
          assert RawFields(s) == [st.current + [c]];
        } else {
          JoinSnoc(st.done, st.current + [c], ',');
          JoinSnoc(st.done, st.current, ',');
        }
      }
    }
  }

  /** `split_csv_row`, as the source's character loop. */
  method SplitRow(s: string) returns (values: seq<string>)
    ensures values == SplitFields(s)
    ensures |values| == SeparatorCount(s) + 1
  {
    values := [];
    var current: string := "";
    var inQuote := false;
    ghost var done: seq<string> := [];
    for i := 0 to |s|
      invariant ScanOf(s[..i]) == Scan(done, current, inQuote)
      invariant values == CleanAll(done)
    {
      assert s[..i + 1][..i] == s[..i];
      assert ScanOf(s[..i + 1]) == Step(Scan(done, current, inQuote), s[i]);
      var ch := s[i];
      if ch == '\'' && !inQuote {
        inQuote := true;
      } else if ch == '\'' && inQuote {
        inQuote := false;
      } else if ch == ',' && !inQuote {
        CleanAllSnoc(done, current);
        values := values + [Clean(current)];
        done := done + [current];
        current := "";
        continue;
      }
      current := current + [ch];
    }
    assert s[..|s|] == s;
    CleanAllSnoc(done, current);
    values := values + [Clean(current)];
    ScanFacts(s);
  }

  // ---------------------------------------------------------------------
  // parse_table

  /** A parsed row: column name to cell, `None` for SQL `NULL`, `null` or an empty cell. */
  type Row = map<string, Option<string>>

  function NullCell(v: string): (c: Option<string>)
    ensures c.None? <==> v in {"NULL", "null", ""}
  {
    if v == "NULL" || v == "null" || v == "" then None else Some(v)
  }

  /** `dict(zip(cols, vals))` with the null replacement. */
  function Zip(cols: seq<string>, vals: seq<string>): Row
    requires |cols| == |vals|
    decreases |cols|
  {
    if |cols| == 0 then map[]
    else
      var n := |cols| - 1;
      Zip(cols[..n], vals[..n])[cols[n] := NullCell(vals[n])]
  }

  /** The row has exactly the listed columns. */
  lemma {:induction false} ZipKeys(cols: seq<string>, vals: seq<string>)
    requires |cols| == |vals|
    ensures forall k :: k in Zip(cols, vals) <==> k in cols
    decreases |cols|
  {
    if |cols| > 0 {
      var n := |cols| - 1;
      ZipKeys(cols[..n], vals[..n]);
      assert cols == cols[..n] + [cols[n]];
    }
  }

  /** A column keeps the value of its last occurrence. */
  lemma {:induction false} ZipLastWins(cols: seq<string>, vals: seq<string>, i: nat)
    requires |cols| == |vals| && i < |cols|
    requires cols[i] !in cols[i + 1..]
    ensures cols[i] in Zip(cols, vals) && Zip(cols, vals)[cols[i]] == NullCell(vals[i])
    decreases |cols|
  {
    var n := |cols| - 1;
    if i < n {
      assert cols[i + 1..] == cols[..n][i + 1..] + [cols[n]];
      ZipLastWins(cols[..n], vals[..n], i);
    }
  }

  /** The column list of an `INSERT`: split at commas, each name stripped. */
  function Columns(colsRaw: string): (cols: seq<string>)
    ensures |cols| == |Csv.Split(colsRaw, ',')|
  {
    var parts := Csv.Split(colsRaw, ',');
    seq(|parts|, i requires 0 <= i < |parts| => Strip(parts[i], PySpace))
  }

  /** Whether a tuple splits into exactly `n` fields. */
  function Fits(n: nat): string -> bool {
    (t: string) => |SplitFields(t)| == n
  }

  /** The rows `parse_table` keeps from one `INSERT` block: tuples of the wrong width are dropped. */
  function ParseRows(cols: seq<string>, tuples: seq<string>): (rows: seq<Row>)
    ensures |rows| <= |tuples|
    decreases |tuples|
  {
    if |tuples| == 0 then []
    else
      var t := tuples[|tuples| - 1];
      var vals := SplitFields(t);
      ParseRows(cols, tuples[..|tuples| - 1]) + (if |vals| == |cols| then [Zip(cols, vals)] else [])
  }

  /** A tuple is kept exactly when it has one separator fewer than there are columns. */
  lemma {:induction false} ParseRowsCount(cols: seq<string>, tuples: seq<string>)
    ensures |ParseRows(cols, tuples)| == Count(tuples, (t: string) => SeparatorCount(t) + 1 == |cols|)
    decreases |tuples|
  {
    if |tuples| > 0 {
      var t := tuples[|tuples| - 1];
      ParseRowsCount(cols, tuples[..|tuples| - 1]);
      ScanFacts(t);
    }
  }

  /** The rows kept from a tuple are its fields under the column names, in tuple order. */
  lemma {:induction false} ParseRowsValues(cols: seq<string>, tuples: seq<string>)
    ensures |ParseRows(cols, tuples)| == |Filter(tuples, Fits(|cols|))|
    ensures forall k :: 0 <= k < |ParseRows(cols, tuples)| ==>
      ParseRows(cols, tuples)[k] == Zip(cols, SplitFields(Filter(tuples, Fits(|cols|))[k]))
    decreases |tuples|
  {
    if |tuples| > 0 {
      var init, t, p := tuples[..|tuples| - 1], tuples[|tuples| - 1], Fits(|cols|);
      ParseRowsValues(cols, init);
      var f, f' := Filter(tuples, p), Filter(init, p);
      assert f == f' + (if p(t) then [t] else []);
      var r, r' := ParseRows(cols, tuples), ParseRows(cols, init);
      assert r == r' + (if p(t) then [Zip(cols, SplitFields(t))] else []);
      forall k | 0 <= k < |r| ensures r[k] == Zip(cols, SplitFields(f[k])) {
        if k < |r'| {
          assert r[k] == r'[k] && f[k] == f'[k];
        }
      }
    }
  }

  // ---------------------------------------------------------------------
  // Encodings

  /** A cell of the analytics table that is text or missing. */
  datatype Cell = PNone | PNaN | PBool(b: bool) | PStr(s: string)

  /** `str(v)`. */
  function PyText(v: Cell): string {
    match v
    case PNone => "None"
    case PNaN => "nan"
    case PBool(b) => if b then "True" else "False"
    case PStr(s) => s
  }

  function FreqMap(): map<string, nat> {
    map["never" := 0, "rarely" := 1, "sometimes" := 2, "often" := 3]
  }

  function TypeMap(): map<string, nat> {
    map["none" := 0, "organic" := 1, "non-organic" := 2, "both" := 3]
  }

  /** `astype(str).str.lower().str.strip().map(m).fillna(0)`. */
  function Encode(m: map<string, nat>, v: Cell): (n: nat)
    requires forall k :: k in m ==> m[k] <= 3
    ensures n <= 3
    ensures Strip(Lower(PyText(v)), PySpace) !in m ==> n == 0
  {
    var k := Strip(Lower(PyText(v)), PySpace);
    if k in m then m[k] else 0
  }

  function FreqName(n: nat): string
    requires n <= 3
  {
    ["never", "rarely", "sometimes", "often"][n]
  }

  function TypeName(n: nat): string
    requires n <= 3
  {
    ["none", "organic", "non-organic", "both"][n]
  }

  /** Text whose lower-case form is a key encodes to that key's level, also with padding. */
  lemma EncodeText(m: map<string, nat>, s: string, k: string)
    requires forall k :: k in m ==> m[k] <= 3
    requires Lower(s) == k && k in m && |k| > 0 && !PySpace(k[0]) && !PySpace(k[|k| - 1])
    ensures Encode(m, PStr(s)) == m[k]
    ensures Encode(m, PStr([' '] + s + [' '])) == m[k]
  {
    StripKeeps(k, PySpace);
    assert Strip(Lower(PyText(PStr(s))), PySpace) == k;
    var padded := [' '] + s + [' '];
    LowerPadded(s);
    assert Lower(PyText(PStr(padded))) == [' '] + k + [' '];
    StripPadded(k, PySpace, ' ');
    assert Strip(Lower(PyText(PStr(padded))), PySpace) == k;
  }

  /** Each frequency name encodes to its level, whatever its case and padding. */
  lemma FreqRoundTrip(n: nat, s: string)
    requires n <= 3
    requires Lower(s) == FreqName(n)
    ensures Encode(FreqMap(), PStr(s)) == n
    ensures Encode(FreqMap(), PStr([' '] + s + [' '])) == n
  {
    var k := FreqName(n);
    assert k in FreqMap() && FreqMap()[k] == n by {
      if n == 0 { assert k == "never"; }
      else if n == 1 { assert k == "rarely"; }
      else if n == 2 { assert k == "sometimes"; }
      else { assert k == "often"; }
    }
    EncodeText(FreqMap(), s, k);
  }

  /** Each type name encodes to its level, whatever its case and padding. */
  lemma TypeRoundTrip(n: nat, s: string)
    requires n <= 3
    requires Lower(s) == TypeName(n)
    ensures Encode(TypeMap(), PStr(s)) == n
    ensures Encode(TypeMap(), PStr([' '] + s + [' '])) == n
  {
    var k := TypeName(n);
    assert k in TypeMap() && TypeMap()[k] == n by {
      if n == 0 { assert k == "none"; }
      else if n == 1 { assert k == "organic"; }
      else if n == 2 { assert k == "non-organic"; }
      else { assert k == "both"; }
    }
    EncodeText(TypeMap(), s, k);
  }

  lemma LowerPadded(s: string)
    ensures Lower([' '] + s + [' ']) == [' '] + Lower(s) + [' ']
  {
  }

  /** A missing frequency encodes as "never"; a missing type as "none". */
  lemma MissingEncodesZero()
    ensures Encode(FreqMap(), PNone) == 0 && Encode(FreqMap(), PNaN) == 0
    ensures Encode(TypeMap(), PNone) == 0 && Encode(TypeMap(), PNaN) == 0
  {
    StripKeeps("none", PySpace);
  }

  // ---------------------------------------------------------------------
  // get_recommendations

  datatype Priority = High | Medium | Low

  /** The columns the engine reads, and the shade column. */
  datatype Factor = SoilPh | AvgTemp | AvgRainfall | AvgHumidity | Elevation
                  | PruningInterval | FertFreq | PestFreq | BeanMoisture | ShadeTree

  function ColumnName(f: Factor): string {
    match f
    case SoilPh => "soil_ph"
    case AvgTemp => "avg_temp_c"
    case AvgRainfall => "avg_rainfall_mm"
    case AvgHumidity => "avg_humidity_pct"
    case Elevation => "elevation_m"
    case PruningInterval => "pruning_interval_months"
    case FertFreq => "fert_freq_enc"
    case PestFreq => "pest_freq_enc"
    case BeanMoisture => "bean_moisture"
    case ShadeTree => "shade_tree_present"
  }

  /** The advice texts of the table, one constructor per message. */
  datatype Advice = PhLow | PhHigh | TempLow | TempHigh | RainLow | RainHigh | HumidLow | HumidHigh
                  | ElevLow | ElevHigh | PruneOverdue | PruneFrequent | FertLow | PestLow
                  | MoistLow | MoistHigh | NoShade

  function AdviceText(a: Advice): string {
    match a
    case PhLow => "Soil pH too low \U{2192} apply agricultural lime to raise pH toward 5.6\U{2013}6.5."
    case PhHigh => "Soil pH too high \U{2192} apply sulfur amendments to lower pH toward 5.6\U{2013}6.5."
    case TempLow => "Temperature below optimum \U{2192} consider windbreaks; monitor frost risk."
    case TempHigh => "Temperature above optimum \U{2192} increase shade tree cover to cool canopy."
    case RainLow => "Rainfall below optimum \U{2192} supplement with irrigation during dry months."
    case RainHigh => "Rainfall above optimum \U{2192} improve drainage; monitor fungal disease risk."
    case HumidLow => "Humidity too low \U{2192} mulch around base; add shade trees."
    case HumidHigh => "Humidity too high \U{2192} improve airflow; apply preventive fungicide."
    case ElevLow => "Elevation below Robusta ideal \U{2192} consider Excelsa or lower-altitude variety."
    case ElevHigh => "Elevation above Robusta ideal \U{2192} assess suitability; may suit Arabica instead."
    case PruneOverdue => "Pruning overdue (> 18 months)" + " \U{2192} prune immediately after harvest for vigour."
    case PruneFrequent => "Pruning too frequent (< 10 months)" + " \U{2192} allow full recovery between cycles."
    case FertLow => "Fertilizer too infrequent \U{2192} increase to at least 1\U{00D7}/year (sometimes)."
    case PestLow => "Pesticide never applied \U{2192} establish a pest monitoring schedule."
    case MoistLow => "Bean moisture too low \U{2192} review drying duration; risk of brittle beans."
    case MoistHigh => "Bean moisture too high \U{2192} extend drying; risk of mould and grade downgrade."
    case NoShade => "No shade trees \U{2192} plant Madre de Cacao or banana to improve grade quality and moisture retention."
  }

  /** One row of the ideal-range table: the column, the range and the advice
      for a value below or above it (`None` where the table has no message). */
  datatype RangeRule = RangeRule(factor: Factor, lo: real, hi: real, lowMsg: Option<Advice>, highMsg: Option<Advice>, priority: Priority)

  /** Row `i` of the table; the pruning row is a parameter because it differs
      between the source's table and the corrected one. */
  function RangeAt(i: nat, pruning: RangeRule): (r: RangeRule)
    requires i < 9
  {
    match i
    case 0 => RangeRule(SoilPh, 5.6, 6.5, Some(PhLow), Some(PhHigh), High)
    case 1 => RangeRule(AvgTemp, 13.0, 26.0, Some(TempLow), Some(TempHigh), Medium)
    case 2 => RangeRule(AvgRainfall, 150.0, 250.0, Some(RainLow), Some(RainHigh), Medium)
    case 3 => RangeRule(AvgHumidity, 75.0, 85.0, Some(HumidLow), Some(HumidHigh), Medium)
    case 4 => RangeRule(Elevation, 600.0, 1200.0, Some(ElevLow), Some(ElevHigh), Low)
    case 5 => pruning
    case 6 => RangeRule(FertFreq, 2.0, 3.0, Some(FertLow), None, High)
    case 7 => RangeRule(PestFreq, 1.0, 3.0, Some(PestLow), None, Low)
    case _ => RangeRule(BeanMoisture, 10.5, 12.5, Some(MoistLow), Some(MoistHigh), High)
  }

  function TableWith(pruning: RangeRule): (t: seq<RangeRule>)
    ensures |t| == 9
  {
    [RangeAt(0, pruning), RangeAt(1, pruning), RangeAt(2, pruning), RangeAt(3, pruning), RangeAt(4, pruning),
     RangeAt(5, pruning), RangeAt(6, pruning), RangeAt(7, pruning), RangeAt(8, pruning)]
  }

  /** The pruning row as the source writes it: the "overdue" text is the
      message for a value below the range. */
  function PruningAsWritten(): RangeRule {
    RangeRule(PruningInterval, 10.0, 18.0, Some(PruneOverdue), Some(PruneFrequent), High)
  }

  /** The pruning row with its messages on the sides they describe. */
  function Pruning(): RangeRule {
    RangeRule(PruningInterval, 10.0, 18.0, Some(PruneFrequent), Some(PruneOverdue), High)
  }

  function RangesAsWritten(): seq<RangeRule> {
    TableWith(PruningAsWritten())
  }

  function Ranges(): seq<RangeRule> {
    TableWith(Pruning())
  }

  /** Every table row reads its own column, and none reads the shade column. */
  lemma TableFactors(pruning: RangeRule, i: nat)
    requires pruning.factor == PruningInterval
    requires i < 9
    ensures TableWith(pruning)[i].factor != ShadeTree
    ensures forall j :: 0 <= j < 9 && j != i ==> TableWith(pruning)[j].factor != TableWith(pruning)[i].factor
  {
  }

  /** The analytics-table row the engine reads: the numeric cells that hold a
      number (a `NaN` or missing cell is absent) and the shade cell. */
  datatype PyRow = PyRow(nums: map<Factor, real>, shade: Cell)

  datatype RecValue = Reading(x: real) | Absent
  datatype Ideal = Range(lo: real, hi: real) | Present
  datatype Rec = Rec(factor: Factor, value: RecValue, ideal: Ideal, advice: Advice, priority: Priority)

  /** Python's `round(v, 2)` on the exact value: the nearest hundredth, a tie
      going to the even hundredth. */
  function Round2(v: real): (r: real)
    ensures v - 0.005 <= r <= v + 0.005
    ensures (r * 100.0).Floor as real == r * 100.0
    ensures (v * 100.0).Floor as real == v * 100.0 ==> r == v
  {
    var n := (v * 100.0).Floor;
    var f := v * 100.0 - n as real;
    var k := if f < 0.5 then n else if f > 0.5 then n + 1 else if n % 2 == 0 then n else n + 1;
    k as real / 100.0
  }

  // ---------------------------------------------------------------------
  // The yield-status column

  /** `yield_delta_pct` as the pipeline computes it: the kilogram delta is
      rounded to two decimals first, then divided by the previous yield (a 0
      previous yield reads as missing), scaled to a percentage and rounded to
      two decimals again. It stays within `DeltaError(prev)` of the exact
      percentage change. */
  function DeltaPctColumn(cur: real, prev: real): (r: Option<real>)
    ensures r.None? <==> prev == 0.0
    ensures r.Some? ==> Classify.DeltaPct(cur, prev) - DeltaError(prev) <= r.value <= Classify.DeltaPct(cur, prev) + DeltaError(prev)
    ensures r.Some? ==> (r.value * 100.0).Floor as real == r.value * 100.0
  {
    if prev == 0.0 then None
    else
      var kg := Round2(cur - prev);
      DeltaScaled(kg, cur - prev, prev);
      Some(Round2(kg / prev * 100.0))
  }

  /** Half a hundredth of a kilogram, seen as a percentage of `prev`, plus the
      second rounding's half hundredth. */
  function DeltaError(prev: real): (e: real)
    requires prev != 0.0
    ensures e > 0.005
  {
    0.5 / (if prev > 0.0 then prev else -prev) + 0.005
  }

  lemma DeltaScaled(a: real, d: real, prev: real)
    requires prev != 0.0 && d - 0.005 <= a <= d + 0.005
    ensures d / prev * 100.0 - (DeltaError(prev) - 0.005) <= a / prev * 100.0 <= d / prev * 100.0 + (DeltaError(prev) - 0.005)
  {
    var m := if prev > 0.0 then prev else -prev;
    assert a / prev * 100.0 - d / prev * 100.0 == (a - d) * 100.0 / prev;
    assert DeltaError(prev) - 0.005 == 0.5 / m;
    if prev > 0.0 {
      assert (a - d) * 100.0 <= 0.5 && -0.5 <= (a - d) * 100.0;
      assert (a - d) * 100.0 / prev <= 0.5 / prev;
      assert -0.5 / prev <= (a - d) * 100.0 / prev;
    } else {
      assert (a - d) * 100.0 / prev == -((a - d) * 100.0) / m;
      assert -((a - d) * 100.0) <= 0.5 && -0.5 <= -((a - d) * 100.0);
      assert -((a - d) * 100.0) / m <= 0.5 / m;
      assert -0.5 / m <= -((a - d) * 100.0) / m;
    }
  }

  /** Away from the bin edges the pipeline's rounded bins agree with the
      dashboard classifier: when the exact percentage change is more than
      `DeltaError(prev)` from -20, -5 and 5, both give the same status. */
  lemma RoundedStatusAgrees(cur: real, prev: real)
    requires prev != 0.0
    requires Classify.DeltaPct(cur, prev) < -20.0 - DeltaError(prev) || Classify.DeltaPct(cur, prev) > -20.0 + DeltaError(prev)
    requires Classify.DeltaPct(cur, prev) < -5.0 - DeltaError(prev) || Classify.DeltaPct(cur, prev) > -5.0 + DeltaError(prev)
    requires Classify.DeltaPct(cur, prev) < 5.0 - DeltaError(prev) || Classify.DeltaPct(cur, prev) > 5.0 + DeltaError(prev)
    ensures Classify.PipelineYieldStatus(DeltaPctColumn(cur, prev)) == Some(Classify.YieldStatusOf(cur, prev))
  {
    var d := Classify.DeltaPct(cur, prev);
    var x := DeltaPctColumn(cur, prev).value;
    assert x <= -20.0 <==> d <= -20.0;
    assert x <= -5.0 <==> d <= -5.0;
    assert x <= 5.0 <==> d <= 5.0;
    Classify.PipelineAgreesWithDashboard(cur, prev);
  }

  /** Inside the band the two disagree: from 100 kg to 80.004 kg the delta of
      -19.996 kg rounds to -20.00, which the pipeline bins as a critical drop,
      while the dashboard sees 80.004 > 0.8 · 100 and reports a moderate one. */
  lemma RoundingSplitsStatus()
    ensures DeltaPctColumn(80.004, 100.0) == Some(-20.0)
    ensures Classify.PipelineYieldStatus(DeltaPctColumn(80.004, 100.0)) == Some(Classify.CriticalDrop)
    ensures Classify.YieldStatusOf(80.004, 100.0) == Classify.ModerateDrop
  {
    assert Round2(80.004 - 100.0) == -20.0 by {
      assert (-19.996 * 100.0).Floor == -2000;
    }
    assert Round2(-20.0 / 100.0 * 100.0) == -20.0 by {
      assert (-20.0 * 100.0).Floor == -2000;
    }
  }

  /** Ties go to the even hundredth: 0.125 rounds to 0.12 and 0.135 to 0.14. */
  lemma Round2HalfEven()
    ensures Round2(0.125) == 0.12
    ensures Round2(0.135) == 0.14
  {
    assert (0.125 * 100.0).Floor == 12;
    assert (0.135 * 100.0).Floor == 13;
  }

  /** The entry one table row contributes, if any; it records the value rounded
      to two decimals. */
  function RuleRec(r: RangeRule, row: PyRow): (e: Option<Rec>)
    ensures e.Some? ==> e.value.factor == r.factor && e.value.priority == r.priority
    ensures e.Some? ==> r.factor in row.nums && e.value.value == Reading(Round2(row.nums[r.factor]))
  {
    if r.factor !in row.nums then None
    else
      var v := row.nums[r.factor];
      if v < r.lo && r.lowMsg.Some? then Some(Rec(r.factor, Reading(Round2(v)), Range(r.lo, r.hi), r.lowMsg.value, r.priority))
      else if v > r.hi && r.highMsg.Some? then Some(Rec(r.factor, Reading(Round2(v)), Range(r.lo, r.hi), r.highMsg.value, r.priority))
      else None
  }

  function Entries(rs: seq<RangeRule>, row: PyRow): (out: seq<Rec>)
    ensures |out| <= |rs|
    decreases |rs|
  {
    if |rs| == 0 then []
    else
      var e := RuleRec(rs[|rs| - 1], row);
      Entries(rs[..|rs| - 1], row) + (if e.Some? then [e.value] else [])
  }

  /** `str(v).lower()` is one of `false`, `0`, `no`, `none`. */
  predicate ShadeAbsent(v: Cell) {
    Lower(PyText(v)) in {"false", "0", "no", "none"}
  }

  function ShadeRec(): Rec {
    Rec(ShadeTree, Absent, Present, NoShade, Medium)
  }

  /** `get_recommendations` over a given table. */
  function RecommendWith(rs: seq<RangeRule>, row: PyRow): (out: seq<Rec>)
    ensures |out| <= |rs| + 1
  {
    Entries(rs, row) + (if ShadeAbsent(row.shade) then [ShadeRec()] else [])
  }

  function RecommendAsWritten(row: PyRow): seq<Rec> {
    RecommendWith(RangesAsWritten(), row)
  }

  function Recommend(row: PyRow): seq<Rec> {
    RecommendWith(Ranges(), row)
  }

  /** An entry comes from a table row that fires on the row's value. */
  lemma {:induction false} EntriesMember(rs: seq<RangeRule>, row: PyRow, e: Rec)
    ensures e in Entries(rs, row) <==> exists i :: 0 <= i < |rs| && RuleRec(rs[i], row) == Some(e)
    decreases |rs|
  {
    if |rs| > 0 {
      var n := |rs| - 1;
      EntriesMember(rs[..n], row, e);
      if e in Entries(rs, row) && e !in Entries(rs[..n], row) {
        assert RuleRec(rs[n], row) == Some(e);
      }
      if exists i :: 0 <= i < |rs| && RuleRec(rs[i], row) == Some(e) {
        var i :| 0 <= i < |rs| && RuleRec(rs[i], row) == Some(e);
        if i < n {
          assert rs[..n][i] == rs[i];
        }
      }
    }
  }

  /** Table row `i` fires on `row` exactly when the value is numeric and lies
      strictly below the range (with a low message) or strictly above it (with
      a high message); its entry then carries the message for that side. */
  lemma RuleFires(r: RangeRule, row: PyRow)
    requires r.lo <= r.hi
    ensures RuleRec(r, row).Some? <==>
      r.factor in row.nums &&
      ((row.nums[r.factor] < r.lo && r.lowMsg.Some?) || (row.nums[r.factor] > r.hi && r.highMsg.Some?))
    ensures RuleRec(r, row).Some? && row.nums[r.factor] < r.lo ==> Some(RuleRec(r, row).value.advice) == r.lowMsg
    ensures RuleRec(r, row).Some? && row.nums[r.factor] > r.hi ==> Some(RuleRec(r, row).value.advice) == r.highMsg
    ensures r.factor in row.nums && r.lo <= row.nums[r.factor] <= r.hi ==> RuleRec(r, row).None?
  {
  }

  /** The output holds an entry for a table column exactly when that row fires,
      and then exactly one, which is the row's entry. This holds whichever
      pruning row the table carries: the source's and the corrected one alike. */
  lemma FactorEntry(pruning: RangeRule, i: nat, row: PyRow, e: Rec)
    requires pruning.factor == PruningInterval
    requires i < 9
    requires e in RecommendWith(TableWith(pruning), row) && e.factor == TableWith(pruning)[i].factor
    ensures RuleRec(TableWith(pruning)[i], row) == Some(e)
  {
    var rs := TableWith(pruning);
    TableFactors(pruning, i);
    assert e.factor != ShadeTree;
    assert e in Entries(rs, row);
    EntriesMember(rs, row, e);
    var j :| 0 <= j < |rs| && RuleRec(rs[j], row) == Some(e);
    assert rs[j].factor == rs[i].factor;
  }

  /** Every firing row has its entry in the output, for either pruning row. */
  lemma FiringRowListed(pruning: RangeRule, i: nat, row: PyRow)
    requires i < 9
    requires RuleRec(TableWith(pruning)[i], row).Some?
    ensures RuleRec(TableWith(pruning)[i], row).value in RecommendWith(TableWith(pruning), row)
  {
    EntriesMember(TableWith(pruning), row, RuleRec(TableWith(pruning)[i], row).value);
  }

  /** The frequency rows have no message for a value above the range, so only
      a low encoded frequency produces an entry; the pruning row plays no part. */
  lemma FrequenciesHaveNoHighMessage(pruning: RangeRule, row: PyRow)
    ensures RuleRec(TableWith(pruning)[6], row).Some? <==> FertFreq in row.nums && row.nums[FertFreq] < 2.0
    ensures RuleRec(TableWith(pruning)[7], row).Some? <==> PestFreq in row.nums && row.nums[PestFreq] < 1.0
  {
  }

  /** The shade entry is the last one, at Medium, exactly when the shade cell
      reads as absent, for either pruning row. */
  lemma ShadeLast(pruning: RangeRule, row: PyRow)
    requires pruning.factor == PruningInterval
    ensures ShadeAbsent(row.shade) <==>
      |RecommendWith(TableWith(pruning), row)| > 0 &&
      RecommendWith(TableWith(pruning), row)[|RecommendWith(TableWith(pruning), row)| - 1] == ShadeRec()
    ensures ShadeRec().priority == Medium
  {
    var rs := TableWith(pruning);
    var out := RecommendWith(rs, row);
    if !ShadeAbsent(row.shade) && |out| > 0 {
      var last := out[|out| - 1];
      assert last in Entries(rs, row);
      EntriesMember(rs, row, last);
      var j :| 0 <= j < |rs| && RuleRec(rs[j], row) == Some(last);
      TableFactors(pruning, j);
    }
  }

  /** The three facts for the table the source runs and for the corrected one. */
  lemma BothTablesListAndEndWithShade(i: nat, row: PyRow)
    requires i < 9
    ensures RuleRec(RangesAsWritten()[i], row).Some? ==> RuleRec(RangesAsWritten()[i], row).value in RecommendAsWritten(row)
    ensures RuleRec(Ranges()[i], row).Some? ==> RuleRec(Ranges()[i], row).value in Recommend(row)
    ensures ShadeAbsent(row.shade) <==> |RecommendAsWritten(row)| > 0 && RecommendAsWritten(row)[|RecommendAsWritten(row)| - 1] == ShadeRec()
    ensures ShadeAbsent(row.shade) <==> |Recommend(row)| > 0 && Recommend(row)[|Recommend(row)| - 1] == ShadeRec()
    ensures forall e :: e in RecommendAsWritten(row) && e.factor == RangesAsWritten()[i].factor ==> RuleRec(RangesAsWritten()[i], row) == Some(e)
    ensures forall e :: e in Recommend(row) && e.factor == Ranges()[i].factor ==> RuleRec(Ranges()[i], row) == Some(e)
  {
    if RuleRec(RangesAsWritten()[i], row).Some? { FiringRowListed(PruningAsWritten(), i, row); }
    if RuleRec(Ranges()[i], row).Some? { FiringRowListed(Pruning(), i, row); }
    ShadeLast(PruningAsWritten(), row);
    ShadeLast(Pruning(), row);
    forall e | e in RecommendAsWritten(row) && e.factor == RangesAsWritten()[i].factor
      ensures RuleRec(RangesAsWritten()[i], row) == Some(e)
    {
      FactorEntry(PruningAsWritten(), i, row, e);
    }
    forall e | e in Recommend(row) && e.factor == Ranges()[i].factor
      ensures RuleRec(Ranges()[i], row) == Some(e)
    {
      FactorEntry(Pruning(), i, row, e);
    }
  }

  /** A NULL shade cell reads as `None` and asks for shade trees; a cell the
      merge left empty reads as `nan` and does not; nor does padded text. */
  lemma ShadeCells()
    ensures ShadeAbsent(PNone) && ShadeAbsent(PBool(false)) && ShadeAbsent(PStr("No"))
    ensures !ShadeAbsent(PNaN) && !ShadeAbsent(PBool(true)) && !ShadeAbsent(PStr(" no"))
  {
    assert Lower("None") == "none";
    assert Lower("False") == "false";
    assert Lower("True") == "true";
    assert Lower("No") == "no";
    assert Lower(" no") == " no";
  }

  lemma {:induction false} EntriesNone(rs: seq<RangeRule>, row: PyRow, m: nat, n: nat)
    requires m <= n <= |rs|
    requires forall i :: m <= i < n ==> RuleRec(rs[i], row).None?
    ensures Entries(rs[..n], row) == Entries(rs[..m], row)
    decreases n
  {
    if n > m {
      assert rs[..n][..n - 1] == rs[..n - 1];
      EntriesNone(rs, row, m, n - 1);
    }
  }

  /** With the table as written, a six-month pruning interval (below the
      range) gets the advice that pruning is overdue. */
  lemma PruningMessagesSwapped()
    ensures RecommendAsWritten(PyRow(map[PruningInterval := 6.0], PStr("Yes")))
      == [Rec(PruningInterval, Reading(6.0), Range(10.0, 18.0), PruneOverdue, High)]
    ensures StartsWith(AdviceText(PruneOverdue), "Pruning overdue (> 18 months)")
  {
    var row := PyRow(map[PruningInterval := 6.0], PStr("Yes"));
    var rs := RangesAsWritten();
    var e := Rec(PruningInterval, Reading(6.0), Range(10.0, 18.0), PruneOverdue, High);
    assert Round2(6.0) == 6.0 by {
      assert (6.0 * 100.0).Floor == 600;
    }
    OnlyOwnColumnFires(PruningAsWritten(), 6.0);
    assert RuleRec(rs[5], row) == Some(e);
    assert rs[..0] == [] && rs[..9] == rs;
    EntriesNone(rs, row, 0, 5);
    assert Entries(rs[..6], row) == [e] by {
      assert rs[..6][..5] == rs[..5];
    }
    EntriesNone(rs, row, 6, 9);
    assert Lower("Yes") == "yes";
    assert !ShadeAbsent(row.shade);
    PrefixOf("Pruning overdue (> 18 months)", " \U{2192} prune immediately after harvest for vigour.");
  }

  /** A row holding only a pruning interval makes every other table row stay silent. */
  lemma OnlyOwnColumnFires(pruning: RangeRule, x: real)
    requires pruning.factor == PruningInterval
    ensures forall i :: 0 <= i < 9 && i != 5 ==>
      RuleRec(TableWith(pruning)[i], PyRow(map[PruningInterval := x], PStr("Yes"))).None?
  {
    forall i | 0 <= i < 9 && i != 5
      ensures RuleRec(TableWith(pruning)[i], PyRow(map[PruningInterval := x], PStr("Yes"))).None?
    {
      TableFactors(pruning, 5);
      assert TableWith(pruning)[i].factor != PruningInterval;
    }
  }

  lemma PrefixOf(p: string, rest: string)
    ensures StartsWith(p + rest, p)
  {
    assert (p + rest)[..|p|] == p;
  }

  /** In the corrected table the pruning advice matches the side of the range
      the value is on: "too frequent" below it, "overdue" above it. */
  lemma PruningAdviceMatchesSide(row: PyRow)
    ensures RuleRec(Ranges()[5], row).Some? ==>
      (RuleRec(Ranges()[5], row).value.advice == PruneOverdue <==> row.nums[PruningInterval] > 18.0)
    ensures RuleRec(Ranges()[5], row).Some? ==>
      (RuleRec(Ranges()[5], row).value.advice == PruneFrequent <==> row.nums[PruningInterval] < 10.0)
    ensures StartsWith(AdviceText(PruneFrequent), "Pruning too frequent (< 10 months)")
  {
    PrefixOf("Pruning too frequent (< 10 months)", " \U{2192} allow full recovery between cycles.");
  }

  // ---------------------------------------------------------------------
  // The page's priority sort

  /** A recommendation with the row it was made for. */
  datatype Listed = Listed(rec: Rec, clusterName: string, farmName: string, season: string)

  function PriorityRank(p: Priority): (n: int)
    ensures 0 <= n <= 2
  {
    match p
    case High => 0
    case Medium => 1
    case Low => 2
  }

  function ListedKey(l: Listed): seq<Atom> {
    [ANum(PriorityRank(l.rec.priority) as real), AStr(l.farmName), AStr(l.clusterName)]
  }

  /** `sort_values(["p_rank", "farm_name", "cluster_name"])`. */
  function ByPriority(xs: seq<Listed>): (r: seq<Listed>)
    ensures multiset(r) == multiset(xs)
    ensures forall i, j :: 0 <= i < j < |r| ==> PriorityRank(r[i].rec.priority) <= PriorityRank(r[j].rec.priority)
    ensures forall i, j :: 0 <= i < j < |r| && r[i].rec.priority == r[j].rec.priority ==>
      StrLe(r[i].farmName, r[j].farmName)
    ensures forall i, j :: 0 <= i < j < |r| && r[i].rec.priority == r[j].rec.priority && r[i].farmName == r[j].farmName ==>
      StrLe(r[i].clusterName, r[j].clusterName)
  {
    var r := SortBy(xs, ListedKey);
    forall i, j | 0 <= i < j < |r|
      ensures PriorityRank(r[i].rec.priority) <= PriorityRank(r[j].rec.priority)
      ensures r[i].rec.priority == r[j].rec.priority ==> StrLe(r[i].farmName, r[j].farmName)
      ensures r[i].rec.priority == r[j].rec.priority && r[i].farmName == r[j].farmName ==>
        StrLe(r[i].clusterName, r[j].clusterName)
    {
      KeyOrder(r[i], r[j]);
    }
    r
  }

  lemma KeyOrder(a: Listed, b: Listed)
    requires KeyLe(ListedKey(a), ListedKey(b))
    ensures PriorityRank(a.rec.priority) <= PriorityRank(b.rec.priority)
    ensures a.rec.priority == b.rec.priority ==> StrLe(a.farmName, b.farmName)
    ensures a.rec.priority == b.rec.priority && a.farmName == b.farmName ==> StrLe(a.clusterName, b.clusterName)
  {
    var ka, kb := ListedKey(a), ListedKey(b);
    StrLeTotal(a.farmName, a.farmName);
    StrLeTotal(a.clusterName, a.clusterName);
    if a.rec.priority == b.rec.priority {
      assert ka[0] == kb[0];
      assert KeyLe(ka[1..], kb[1..]);
      assert ka[1..][0] == AStr(a.farmName) && kb[1..][0] == AStr(b.farmName);
      if a.farmName == b.farmName {
        assert KeyLe(ka[1..][1..], kb[1..][1..]);
        assert ka[1..][1..] == [AStr(a.clusterName)] && kb[1..][1..] == [AStr(b.clusterName)];
      }
    }
  }

  /** Recommendations that tie on priority, farm name and cluster name keep the order they were
      generated in: the sort on several columns is stable. */
  lemma ByPriorityKeepsTies(xs: seq<Listed>, k: seq<Atom>)
    ensures Ties(ByPriority(xs), ListedKey, k) == Ties(xs, ListedKey, k)
  {
    assert ByPriority(xs) == SortBy(xs, ListedKey);
    SortByStable(xs, ListedKey, k);
  }

  /** Every High entry is listed before every Medium one, and every Medium before every Low. */
  lemma HighFirst(xs: seq<Listed>, i: nat, j: nat)
    requires i < |ByPriority(xs)| && j < |ByPriority(xs)|
    requires ByPriority(xs)[i].rec.priority == High && ByPriority(xs)[j].rec.priority != High
    ensures i < j
  {
    var r := ByPriority(xs);
    assert PriorityRank(r[i].rec.priority) < PriorityRank(r[j].rec.priority);
  }
}

=== FILE: prediction.dfy ===
/** The admin prediction page: the overall season cards with their
    over/under percentage, and the per-farm grouping of processed clusters
    with farm totals and per-season sums. */
module Prediction {
  import opened Wrappers
  import opened Js
  import opened Seqs
  import opened Classify
  import opened Analytics
  import AdminDashboard

  // ---------------------------------------------------------------------
  // Overall season cards

  /** The placeholder row for an empty trend list; the fields it does not set read as 0. */
  function NoDataTrend(): Trend {
    Trend("No Data", 0, 0, 0, 0, 0, 0)
  }

  /** The trend rows shown, with the placeholder standing in for an empty list. */
  function Overall(ts: seq<Trend>): (r: seq<Trend>)
    ensures |r| >= 1
    ensures |ts| > 0 ==> r == ts
    ensures |ts| == 0 ==> r == [NoDataTrend()]
  {
    if |ts| > 0 then ts else [NoDataTrend()]
  }

  datatype Card = Card(season: string, pct: real, over: bool)

  /** A season card: the difference in percent of the prediction (0 without a
      positive prediction) and whether the harvest met it. */
  function CardOf(t: Trend): (c: Card)
    ensures c.season == t.season
    ensures t.predicted <= 0 ==> c.pct == 0.0
  {
    Card(t.season,
      AdminDashboard.PercentChange(t.actual as real, t.predicted as real),
      AdminDashboard.OverProduction(t.actual as real, t.predicted as real))
  }

  /** With a positive prediction, the card says Over exactly when its percentage is not negative. */
  lemma CardSign(t: Trend)
    requires t.predicted > 0
    ensures CardOf(t).over <==> CardOf(t).pct >= 0.0
  {
    AdminDashboard.DiffAgreesWithFlag(t.actual as real, t.predicted as real);
  }

  /** The placeholder card reads 0 % and Over. */
  lemma NoDataCard()
    ensures Overall([]) == [NoDataTrend()] && CardOf(NoDataTrend()) == Card("No Data", 0.0, true)
  {
  }

  // ---------------------------------------------------------------------
  // Per-farm grouping

  /** A processed cluster with the farm and farmer joined to it. */
  datatype PredCluster = PredCluster(
    e: Enriched,
    farmId: Option<string>,
    farmName: Option<string>,
    farmer: Option<(Option<string>, Option<string>)>,
    name: string)

  /** The farm id, with a missing one read as the falsy empty text. */
  function FarmId(c: PredCluster): string {
    if c.farmId.Some? then c.farmId.value else ""
  }

  function StagePredicted(s: Option<StageRow>): real {
    match s
    case None => 0.0
    case Some(r) => SPredicted(r)
  }

  function Predicted(c: PredCluster): real { StagePredicted(c.e.latestStage) }
  function Actual(c: PredCluster): real { LatestYield(c.e.latestHarvest) }
  function Previous(c: PredCluster): real { PreYield(c.e.latestStage) }

  /** The season a cluster's figures are filed under: its latest stage's season, else `Unknown`. */
  function SeasonOf(c: PredCluster): string {
    if c.e.latestStage.Some? then SKey(c.e.latestStage.value) else "Unknown"
  }

  /** The season shown on a cluster's line: the same, but `N/A` when missing. */
  function LineSeason(c: PredCluster): string {
    if c.e.latestStage.Some? && c.e.latestStage.value.season.Some? && c.e.latestStage.value.season.value != ""
    then c.e.latestStage.value.season.value else "N/A"
  }

  /** One cluster line of a farm card, with rounded figures. */
  datatype Line = Line(id: string, name: string, predicted: int, actual: int, previous: int, season: string)

  function LineOf(c: PredCluster): Line {
    Line(c.e.cluster.id, c.name, Round(Predicted(c)), Round(Actual(c)), Round(Previous(c)), LineSeason(c))
  }

  datatype SeasonSum = SeasonSum(season: string, predicted: real, actual: real)

  /** A farm's per-season sums, keyed in order of first appearance. */
  datatype SeasonTable = SeasonTable(keys: seq<string>, sums: map<string, SeasonSum>)

  datatype Farm = Farm(
    id: string,
    farmName: string,
    farmerName: string,
    lines: seq<Line>,
    totalPredicted: real,
    totalActual: real,
    totalPrevious: real,
    seasons: SeasonTable)

  function FarmerName(c: PredCluster): string {
    if c.farmer.Some? then
      Trim((if c.farmer.value.0.Some? then c.farmer.value.0.value else "") + " " +
           (if c.farmer.value.1.Some? then c.farmer.value.1.value else ""))
    else "N/A"
  }

  /** The entry a farm starts with when its first cluster is seen. */
  function NewFarm(c: PredCluster): Farm {
    Farm(FarmId(c),
      if c.farmName.Some? && c.farmName.value != "" then c.farmName.value else "Unknown Farm",
      FarmerName(c), [], 0.0, 0.0, 0.0, SeasonTable([], map[]))
  }

  function AddSeason(t: SeasonTable, k: string, predicted: real, actual: real): SeasonTable {
    if k in t.sums then
      SeasonTable(t.keys, t.sums[k := SeasonSum(k, t.sums[k].predicted + predicted, t.sums[k].actual + actual)])
    else
      SeasonTable(t.keys + [k], t.sums[k := SeasonSum(k, predicted, actual)])
  }

  /** One cluster added to its farm's entry. */
  function AddToFarm(f: Farm, c: PredCluster): Farm {
    f.(lines := f.lines + [LineOf(c)],
       totalPredicted := f.totalPredicted + Predicted(c),
       totalActual := f.totalActual + Actual(c),
       totalPrevious := f.totalPrevious + Previous(c),
       seasons := AddSeason(f.seasons, SeasonOf(c), Predicted(c), Actual(c)))
  }

  /** `farmMap`: farm ids in order of first appearance, each with its entry. */
  datatype FarmMap = FarmMap(keys: seq<string>, farms: map<string, Farm>)

  function AddCluster(fm: FarmMap, c: PredCluster): FarmMap {
    var id := FarmId(c);
    if id == "" then fm
    else if id in fm.farms then FarmMap(fm.keys, fm.farms[id := AddToFarm(fm.farms[id], c)])
    else FarmMap(fm.keys + [id], fm.farms[id := AddToFarm(NewFarm(c), c)])
  }

  /** The page's `forEach` over the clusters. */
  function BuildFarms(cs: seq<PredCluster>): FarmMap
    decreases |cs|
  {
    if |cs| == 0 then FarmMap([], map[])
    else AddCluster(BuildFarms(cs[..|cs| - 1]), cs[|cs| - 1])
  }

  predicate OfFarm(id: string, c: PredCluster) {
    FarmId(c) == id
  }

  function Own(cs: seq<PredCluster>, id: string): seq<PredCluster> {
    Filter(cs, (c: PredCluster) => OfFarm(id, c))
  }

  /** Reference definition: one farm's entry built from its own clusters alone. */
  function FarmFold(first: PredCluster, xs: seq<PredCluster>): Farm
    decreases |xs|
  {
    if |xs| == 0 then NewFarm(first)
    else AddToFarm(FarmFold(first, xs[..|xs| - 1]), xs[|xs| - 1])
  }

  lemma OwnLast(cs: seq<PredCluster>, id: string)
    requires |cs| > 0
    ensures Own(cs, id) == Own(cs[..|cs| - 1], id) + (if OfFarm(id, cs[|cs| - 1]) then [cs[|cs| - 1]] else [])
  {
  }

  /** The farm map's ids are listed once each, and the list and the map agree. */
  lemma {:induction false} BuildFarmsKeys(cs: seq<PredCluster>)
    ensures Distinct(BuildFarms(cs).keys)
    ensures forall k :: k in BuildFarms(cs).keys <==> k in BuildFarms(cs).farms
    decreases |cs|
  {
    if |cs| > 0 {
      var c := cs[|cs| - 1];
      BuildFarmsKeys(cs[..|cs| - 1]);
      var fm := BuildFarms(cs[..|cs| - 1]);
      if FarmId(c) != "" && FarmId(c) !in fm.farms {
        forall i | 0 <= i < |fm.keys| ensures fm.keys[i] != FarmId(c) {
          assert fm.keys[i] in fm.farms;
        }
      }
    }
  }

  /** A farm is listed exactly when its id is non-empty and some cluster carries it. */
  lemma {:induction false} BuildFarmsMember(cs: seq<PredCluster>, id: string)
    ensures id in BuildFarms(cs).farms <==> id != "" && |Own(cs, id)| > 0
    decreases |cs|
  {
    if |cs| > 0 {
      BuildFarmsMember(cs[..|cs| - 1], id);
      OwnLast(cs, id);
    }
  }

  /** Each farm's entry is what its own clusters build, in input order. */
  lemma {:induction false} BuildFarmsEntry(cs: seq<PredCluster>, id: string)
    requires id in BuildFarms(cs).farms
    ensures |Own(cs, id)| > 0 && BuildFarms(cs).farms[id] == FarmFold(Own(cs, id)[0], Own(cs, id))
    decreases |cs|
  {
    BuildFarmsMember(cs, id);
    var init := cs[..|cs| - 1];
    var c := cs[|cs| - 1];
    OwnLast(cs, id);
    BuildFarmsMember(init, id);
    var own := Own(init, id);
    var fm := BuildFarms(init);
    if id in fm.farms {
      BuildFarmsEntry(init, id);
      if OfFarm(id, c) {
        var xs := own + [c];
        assert Own(cs, id) == xs;
        assert xs[..|xs| - 1] == own && xs[|xs| - 1] == c && xs[0] == own[0];
        assert FarmFold(own[0], xs) == AddToFarm(FarmFold(own[0], own), c);
        assert BuildFarms(cs).farms[id] == AddToFarm(fm.farms[id], c);
      } else {
        assert Own(cs, id) == own;
        assert BuildFarms(cs).farms[id] == fm.farms[id];
      }
    } else {
      assert OfFarm(id, c);
      assert Own(cs, id) == [c];
      assert [c][..0] == [];
      assert FarmFold(c, [c]) == AddToFarm(NewFarm(c), c);
      assert BuildFarms(cs).farms[id] == AddToFarm(NewFarm(c), c);
    }
  }

  /** A farm's lines are its clusters' lines, in order, one per cluster. */
  lemma {:induction false} FarmLines(first: PredCluster, xs: seq<PredCluster>)
    ensures |FarmFold(first, xs).lines| == |xs|
    ensures forall i :: 0 <= i < |xs| ==> FarmFold(first, xs).lines[i] == LineOf(xs[i])
    decreases |xs|
  {
    if |xs| > 0 {
      FarmLines(first, xs[..|xs| - 1]);
    }
  }

  /** Before rounding, a farm's totals are the sums of its clusters' figures, and its identity comes from its first cluster. */
  lemma {:induction false} FarmTotals(first: PredCluster, xs: seq<PredCluster>)
    ensures FarmFold(first, xs).totalPredicted == Sum(xs, Predicted)
    ensures FarmFold(first, xs).totalActual == Sum(xs, Actual)
    ensures FarmFold(first, xs).totalPrevious == Sum(xs, Previous)
    ensures FarmFold(first, xs).id == FarmId(first) && FarmFold(first, xs).farmName == NewFarm(first).farmName
    decreases |xs|
  {
    if |xs| > 0 {
      FarmTotals(first, xs[..|xs| - 1]);
    }
  }

  /** A farm's season table lists each of its seasons once, and the list and the map agree. */
  lemma {:induction false} FarmSeasonKeys(first: PredCluster, xs: seq<PredCluster>)
    ensures Distinct(FarmFold(first, xs).seasons.keys)
    ensures forall j :: j in FarmFold(first, xs).seasons.keys <==> j in FarmFold(first, xs).seasons.sums
    decreases |xs|
  {
    if |xs| > 0 {
      var x := xs[|xs| - 1];
      FarmSeasonKeys(first, xs[..|xs| - 1]);
      var t := FarmFold(first, xs[..|xs| - 1]).seasons;
      if SeasonOf(x) !in t.sums {
        forall i | 0 <= i < |t.keys| ensures t.keys[i] != SeasonOf(x) {
          assert t.keys[i] in t.sums;
        }
      }
    }
  }

  /** A season is in a farm's table exactly when one of its clusters is filed under it. */
  lemma {:induction false} FarmSeasonMember(first: PredCluster, xs: seq<PredCluster>, k: string)
    ensures k in FarmFold(first, xs).seasons.sums <==> exists x :: x in xs && SeasonOf(x) == k
    decreases |xs|
  {
    if |xs| > 0 {
      var init := xs[..|xs| - 1];
      var x := xs[|xs| - 1];
      FarmSeasonMember(first, init, k);
      if exists y :: y in init && SeasonOf(y) == k {
        var y :| y in init && SeasonOf(y) == k;
        assert y in xs;
      }
      if exists y :: y in xs && SeasonOf(y) == k {
        var y :| y in xs && SeasonOf(y) == k;
        if y != x {
          var i :| 0 <= i < |xs| && xs[i] == y;
          assert init[i] == y;
        }
      }
    }
  }

  /** Each season's sums are the sums over that season's clusters. */
  lemma {:induction false} FarmSeasonSums(first: PredCluster, xs: seq<PredCluster>, k: string)
    requires k in FarmFold(first, xs).seasons.sums
    ensures FarmFold(first, xs).seasons.sums[k]
      == SeasonSum(k, GroupSum(xs, SeasonOf, Predicted, k), GroupSum(xs, SeasonOf, Actual, k))
    decreases |xs|
  {
    if |xs| > 0 {
      var init := xs[..|xs| - 1];
      var x := xs[|xs| - 1];
      GroupSumLast(xs, SeasonOf, Predicted, k);
      GroupSumLast(xs, SeasonOf, Actual, k);
      var t := FarmFold(first, init).seasons;
      assert FarmFold(first, xs).seasons == AddSeason(t, SeasonOf(x), Predicted(x), Actual(x));
      AddSeasonAt(t, SeasonOf(x), Predicted(x), Actual(x), k);
      if k in t.sums {
        FarmSeasonSums(first, init, k);
      } else {
        FarmSeasonMember(first, init, k);
        EmptyGroup(init, SeasonOf, Predicted, k);
        EmptyGroup(init, SeasonOf, Actual, k);
      }
    }
  }

  /** What a season's entry holds after one more cluster's figures are added. */
  lemma AddSeasonAt(t: SeasonTable, j: string, predicted: real, actual: real, k: string)
    requires k in AddSeason(t, j, predicted, actual).sums
    ensures k in t.sums || k == j
    ensures k in t.sums ==> (AddSeason(t, j, predicted, actual).sums[k]
      == if k == j then SeasonSum(k, t.sums[k].predicted + predicted, t.sums[k].actual + actual) else t.sums[k])
    ensures k !in t.sums ==> AddSeason(t, j, predicted, actual).sums[k] == SeasonSum(k, predicted, actual)
  {
  }

  lemma EmptyGroup<T>(xs: seq<T>, key: T -> string, f: T -> real, k: string)
    requires forall x :: x in xs ==> key(x) != k
    ensures GroupSum(xs, key, f, k) == 0.0
  {
    var p := (x: T) => key(x) == k;
    var r := Filter(xs, p);
    forall y ensures multiset(r)[y] == 0 {
      FilterMultiset(xs, p, y);
    }
    assert multiset(r) == multiset{};
    assert r == [];
  }

  /** Summed over a farm's seasons, the season figures give the farm's totals again. */
  lemma SeasonsAddUp(first: PredCluster, xs: seq<PredCluster>)
    ensures var f := FarmFold(first, xs);
      Sum(f.seasons.keys, (k: string) => if k in f.seasons.sums then f.seasons.sums[k].predicted else 0.0) == f.totalPredicted
      && Sum(f.seasons.keys, (k: string) => if k in f.seasons.sums then f.seasons.sums[k].actual else 0.0) == f.totalActual
  {
    var f := FarmFold(first, xs);
    var t := f.seasons;
    FarmTotals(first, xs);
    FarmSeasonKeys(first, xs);
    forall x | x in xs ensures SeasonOf(x) in t.keys {
      FarmSeasonMember(first, xs, SeasonOf(x));
    }
    forall k | k in t.keys
      ensures (if k in t.sums then t.sums[k].predicted else 0.0) == GroupSum(xs, SeasonOf, Predicted, k)
      ensures (if k in t.sums then t.sums[k].actual else 0.0) == GroupSum(xs, SeasonOf, Actual, k)
    {
      FarmSeasonSums(first, xs, k);
    }
    SumPartition(xs, SeasonOf, Predicted, t.keys);
    SumPartition(xs, SeasonOf, Actual, t.keys);
    SumExt(t.keys, (k: string) => if k in t.sums then t.sums[k].predicted else 0.0, k => GroupSum(xs, SeasonOf, Predicted, k));
    SumExt(t.keys, (k: string) => if k in t.sums then t.sums[k].actual else 0.0, k => GroupSum(xs, SeasonOf, Actual, k));
  }

  /** A cluster of farm `id` is listed on that farm's card, every line on the card
      is the line of some cluster of that farm, and the empty farm id (a cluster
      without a farm) has no card. */
  lemma ClusterListedOnce(cs: seq<PredCluster>, c: PredCluster, id: string)
    requires c in cs
    requires id in BuildFarms(cs).farms
    ensures LineOf(c) in BuildFarms(cs).farms[id].lines <== OfFarm(id, c)
    ensures forall j :: 0 <= j < |BuildFarms(cs).farms[id].lines| ==>
      exists c' :: c' in cs && OfFarm(id, c') && BuildFarms(cs).farms[id].lines[j] == LineOf(c')
    ensures FarmId(c) == "" ==> FarmId(c) !in BuildFarms(cs).farms
  {
    BuildFarmsEntry(cs, id);
    BuildFarmsMember(cs, "");
    var own := Own(cs, id);
    FarmLines(own[0], own);
    forall j | 0 <= j < |BuildFarms(cs).farms[id].lines|
      ensures exists c' :: c' in cs && OfFarm(id, c') && BuildFarms(cs).farms[id].lines[j] == LineOf(c')
    {
      assert own[j] in cs && OfFarm(id, own[j]);
    }
    if OfFarm(id, c) {
      var i :| 0 <= i < |cs| && cs[i] == c;
      assert c in own;
      var j :| 0 <= j < |own| && own[j] == c;
      assert BuildFarms(cs).farms[id].lines[j] == LineOf(c);
    }
  }
}

=== FILE: recommend.dfy ===
/** `generateRecommendations`: nine agronomic rules checked in a fixed order
    against one cluster's stage data, each producing at most one entry. Six
    rules compare a parsed number with the Robusta ideal range; three look at
    categorical fields. */
module Recommend {
  import opened Wrappers
  import opened Js

  datatype Priority = High | Medium | Low

  /** The nine rules, each named after the stage-data field it reads. */
  datatype Rule =
    | SoilPh | AvgTemp | AvgRainfall | AvgHumidity | PruningInterval | BeanMoisture
    | FertilizerFrequency | PesticideFrequency | ShadeTreePresent

  /** The rule declared at position `i`. */
  function RuleAt(i: nat): (r: Rule)
    requires i < 9
    ensures RuleIndex(r) == i
  {
    if i == 0 then SoilPh
    else if i == 1 then AvgTemp
    else if i == 2 then AvgRainfall
    else if i == 3 then AvgHumidity
    else if i == 4 then PruningInterval
    else if i == 5 then BeanMoisture
    else if i == 6 then FertilizerFrequency
    else if i == 7 then PesticideFrequency
    else ShadeTreePresent
  }

  /** The rules in declaration order. */
  function Rules(): (rs: seq<Rule>)
    ensures |rs| == 9
    ensures forall i :: 0 <= i < 9 ==> rs[i] == RuleAt(i)
  {
    seq(9, i requires 0 <= i < 9 => RuleAt(i))
  }

  /** Position of a rule in the declaration order. */
  function RuleIndex(r: Rule): (i: nat)
    ensures i < 9
  {
    match r
    case SoilPh => 0
    case AvgTemp => 1
    case AvgRainfall => 2
    case AvgHumidity => 3
    case PruningInterval => 4
    case BeanMoisture => 5
    case FertilizerFrequency => 6
    case PesticideFrequency => 7
    case ShadeTreePresent => 8
  }

  /** `Rules` lists every rule, in increasing index order. */
  lemma RulesInOrder()
    ensures forall r: Rule :: r in Rules()
    ensures forall i, j :: 0 <= i < j < |Rules()| ==> RuleIndex(Rules()[i]) < RuleIndex(Rules()[j])
  {
    forall r: Rule ensures r in Rules() {
      assert Rules()[RuleIndex(r)] == r;
    }
  }

  function FieldName(r: Rule): string {
    match r
    case SoilPh => "soil_ph"
    case AvgTemp => "avg_temp_c"
    case AvgRainfall => "avg_rainfall_mm"
    case AvgHumidity => "avg_humidity_pct"
    case PruningInterval => "pruning_interval_months"
    case BeanMoisture => "bean_moisture"
    case FertilizerFrequency => "fertilizer_frequency"
    case PesticideFrequency => "pesticide_frequency"
    case ShadeTreePresent => "shade_tree_present"
  }

  predicate IsNumeric(r: Rule) {
    !(r.FertilizerFrequency? || r.PesticideFrequency? || r.ShadeTreePresent?)
  }

  /** `ROBUSTA_IDEALS`: the inclusive ideal range of each numeric field. */
  function IdealRange(r: Rule): (range: (real, real))
    requires IsNumeric(r)
    ensures range.0 < range.1
  {
    match r
    case SoilPh => (5.6, 6.5)
    case AvgTemp => (13.0, 26.0)
    case AvgRainfall => (150.0, 250.0)
    case AvgHumidity => (75.0, 85.0)
    case PruningInterval => (10.0, 18.0)
    case BeanMoisture => (10.5, 12.5)
  }

  /** The `ideal` text shown next to an entry. */
  function IdealText(r: Rule): string {
    match r
    case SoilPh => "5.6\U{2013}6.5"
    case AvgTemp => "13\U{2013}26\U{00B0}C"
    case AvgRainfall => "150\U{2013}250mm"
    case AvgHumidity => "75\U{2013}85%"
    case PruningInterval => "10\U{2013}18 months"
    case BeanMoisture => "10.5\U{2013}12.5%"
    case FertilizerFrequency => "At least sometimes (1-2x/year)"
    case PesticideFrequency => "At least rarely for pest prevention"
    case ShadeTreePresent => "Present"
  }

  /** Priority of a numeric rule; it is the same on both sides of the range. */
  function NumericPriority(r: Rule): Priority
    requires IsNumeric(r)
  {
    match r
    case SoilPh => High
    case AvgTemp => Medium
    case AvgRainfall => Medium
    case AvgHumidity => Medium
    case PruningInterval => High
    case BeanMoisture => High
  }

  /** Which advice an entry carries: the value is below or above the ideal
      range, the practice is absent, or it is too infrequent. The advice text
      itself interpolates the printed number and is not modelled. */
  datatype Advice = BelowRange | AboveRange | NotPractised | TooInfrequent

  /** What a rule's `check` returns when it fires. */
  datatype Finding = Finding(advice: Advice, priority: Priority, ideal: string)

  /** A numeric rule: skipped when the value does not parse, fires only strictly outside the range. */
  function NumericCheck(r: Rule, val: Raw): (f: Option<Finding>)
    requires IsNumeric(r)
    ensures ParseFloat(val).None? ==> f.None?
    ensures ParseFloat(val).Some? ==>
      var v := ParseFloat(val).value;
      (f == Some(Finding(BelowRange, NumericPriority(r), IdealText(r))) <==> v < IdealRange(r).0)
      && (f == Some(Finding(AboveRange, NumericPriority(r), IdealText(r))) <==> v > IdealRange(r).1)
      && (f.None? <==> IdealRange(r).0 <= v <= IdealRange(r).1)
  {
    match ParseFloat(val)
    case None => None
    case Some(v) =>
      var (lo, hi) := IdealRange(r);
      if r.PruningInterval? then
        if v > hi then Some(Finding(AboveRange, NumericPriority(r), IdealText(r)))
        else if v < lo then Some(Finding(BelowRange, NumericPriority(r), IdealText(r)))
        else None
      else
        if v < lo then Some(Finding(BelowRange, NumericPriority(r), IdealText(r)))
        else if v > hi then Some(Finding(AboveRange, NumericPriority(r), IdealText(r)))
        else None
  }

  /** The fertilizer rule: missing or `'never'` is High, `'rarely'` is Medium, anything else passes. */
  function FertilizerCheck(val: Raw): (f: Option<Finding>)
    ensures f == Some(Finding(NotPractised, High, IdealText(FertilizerFrequency)))
      <==> !Truthy(val) || val == Str("never")
    ensures f == Some(Finding(TooInfrequent, Medium, IdealText(FertilizerFrequency)))
      <==> val == Str("rarely")
    ensures f.None? <==> Truthy(val) && val != Str("never") && val != Str("rarely")
  {
    if !Truthy(val) || val == Str("never") then Some(Finding(NotPractised, High, IdealText(FertilizerFrequency)))
    else if val == Str("rarely") then Some(Finding(TooInfrequent, Medium, IdealText(FertilizerFrequency)))
    else None
  }

  /** The pesticide rule: missing or `'never'` is Low. */
  function PesticideCheck(val: Raw): (f: Option<Finding>)
    ensures f.Some? <==> !Truthy(val) || val == Str("never")
    ensures f.Some? ==> f.value == Finding(NotPractised, Low, IdealText(PesticideFrequency))
  {
    if !Truthy(val) || val == Str("never") then Some(Finding(NotPractised, Low, IdealText(PesticideFrequency)))
    else None
  }

  /** The shade rule compares with `===`: only `false`, `'false'` and `'No'` fire, at Medium. */
  function ShadeCheck(val: Raw): (f: Option<Finding>)
    ensures f.Some? <==> val in {Bool(false), Str("false"), Str("No")}
    ensures f.Some? ==> f.value == Finding(NotPractised, Medium, IdealText(ShadeTreePresent))
  {
    if val == Bool(false) || val == Str("false") || val == Str("No") then
      Some(Finding(NotPractised, Medium, IdealText(ShadeTreePresent)))
    else None
  }

  /** A rule's `check` applied to the field's value. */
  function Check(r: Rule, val: Raw): (f: Option<Finding>)
    ensures f.Some? ==> f.value.ideal == IdealText(r)
  {
    match r
    case FertilizerFrequency => FertilizerCheck(val)
    case PesticideFrequency => PesticideCheck(val)
    case ShadeTreePresent => ShadeCheck(val)
    case _ => NumericCheck(r, val)
  }

  /** The fields of a cluster that `generateRecommendations` reads. */
  datatype ClusterIn = ClusterIn(id: Raw, clusterName: Raw, stageData: Option<Obj>, stageRows: seq<Obj>)

  /** `cluster.stageData || cluster.cluster_stage_data?.[0] || {}`; objects are always truthy. */
  function StageOf(c: ClusterIn): (sd: Obj)
    ensures c.stageData.Some? ==> sd == c.stageData.value
    ensures c.stageData.None? && |c.stageRows| > 0 ==> sd == c.stageRows[0]
    ensures c.stageData.None? && |c.stageRows| == 0 ==> sd == map[]
  {
    if c.stageData.Some? then c.stageData.value
    else if |c.stageRows| > 0 then c.stageRows[0]
    else map[]
  }

  /** One recommendation entry: the factor label, the raw value, the rule's finding and the cluster's identity. */
  datatype Rec = Rec(factor: string, rule: Rule, value: Raw, finding: Finding, clusterName: Raw, clusterId: Raw)

  predicate IsWordChar(c: char) {
    'a' <= c <= 'z' || 'A' <= c <= 'Z' || '0' <= c <= '9' || c == '_'
  }

  /** `s.replace(/_/g, ' ')`. */
  function Spaced(s: string): (r: string)
    ensures |r| == |s|
    ensures forall i :: 0 <= i < |s| ==> r[i] == (if s[i] == '_' then ' ' else s[i])
  {
    seq(|s|, i requires 0 <= i < |s| => if s[i] == '_' then ' ' else s[i])
  }

  /** `s.replace(/\b\w/g, l => l.toUpperCase())`: upper-cases the first character of every word. */
  function CapitalizeWords(s: string): (r: string)
    ensures |r| == |s|
    ensures forall i :: 0 <= i < |s| ==>
      r[i] == (if IsWordChar(s[i]) && (i == 0 || !IsWordChar(s[i - 1])) then UpperChar(s[i]) else s[i])
  {
    seq(|s|, i requires 0 <= i < |s| =>
      if IsWordChar(s[i]) && (i == 0 || !IsWordChar(s[i - 1])) then UpperChar(s[i]) else s[i])
  }

  /** The factor label derived from a field name. */
  function Factor(field: string): string {
    CapitalizeWords(Spaced(field))
  }

  /** A factor label has no underscore and differs from the field name only in
      letter case and in underscores turned into spaces. */
  lemma FactorShape(field: string)
    ensures |Factor(field)| == |field|
    ensures forall i :: 0 <= i < |field| ==> Factor(field)[i] != '_'
    ensures Lower(Factor(field)) == Lower(Spaced(field))
  {
    var f := Factor(field);
    var sp := Spaced(field);
    forall i | 0 <= i < |field| ensures f[i] != '_' {
      assert sp[i] != '_';
    }
    forall i | 0 <= i < |field| ensures LowerChar(f[i]) == LowerChar(sp[i]) {
    }
  }

  /** The entry a rule adds for the stage data, if any: the field's raw value
      with the rule's finding, labelled with the factor name and the cluster. */
  function RuleEntry(r: Rule, c: ClusterIn, sd: Obj): (e: Option<Rec>)
    ensures e.Some? ==> e.value.rule == r
  {
    var val := Get(sd, FieldName(r));
    match Check(r, val)
    case None => None
    case Some(f) => Some(Rec(Factor(FieldName(r)), r, val, f, c.clusterName, c.id))
  }

  /** The entries produced by running the rules `rs` in order, where `entry`
      gives each rule's entry if it fires (the `forEach` over the rule table). */
  function RunRules(rs: seq<Rule>, entry: Rule -> Option<Rec>): (out: seq<Rec>)
    requires forall r :: entry(r).Some? ==> entry(r).value.rule == r
    ensures |out| <= |rs|
    ensures forall i :: 0 <= i < |out| ==> out[i].rule in rs && entry(out[i].rule) == Some(out[i])
    ensures forall r :: r in rs && entry(r).Some? ==> exists i :: 0 <= i < |out| && out[i].rule == r
    decreases |rs|
  {
    if |rs| == 0 then []
    else
      var pre := RunRules(rs[..|rs| - 1], entry);
      var last := rs[|rs| - 1];
      assert forall r :: r in rs ==> r in rs[..|rs| - 1] || r == last by {
        assert rs == rs[..|rs| - 1] + [last];
      }
      if entry(last).Some? then
        var out := pre + [entry(last).value];
        assert forall r :: r in rs && entry(r).Some? ==> exists i :: 0 <= i < |out| && out[i].rule == r by {
          forall r | r in rs && entry(r).Some? ensures exists i :: 0 <= i < |out| && out[i].rule == r {
            if r == last {
              assert out[|pre|].rule == r;
            } else {
              var i :| 0 <= i < |pre| && pre[i].rule == r;
              assert out[i].rule == r;
            }
          }
        }
        out
      else pre
  }

  /** Entries whose rules strictly increase in declaration order. */
  predicate InRuleOrder(out: seq<Rec>) {
    forall i, j :: 0 <= i < j < |out| ==> RuleIndex(out[i].rule) < RuleIndex(out[j].rule)
  }

  lemma SnocInRuleOrder(pre: seq<Rec>, x: Rec)
    requires InRuleOrder(pre)
    requires forall i :: 0 <= i < |pre| ==> RuleIndex(pre[i].rule) < RuleIndex(x.rule)
    ensures InRuleOrder(pre + [x])
  {
    var out := pre + [x];
    forall i, j | 0 <= i < j < |out| ensures RuleIndex(out[i].rule) < RuleIndex(out[j].rule) {
      assert out[i] == pre[i];
      if j < |pre| {
        assert out[j] == pre[j];
      }
    }
  }

  /** Running rules listed in increasing order yields entries in increasing rule order. */
  lemma {:induction false} RunRulesOrdered(rs: seq<Rule>, entry: Rule -> Option<Rec>)
    requires forall r :: entry(r).Some? ==> entry(r).value.rule == r
    requires forall i, j :: 0 <= i < j < |rs| ==> RuleIndex(rs[i]) < RuleIndex(rs[j])
    ensures InRuleOrder(RunRules(rs, entry))
    decreases |rs|
  {
    if |rs| > 0 {
      var rs' := rs[..|rs| - 1];
      var last := rs[|rs| - 1];
      var pre := RunRules(rs', entry);
      RunRulesOrdered(rs', entry);
      if entry(last).Some? {
        forall i | 0 <= i < |pre| ensures RuleIndex(pre[i].rule) < RuleIndex(entry(last).value.rule) {
          var k :| 0 <= k < |rs'| && rs'[k] == pre[i].rule;
          assert rs[k] == rs'[k];
        }
        SnocInRuleOrder(pre, entry(last).value);
        assert RunRules(rs, entry) == pre + [entry(last).value];
      } else {
        assert RunRules(rs, entry) == pre;
      }
    }
  }

  /** The rule table's entry function for one cluster. */
  function EntryOf(c: ClusterIn): (entry: Rule -> Option<Rec>)
    ensures forall r :: entry(r) == RuleEntry(r, c, StageOf(c))
  {
    var sd := StageOf(c);
    r => RuleEntry(r, c, sd)
  }

  /** `generateRecommendations(cluster)`: at most one entry per rule, and each
      entry is the one its rule produces for the cluster's stage data. */
  function Generate(c: ClusterIn): (out: seq<Rec>)
    ensures |out| <= |Rules()|
    ensures forall i :: 0 <= i < |out| ==> RuleEntry(out[i].rule, c, StageOf(c)) == Some(out[i])
  {
    RunRules(Rules(), EntryOf(c))
  }

  /** Entries come out in rule order, and every rule that fires has an entry. */
  lemma GenerateOrderAndCoverage(c: ClusterIn)
    ensures InRuleOrder(Generate(c))
    ensures forall r: Rule :: RuleEntry(r, c, StageOf(c)).Some? ==>
      exists i :: 0 <= i < |Generate(c)| && Generate(c)[i].rule == r
  {
    var out := Generate(c);
    var entry := EntryOf(c);
    assert out == RunRules(Rules(), entry);
    RulesInOrder();
    RunRulesOrdered(Rules(), entry);
  }

  /** Every entry carries the cluster's id and name, the raw field value and
      the rule's finding on that value; a rule has an entry iff its check fires. */
  lemma GenerateEntries(c: ClusterIn, r: Rule)
    ensures var out := Generate(c);
      forall i :: 0 <= i < |out| ==>
        out[i].clusterId == c.id && out[i].clusterName == c.clusterName
        && out[i].value == Get(StageOf(c), FieldName(out[i].rule))
        && out[i].factor == Factor(FieldName(out[i].rule))
        && Check(out[i].rule, out[i].value) == Some(out[i].finding)
    ensures (exists i :: 0 <= i < |Generate(c)| && Generate(c)[i].rule == r)
      <==> Check(r, Get(StageOf(c), FieldName(r))).Some?
  {
    GenerateEntryFields(c);
    GenerateHasRule(c, r);
  }

  lemma GenerateEntryFields(c: ClusterIn)
    ensures var out := Generate(c);
      forall i :: 0 <= i < |out| ==>
        out[i].clusterId == c.id && out[i].clusterName == c.clusterName
        && out[i].value == Get(StageOf(c), FieldName(out[i].rule))
        && out[i].factor == Factor(FieldName(out[i].rule))
        && Check(out[i].rule, out[i].value) == Some(out[i].finding)
  {
    var out := Generate(c);
    var sd := StageOf(c);
    forall i | 0 <= i < |out|
      ensures out[i].clusterId == c.id && out[i].clusterName == c.clusterName
        && out[i].value == Get(sd, FieldName(out[i].rule))
        && out[i].factor == Factor(FieldName(out[i].rule))
        && Check(out[i].rule, out[i].value) == Some(out[i].finding)
    {
      var e := RuleEntry(out[i].rule, c, sd);
      assert e == Some(out[i]);
    }
  }

  lemma GenerateHasRule(c: ClusterIn, r: Rule)
    ensures (exists i :: 0 <= i < |Generate(c)| && Generate(c)[i].rule == r)
      <==> Check(r, Get(StageOf(c), FieldName(r))).Some?
  {
    var out := Generate(c);
    var sd := StageOf(c);
    GenerateOrderAndCoverage(c);
    var e := RuleEntry(r, c, sd);
    if exists i :: 0 <= i < |out| && out[i].rule == r {
      var i :| 0 <= i < |out| && out[i].rule == r;
      assert e == Some(out[i]);
    } else {
      assert e.None?;
    }
  }

  /** An empty stage record yields exactly two entries: fertilizer at High and pesticide at Low. */
  lemma EmptyStageRecommendations(id: Raw, name: Raw)
    ensures |Generate(ClusterIn(id, name, None, []))| == 2
    ensures Generate(ClusterIn(id, name, None, []))[0].rule == FertilizerFrequency
    ensures Generate(ClusterIn(id, name, None, []))[0].finding.priority == High
    ensures Generate(ClusterIn(id, name, None, []))[1].rule == PesticideFrequency
    ensures Generate(ClusterIn(id, name, None, []))[1].finding.priority == Low
  {
    var c := ClusterIn(id, name, None, []);
    var out := Generate(c);
    var fired := [FertilizerFrequency, PesticideFrequency];
    assert StageOf(c) == map[];
    forall i | 0 <= i < |out| ensures out[i].rule in fired {
      GenerateEntries(c, out[i].rule);
      UndefinedFires(out[i].rule);
    }
    GenerateEntries(c, FertilizerFrequency);
    GenerateEntries(c, PesticideFrequency);
    UndefinedFires(FertilizerFrequency);
    UndefinedFires(PesticideFrequency);
    GenerateOrderAndCoverage(c);
    DistinctRulesCount(out, fired);
    GenerateEntries(c, out[0].rule);
  }

  /** On a missing field only the fertilizer and pesticide rules fire. */
  lemma UndefinedFires(r: Rule)
    ensures Check(r, Undefined).Some? <==> r == FertilizerFrequency || r == PesticideFrequency
  {
  }

  /** Entries with strictly increasing rules drawn from a two-rule list, covering both, are exactly those two in order. */
  lemma DistinctRulesCount(out: seq<Rec>, fired: seq<Rule>)
    requires fired == [FertilizerFrequency, PesticideFrequency]
    requires InRuleOrder(out)
    requires forall i :: 0 <= i < |out| ==> out[i].rule in fired
    requires exists i :: 0 <= i < |out| && out[i].rule == FertilizerFrequency
    requires exists i :: 0 <= i < |out| && out[i].rule == PesticideFrequency
    ensures |out| == 2 && out[0].rule == FertilizerFrequency && out[1].rule == PesticideFrequency
  {
    RankLowerBound(out, |out| - 1);
  }

  lemma {:induction false} RankLowerBound(out: seq<Rec>, i: nat)
    requires i < |out|
    requires InRuleOrder(out)
    requires forall i :: 0 <= i < |out| ==> RuleIndex(out[i].rule) >= 6
    ensures RuleIndex(out[i].rule) >= 6 + i
  {
    if i > 0 {
      RankLowerBound(out, i - 1);
    }
  }

  /** The entry form stores `'Never'` and `'Rarely'` capitalised; this rule
      compares with lower-case literals, so those two answers raise no
      fertilizer entry at all while `'never'` raises a High one. */
  lemma CapitalisedFrequenciesPass()
    ensures FertilizerCheck(Str("Never")).None?
    ensures FertilizerCheck(Str("Rarely")).None?
    ensures FertilizerCheck(Str("never")).Some? && FertilizerCheck(Str("never")).value.priority == High
    ensures PesticideCheck(Str("Never")).None?
  {
    assert "Never"[0] != "never"[0];
    assert "Rarely"[0] != "rarely"[0];
    assert "Rarely"[0] != "never"[0];
  }

  /** Inside the ideal range (bounds included) a numeric rule never fires. */
  lemma NumericRangeInclusive(r: Rule, v: real)
    requires IsNumeric(r)
    requires IdealRange(r).0 <= v <= IdealRange(r).1
    ensures Check(r, Num(v)).None?
  {
  }
}

=== FILE: register.dfy ===
/** The farmer registration form: the ordered validation chain, the single
    call to `register` it guards, and the success message. */
module Register {
  import opened Wrappers
  import opened Js

  datatype RegField = LastName | FirstName | MiddleInitial | Username | Email | Password
                    | ConfirmPassword | ContactNumber | Age | Municipality | Province

  type RegForm = map<RegField, string>

  function Value(form: RegForm, f: RegField): string {
    if f in form then form[f] else ""
  }

  /** The fields that must be filled, in the order they are checked. */
  const Required: seq<RegField> := [LastName, FirstName, Username, Email, Password, ContactNumber, Age, Municipality, Province]

  predicate Missing(form: RegForm, f: RegField) {
    Value(form, f) == ""
  }

  /** The `for … of required` loop: whether some required field is empty. */
  method AnyMissing(form: RegForm) returns (missing: bool)
    ensures missing <==> exists i :: 0 <= i < |Required| && Missing(form, Required[i])
  {
    missing := false;
    for k := 0 to |Required|
      invariant !missing <==> forall i :: 0 <= i < k ==> !Missing(form, Required[i])
    {
      if Value(form, Required[k]) == "" {
        return true;
      }
    }
  }

  predicate SomeMissing(form: RegForm) {
    exists i :: 0 <= i < |Required| && Missing(form, Required[i])
  }

  datatype Problem = Unfilled | Mismatch | TooShort | BadAge

  function ProblemText(p: Problem): string {
    match p
    case Unfilled => "Please fill in all required fields"
    case Mismatch => "Passwords do not match"
    case TooShort => "Password must be at least 6 characters"
    case BadAge => "Age must be between 18 and 120"
  }

  /** The first failing check of `handleSubmit`, if any. */
  function Validate(form: RegForm): (r: Option<Problem>)
    ensures r == Some(Unfilled) <==> SomeMissing(form)
  {
    if SomeMissing(form) then Some(Unfilled)
    else if Value(form, Password) != Value(form, ConfirmPassword) then Some(Mismatch)
    else if |Value(form, Password)| < 6 then Some(TooShort)
    else if !IntTextWithin(Value(form, Age), 18, 120) then Some(BadAge)
    else None
  }

  /** The form passes exactly when every required field is filled, the two
      passwords agree, the password has at least six characters and the age
      is 18 to 120. The middle initial never matters. */
  lemma ValidExactly(form: RegForm)
    ensures Validate(form) == None <==>
      (forall f :: f in Required ==> Value(form, f) != "")
      && Value(form, Password) == Value(form, ConfirmPassword)
      && |Value(form, Password)| >= 6
      && IntTextWithin(Value(form, Age), 18, 120)
  {
    if SomeMissing(form) {
      var i :| 0 <= i < |Required| && Missing(form, Required[i]);
      assert Required[i] in Required;
    }
    if !(forall f :: f in Required ==> Value(form, f) != "") {
      var f :| f in Required && Value(form, f) == "";
      var i :| 0 <= i < |Required| && Required[i] == f;
      assert Missing(form, Required[i]);
    }
  }

  /** A mismatch is reported even when the password is also too short. */
  lemma MismatchBeforeLength(form: RegForm)
    requires !SomeMissing(form)
    requires Value(form, Password) != Value(form, ConfirmPassword) && |Value(form, Password)| < 6
    ensures Validate(form) == Some(Mismatch)
  {
  }

  /** Neither the middle initial nor anything outside the form changes the verdict. */
  lemma MiddleInitialIgnored(form: RegForm, v: string)
    ensures Validate(form[MiddleInitial := v]) == Validate(form)
  {
    var f2 := form[MiddleInitial := v];
    assert forall f :: f != MiddleInitial ==> Value(f2, f) == Value(form, f);
    assert forall i :: 0 <= i < |Required| ==> Required[i] != MiddleInitial;
  }

  // ---------------------------------------------------------------------
  // Submission

  /** What `register` resolves with: the context's function returns a bare
      boolean; a result object is what the page tests for. */
  datatype Reply = Flag(ok: bool) | Outcome(success: bool, requiresConfirmation: bool)

  /** The ways the context's `register` can fail, in the order it checks them:
      sign-up refused, no user id, email already listed, username taken, or the
      profile upsert refused. */
  datatype Failure = AuthFailed(message: string) | NoUserId | EmailTaken | UsernameTaken | ProfileFailed(message: string)

  function FailureText(f: Failure): (t: string)
    ensures f.AuthFailed? ==> t == f.message
    ensures f.ProfileFailed? ==> t == f.message
    ensures !f.AuthFailed? && !f.ProfileFailed? ==> t != ""
  {
    match f
    case AuthFailed(m) => m
    case NoUserId => "Registration failed. Please try again."
    case EmailTaken => "An account with this email already exists."
    case UsernameTaken => "Username is already taken. Please choose another."
    case ProfileFailed(m) => m
  }

  /** What a call to `register` leaves behind: its reply, and the context's
      `error`, which the page shows. */
  datatype Registration = Registration(reply: Reply, error: string)

  /** The context's `register`, given which step fails, if any: it first
      clears the error; a failure sets that failure's message and resolves
      `false`; otherwise it resolves `true` with the error still clear. */
  function ContextRegister(failure: Option<Failure>): (g: Registration)
    ensures failure.None? <==> g.reply == Flag(true)
    ensures failure.None? ==> g.error == ""
    ensures failure.Some? ==> g.reply == Flag(false) && g.error == FailureText(failure.value)
  {
    match failure
    case None => Registration(Flag(true), "")
    case Some(f) => Registration(Flag(false), FailureText(f))
  }

  datatype Screen = Screen(error: string, success: string, submitting: bool, calls: nat)

  const ConfirmText := "Registration successful! Please check your email to confirm your account before logging in."
  const LoginText := "Registration successful! You can now log in with your credentials."

  /** `result && result.success`: a boolean has no `success` property. */
  function SuccessAsWritten(reply: Reply): (t: string)
    ensures reply.Flag? ==> t == ""
  {
    match reply
    case Flag(_) => ""
    case Outcome(ok, confirm) => if !ok then "" else if confirm then ConfirmText else LoginText
  }

  /** The message the page evidently means to show: success whenever `register` reports it. */
  function SuccessIntended(reply: Reply): (t: string)
    ensures t != "" <==> (reply.Flag? && reply.ok) || (reply.Outcome? && reply.success)
  {
    match reply
    case Flag(ok) => if ok then LoginText else ""
    case Outcome(ok, confirm) => if !ok then "" else if confirm then ConfirmText else LoginText
  }

  /** `handleSubmit`, given what the call to `register` leaves behind and which
      message rule the page uses. The error shown after the call is the
      context's; a reply that sets no message leaves the text already shown. */
  function SubmitWith(s: Screen, form: RegForm, reg: Registration, message: Reply -> string): (r: Screen)
    ensures Validate(form).Some? ==> r == s.(error := ProblemText(Validate(form).value))
    ensures Validate(form).None? ==> r.calls == s.calls + 1 && r.error == reg.error && !r.submitting
    ensures Validate(form).None? && message(reg.reply) != "" ==> r.success == message(reg.reply)
    ensures Validate(form).None? && message(reg.reply) == "" ==> r.success == s.success
  {
    match Validate(form)
    case Some(p) => s.(error := ProblemText(p))
    case None =>
      var text := message(reg.reply);
      s.(calls := s.calls + 1, error := reg.error,
         success := if text != "" then text else s.success, submitting := false)
  }

  function SubmitAsWritten(s: Screen, form: RegForm, reg: Registration): Screen {
    SubmitWith(s, form, reg, SuccessAsWritten)
  }

  function Submit(s: Screen, form: RegForm, reg: Registration): Screen {
    SubmitWith(s, form, reg, SuccessIntended)
  }

  /** `register` is called only for a valid form, and afterwards the page is not submitting. */
  lemma CallOnlyWhenValid(s: Screen, form: RegForm, reg: Registration)
    requires !s.submitting
    ensures Submit(s, form, reg).calls == s.calls + (if Validate(form).None? then 1 else 0)
    ensures !Submit(s, form, reg).submitting
  {
  }

  /** After a valid form, a failed sign-up shows that failure's message and a
      successful one clears any earlier error. */
  lemma SubmitShowsContextError(s: Screen, form: RegForm, failure: Option<Failure>)
    requires Validate(form).None?
    ensures failure.Some? ==> SubmitAsWritten(s, form, ContextRegister(failure)).error == FailureText(failure.value)
    ensures failure == Some(EmailTaken) ==>
      SubmitAsWritten(s, form, ContextRegister(failure)).error == "An account with this email already exists."
    ensures failure.None? ==> SubmitAsWritten(s, form, ContextRegister(failure)).error == ""
  {
  }

  /** As written, a successful registration never shows its message, because
      the context replies with `true`: the page keeps whatever text it showed before. */
  lemma SuccessNeverShown(s: Screen, form: RegForm)
    requires Validate(form).None?
    ensures SubmitAsWritten(s, form, ContextRegister(None)).success == s.success
    ensures Submit(s, form, ContextRegister(None)).success == LoginText
  {
  }
}

=== FILE: registered_farmers.dfy ===
/** The admin list of registered farmers: status derivation, the search
    filter, pagination, the add/edit form's validation order and its
    dirty tracking. */
module RegisteredFarmers {
  import opened Wrappers
  import opened Js
  import opened Seqs

  const PageSize := 10

  // ---------------------------------------------------------------------
  // Rows

  /** A farm joined to a user: its name, area and number of clusters. */
  datatype FarmSummary = FarmSummary(farmName: Option<string>, farmArea: Option<real>, clusterCount: nat)

  /** A `users` row with role farmer and its farms. */
  datatype UserRow = UserRow(
    id: string,
    username: Option<string>,
    firstName: Option<string>,
    lastName: Option<string>,
    municipality: Option<string>,
    province: Option<string>,
    age: Option<int>,
    farms: seq<FarmSummary>)

  datatype Status = Healthy | NoClusters

  /** A listed farmer: the row with its first farm's name, cluster count and status. */
  datatype FarmerRow = FarmerRow(user: UserRow, farmName: string, clusterCount: nat, status: Status)

  /** The listing of one user: only the first farm counts. */
  function Listed(u: UserRow): (f: FarmerRow)
    ensures f.user == u
    ensures f.status == NoClusters <==> |u.farms| == 0 || u.farms[0].clusterCount == 0
    ensures f.farmName != ""
  {
    var count := if |u.farms| > 0 then u.farms[0].clusterCount else 0;
    FarmerRow(u,
      if |u.farms| > 0 && u.farms[0].farmName.Some? && u.farms[0].farmName.value != "" then u.farms[0].farmName.value else "No Farm",
      count,
      if count == 0 then NoClusters else Healthy)
  }

  /** Clusters on a second or later farm never change a farmer's status. */
  lemma StatusIgnoresLaterFarms(u: UserRow, more: seq<FarmSummary>)
    requires |u.farms| > 0
    ensures Listed(u.(farms := u.farms + more)).status == Listed(u).status
  {
    assert (u.farms + more)[0] == u.farms[0];
  }

  // ---------------------------------------------------------------------
  // Search

  /** A nullable column interpolated into a template literal. */
  function Interp(s: Option<string>): string {
    if s.Some? then s.value else "null"
  }

  /** `s?.toLowerCase().includes(q)`: a missing column never matches. */
  predicate ColumnHas(s: Option<string>, q: string) {
    s.Some? && Contains(Lower(s.value), q)
  }

  /** The search test against a lower-cased query. */
  predicate Matches(f: FarmerRow, q: string) {
    Contains(Lower(Interp(f.user.firstName) + " " + Interp(f.user.lastName)), q)
    || ColumnHas(f.user.municipality, q)
    || ColumnHas(f.user.province, q)
    || Contains(Lower(f.farmName), q)
    || ColumnHas(f.user.username, q)
  }

  /** `filteredFarmers`: everyone for an empty query, otherwise the matching farmers in order. */
  function Search(fs: seq<FarmerRow>, query: string): (r: seq<FarmerRow>)
    ensures query == "" ==> r == fs
    ensures |r| <= |fs|
  {
    if query == "" then fs else Filter(fs, (f: FarmerRow) => Matches(f, Lower(query)))
  }

  /** With a non-empty query a farmer is found exactly when one of the five columns contains it, ignoring case. */
  lemma SearchExactly(fs: seq<FarmerRow>, query: string, f: FarmerRow)
    requires query != ""
    ensures f in Search(fs, query) <==> f in fs && Matches(f, Lower(query))
  {
    var r := Search(fs, query);
    if f in r {
      var i :| 0 <= i < |r| && r[i] == f;
    }
    if f in fs && Matches(f, Lower(query)) {
      var i :| 0 <= i < |fs| && fs[i] == f;
    }
  }

  /** The search does not depend on the case of the query. */
  lemma SearchIgnoresCase(fs: seq<FarmerRow>, query: string)
    ensures Search(fs, query) == Search(fs, Lower(query))
  {
    LowerIdempotent(query);
    if query != "" {
      assert Lower(query) != "";
    } else {
      assert Lower(query) == "";
    }
  }

  // ---------------------------------------------------------------------
  // Pagination

  /** `Math.ceil(n / PAGE_SIZE)`. */
  function TotalPages(n: nat): (t: nat)
    ensures t * PageSize >= n
    ensures n > 0 ==> (t - 1) * PageSize < n
    ensures n == 0 <==> t == 0
  {
    (n + PageSize - 1) / PageSize
  }

  function Min(a: int, b: int): int {
    if a < b then a else b
  }

  /** `slice((p - 1) * 10, p * 10)`, with both ends clamped to the list. */
  function Page<T>(xs: seq<T>, p: nat): (r: seq<T>)
    requires p >= 1
    ensures |r| <= PageSize
    ensures p > TotalPages(|xs|) ==> r == []
    ensures forall i :: 0 <= i < |r| ==> (p - 1) * PageSize + i < |xs| && r[i] == xs[(p - 1) * PageSize + i]
  {
    var lo := Min((p - 1) * PageSize, |xs|);
    var hi := Min(p * PageSize, |xs|);
    xs[lo..hi]
  }

  /** Every page before the last is full. */
  lemma FullPages<T>(xs: seq<T>, p: nat)
    requires 1 <= p < TotalPages(|xs|)
    ensures |Page(xs, p)| == PageSize
  {
  }

  function Pages<T>(xs: seq<T>, k: nat): seq<seq<T>> {
    seq(k, i requires 0 <= i < k => Page(xs, i + 1))
  }

  /** The first `k` pages, read in order, are the first `10k` farmers. */
  lemma {:induction false} PagesPrefix<T>(xs: seq<T>, k: nat)
    ensures Concat(Pages(xs, k)) == xs[..Min(k * PageSize, |xs|)]
    decreases k
  {
    if k > 0 {
      PagesPrefix(xs, k - 1);
      assert Pages(xs, k)[..k - 1] == Pages(xs, k - 1);
      assert Concat(Pages(xs, k)) == Concat(Pages(xs, k - 1)) + Page(xs, k);
      var a := Min((k - 1) * PageSize, |xs|);
      var b := Min(k * PageSize, |xs|);
      assert xs[..a] + xs[a..b] == xs[..b];
    }
  }

  /** The pages partition the filtered list: read in order they give it back exactly. */
  lemma PagesPartition<T>(xs: seq<T>)
    ensures Concat(Pages(xs, TotalPages(|xs|))) == xs
  {
    PagesPrefix(xs, TotalPages(|xs|));
    assert xs[..|xs|] == xs;
  }

  /** The search box and the pager buttons. */
  datatype Pager = Pager(query: string, page: nat)

  datatype PagerEvent = Type(q: string) | Previous | Next

  /** One pager action. Typing resets to page 1; the buttons are shown only
      when there is more than one page, and a disabled button does nothing. */
  function Step(fs: seq<FarmerRow>, st: Pager, ev: PagerEvent): (r: Pager)
    requires st.page >= 1
    ensures r.page >= 1
    ensures ev.Type? ==> r == Pager(ev.q, 1)
  {
    match ev
    case Type(q) => Pager(q, 1)
    case Previous =>
      if TotalPages(|Search(fs, st.query)|) <= 1 || st.page == 1 then st else st.(page := st.page - 1)
    case Next =>
      var total := TotalPages(|Search(fs, st.query)|);
      if total <= 1 || st.page == total then st else st.(page := st.page + 1)
  }

  /** From a page within range, the buttons never leave the range. */
  lemma StepStaysInRange(fs: seq<FarmerRow>, st: Pager, ev: PagerEvent)
    requires 1 <= st.page <= TotalPages(|Search(fs, st.query)|)
    requires !ev.Type?
    ensures 1 <= Step(fs, st, ev).page <= TotalPages(|Search(fs, Step(fs, st, ev).query)|)
  {
  }

  // ---------------------------------------------------------------------
  // The add/edit form

  datatype Field = Username | Email | FirstName | LastName | MiddleInitial
                 | ContactNumber | Age | Municipality | Province | Password

  /** A form value: typed or loaded text, or a `null` column copied as it is. */
  datatype Input = Text(s: string) | NullInput

  type Form = map<Field, Input>

  /** The field's text for the falsy tests: `null` and `''` are both falsy. */
  function Value(form: Form, f: Field): string {
    if f in form && form[f].Text? then form[f].s else ""
  }

  function EmptyForm(): Form {
    map[Username := Text(""), Email := Text(""), FirstName := Text(""), LastName := Text(""), MiddleInitial := Text(""),
        ContactNumber := Text(""), Age := Text(""), Municipality := Text(""), Province := Text(""), Password := Text("")]
  }

  /** The add form has every field, each empty. */
  lemma EmptyFormFull(f: Field)
    ensures f in EmptyForm() && EmptyForm()[f] == Text("")
  {
    match f
    case Username =>
    case Email =>
    case FirstName =>
    case LastName =>
    case MiddleInitial =>
    case ContactNumber =>
    case Age =>
    case Municipality =>
    case Province =>
    case Password =>
  }

  /** A column copied as it is: `null` stays `null`. */
  function Column(s: Option<string>): (r: Input)
    ensures s.None? <==> r == NullInput
    ensures s.Some? ==> r == Text(s.value)
  {
    if s.Some? then Text(s.value) else NullInput
  }

  /** A column read with `|| ''`: `null` and `''` both become `''`. */
  function OrEmpty(s: Option<string>): (r: Input)
    ensures r.Text?
    ensures s.Some? ==> r == Text(s.value)
  {
    if s.Some? then Text(s.value) else Text("")
  }

  /** The form an edit starts from: the farmer's columns as they are, except
      the middle initial and the age (`|| ''`), and no password. */
  function EditForm(u: UserRow, email: Option<string>, middle: Option<string>, contact: Option<string>): (form: Form)
    ensures form.Keys == EmptyForm().Keys
    ensures form[Password] == Text("") && form[MiddleInitial] == OrEmpty(middle)
    ensures form[Username] == Column(u.username) && form[Email] == Column(email)
    ensures form[FirstName] == Column(u.firstName) && form[LastName] == Column(u.lastName)
    ensures form[ContactNumber] == Column(contact)
    ensures form[Municipality] == Column(u.municipality) && form[Province] == Column(u.province)
    ensures form[Age] == Text(if u.age.Some? then IntToString(u.age.value) else "")
  {
    map[Username := Column(u.username), Email := Column(email), FirstName := Column(u.firstName),
        LastName := Column(u.lastName), MiddleInitial := OrEmpty(middle), ContactNumber := Column(contact),
        Age := Text(if u.age.Some? then IntToString(u.age.value) else ""),
        Municipality := Column(u.municipality), Province := Column(u.province), Password := Text("")]
  }

  datatype SaveCheck = MissingRequired | MissingPassword | BadAge | Confirm

  function SaveMessage(c: SaveCheck): string {
    match c
    case MissingRequired => "Please fill in all required fields."
    case MissingPassword => "Password is required for new farmers."
    case BadAge => "Age must be between 18 and 120."
    case Confirm => ""
  }

  /** `handleSave`'s checks, in order. */
  function CheckSave(form: Form, editing: bool): (c: SaveCheck)
    ensures c == MissingRequired <==>
      Value(form, FirstName) == "" || Value(form, LastName) == "" || Value(form, Email) == "" || Value(form, Username) == ""
  {
    if Value(form, FirstName) == "" || Value(form, LastName) == "" || Value(form, Email) == "" || Value(form, Username) == "" then MissingRequired
    else if !editing && Value(form, Password) == "" then MissingPassword
    else if !IntTextWithin(Value(form, Age), 18, 120) then BadAge
    else Confirm
  }

  /** The save is confirmed exactly when every check passes; a password is needed only for a new farmer. */
  lemma ConfirmExactly(form: Form, editing: bool)
    ensures CheckSave(form, editing) == Confirm <==>
      Value(form, FirstName) != "" && Value(form, LastName) != "" && Value(form, Email) != "" && Value(form, Username) != ""
      && (editing || Value(form, Password) != "")
      && IntTextWithin(Value(form, Age), 18, 120)
  {
  }

  /** A missing name is reported before the password and the age are looked at. */
  lemma RequiredFirst(form: Form, editing: bool)
    requires Value(form, FirstName) == ""
    ensures CheckSave(form, editing) == MissingRequired
  {
  }

  /** An age typed as plain digits passes exactly when it is 18 to 120, both ends included. */
  lemma AgeBounds(n: nat)
    ensures IntTextWithin(NatToString(n), 18, 120) <==> 18 <= n <= 120
  {
    ParseIntOfNatToString(n);
  }

  /** The modal's state. */
  datatype Modal = Modal(
    form: Form,
    initial: Form,
    editing: bool,
    dirty: bool,
    error: string,
    open: bool,
    saveConfirm: bool,
    discardConfirm: bool)

  function OpenAdd(): (m: Modal)
    ensures m.open && !m.dirty && !m.editing && m.form == m.initial
  {
    Modal(EmptyForm(), EmptyForm(), false, false, "", true, false, false)
  }

  function OpenEdit(form: Form): (m: Modal)
    ensures m.open && !m.dirty && m.editing && m.form == m.initial
  {
    Modal(form, form, true, false, "", true, false, false)
  }

  /** `handleFormChange`: one field changes, the error clears and dirtiness is recomputed. */
  function Change(m: Modal, f: Field, v: string): (r: Modal)
    ensures f in r.form && r.form[f] == Text(v)
    ensures forall g :: g != f ==> (g in r.form <==> g in m.form) && (g in m.form ==> r.form[g] == m.form[g])
    ensures r.error == "" && r.initial == m.initial
  {
    var form := m.form[f := Text(v)];
    m.(form := form, error := "", dirty := form != m.initial)
  }

  /** After any edit the dirty flag says exactly whether the form differs from what was opened. */
  lemma DirtyExactly(m: Modal, f: Field, v: string)
    ensures Change(m, f, v).dirty <==> Change(m, f, v).form != Change(m, f, v).initial
  {
  }

  /** Typing a field back to its opening text on an otherwise unchanged form clears the flag. */
  lemma RevertIsClean(m: Modal, f: Field, v: string)
    requires m.form == m.initial && f in m.form && m.form[f].Text?
    ensures !Change(Change(m, f, v), f, m.form[f].s).dirty
  {
    assert m.form[f := Text(v)][f := Text(m.form[f].s)] == m.form;
  }

  /** A field opened as `null` cannot be typed back: once edited, even to
      `''`, the form stays dirty. */
  lemma NullFieldStaysDirty(m: Modal, f: Field, v: string)
    requires m.form == m.initial && f in m.form && m.form[f] == NullInput
    ensures Change(m, f, v).dirty
  {
    assert Change(m, f, v).form[f] != m.initial[f];
  }

  /** `handleSave`: on a failed check the message is shown, otherwise the confirm dialog opens. */
  function Save(m: Modal): (r: Modal)
    ensures r.saveConfirm && !m.saveConfirm ==> CheckSave(m.form, m.editing) == Confirm
    ensures CheckSave(m.form, m.editing) != Confirm ==> r.error == SaveMessage(CheckSave(m.form, m.editing))
  {
    var c := CheckSave(m.form, m.editing);
    if c != Confirm then m.(error := SaveMessage(c)) else m.(saveConfirm := true)
  }

  /** `handleCloseModal`: a dirty form asks before discarding, a clean one closes. */
  function Close(m: Modal): (r: Modal)
    ensures m.dirty ==> r.open == m.open && r.discardConfirm
    ensures !m.dirty ==> !r.open
  {
    if m.dirty then m.(discardConfirm := true) else m.(open := false)
  }
}

=== FILE: routes.dfy ===
/** The route guards: what the farmer-only, admin-only and guest-only
    wrappers and the root redirect do for an auth state, and the user object
    the auth provider hands them. */
module Routes {
  import opened Wrappers
  import opened Js

  /** What `useAuth()` gives a guard. */
  datatype Auth = Auth(user: Option<Obj>, loading: bool)

  datatype Outcome = Loading | RedirectTo(path: string) | Render

  function Role(u: Obj): Raw {
    Get(u, "role")
  }

  /** The guard for a role-only area: loading waits; no user or another role goes to the login page. */
  function RoleRoute(a: Auth, role: string): (o: Outcome)
    ensures o == Render <==> !a.loading && a.user.Some? && Role(a.user.value) == Str(role)
    ensures o.RedirectTo? ==> o.path == "/login"
    ensures a.loading <==> o == Loading
  {
    if a.loading then Loading
    else if a.user.None? then RedirectTo("/login")
    else if Role(a.user.value) != Str(role) then RedirectTo("/login")
    else Render
  }

  /** `FarmerRoute`. */
  function FarmerRoute(a: Auth): Outcome {
    RoleRoute(a, "farmer")
  }

  /** `AdminRoute`. */
  function AdminRoute(a: Auth): Outcome {
    RoleRoute(a, "admin")
  }

  /** No auth state opens both the farmer area and the admin area. */
  lemma NoStatePassesBoth(a: Auth)
    ensures !(FarmerRoute(a) == Render && AdminRoute(a) == Render)
  {
  }

  /** Where a logged-in user belongs. */
  function HomeOf(u: Obj): (p: string)
    ensures p == "/admin/dashboard" <==> Role(u) == Str("admin")
    ensures p != "/admin/dashboard" ==> p == "/dashboard"
  {
    if Role(u) == Str("admin") then "/admin/dashboard" else "/dashboard"
  }

  /** `GuestRoute`: a logged-in user is sent to their dashboard. */
  function GuestRoute(a: Auth): (o: Outcome)
    ensures o == Render <==> !a.loading && a.user.None?
    ensures o.RedirectTo? ==> a.user.Some? && o.path == HomeOf(a.user.value)
  {
    if a.loading then Loading
    else if a.user.Some? then RedirectTo(HomeOf(a.user.value))
    else Render
  }

  /** `HomeRedirect`: the root never renders anything of its own. */
  function HomeRedirect(a: Auth): (o: Outcome)
    ensures o != Render
    ensures !a.loading && a.user.None? ==> o == RedirectTo("/login")
    ensures !a.loading && a.user.Some? ==> o == RedirectTo(HomeOf(a.user.value))
  {
    if a.loading then Loading
    else if a.user.None? then RedirectTo("/login")
    else RedirectTo(HomeOf(a.user.value))
  }

  /** The guard that protects a path the redirects use. */
  function GuardAt(path: string, a: Auth): Outcome {
    if path == "/admin/dashboard" then AdminRoute(a)
    else if path == "/dashboard" then FarmerRoute(a)
    else GuestRoute(a)
  }

  /** Once loaded, the page a logged-in user is sent home to renders exactly
      when their role is `farmer` or `admin`. */
  lemma HomeRendersExactly(u: Obj)
    ensures GuardAt(HomeOf(u), Auth(Some(u), false)) == Render <==> Role(u) in {Str("farmer"), Str("admin")}
  {
  }

  // ---------------------------------------------------------------------
  // The user object built by the auth provider

  /** `combinedUser` as written: the profile's columns, without its `role`. */
  function CombinedUserAsWritten(profile: Option<Obj>): (u: Option<Obj>)
    ensures profile.None? <==> u.None?
    ensures u.Some? ==> "role" !in u.value
  {
    match profile
    case None => None
    case Some(p) =>
      Some(map["id" := Get(p, "id"), "username" := Get(p, "username"), "email" := Get(p, "email"),
               "firstName" := Get(p, "first_name"), "lastName" := Get(p, "last_name"),
               "middleInitial" := Get(p, "middle_initial"), "contactNumber" := Get(p, "contact_number"),
               "age" := Get(p, "age"), "municipality" := Get(p, "municipality"), "province" := Get(p, "province")])
  }

  /** As written, every logged-in user is turned away by both role guards,
      and the login page sends them on to `/dashboard`, which turns them away again. */
  lemma EveryUserBounced(profile: Obj)
    ensures var a := Auth(CombinedUserAsWritten(Some(profile)), false);
      FarmerRoute(a) == RedirectTo("/login") && AdminRoute(a) == RedirectTo("/login")
      && GuestRoute(a) == RedirectTo("/dashboard") && HomeRedirect(a) == RedirectTo("/dashboard")
  {
    var u := CombinedUserAsWritten(Some(profile)).value;
    assert Role(u) == Undefined;
  }

  /** The user object with the profile's `role` carried over, as the guards expect. */
  function CombinedUser(profile: Option<Obj>): (u: Option<Obj>)
    ensures profile.None? <==> u.None?
    ensures u.Some? ==> Role(u.value) == Role(profile.value)
  {
    match profile
    case None => None
    case Some(p) => Some(CombinedUserAsWritten(profile).value["role" := Get(p, "role")])
  }

  /** With the role carried over, a farmer's or an admin's profile reaches its own area and not the other. */
  lemma RolesReachTheirArea(profile: Obj)
    ensures var a := Auth(CombinedUser(Some(profile)), false);
      (FarmerRoute(a) == Render <==> Get(profile, "role") == Str("farmer"))
      && (AdminRoute(a) == Render <==> Get(profile, "role") == Str("admin"))
    ensures Get(profile, "role") in {Str("farmer"), Str("admin")} ==>
      var a := Auth(CombinedUser(Some(profile)), false);
      GuardAt(HomeOf(a.user.value), a) == Render
  {
    var a := Auth(CombinedUser(Some(profile)), false);
    HomeRendersExactly(a.user.value);
  }
}

=== FILE: seqs.dfy ===
/** Sums, filters and de-duplication over sequences, with the lemmas the
    aggregation modules use to relate grouped sums to plain sums. */
module Seqs {

  /** Sum of `f` over `xs`, accumulated left to right like `forEach`. */
  function Sum<T>(xs: seq<T>, f: T -> real): real
    decreases |xs|
  {
    if |xs| == 0 then 0.0 else Sum(xs[..|xs| - 1], f) + f(xs[|xs| - 1])
  }

  /** The elements of `xs` satisfying `p`, in order (`Array.prototype.filter`). */
  function Filter<T>(xs: seq<T>, p: T -> bool): (r: seq<T>)
    ensures |r| <= |xs|
    ensures forall i :: 0 <= i < |r| ==> r[i] in xs && p(r[i])
    ensures forall i :: 0 <= i < |xs| && p(xs[i]) ==> xs[i] in r
    decreases |xs|
  {
    if |xs| == 0 then []
    else Filter(xs[..|xs| - 1], p) + (if p(xs[|xs| - 1]) then [xs[|xs| - 1]] else [])
  }

  /** Number of elements satisfying `p` (`filter(p).length`). */
  function Count<T>(xs: seq<T>, p: T -> bool): nat {
    |Filter(xs, p)|
  }

  predicate Distinct<T(==)>(s: seq<T>) {
    forall i, j :: 0 <= i < j < |s| ==> s[i] != s[j]
  }

  /** Distinct elements in order of first appearance (`[...new Set(xs)]`). */
  function Dedup<T(==)>(xs: seq<T>): (r: seq<T>)
    ensures Distinct(r)
    ensures forall i :: 0 <= i < |r| ==> r[i] in xs
    ensures forall i :: 0 <= i < |xs| ==> xs[i] in r
    decreases |xs|
  {
    if |xs| == 0 then []
    else
      var d := Dedup(xs[..|xs| - 1]);
      if xs[|xs| - 1] in d then d else d + [xs[|xs| - 1]]
  }

  /** Index of the first element satisfying `p`, or `|xs|` when none does (`Array.prototype.find`). */
  function Find<T>(xs: seq<T>, p: T -> bool): (r: nat)
    ensures r <= |xs|
    ensures r < |xs| ==> p(xs[r])
    ensures forall j :: 0 <= j < r ==> !p(xs[j])
    decreases |xs|
  {
    if |xs| == 0 then 0 else if p(xs[0]) then 0 else 1 + Find(xs[1..], p)
  }

  lemma {:induction false} SumAppend<T>(a: seq<T>, b: seq<T>, f: T -> real)
    ensures Sum(a + b, f) == Sum(a, f) + Sum(b, f)
    decreases |b|
  {
    if |b| == 0 {
      assert a + b == a;
    } else {
      var b' := b[..|b| - 1];
      assert (a + b)[..|a + b| - 1] == a + b';
      SumAppend(a, b', f);
    }
  }

  lemma {:induction false} FilterAppend<T>(a: seq<T>, b: seq<T>, p: T -> bool)
    ensures Filter(a + b, p) == Filter(a, p) + Filter(b, p)
    decreases |b|
  {
    if |b| == 0 {
      assert a + b == a;
    } else {
      var b' := b[..|b| - 1];
      assert (a + b)[..|a + b| - 1] == a + b';
      FilterAppend(a, b', p);
    }
  }

  /** Sums agree when the summed functions agree on every element. */
  lemma {:induction false} SumExt<T>(xs: seq<T>, f: T -> real, g: T -> real)
    requires forall x :: x in xs ==> f(x) == g(x)
    ensures Sum(xs, f) == Sum(xs, g)
    decreases |xs|
  {
    if |xs| > 0 {
      SumExt(xs[..|xs| - 1], f, g);
    }
  }

  /** Sum is linear. */
  lemma {:induction false} SumAdd<T>(xs: seq<T>, f: T -> real, g: T -> real, h: T -> real)
    requires forall x :: x in xs ==> h(x) == f(x) + g(x)
    ensures Sum(xs, h) == Sum(xs, f) + Sum(xs, g)
    decreases |xs|
  {
    if |xs| > 0 {
      SumAdd(xs[..|xs| - 1], f, g, h);
    }
  }

  /** A sum of non-negative terms is non-negative. */
  lemma {:induction false} SumNonNeg<T>(xs: seq<T>, f: T -> real)
    requires forall x :: x in xs ==> f(x) >= 0.0
    ensures Sum(xs, f) >= 0.0
    decreases |xs|
  {
    if |xs| > 0 {
      SumNonNeg(xs[..|xs| - 1], f);
    }
  }

  /** Over distinct keys, an indicator that fires on exactly one key sums to its value. */
  lemma {:induction false} SumIndicator<K>(ks: seq<K>, k0: K, v: real, g: K -> real)
    requires Distinct(ks)
    requires forall k :: g(k) == (if k == k0 then v else 0.0)
    ensures Sum(ks, g) == (if k0 in ks then v else 0.0)
    decreases |ks|
  {
    if |ks| > 0 {
      var ks' := ks[..|ks| - 1];
      assert Distinct(ks');
      SumIndicator(ks', k0, v, g);
      if ks[|ks| - 1] == k0 {
        assert k0 !in ks';
      }
      assert k0 in ks <==> k0 in ks' || ks[|ks| - 1] == k0;
    }
  }

  /** Sum of `f` over the elements of `xs` whose key is `k`. */
  function GroupSum<T, K(==)>(xs: seq<T>, key: T -> K, f: T -> real, k: K): real {
    Sum(Filter(xs, x => key(x) == k), f)
  }

  /** Grouping by a key and summing each group, over a list of distinct keys that
      covers every element's key, gives the plain sum: nothing is lost or counted twice. */
  lemma {:induction false} SumPartition<T, K>(xs: seq<T>, key: T -> K, f: T -> real, ks: seq<K>)
    requires Distinct(ks)
    requires forall x :: x in xs ==> key(x) in ks
    ensures Sum(ks, k => GroupSum(xs, key, f, k)) == Sum(xs, f)
    decreases |xs|
  {
    if |xs| == 0 {
      assert forall k :: GroupSum(xs, key, f, k) == 0.0;
      SumZero(ks, k => GroupSum(xs, key, f, k));
    } else {
      var xs' := xs[..|xs| - 1];
      var last := xs[|xs| - 1];
      assert forall x :: x in xs' ==> x in xs;
      SumPartition(xs', key, f, ks);
      var g' := (k: K) => GroupSum(xs', key, f, k);
      var hit := (k: K) => if k == key(last) then f(last) else 0.0;
      forall k | k in ks
        ensures GroupSum(xs, key, f, k) == g'(k) + hit(k)
      {
        var p := (x: T) => key(x) == k;
        assert Filter(xs, p) == Filter(xs', p) + (if p(last) then [last] else []);
        SumAppend(Filter(xs', p), if p(last) then [last] else [], f);
        if p(last) {
          assert Sum([last], f) == Sum([last][..0], f) + f(last);
        }
      }
      SumAdd(ks, g', hit, k => GroupSum(xs, key, f, k));
      SumIndicator(ks, key(last), f(last), hit);
    }
  }

  lemma {:induction false} SumZero<T>(xs: seq<T>, f: T -> real)
    requires forall x :: x in xs ==> f(x) == 0.0
    ensures Sum(xs, f) == 0.0
    decreases |xs|
  {
    if |xs| > 0 {
      SumZero(xs[..|xs| - 1], f);
    }
  }

  /** Removing one term from a sum. */
  lemma SumRemoveAt<T>(ys: seq<T>, k: nat, f: T -> real)
    requires k < |ys|
    ensures Sum(ys, f) == Sum(ys[..k] + ys[k + 1..], f) + f(ys[k])
  {
    var a, x, b := ys[..k], ys[k], ys[k + 1..];
    assert ys == a + ([x] + b);
    SumAppend(a, [x] + b, f);
    SumAppend([x], b, f);
    SumAppend(a, b, f);
    SumSingle(x, f);
  }

  lemma SumSingle<T>(x: T, f: T -> real)
    ensures Sum([x], f) == f(x)
  {
    assert [x][..0] == [];
  }

  lemma MultisetRemoveAt<T>(ys: seq<T>, k: nat)
    requires k < |ys|
    ensures multiset(ys[..k] + ys[k + 1..]) == multiset(ys) - multiset{ys[k]}
  {
    assert ys == ys[..k] + [ys[k]] + ys[k + 1..];
  }

  /** Sums do not depend on the order of the terms. */
  lemma {:induction false} SumPerm<T>(xs: seq<T>, ys: seq<T>, f: T -> real)
    requires multiset(xs) == multiset(ys)
    ensures Sum(xs, f) == Sum(ys, f)
    decreases |xs|
  {
    if |xs| == 0 {
      assert |ys| == |multiset(ys)| == 0;
    } else {
      var xs' := xs[..|xs| - 1];
      var x := xs[|xs| - 1];
      assert x in multiset(ys);
      var k :| 0 <= k < |ys| && ys[k] == x;
      MultisetRemoveAt(xs, |xs| - 1);
      MultisetRemoveAt(ys, k);
      assert xs[..|xs| - 1] + xs[|xs|..] == xs';
      SumPerm(xs', ys[..k] + ys[k + 1..], f);
      SumRemoveAt(ys, k, f);
    }
  }

  /** Summing `f` over an element-wise image of `xs` is summing `f` after the map. */
  lemma {:induction false} SumMapped<A, B>(xs: seq<A>, ys: seq<B>, m: A -> B, f: B -> real, g: A -> real)
    requires |ys| == |xs|
    requires forall i :: 0 <= i < |xs| ==> ys[i] == m(xs[i])
    requires forall x :: g(x) == f(m(x))
    ensures Sum(ys, f) == Sum(xs, g)
    decreases |xs|
  {
    if |xs| > 0 {
      SumMapped(xs[..|xs| - 1], ys[..|ys| - 1], m, f, g);
    }
  }

  /** Concatenation of a list of lists, in order (`flatMap` / nested `forEach`). */
  function Concat<T>(xss: seq<seq<T>>): (r: seq<T>)
    ensures forall i, j :: 0 <= i < |xss| && 0 <= j < |xss[i]| ==> xss[i][j] in r
    decreases |xss|
  {
    if |xss| == 0 then [] else Concat(xss[..|xss| - 1]) + xss[|xss| - 1]
  }

  /** Every element of a concatenation comes from one of the lists. */
  lemma {:induction false} ConcatMember<T>(xss: seq<seq<T>>, x: T)
    requires x in Concat(xss)
    ensures exists i :: 0 <= i < |xss| && x in xss[i]
    decreases |xss|
  {
    var n := |xss|;
    if x in Concat(xss[..n - 1]) {
      ConcatMember(xss[..n - 1], x);
      var i :| 0 <= i < n - 1 && x in xss[..n - 1][i];
      assert x in xss[i];
    } else {
      assert x in xss[n - 1];
    }
  }

  /** The sum over a concatenation is the sum of the per-list sums. */
  lemma {:induction false} SumConcat<T>(xss: seq<seq<T>>, f: T -> real, g: seq<T> -> real)
    requires forall xs :: g(xs) == Sum(xs, f)
    ensures Sum(Concat(xss), f) == Sum(xss, g)
    decreases |xss|
  {
    if |xss| > 0 {
      SumConcat(xss[..|xss| - 1], f, g);
      SumAppend(Concat(xss[..|xss| - 1]), xss[|xss| - 1], f);
    }
  }

  /** Filtering depends only on the values of the predicate. */
  lemma {:induction false} FilterExt<T>(xs: seq<T>, p: T -> bool, q: T -> bool)
    requires forall x :: x in xs ==> p(x) == q(x)
    ensures Filter(xs, p) == Filter(xs, q)
    decreases |xs|
  {
    if |xs| > 0 {
      FilterExt(xs[..|xs| - 1], p, q);
    }
  }

  /** Filtering keeps multiplicities: an element occurs as often as it occurs in `xs` when kept, never otherwise. */
  lemma {:induction false} FilterMultiset<T>(xs: seq<T>, p: T -> bool, x: T)
    ensures multiset(Filter(xs, p))[x] == if p(x) then multiset(xs)[x] else 0
    decreases |xs|
  {
    if |xs| > 0 {
      FilterMultiset(xs[..|xs| - 1], p, x);
      assert xs == xs[..|xs| - 1] + [xs[|xs| - 1]];
    }
  }

  /** A filter every element passes keeps the list as it is. */
  lemma {:induction false} FilterAll<T>(xs: seq<T>, p: T -> bool)
    requires forall i :: 0 <= i < |xs| ==> p(xs[i])
    ensures Filter(xs, p) == xs
    decreases |xs|
  {
    if |xs| > 0 {
      FilterAll(xs[..|xs| - 1], p);
      assert xs == xs[..|xs| - 1] + [xs[|xs| - 1]];
    }
  }

  /** An element is kept by a filter exactly when it is in the list and passes. */
  lemma FilterIn<T>(xs: seq<T>, p: T -> bool, x: T)
    ensures x in Filter(xs, p) <==> x in xs && p(x)
  {
    if x in xs && p(x) {
      var i :| 0 <= i < |xs| && xs[i] == x;
    }
  }

  /** Adding one element to the end adds its term to the group it belongs to. */
  lemma GroupSumLast<T, K>(xs: seq<T>, key: T -> K, f: T -> real, k: K)
    requires |xs| > 0
    ensures GroupSum(xs, key, f, k)
         == GroupSum(xs[..|xs| - 1], key, f, k) + (if key(xs[|xs| - 1]) == k then f(xs[|xs| - 1]) else 0.0)
  {
    var last := xs[|xs| - 1];
    var p := (x: T) => key(x) == k;
    var pre := Filter(xs[..|xs| - 1], p);
    if p(last) {
      assert (pre + [last])[..|pre|] == pre;
    } else {
      assert pre + [] == pre;
    }
  }

  /** A distinct list is its own de-duplication. */
  lemma {:induction false} DedupDistinct<T>(xs: seq<T>)
    requires Distinct(xs)
    ensures Dedup(xs) == xs
    decreases |xs|
  {
    if |xs| > 0 {
      var xs' := xs[..|xs| - 1];
      assert Distinct(xs');
      DedupDistinct(xs');
      assert xs[|xs| - 1] !in xs';
      assert xs == xs' + [xs[|xs| - 1]];
    }
  }

  /** Appending elements that are already present does not change a distinct list's de-duplication. */
  lemma {:induction false} DedupAppendCovered<T>(xs: seq<T>, ys: seq<T>)
    requires Distinct(xs)
    requires forall i :: 0 <= i < |ys| ==> ys[i] in xs
    ensures Dedup(xs + ys) == xs
    decreases |ys|
  {
    if |ys| == 0 {
      assert xs + ys == xs;
      DedupDistinct(xs);
    } else {
      var ys' := ys[..|ys| - 1];
      assert (xs + ys)[..|xs + ys| - 1] == xs + ys';
      DedupAppendCovered(xs, ys');
    }
  }

  /** Number of elements of `xs` whose key is `k`. */
  function GroupCount<T, K(==)>(xs: seq<T>, key: T -> K, k: K): nat {
    |Filter(xs, x => key(x) == k)|
  }

  /** Adding one element to the end adds one to the count of its group. */
  lemma GroupCountLast<T, K>(xs: seq<T>, key: T -> K, k: K)
    requires |xs| > 0
    ensures GroupCount(xs, key, k)
         == GroupCount(xs[..|xs| - 1], key, k) + (if key(xs[|xs| - 1]) == k then 1 else 0)
  {
  }

  /** A group sum is the sum over any filter that selects the same elements. */
  lemma GroupSumByFilter<T, K>(xs: seq<T>, key: T -> K, f: T -> real, k: K, p: T -> bool)
    requires forall x :: x in xs ==> p(x) == (key(x) == k)
    ensures GroupSum(xs, key, f, k) == Sum(Filter(xs, p), f)
  {
    FilterExt(xs, p, x => key(x) == k);
  }

  /** Filtering keeps relative order: a list non-decreasing under `rank` stays so. */
  lemma {:induction false} FilterKeepsOrder<T>(xs: seq<T>, p: T -> bool, rank: T -> int)
    requires forall i, j :: 0 <= i < j < |xs| ==> rank(xs[i]) <= rank(xs[j])
    ensures forall i, j :: 0 <= i < j < |Filter(xs, p)| ==> rank(Filter(xs, p)[i]) <= rank(Filter(xs, p)[j])
    decreases |xs|
  {
    if |xs| > 0 {
      var init := xs[..|xs| - 1];
      var last := xs[|xs| - 1];
      FilterKeepsOrder(init, p, rank);
      var fi := Filter(init, p);
      assert Filter(xs, p) == fi + (if p(last) then [last] else []);
      forall i | 0 <= i < |fi| ensures rank(fi[i]) <= rank(last) {
        var k :| 0 <= k < |init| && init[k] == fi[i];
        assert xs[k] == init[k];
      }
    }
  }
}

=== FILE: session_store.dfy ===
/** The two local-storage session records: the backup of the auth session
    (kept for seven days) and the user-and-profile record (kept for a day).
    The store is a map from keys to stored values; the clock is a parameter. */
module SessionStore {
  import opened Wrappers
  import opened Js

  const SessionKey := "ikape-session-backup"
  const UserSessionKey := "ikape-user-session"

  const Day := 24 * 60 * 60 * 1000
  /** `SESSION_MAX_AGE`, in milliseconds. */
  const SessionMaxAge := Day
  /** The backup's lifetime, written inline in `loadSession`. */
  const BackupMaxAge := 7 * Day

  /** The fields `saveSession` keeps from an auth session. */
  datatype Backup = Backup(accessToken: Raw, refreshToken: Raw, expiresAt: Raw, user: Raw, timestamp: int)

  /** What a key holds. JSON text is modelled by the record it encodes;
      `Foreign` is text none of these helpers wrote, which `JSON.parse` rejects. */
  datatype Stored =
    | BackupData(b: Backup)
    | UserData(user: Raw, profile: Raw, timestamp: int)
    | Foreign(text: string)

  type Store = map<string, Stored>

  // ---------------------------------------------------------------------
  // Auth-session backup

  /** `saveSession`: writes only when the session has a token and a user. */
  function SaveSession(st: Store, session: Obj, now: int): (r: (Store, bool))
    ensures r.1 <==> Truthy(Get(session, "access_token")) && Truthy(Get(session, "user"))
    ensures !r.1 ==> r.0 == st
    ensures r.1 ==> SessionKey in r.0 && r.0[SessionKey].BackupData? && r.0[SessionKey].b.timestamp == now
    ensures forall k :: k != SessionKey ==> (k in r.0 <==> k in st) && (k in st ==> r.0[k] == st[k])
  {
    if Truthy(Get(session, "access_token")) && Truthy(Get(session, "user")) then
      var b := Backup(Get(session, "access_token"), Get(session, "refresh_token"), Get(session, "expires_at"), Get(session, "user"), now);
      (st[SessionKey := BackupData(b)], true)
    else (st, false)
  }

  /** `clearSession`. */
  function ClearSession(st: Store): (r: Store)
    ensures SessionKey !in r
    ensures forall k :: k != SessionKey ==> (k in r <==> k in st) && (k in st ==> r[k] == st[k])
  {
    st - {SessionKey}
  }

  /** The `timestamp` of a parsed record; text that does not parse has none. */
  function Timestamp(v: Stored): Option<int> {
    match v
    case BackupData(b) => Some(b.timestamp)
    case UserData(_, _, t) => Some(t)
    case Foreign(_) => None
  }

  /** `loadSession`: the parsed record while it is younger than seven days;
      an older one is removed. Text that does not parse gives nothing and stays. */
  function LoadSession(st: Store, now: int): (r: (Store, Option<Stored>))
    ensures r.1.Some? ==> SessionKey in st && r.1.value == st[SessionKey] && r.0 == st
    ensures r.1.Some? ==> Timestamp(r.1.value).Some? && now - Timestamp(r.1.value).value < BackupMaxAge
    ensures r.1.None? ==> r.0 == st || r.0 == ClearSession(st)
    ensures r.0 != st ==> SessionKey in st && Timestamp(st[SessionKey]).Some? && now - Timestamp(st[SessionKey]).value >= BackupMaxAge
  {
    if SessionKey !in st then (st, None)
    else match Timestamp(st[SessionKey])
      case None => (st, None)
      case Some(t) => if now - t < BackupMaxAge then (st, Some(st[SessionKey])) else (ClearSession(st), None)
  }

  /** A saved backup reads back unchanged for just under seven days; at exactly
      seven days it has expired and is removed. */
  lemma BackupLifetime(st: Store, session: Obj, saved: int, now: int)
    requires SaveSession(st, session, saved).1
    ensures var st1 := SaveSession(st, session, saved).0;
      (now - saved < BackupMaxAge ==> LoadSession(st1, now) == (st1, Some(st1[SessionKey])))
      && (now - saved >= BackupMaxAge ==> LoadSession(st1, now).1 == None && SessionKey !in LoadSession(st1, now).0)
    ensures var st1 := SaveSession(st, session, saved).0;
      st1[SessionKey].b.accessToken == Get(session, "access_token") && st1[SessionKey].b.user == Get(session, "user")
  {
  }

  // ---------------------------------------------------------------------
  // User and profile record

  /** `saveUserSession`: writes only when both the user and the profile are given. */
  function SaveUserSession(st: Store, user: Raw, profile: Raw, now: int): (r: (Store, bool))
    ensures r.1 <==> Truthy(user) && Truthy(profile)
    ensures !r.1 ==> r.0 == st
    ensures r.1 ==> r.0 == st[UserSessionKey := UserData(user, profile, now)]
  {
    if !Truthy(user) || !Truthy(profile) then (st, false)
    else (st[UserSessionKey := UserData(user, profile, now)], true)
  }

  /** `clearUserSession`. */
  function ClearUserSession(st: Store): (r: Store)
    ensures UserSessionKey !in r
    ensures forall k :: k != UserSessionKey ==> (k in r <==> k in st) && (k in st ==> r[k] == st[k])
  {
    st - {UserSessionKey}
  }

  /** `loadUserSession`: the user and profile unless the record is more than a
      day old, in which case it is removed. */
  function LoadUserSession(st: Store, now: int): (r: (Store, Option<(Raw, Raw)>))
    ensures r.1.Some? ==> r.0 == st && UserSessionKey in st
    ensures r.1.Some? ==> Timestamp(st[UserSessionKey]).Some? && now - Timestamp(st[UserSessionKey]).value <= SessionMaxAge
    ensures r.1.None? ==> r.0 == st || r.0 == ClearUserSession(st)
    ensures r.0 != st ==> UserSessionKey in st && Timestamp(st[UserSessionKey]).Some? && now - Timestamp(st[UserSessionKey]).value > SessionMaxAge
  {
    if UserSessionKey !in st then (st, None)
    else match st[UserSessionKey]
      case UserData(u, p, t) =>
        if now - t > SessionMaxAge then (ClearUserSession(st), None) else (st, Some((u, p)))
      case BackupData(b) =>
        // A backup under the user key parses too; it has no profile field.
        if now - b.timestamp > SessionMaxAge then (ClearUserSession(st), None) else (st, Some((b.user, Undefined)))
      case Foreign(_) => (st, None)
  }

  /** A saved user record reads back for a full day, the boundary included,
      and is removed once it is older. */
  lemma UserSessionLifetime(st: Store, user: Raw, profile: Raw, saved: int, now: int)
    requires Truthy(user) && Truthy(profile)
    ensures var st1 := SaveUserSession(st, user, profile, saved).0;
      (now - saved <= SessionMaxAge ==> LoadUserSession(st1, now) == (st1, Some((user, profile))))
      && (now - saved > SessionMaxAge ==> LoadUserSession(st1, now) == (ClearUserSession(st1), None))
  {
  }

  /** The two lifetimes treat their boundary differently: a backup exactly
      seven days old is gone, a user record exactly one day old is kept. */
  lemma BoundariesDiffer(st: Store, session: Obj, user: Raw, profile: Raw, t: int)
    requires SaveSession(st, session, t).1 && Truthy(user) && Truthy(profile)
    ensures LoadSession(SaveSession(st, session, t).0, t + BackupMaxAge).1 == None
    ensures LoadUserSession(SaveUserSession(st, user, profile, t).0, t + SessionMaxAge).1 == Some((user, profile))
  {
  }

  /** `hasStoredSession`: the user key is present, whatever it holds. */
  predicate HasStoredSession(st: Store) {
    UserSessionKey in st
  }

  /** Clearing either record leaves the other one, and the presence check, alone. */
  lemma ClearsAreIndependent(st: Store)
    ensures HasStoredSession(ClearSession(st)) == HasStoredSession(st)
    ensures !HasStoredSession(ClearUserSession(st))
    ensures SessionKey in st ==> SessionKey in ClearUserSession(st) && ClearUserSession(st)[SessionKey] == st[SessionKey]
    ensures UserSessionKey in st ==> UserSessionKey in ClearSession(st) && ClearSession(st)[UserSessionKey] == st[UserSessionKey]
  {
  }

  /** A rejected save writes nothing, so a present record survives it. */
  lemma FailedSaveKeepsRecord(st: Store, profile: Raw, now: int)
    ensures SaveUserSession(st, Null, profile, now) == (st, false)
    ensures HasStoredSession(SaveUserSession(st, Null, profile, now).0) == HasStoredSession(st)
  {
  }
}

=== FILE: wrappers.dfy ===
/** Absent-or-present values: the model's stand-in for `null`, `undefined`
    and "no row" in the source. */
module Wrappers {

  datatype Option<+T> = None | Some(value: T) {

    /** The value, or `default` when absent. */
    function GetOr(default: T): T {
      match this
      case Some(v) => v
      case None => default
    }
  }
}
